=== FILE: README.md ===
# ConCat NFC badges, modelled in Dafny

ConCat stores a signed attendee badge on an NXP NTAG213, NTAG215 or NTAG216 tag. The badge is a
list of type-length-value records written from page 0x10 on:

- id 1: user and convention id;
- id 2: the ECDSA signature;
- id 3: the issuance count;
- id 4: the issuance timestamp;
- id 5: the expiration.

Three programs share this byte format.

- **Registration proxy.** It writes badges and runs in two forms:
  - a Go program over PC/SC with an ACR122U reader;
  - an Android app over a USB reader.
- **ESP32 firmware.** It writes and reads badges through a PN532 over its serial (HSU) link.
- **Android validator.** It reads a badge, unlocks the tag with the password the server keeps
  for its UID, and checks the signature over a canonical JSON payload. An original and a
  current version of it exist.

The project models that common core as pure functions over immutable data and proves what each
piece promises.

- **The tag area.**
  - Modules: `PageMemory`, `TagStream`, `ByteReaders`, `KotlinTagIo`, `GoTagIo`, `CppTagIo`,
    `RoundTrip`.
  - Memory is a map from page number to four bytes. Each reader is an explicit state record
    (page cache, byte cursor, page buffer) threaded through a generic byte reader.
  - Both writers are modelled, each with its page loop.
  - The round-trip theorems connect every writer to every reader. They state their hypothesis
    outright: the card must end the stream with a zero byte.
  - The readers reach the card through a transport that is only asked to agree with the pages
    the card has. The NTAG READ itself meets that on every card: it answers sixteen bytes and
    rolls over past the last page, and the theorems are restated through it. The implementations differ in
    three ways, each captured exactly:
    - Go refuses zero-length records;
    - Kotlin crashes on length bytes of 0x80 and above;
    - the ESP32 cursor is 8 bits wide.
- **The typed fields and the card records.**
  - Modules: `Bytes`, `Tags`, `Decimal`, `GoCard`, `CppCard`, `KotlinCardJson`, `JsonText`.
  - Big-endian integers and lower-case hex are modelled with their inverses, along with each
    implementation's getters, constructors and record projections.
  - The JSON texts are built by hand, trailing comma included.
- **The validator.**
  - Modules: `SignedPayload`, `Validator`.
  - It builds the sorted payload with the signature left out, in both variants.
  - The decision chain of `onTagDiscovered` runs from the password lookup to the verdict.
- **The card commands.**
  - Modules: `GoCommands`, `KtProxyCommands`, `Ntag`.
  - It covers the status-word checks of ISO/IEC 7816-4 section 5.1.3 and the ACR122U
    InCommunicateThru pseudo-APDU (application note 157830, section 8.4.9).
  - It covers GET_VERSION identification (section 10.1 of the NTAG213/215/216 data sheet),
    PWD_AUTH (section 10.7) and the AUTH0/PROT configuration edits (section 8.5.7).
  - The LED command and password setting are included.
- **The ESP32 PN532 driver.**
  - Modules: `Pn532Frames`, `Pn532`, `EspOperations`.
  - The PN532 normal information frame follows section 6.2.1.1 of the PN532 User Manual
    UM0701-02, with its LEN/LCS and DCS checksums. The ACK and NACK frames follow section
    6.2.1.3.
  - It also covers `pn532_read` validation, command sequencing and the baud-rate handshake.
  - It covers the driver's response parsing, page-range guards and password edits, and the
    guarded `write_on_card` and `read_tag_data`.

Every reader, PC/SC connection, PN532 and HTTP server is a parameter. Each is a function that
answers a command given the commands sent before it, so no I/O is modelled. Base64 is a codec
parameter whose decoding undoes its encoding. ECDSA verification is an uninterpreted predicate.

## Model

| member | source | states |
|---|---|---|
| Bytes.U32ToBe | ConcatNFCRegProxy/esp32/main/ConCatTag.cpp:10-17 | four bytes whose big-endian value is the number, most significant byte first |
| Bytes.U64ToBe | ConcatNFCRegProxy/esp32/main/ConCatTag.cpp:20-26 | eight bytes whose big-endian value is the number |
| Bytes.BeBytesOfValue | ConcatNFCRegProxy/esp32/main/ConCatTag.cpp:10-26 | writing back the big-endian value of a byte string at its own width gives the same bytes |
| Bytes.BeValueInjective | ConcatNFCRegProxy/esp32/main/ConCatTag.cpp:10-26 | two byte strings of one width with the same big-endian value are equal |
| Bytes.ToUIntBe | ConcatNFCValidator/android/app/src/main/java/app/concat/nfcvalidator/NFC.kt:54-61 | the shift-and-or loop yields the big-endian value of the first four bytes, and laying that value out again gives those bytes |
| Bytes.ToULongBe | ConcatNFCValidator/android/app/src/main/java/app/concat/nfcvalidator/NFC.kt:36-43 | the same for the first eight bytes |
| Bytes.UnHexHex | ConcatNFCValidator/android/app/src/main/java/app/concat/nfcvalidator/MainActivity.kt:368 | the two-digits-per-byte UID text decodes back to the UID |
| Bytes.HexInjective | ConcatNFCValidator/android/app/src/main/java/app/concat/nfcvalidator/MainActivity.kt:368 | distinct UIDs give distinct identifier texts |
| Tags.GetTag | ConcatNFCValidator/android/app/src/main/java/app/concat/nfcvalidator/NFC.kt:120-127 | the first record carrying the id; nothing exactly when no record carries it |
| Tags.LastTagSpec | ConcatNFCRegProxy/esp32/main/ConCatTag.cpp:94-125 | the record a projection keeps is one with the id and no later record of that id; nothing exactly when the id is absent |
| Tags.NewAttendeeId | ConcatNFCRegProxy/go/internal/tags/tags.go:112-120 | id 1, eight bytes: the user id then the convention id, each big-endian |
| Tags.NewIssuance | ConcatNFCRegProxy/go/internal/tags/tags.go:122-129 | id 3, four bytes, big-endian value the count |
| Tags.NewTimestamp | ConcatNFCRegProxy/go/internal/tags/tags.go:131-138 | id 4, eight bytes, big-endian value the time |
| Tags.NewExpiration | ConcatNFCRegProxy/go/internal/tags/tags.go:140-147 | id 5, eight bytes, big-endian value the time |
| Tags.NewSignature | ConcatNFCRegProxy/go/internal/tags/tags.go:149-154 | id 2 with the signature bytes unchanged |
| Tags.CardTags | ConcatNFCRegProxy/go/cmd/main.go:209-227 | a fresh badge is attendee, issuance, timestamp, expiration only when set, and the signature last |
| Tags.CardTagsLast | ConcatNFCRegProxy/esp32/main/ConCatTag.cpp:170-190 | on a fresh badge each field's last record is the one the issuer added, and there is no expiration record when it is 0 |
| Tags.KtTagValueULong | ConcatNFCValidator/android/app/src/main/java/app/concat/nfcvalidator/NFC.kt:64-81 | four or eight bytes give their big-endian value; any other length fails with its message |
| Tags.KtTagValueDualUInt | ConcatNFCValidator/android/app/src/main/java/app/concat/nfcvalidator/NFC.kt:83-107 | exactly eight bytes give two big-endian halves whose layout is the data; otherwise the error message |
| Tags.KtGetULong | ConcatNFCValidator/android/app/src/main/java/app/concat/nfcvalidator/NFC.kt:149-177 | "Tag not found" when no record has the id; success exactly when the first such record has four or eight bytes, with its value |
| Tags.KtGetAttendeeAndConvention | ConcatNFCValidator/android/app/src/main/java/app/concat/nfcvalidator/NFC.kt:129-137 | success exactly when the first attendee record has eight bytes, and then the two numbers are its big-endian halves; "Tag not found" without a record, the length error with a record of another length |
| Tags.KtGetSignature | ConcatNFCValidator/android/app/src/main/java/app/concat/nfcvalidator/NFC.kt:139-147 | fails with "Tag not found" exactly when there is no signature record; otherwise the bytes of the first one |
| Tags.KtDecodersInvertConstructors | ConcatNFCValidator/android/app/src/main/java/app/concat/nfcvalidator/NFC.kt:64-107 | the Kotlin getters read back what the Go constructors lay out |
| Tags.CppTagValueULongAsWritten | ConcatNFCRegProxy/esp32/main/ConCatTag.cpp:253-269 | eight bytes read big-endian; four bytes equal the value only modulo 2^32; other lengths 0 |
| Tags.CppTagValueULongSignExtends | ConcatNFCRegProxy/esp32/main/ConCatTag.cpp:256 | the four-byte value 0x80000000 reads as 0xFFFFFFFF80000000 |
| Tags.CppTagValueULong | ConcatNFCRegProxy/esp32/main/ConCatTag.cpp:253-269 | the corrected getter: four or eight bytes are exactly the big-endian bytes of the result, any other length gives 0 |
| Tags.CppULongAgreesWithKotlin | ConcatNFCRegProxy/esp32/main/ConCatTag.cpp:253-269 | the corrected C++ getter agrees with the Kotlin getter wherever that succeeds and gives 0 where it fails |
| Tags.CppTagValueDualUInt | ConcatNFCRegProxy/esp32/main/ConCatTag.cpp:271-283 | eight bytes give the same halves as the Kotlin getter; other lengths (0, 0) |
| Tags.CppDecodersInvertConstructors | ConcatNFCRegProxy/esp32/main/ConCatTag.cpp:192-283 | the C++ getters read back what the C++ constructors lay out, eight-byte values even as written |
| ByteReaders.ReadN | ConcatNFCRegProxy/esp32/main/ConCatTag.cpp:379-389 | `readBytes`: n bytes read one at a time; the first failing byte read fails the whole read with that byte's error |
| ByteReaders.ReadNSplit | ConcatNFCRegProxy/go/internal/nfc/nfc.go:735-745 | a stream a byte reader yields can be read as any prefix followed by the rest, so record-by-record reading sees the same bytes as one long read |
| TagStream.EncodeTag | ConcatNFCRegProxy/go/internal/nfc/nfc.go:765-782 | a record is its id, its payload length taken modulo 256 (the `byte(...)` conversion), then the payload |
| TagStream.EncodeAppend | ConcatNFCRegProxy/esp32/main/ConCatTag.cpp:444-459 | the serialised records are laid out one after another, so the stream of a concatenation is the concatenation of the streams |
| TagStream.Decode | ConcatNFCRegProxy/go/internal/nfc/nfc.go:809-848 | the reference reader: records up to a zero id byte; every record it returns has a nonzero id |
| TagStream.DecodeEncode | ConcatNFCRegProxy/go/internal/nfc/nfc.go:759-848 | records with nonzero ids and payloads of at most 255 bytes, written and followed by a zero byte, read back as exactly those records whatever follows |
| TagStream.EncodeInjective | ConcatNFCRegProxy/esp32/main/ConCatTag.cpp:440-459 | two writable record lists with the same stream are the same list |
| PageMemory.Run | ConcatNFCValidator/android/app/src/main/java/app/concat/nfcvalidator/NFC.kt:258-268 | a multi-page read returns whole pages, starting with the page asked for |
| PageMemory.RunChunk | ConcatNFCValidator/android/app/src/main/java/app/concat/nfcvalidator/NFC.kt:258-268 | chunk j of a multi-page read from page a is page a + j of the card |
| PageMemory.MemoryReader | ConcatNFCRegProxy/android/app/src/main/java/com/example/nfcproxy/NFCInterface.kt:148-150 | a transport that reads at least one page and whole pages: it fails exactly on missing pages and starts with the page asked for |
| PageMemory.MemoryReaderFaithful | ConcatNFCRegProxy/android/app/src/main/java/com/example/nfcproxy/NFCInterface.kt:148-150 | such a transport reads every page of the card faithfully: each chunk it returns is the card's page wherever the card has one |
| PageMemory.RolloverChunk | ConcatNFCValidator/android/app/src/main/java/app/concat/nfcvalidator/NFC.kt:258-268 | chunk j of a run of pages read from `addr` is page (addr + j) mod size, the NTAG READ's roll-over |
| PageMemory.ReadPagesReader | ConcatNFCValidator/android/app/src/main/java/app/concat/nfcvalidator/NFC.kt:258-268 | the sixteen-byte `readPages` transport: it answers exactly the card's pages, each time with four pages that roll over past the last one |
| PageMemory.ReadPagesReaderFaithful | ConcatNFCRegProxy/android/app/src/main/java/com/example/nfcproxy/ACSNFCInterface.kt:131-142 | the sixteen-byte READ (raw 0x30 through the ACS reader, `readPages` on the phone) is a faithful transport for every card whose pages are 0 to size - 1 |
| PageMemory.Pages | ConcatNFCRegProxy/go/internal/nfc/nfc.go:783-797 | a stream of n bytes is written as ceil(n/4) pages, so a stream whose length is a multiple of 4 gets no extra page |
| PageMemory.PagesFlatten | ConcatNFCRegProxy/go/internal/nfc/nfc.go:783-797 | laid end to end, the pages are the stream followed by the zero padding of the last page |
| PageMemory.PagesChunk | ConcatNFCRegProxy/esp32/main/ConCatTag.cpp:462-470 | every whole page is four consecutive stream bytes; a partial last page is the rest of the stream padded with zeros |
| PageMemory.PagePlan | ConcatNFCRegProxy/esp32/main/ConCatTag.cpp:441-483 | page i of the chunking is written to page 0x10 + i, with the page counter wrapping as a byte |
| PageMemory.PlanExtend | ConcatNFCRegProxy/go/internal/nfc/nfc.go:747-757 | each full accumulator extends the issued writes by the next page of the plan |
| PageMemory.PlanLast | ConcatNFCRegProxy/go/internal/nfc/nfc.go:785-797 | the zero-filled accumulator of a partial stream end is the last page of the plan |
| PageMemory.PlanAccepted | ConcatNFCRegProxy/esp32/main/ConCatTag.cpp:476-485 | a writer whose every page write of the plan succeeded reports success |
| PageMemory.PlanLastOutcome | ConcatNFCRegProxy/go/internal/nfc/nfc.go:785-801 | writing the padded last page after the whole pages completes the plan, and the outcome is that write's outcome |
| PageMemory.ApplyWrites | ConcatNFCRegProxy/esp32/main/ConCatTag.cpp:331-348 | every written page exists afterwards and no page disappears |
| PageMemory.ApplyWritesUntouched | ConcatNFCRegProxy/esp32/main/ConCatTag.cpp:331-348 | a page no write addresses keeps its presence and content |
| PageMemory.ApplyWritesLast | ConcatNFCRegProxy/esp32/main/ConCatTag.cpp:331-348 | a page holds the data of the last write addressed to it |
| PageMemory.PlanHolds | ConcatNFCRegProxy/esp32/main/ConCatTag.cpp:440-486 | after the writes of the plan (no page wrap), the tag area from page 0x10 holds the stream and its zero padding, and every other page is as it was |
| KotlinTagIo.StoreChunks | ConcatNFCValidator/android/app/src/main/java/app/concat/nfcvalidator/NFC.kt:261-264 | chunk i of a read is cached at page addr + i, other cached pages are kept, and a read whose length is not a multiple of 4 fails on its last slice |
| KotlinTagIo.StoreChunksAt | ConcatNFCValidator/android/app/src/main/java/app/concat/nfcvalidator/NFC.kt:261-264 | after caching, page addr + j of the cache is chunk j of the read |
| KotlinTagIo.KtReadPage | ConcatNFCRegProxy/android/app/src/main/java/com/example/nfcproxy/NFCInterface.kt:152-166 | a cached page is returned without reading; otherwise a failed read throws and a successful one returns the first four bytes read and keeps every cached page |
| KotlinTagIo.KtReadByte | ConcatNFCValidator/android/app/src/main/java/app/concat/nfcvalidator/NFC.kt:270-275 | byte pos mod 4 of page 0x10 + pos/4, the cursor moving on by one |
| KotlinTagIo.KtReadTagsWith | ConcatNFCValidator/android/app/src/main/java/app/concat/nfcvalidator/NFC.kt:285-297 | every record returned has a nonzero id and a payload under 128 bytes, since a length byte of 0x80 or more is negative as a Kotlin `Byte` |
| KotlinTagIo.SetCardPresent | ConcatNFCRegProxy/android/app/src/main/java/com/example/nfcproxy/NFCInterface.kt:76-82 | losing the card clears the page cache and the cursor; the version info survives |
| KotlinTagIo.StoreFaithfulConsistent | ConcatNFCValidator/android/app/src/main/java/app/concat/nfcvalidator/NFC.kt:258-268 | caching a faithful read, rolled-over chunks included, keeps every cached page the card has equal to the card's page |
| KotlinTagIo.KtReadByteFromMemory | ConcatNFCValidator/android/app/src/main/java/app/concat/nfcvalidator/NFC.kt:270-275 | through a faithful cache, `readByte` returns the card's byte at the cursor |
| KotlinTagIo.KtReadsHeld | ConcatNFCRegProxy/android/app/src/main/java/com/example/nfcproxy/NFCInterface.kt:140-146 | through a faithful cache, `readBytes` yields exactly the bytes the tag area holds |
| KotlinTagIo.KtReadRecord | ConcatNFCValidator/android/app/src/main/java/app/concat/nfcvalidator/NFC.kt:287-295 | one pass of the record loop reads one record, or throws on a payload of 128 bytes or more |
| KotlinTagIo.KtReadTagsOfStream | ConcatNFCValidator/android/app/src/main/java/app/concat/nfcvalidator/NFC.kt:285-297 | over any reader yielding a written stream and a zero byte, the loop returns exactly the records, or throws when some payload has 128 bytes or more |
| KotlinTagIo.KtReadTagsFromMemory | ConcatNFCValidator/android/app/src/main/java/app/concat/nfcvalidator/NFC.kt:285-297 | reading a card that holds written records returns them (or throws on a long payload), whichever faithful pages are cached already |
| KotlinTagIo.ProxyReadTagsFromMemory | ConcatNFCRegProxy/android/app/src/main/java/com/example/nfcproxy/NFCInterface.kt:168-181 | the proxy resets the cursor first, so it reads the records from the start of the tag area wherever the cursor stood |
| GoTagIo.GoReadByte | ConcatNFCRegProxy/go/internal/nfc/nfc.go:717-733 | a buffered byte is taken without reading; an empty buffer reads the current page, a failed read fails, and a successful one moves the page counter on as a byte |
| GoTagIo.GoReadTagsWith | ConcatNFCRegProxy/go/internal/nfc/nfc.go:809-848 | every record returned has a nonzero id and a payload of 1 to 255 bytes; errors come with the records read before them |
| GoTagIo.FirstEmpty | ConcatNFCRegProxy/go/internal/nfc/nfc.go:829-831 | the first record whose zero length byte stops the Go reader |
| GoTagIo.GoReadRecord | ConcatNFCRegProxy/go/internal/nfc/nfc.go:819-846 | one pass of the loop reads one record, or stops with the zero-length error on an empty payload |
| GoTagIo.GoReadTagsOfStream | ConcatNFCRegProxy/go/internal/nfc/nfc.go:809-848 | over a written stream and a zero byte, the loop returns the records before the first empty payload, with the zero-length error exactly when there is one |
| GoTagIo.GoReadByteFromMemory | ConcatNFCRegProxy/go/internal/nfc/nfc.go:717-733 | on a faithful card, `readByte` returns the tag area's byte at the position and stays in step with it |
| GoTagIo.GoReadsHeld | ConcatNFCRegProxy/go/internal/nfc/nfc.go:735-745 | on a faithful card, successive reads yield exactly the bytes the tag area holds |
| GoTagIo.GoReadTagsFromMemory | ConcatNFCRegProxy/go/internal/nfc/nfc.go:809-848 | `ReadTags` on a card holding written records returns them up to the first empty payload, with the zero-length error if there is one |
| GoTagIo.GoWriteStream | ConcatNFCRegProxy/go/internal/nfc/nfc.go:759-803 | the writes issued are a prefix of the page plan, every write before the last succeeded, and success means the whole plan was written |
| GoTagIo.GoWriteWholePages | ConcatNFCRegProxy/go/internal/nfc/nfc.go:765-783 | the byte loop writes each full accumulator as the next page of the plan, and leaves the bytes of a partial last page accumulated |
| GoTagIo.GoPadPage | ConcatNFCRegProxy/go/internal/nfc/nfc.go:785-797 | the zero-filling loop turns a partial accumulator into the accumulator followed by zeros up to 4 bytes |
| GoTagIo.GoWriteTags | ConcatNFCRegProxy/go/internal/nfc/nfc.go:759-803 | `WriteTags` succeeds exactly when every page of the records' stream was accepted and the transaction then closed without error; otherwise it has stopped at the first rejected page or failed at the close |
| CppTagIo.CppReadPage | ConcatNFCRegProxy/esp32/main/ConCatTag.cpp:350-364 | a cached page is returned as is; otherwise a read that fails or returns under 4 bytes fails, and a good one is cached |
| CppTagIo.CppReadByte | ConcatNFCRegProxy/esp32/main/ConCatTag.cpp:366-377 | byte pos mod 4 of page 0x10 + pos/4, the `uint8_t` cursor moving on modulo 256; a failure leaves the state untouched |
| CppTagIo.CppByteReaderFailsInPlace | ConcatNFCRegProxy/esp32/main/ConCatTag.cpp:350-377 | a failed `readPage` caches nothing and `readByte` then returns status 1 without moving the cursor, so the failed step leaves the reader where it was |
| CppTagIo.ReadNPosition | ConcatNFCRegProxy/esp32/main/ConCatTag.cpp:379-389 | after n successful byte reads the cursor has moved n places modulo 256 |
| CppTagIo.CppPrepend | ConcatNFCRegProxy/esp32/main/ConCatTag.cpp:391-416 | an error status discards every record read before it |
| CppTagIo.CppReadTagsWith | ConcatNFCRegProxy/esp32/main/ConCatTag.cpp:391-416 | an error returns status 1 and no records; every record returned has a nonzero id |
| CppTagIo.CppReadTags | ConcatNFCRegProxy/esp32/main/ConCatTag.cpp:391-416 | `readTags` over the card: an error returns status 1 and no records, and every record returned has a nonzero id |
| CppTagIo.CppReadTagsRestarts | ConcatNFCRegProxy/esp32/main/ConCatTag.cpp:391-393 | `readTags` rewinds the cursor to 0 first, so where the previous read left it does not matter |
| CppTagIo.ReadNFailsAgain | ConcatNFCRegProxy/esp32/main/ConCatTag.cpp:379-389 | when a failed read leaves the state in place (as it does for a card that answers each page read the same way every time), the position a failed `readBytes` stops at fails again |
| CppTagIo.CppReadTagsChecked | ConcatNFCRegProxy/esp32/main/ConCatTag.cpp:405-413 | a reference loop that checks the payload read too returns no records on any error |
| CppTagIo.CppUncheckedPayloadAgrees | ConcatNFCRegProxy/esp32/main/ConCatTag.cpp:405-413 | for a card that answers each page read the same way every time, the unchecked payload read gives the same outcome as the checked loop, one pass later |
| CppTagIo.CppReadByteFromMemory | ConcatNFCRegProxy/esp32/main/ConCatTag.cpp:366-377 | through a faithful cache `readByte` returns the card's byte and keeps the cache faithful |
| CppTagIo.CppReadsHeld | ConcatNFCRegProxy/esp32/main/ConCatTag.cpp:379-389 | without cursor wrap, reads through a faithful cache yield the bytes the tag area holds |
| CppTagIo.CppReadRecord | ConcatNFCRegProxy/esp32/main/ConCatTag.cpp:396-413 | one pass of the loop reads one record and the loop continues after it |
| CppTagIo.CppReadTagsOfStream | ConcatNFCRegProxy/esp32/main/ConCatTag.cpp:391-416 | over a written stream and a zero byte, the loop returns exactly the records with status 0 |
| CppTagIo.CppReadTagsFromMemory | ConcatNFCRegProxy/esp32/main/ConCatTag.cpp:391-416 | `readTags` on a card holding written records within the 256 bytes the cursor reaches returns exactly them with status 0 |
| CppTagIo.CheckIfLockedIsFirstRead | ConcatNFCRegProxy/esp32/main/ConCatTag.cpp:322-329 | `checkIfLocked` is true exactly when page 0x10, the first page of the tag area, can be read |
| CppTagIo.Reset | ConcatNFCRegProxy/esp32/main/ConCatTag.cpp:489-497 | the cache and cursor are cleared whatever the card reset reports, and the result is that report |
| CppTagIo.ResetThenRead | ConcatNFCRegProxy/esp32/main/ConCatTag.cpp:489-497 | after a reset the reader returns the records of the card in front of it, whatever an earlier card left in the cache |
| CppTagIo.CppAppendPayload | ConcatNFCRegProxy/esp32/main/ConCatTag.cpp:450-457 | payload bytes are stored while the position stays under 1000; reaching 1000 fails |
| CppTagIo.CppSerialiseFrom | ConcatNFCRegProxy/esp32/main/ConCatTag.cpp:444-459 | the buffer holds exactly the serialised records, it succeeds below 1000 bytes and fails above |
| CppTagIo.CppSerialise | ConcatNFCRegProxy/esp32/main/ConCatTag.cpp:440-459 | the buffer is the record stream; streams under 1000 bytes pass and longer ones are refused |
| CppTagIo.CppSerialiseAppend | ConcatNFCRegProxy/esp32/main/ConCatTag.cpp:444-459 | serialising two runs is serialising the second from where the first ended |
| CppTagIo.CppSerialiseAtLimit | ConcatNFCRegProxy/esp32/main/ConCatTag.cpp:446-451 | a stream of exactly 1000 bytes passes if and only if its last record has an empty payload, since the length store is unchecked |
| CppTagIo.CppWritePages | ConcatNFCRegProxy/esp32/main/ConCatTag.cpp:462-485 | the chunk loop issues a prefix of the page plan and stops at the first failed write |
| CppTagIo.CppFillChunk | ConcatNFCRegProxy/esp32/main/ConCatTag.cpp:464-469 | up to four stream bytes copied into a zeroed chunk: fewer than four only at the end of the stream |
| CppTagIo.CppWriteTags | ConcatNFCRegProxy/esp32/main/ConCatTag.cpp:440-486 | a stream the buffer check refuses writes nothing; otherwise the writes have the outcome of the page plan |
| RoundTrip.Written | ConcatNFCRegProxy/go/internal/nfc/nfc.go:759-803 | the card after the writers' page plan keeps every page it had |
| RoundTrip.WrittenHolds | ConcatNFCRegProxy/go/internal/nfc/nfc.go:759-803 | after the writes the tag area holds the stream followed by a zero byte exactly when the card terminates it: either the last page was padded, or the page after a full last page already starts with zero |
| RoundTrip.KotlinReadsWritten | ConcatNFCValidator/android/app/src/main/java/app/concat/nfcvalidator/NFC.kt:285-297 | the validator reads back the records the Go or ESP32 writer wrote on a card that terminates the stream, unless a payload has 128 bytes or more |
| RoundTrip.GoReadsWritten | ConcatNFCRegProxy/go/internal/nfc/nfc.go:809-848 | Go reads back what was written, up to the first empty payload |
| RoundTrip.WrittenPages | ConcatNFCRegProxy/go/internal/nfc/nfc.go:759-803 | writing the plan onto a card with pages 0 to size - 1 leaves exactly those pages, when the plan fits |
| RoundTrip.KotlinReadsWrittenThroughReadPages | ConcatNFCValidator/android/app/src/main/java/app/concat/nfcvalidator/NFC.kt:258-297 | through the sixteen-byte `readPages` over a card of any size, the validator reads back what was written on a terminating card, unless a payload has 128 bytes or more |
| RoundTrip.GoReadsWrittenThroughReadPages | ConcatNFCRegProxy/go/internal/nfc/nfc.go:674-733 | through the sixteen-byte READ that `readByte` cuts to one page, Go reads back what was written, up to the first empty payload |
| RoundTrip.CppReadsWritten | ConcatNFCRegProxy/esp32/main/ConCatTag.cpp:391-416 | the ESP32 reader, whatever faithful pages it has cached, reads back what was written when the stream fits its 8-bit cursor |
| RoundTrip.OneRecordPlan | ConcatNFCRegProxy/esp32/main/ConCatTag.cpp:462-483 | one 2-byte record is the single write `01 02 07 07` to page 0x10 |
| RoundTrip.StaleCardHolds | ConcatNFCRegProxy/go/internal/nfc/nfc.go:785-801 | on a card whose page 0x11 holds an earlier record, the written record is followed by the stale one and no terminator |
| RoundTrip.UnterminatedWriteCounterexample | ConcatNFCRegProxy/go/internal/nfc/nfc.go:785-801 | as written, all three readers return a record that was never written from that card |
| RoundTrip.TerminatedStream | ConcatNFCRegProxy/go/internal/nfc/nfc.go:785-801 | the stream followed by its terminating zero byte |
| RoundTrip.WriteTagsTerminated | ConcatNFCRegProxy/go/internal/nfc/nfc.go:759-803 | the corrected writer has the outcome of writing the plan of the terminated stream |
| RoundTrip.TerminatedHolds | ConcatNFCRegProxy/go/internal/nfc/nfc.go:785-801 | with the terminator written, the tag area holds the stream and a zero byte whatever the card held before |
| RoundTrip.TerminatedRoundTrip | ConcatNFCRegProxy/esp32/main/ConCatTag.cpp:391-416 | with the terminator written, the Go, Kotlin and ESP32 readers all return the records on any card |
| CppCard.StoreTag | ConcatNFCRegProxy/esp32/main/ConCatTag.cpp:97-121 | a record with an unknown id leaves the definition as it was; the numbers are read with the sign-extending getter as written |
| CppCard.LastWinsDefinition | ConcatNFCRegProxy/esp32/main/ConCatTag.cpp:94-125 | reference definition: each field from the last record that carries it, read with the getters as written; the signature is null exactly when no record carries one |
| CppCard.StoreTagLastWins | ConcatNFCRegProxy/esp32/main/ConCatTag.cpp:96-122 | storing the last record into the reference of the others gives the reference of the whole list |
| CppCard.ToStruct | ConcatNFCRegProxy/esp32/main/ConCatTag.cpp:94-125 | `toStruct` is the last-wins reference definition |
| CppCard.ToStructSignExtends | ConcatNFCRegProxy/esp32/main/ConCatTag.cpp:116-118 | a four-byte timestamp 80 00 00 00 lands in the definition as 0xFFFFFFFF80000000 |
| CppCard.IssuanceMasksSignExtension | ConcatNFCRegProxy/esp32/main/ConCatTag.cpp:113-114 | the 32-bit issuance field keeps only the low half of the sign-extended getter, which is the big-endian value either way |
| CppCard.Fields | ConcatNFCRegProxy/esp32/main/ConCatTag.cpp:134-157 | the six fields are printed exactly when nonzero, and the signature only when present and not empty |
| CppCard.Members | ConcatNFCRegProxy/esp32/main/ConCatTag.cpp:128-168 | no member is printed exactly when every field is zero and the signature is absent or empty |
| CppCard.ToJson | ConcatNFCRegProxy/esp32/main/ConCatTag.cpp:159-163 | replacing the last comma with `}` yields the JSON object of the members; a blank definition is `{}` and only it is |
| CppCard.ToTagArray | ConcatNFCRegProxy/esp32/main/ConCatTag.cpp:170-190 | four records, five with an expiration, the signature last, holding its decoded bytes; where decoding fails the model takes an empty record, while the source's length is indeterminate |
| CppCard.ToStructOfTagArray | ConcatNFCRegProxy/esp32/main/ConCatTag.cpp:94-190 | the records of a definition whose signature is valid Base64 project back to the definition |
| CppCard.ToTagArrayOfStruct | ConcatNFCRegProxy/esp32/main/ConCatTag.cpp:94-190 | the projection of a fresh card's records writes back the same records |
| CppCard.ValidateSignatureStructure | ConcatNFCRegProxy/esp32/main/ConCatTag.cpp:222-246 | a null signature is error 0; text that does not decode into the 256-byte buffer is error 1; otherwise its decoded bytes |
| GoCard.HexByteText | ConcatNFCRegProxy/go/internal/tags/tags.go:105 | `%x` of the id in the refusal message: one or two lower-case hex digits, one exactly below 16 |
| GoCard.GoFieldError | ConcatNFCRegProxy/go/internal/tags/tags.go:72-106 | every refused record has a nonempty message |
| GoCard.StoreField | ConcatNFCRegProxy/go/internal/tags/tags.go:69-107 | a record is stored exactly when its id is known and its length is the one required (8, 4, 8, 8, any for the signature), and refused with the message for it otherwise |
| GoCard.LastTagValid | ConcatNFCRegProxy/go/internal/tags/tags.go:68-108 | the last record with an id, from an accepted list, is an accepted record with that id |
| GoCard.LastWinsRequest | ConcatNFCRegProxy/go/internal/tags/tags.go:66-110 | the reference request: fields from the last record carrying them; password and UUID never come from the card |
| GoCard.StoreFieldLastWins | ConcatNFCRegProxy/go/internal/tags/tags.go:68-108 | storing the last record into the reference of the others gives the reference of the whole list |
| GoCard.TagsToRequest | ConcatNFCRegProxy/go/internal/tags/tags.go:66-110 | succeeds exactly when every record is accepted, and then with the last-wins request |
| GoCard.TagsToRequestFirstError | ConcatNFCRegProxy/go/internal/tags/tags.go:66-110 | a refusal carries the message of the first refused record, every record before it accepted |
| GoCard.WriteThenReadRequest | ConcatNFCRegProxy/go/cmd/main.go:209-227 | the records written for a request read back as that request, less password and UUID, when its signature text is canonical |
| GoCard.ValidateSignatureStructure | ConcatNFCRegProxy/go/internal/tags/tags.go:156-163 | succeeds exactly when the text decodes as Base64, with the decoded bytes |
| GoCard.UpdateTagAttendee | ConcatNFCRegProxy/go/internal/tags/tags.go:165-170 | a new attendee record holding both numbers when both are set, the error otherwise |
| GoCard.UpdateTag | ConcatNFCRegProxy/go/internal/tags/tags.go:176-204 | a record the request does not set is kept; a replacement keeps the id; only a half-set attendee or an undecodable signature fails |
| GoCard.UpdateTags | ConcatNFCRegProxy/go/internal/tags/tags.go:172-207 | succeeds exactly when every record's update does, with the same ids in the same order, each record kept or replaced by its update |
| GoCard.UpdateTagsFirstError | ConcatNFCRegProxy/go/internal/tags/tags.go:172-207 | a refusal carries the error of the first record whose update failed, every update before it having succeeded |
| GoCard.UpdateHalfAttendeeFails | ConcatNFCRegProxy/go/internal/tags/tags.go:176-181 | setting only one of attendee and convention fails whenever the card has an attendee record |
| GoCard.LastTagOfUpdate | ConcatNFCRegProxy/go/internal/tags/tags.go:172-207 | the last record with an id after the update is the update of the last one before it |
| GoCard.UpdateThenRead | ConcatNFCRegProxy/go/cmd/main.go:296 | reading back an updated card gives the requested value for every field the request set and the card had, and the old value for every other field |
| GoCard.LastUpdated | ConcatNFCRegProxy/go/internal/tags/tags.go:172-207 | the update neither adds nor removes a last record with an id, and leaves it as it was when the request does not set its field |
| GoCard.UpdatedAttendee | ConcatNFCRegProxy/go/internal/tags/tags.go:176-183 | after an update the request's attendee and convention are read back when the request set them and the card had the record |
| GoCard.UpdatedIssuance | ConcatNFCRegProxy/go/internal/tags/tags.go:184-187 | after an update the request's issuance count is read back when it was set and the card had the record |
| GoCard.LastTimestampUpdated | ConcatNFCRegProxy/go/internal/tags/tags.go:188-191 | the last timestamp record after an update is the requested one or the old one |
| GoCard.UpdatedTimestamp | ConcatNFCRegProxy/go/internal/tags/tags.go:188-191 | after an update the request's timestamp is read back when it was set and the card had the record |
| GoCard.LastExpirationUpdated | ConcatNFCRegProxy/go/internal/tags/tags.go:192-195 | the last expiration record after an update is the requested one or the old one |
| GoCard.UpdatedExpiration | ConcatNFCRegProxy/go/internal/tags/tags.go:192-195 | after an update the request's expiration is read back when it was set and the card had the record |
| GoCard.UpdatedSignature | ConcatNFCRegProxy/go/internal/tags/tags.go:196-204 | after an update the signature reads back as the requested bytes when it was set, and unchanged when it was not |
| GoCard.GoInt64 | ConcatNFCRegProxy/go/internal/tags/tags.go:47 | `int64(ts)` is the signed 64-bit value congruent to the timestamp |
| GoCard.TagToTextAsWritten | ConcatNFCRegProxy/go/internal/tags/tags.go:17-64 | as written: the same refusals as `TagsToRequest`, and the same text as the corrected one except for the attendee record |
| GoCard.TagToTextConventionLost | ConcatNFCRegProxy/go/internal/tags/tags.go:24-25 | as written, every attendee record prints the user number as its convention number |
| GoCard.TagToText | ConcatNFCRegProxy/go/internal/tags/tags.go:17-64 | refuses exactly the records `TagsToRequest` refuses, with the same message |
| GoCard.TagToTextAgreesWithRequest | ConcatNFCRegProxy/go/internal/tags/tags.go:17-110 | the text of an accepted record shows the numbers and signature text its projection into the request holds |
| KotlinCardJson.ProxyRendering | ConcatNFCRegProxy/android/app/src/main/java/com/example/nfcproxy/NFCInterface.kt:398-408 | the proxy puts the signature as its `NO_WRAP` Base64 text and the timestamp as a number |
| KotlinCardJson.KeyId | ConcatNFCValidator/android/app/src/main/java/app/concat/nfcvalidator/NFC.kt:182-206 | every key is filled from one of the five known record ids |
| KotlinCardJson.PutEntry | ConcatNFCValidator/android/app/src/main/java/app/concat/nfcvalidator/NFC.kt:185-205 | `put` adds the key when there is a value and touches no other key |
| KotlinCardJson.LastWinsJsonAt | ConcatNFCValidator/android/app/src/main/java/app/concat/nfcvalidator/NFC.kt:179-211 | the reference object holds a key exactly when some record carries its id, with the last such record's value |
| KotlinCardJson.KtPut | ConcatNFCValidator/android/app/src/main/java/app/concat/nfcvalidator/NFC.kt:182-207 | one `when` step succeeds exactly when the record has the length its getter requires, else throws that getter's message; unknown ids change nothing |
| KotlinCardJson.DualUIntHalves | ConcatNFCValidator/android/app/src/main/java/app/concat/nfcvalidator/NFC.kt:183-192 | userId and conventionId are the big-endian values of the first and second four bytes |
| KotlinCardJson.KtPutWrites | ConcatNFCValidator/android/app/src/main/java/app/concat/nfcvalidator/NFC.kt:182-207 | a step that does not throw puts the record's values under its keys |
| KotlinCardJson.KtPutKeys | ConcatNFCValidator/android/app/src/main/java/app/concat/nfcvalidator/NFC.kt:182-207 | a step writes the keys of the record's id with its values and keeps every other key as it was |
| KotlinCardJson.KtPutLastWins | ConcatNFCValidator/android/app/src/main/java/app/concat/nfcvalidator/NFC.kt:181-208 | putting the last record into the reference object of the others gives the reference object of the whole list |
| KotlinCardJson.KtPutLastWinsAt | ConcatNFCValidator/android/app/src/main/java/app/concat/nfcvalidator/NFC.kt:181-208 | the same, key by key |
| KotlinCardJson.KtToJsonWith | ConcatNFCValidator/android/app/src/main/java/app/concat/nfcvalidator/NFC.kt:179-211 | succeeds exactly when every record has the length its getter needs, and then each key holds the value of the last record carrying its id |
| KotlinCardJson.KtToJsonFirstError | ConcatNFCValidator/android/app/src/main/java/app/concat/nfcvalidator/NFC.kt:179-211 | a rejected list throws the message of its first record of a wrong length, every earlier record being well-formed |
| KotlinCardJson.ValidatorToJson | ConcatNFCValidator/android/app/src/main/java/app/concat/nfcvalidator/NFC.kt:179-211 | the validator's object is the last-wins object with the signature as bytes and the timestamp as text |
| KotlinCardJson.ProxyToJson | ConcatNFCRegProxy/android/app/src/main/java/com/example/nfcproxy/NFCInterface.kt:384-420 | the proxy's object is the last-wins object with the Base64 signature and a numeric timestamp |
| KotlinCardJson.KtJsonKeys | ConcatNFCValidator/android/app/src/main/java/app/concat/nfcvalidator/NFC.kt:179-211 | a key is in the object exactly when some record carries its id |
| KotlinCardJson.KtJsonOfCard | ConcatNFCValidator/android/app/src/main/java/app/concat/nfcvalidator/NFC.kt:179-211 | a freshly issued badge gives the numbers it was issued with, its signature, and the expiration only when set |
| KotlinCardJson.KtJsonOfCardAt | ConcatNFCValidator/android/app/src/main/java/app/concat/nfcvalidator/NFC.kt:179-211 | the same, key by key |
| JsonText.Join | ConcatNFCRegProxy/esp32/main/ConCatTag.cpp:128-168 | no members give the empty text and one member gives itself |
| JsonText.JoinObject | ConcatNFCRegProxy/esp32/main/ConCatTag.cpp:128-168 | the object text is a brace, the comma-separated members, a brace |
| JsonText.TrailingCommas | ConcatNFCValidator/android/app/src/main/java/app/concat/nfcvalidator/MainActivity.kt:288-294 | the accumulated members each end with a comma; it is empty exactly when there are no members |
| JsonText.TrailingCommasJoin | ConcatNFCValidator/android/app/src/main/java/app/concat/nfcvalidator/MainActivity.kt:288-296 | dropping the last comma of the accumulated members leaves them comma-separated |
| JsonText.TrailingCommasAppend | ConcatNFCValidator/android/app/src/main/java/app/concat/nfcvalidator/MainActivity.kt:288-294 | accumulating two runs of members is accumulating one after the other |
| JsonText.KtClose | ConcatNFCValidator/android/app/src/main/java/app/concat/nfcvalidator/MainActivity.kt:295-296 | the text keeps every character of the body but the last and ends in `}`, so its length is the body's (1 for an empty body) |
| JsonText.KtCloseObject | ConcatNFCValidator/android/app/src/main/java/app/concat/nfcvalidator/MainActivity.kt:287-296 | with members the Kotlin ending gives the object; with none it removes the opening brace and the text is a lone `}` |
| JsonText.CppClose | ConcatNFCRegProxy/esp32/main/ConCatTag.cpp:159-163 | the text is a prefix of the body followed by `}`, as long as the body when there is more than the opening brace and one longer otherwise |
| JsonText.CppCloseObject | ConcatNFCRegProxy/esp32/main/ConCatTag.cpp:131-163 | the ESP32 ending always gives the object, `{}` without members |
| JsonText.Printed | ConcatNFCRegProxy/esp32/main/ConCatTag.cpp:134-157 | no more members printed than candidates |
| JsonText.PrintedFields | ConcatNFCRegProxy/esp32/main/ConCatTag.cpp:134-157 | nothing is printed exactly when no field is set, and every member printed is one of the candidates |
| JsonText.BufferPrinted | ConcatNFCRegProxy/esp32/main/ConCatTag.cpp:131-157 | the buffer after the conditional `sprintf`s is the opening brace followed by each printed member and its comma |
| Decimal.NatToString | ConcatNFCValidator/android/app/src/main/java/app/concat/nfcvalidator/MainActivity.kt:293 | the interpolated decimal text of an unsigned number: digits only, no leading zero |
| Decimal.ParseNat | ConcatNFCValidator/android/app/src/main/java/app/concat/nfcvalidator/MainActivity.kt:386 | a value exactly for a nonempty run of digits |
| Decimal.ParseNatToString | ConcatNFCValidator/android/app/src/main/java/app/concat/nfcvalidator/MainActivity.kt:386 | decimal text reads back as the number it was printed from |
| Decimal.NatToStringInjective | ConcatNFCValidator/android/app/src/main/java/app/concat/nfcvalidator/MainActivity.kt:290-294 | different numbers print differently, so the payload text determines the numbers |
| Decimal.KtToUInt | ConcatNFCValidator/android/app/src/main/java/app/concat/nfcvalidator/MainActivity.kt:386 | `toUInt()` accepts exactly text that is an ASCII digit string, or `+` and one, whose decimal value is below 2^32, and yields that value (other Unicode digits are not modelled) |
| Decimal.KtToUIntOfString | ConcatNFCValidator/android/app/src/main/java/app/concat/nfcvalidator/MainActivity.kt:386 | every 32-bit number printed in decimal parses back to itself |
| Decimal.KtToUIntRejectsText | ConcatNFCValidator/android/app/src/main/java/app/concat/nfcvalidator/MainActivity.kt:386 | text whose first character is neither an ASCII digit nor `+` is refused by `toUInt()` in the model, which reads ASCII digits only |
| SignedPayload.LexLessTransitive | ConcatNFCValidator/android/app/src/main/java/app/concat/nfcvalidator/MainActivity.kt:287 | the key order of the sorted map is transitive |
| SignedPayload.KeyOrderStep | ConcatNFCValidator/android/app/src/main/java/app/concat/nfcvalidator/MainActivity.kt:287 | consecutive keys of the visiting order are in increasing order of their names |
| SignedPayload.KeyOrderSorted | ConcatNFCValidator/android/app/src/main/java/app/concat/nfcvalidator/MainActivity.kt:287-289 | the visiting order holds all six keys, strictly increasing by name: the order `toSortedMap` visits any subset in |
| SignedPayload.PayloadMember | ConcatNFCValidator/android/app/src/main/java/app/concat/nfcvalidator/MainActivity.kt:290-293 | the member pairs the key name with the value text, quoted exactly for the timestamp in the current validator |
| SignedPayload.Candidate | ConcatNFCValidator/android/app/src/main/java/app/concat/nfcvalidator/MainActivity.kt:289-294 | a key contributes a member exactly when the object has it and it is not the signature |
| SignedPayload.MemberOf | ConcatNFCValidator/android/app/src/main/java/app/concat/nfcvalidator/MainActivity.kt:289-294 | reference: at most one member per key, and one exactly for a present key other than the signature |
| SignedPayload.MembersEmpty | ConcatNFCValidator/android/app/src/main/java/app/concat/nfcvalidator/MainActivity.kt:288-296 | no member is printed exactly when every key is the signature or missing |
| SignedPayload.PrintedCandidates | ConcatNFCValidator/android/app/src/main/java/app/concat/nfcvalidator/MainActivity.kt:288-294 | the loop prints the reference members, in key order |
| SignedPayload.PayloadObject | ConcatNFCValidator/android/app/src/main/java/app/concat/nfcvalidator/MainActivity.kt:280-297 | the payload is the JSON object of the members in sorted key order; with none, it is a lone `}` |
| SignedPayload.PayloadWithoutFields | ConcatNFCValidator/android/app/src/main/java/app/concat/nfcvalidator/MainActivity.kt:288-297 | a card with only a signature is verified against the text `}` |
| SignedPayload.CardPayloadMembers | ConcatNFCValidator/android/app/src/main/java/app/concat/nfcvalidator/MainActivity.kt:288-297 | a freshly issued badge has four payload members, five with an expiration |
| SignedPayload.CardPayload | ConcatNFCValidator/android/app/src/main/java/app/concat/nfcvalidator/MainActivity.kt:280-297 | the payload of a freshly issued badge is the object of its members: conventionId, expiration if set, issuanceCount, timestamp, userId |
| SignedPayload.CardMembers | ConcatNFCValidator/android/app/src/main/java/app/concat/nfcvalidator/MainActivity.kt:287-294 | the members of a freshly issued badge in sorted key order |
| SignedPayload.CardMember | ConcatNFCValidator/android/app/src/main/java/app/concat/nfcvalidator/MainActivity.kt:289-294 | the member each key of a freshly issued badge contributes, the timestamp quoted by the current validator only |
| SignedPayload.MembersOfKeyOrder | ConcatNFCValidator/android/app/src/main/java/app/concat/nfcvalidator/MainActivity.kt:287-294 | the members of an object are those of conventionId, expiration, issuanceCount, timestamp and userId, in that order |
| SignedPayload.MembersCons | ConcatNFCValidator/android/app/src/main/java/app/concat/nfcvalidator/MainActivity.kt:289-294 | the members of a key list are the first key's member followed by the rest's |
| SignedPayload.PayloadIgnoresSignature | ConcatNFCValidator/android/app/src/main/java/app/concat/nfcvalidator/MainActivity.kt:291 | the signature entry never reaches the payload |
| SignedPayload.SameMemberUnlessSignature | ConcatNFCValidator/android/app/src/main/java/app/concat/nfcvalidator/MainActivity.kt:291 | removing the signature entry leaves every other key's member unchanged |
| SignedPayload.PayloadVariantsAgree | ConcatNFCValidator/android/app/src/main/java/com/example/concatnfc/MainActivity.kt:206-213 | without a timestamp, the original validator's payload is the current one's |
| Validator.CurrentPassword | ConcatNFCValidator/android/app/src/main/java/app/concat/nfcvalidator/MainActivity.kt:366-390 | Ok exactly when the reply is successful with a password `toUInt()` accepts, and then it is that number; a password that is not a number escapes as that text; an unsuccessful reply keeps its code and message; a thrown call or a missing password is error 500 with "Error: " and the reason, or the no-password message |
| Validator.OriginalPassword | ConcatNFCValidator/android/app/src/main/java/com/example/concatnfc/MainActivity.kt:262-283 | a thrown call is error -1 "Unknown error"; a successful reply without a password yields the error text as the password |
| Validator.Password | ConcatNFCValidator/android/app/src/main/java/com/example/concatnfc/MainActivity.kt:149-162 | the number the handler ends up with: Ok exactly when a successful reply carries text `toUInt()` accepts, and then it is that number; an unsuccessful reply keeps its code and message in both variants; a refused text is never a number |
| Validator.PasswordVariantsAgree | ConcatNFCValidator/android/app/src/main/java/com/example/concatnfc/MainActivity.kt:149-162 | the original handler's `toUInt()` of the returned text and the current lookup give the same password, or the same error, for any reply that is unsuccessful or carries a password |
| Validator.MissingPassword | ConcatNFCValidator/android/app/src/main/java/com/example/concatnfc/MainActivity.kt:162 | on a reply without a password the current validator refuses with 500 while the original one fails to parse the error text |
| Validator.PasswordOfText | ConcatNFCValidator/android/app/src/main/java/app/concat/nfcvalidator/MainActivity.kt:386 | a password stored as the decimal text of a 32-bit number is that number in both validators |
| Validator.PublicKey | ConcatNFCValidator/android/app/src/main/java/app/concat/nfcvalidator/MainActivity.kt:392-410 | a key exactly when the reply is successful and has a body; each failure keeps the reply's code and message |
| Validator.LookupRefusal | ConcatNFCValidator/android/app/src/main/java/app/concat/nfcvalidator/MainActivity.kt:224-236 | 404 shows the not-registered text; any other error shows its own message |
| Validator.Unlock | ConcatNFCValidator/android/app/src/main/java/app/concat/nfcvalidator/MainActivity.kt:239-256 | probe, authenticate only when the probe fails, probe again; the card is open only when the last probe is answered, and the password goes out exactly when the first probe fails |
| Validator.OpenCardKeepsPassword | ConcatNFCValidator/android/app/src/main/java/app/concat/nfcvalidator/MainActivity.kt:239-256 | a card whose record area reads without a password is probed twice and never sent the password |
| Validator.LockedCardOpens | ConcatNFCValidator/android/app/src/main/java/app/concat/nfcvalidator/MainActivity.kt:239-256 | a locked card that accepts the password is opened with exactly one authentication |
| Validator.Check | ConcatNFCValidator/android/app/src/main/java/app/concat/nfcvalidator/MainActivity.kt:258-337 | after unlocking, the scan always ends in a verdict, a refusal or an exception, never ignored |
| Validator.CheckVerdict | ConcatNFCValidator/android/app/src/main/java/app/concat/nfcvalidator/MainActivity.kt:258-337 | a verdict is the key's verification of the first signature record over the payload of the records read, each of valid length, with a P-256 key |
| Validator.OnTagDiscovered | ConcatNFCValidator/android/app/src/main/java/app/concat/nfcvalidator/MainActivity.kt:204-337 | only non-Ultralight tags are ignored; records are read only from an open card; commands reach the card only after a password was obtained, and they are probes or that password |
| Validator.NotRegistered | ConcatNFCValidator/android/app/src/main/java/app/concat/nfcvalidator/MainActivity.kt:222-230 | a 404 lookup ends the scan with the not-registered message, before any command reaches the card |
| Validator.UnparsablePassword | ConcatNFCValidator/android/app/src/main/java/app/concat/nfcvalidator/MainActivity.kt:222-236 | a password reply that `toUInt()` refuses escapes the handler's `APIError` catch as an exception, before any command reaches the card |
| Validator.CardTagsReadable | ConcatNFCRegProxy/go/cmd/main.go:209-227 | the records of a badge with a signature under 128 bytes can be written and read back by the validator, and carry that signature |
| Validator.IssuedBadgeVerdict | ConcatNFCValidator/android/app/src/main/java/app/concat/nfcvalidator/MainActivity.kt:204-337 | an open card holding a badge issued with given values yields the key's verdict on its signature over the sorted payload of exactly those values |
| Validator.IssuedBadgeVerdictThroughReadPages | ConcatNFCValidator/android/app/src/main/java/app/concat/nfcvalidator/NFC.kt:258-268 | the same verdict when the phone's transport is the sixteen-byte, rolling-over `readPages` of a card of any size |
| GoCommands.Respond | ConcatNFCRegProxy/go/internal/nfc/nfc.go:309-315 | a reply is its body followed by the two status bytes |
| GoCommands.TransmitAndValidate | ConcatNFCRegProxy/go/internal/nfc/nfc.go:292-316 | the command is sent; success exactly when the reply has two status bytes and SW1 is 0x90, with the body before them; a failing SW1 is remembered with SW2 as the last error code |
| GoCommands.TransmitReturnsBody | ConcatNFCRegProxy/go/internal/nfc/nfc.go:311-315 | any reply with SW1 0x90 yields exactly its body, whatever SW2 is |
| GoCommands.TransmitRecordsStatus | ConcatNFCRegProxy/go/internal/nfc/nfc.go:311-314 | a reply with another SW1 is an error carrying both status bytes, which become the last error code |
| GoCommands.VendorApdu | ConcatNFCRegProxy/go/internal/nfc/nfc.go:324-326 | the InCommunicateThru pseudo-APDU is a 7-byte header followed by the command |
| GoCommands.VendorPayload | ConcatNFCRegProxy/go/internal/nfc/nfc.go:318-326 | the reader's view of a pseudo-APDU: the payload after the header, when Lc matches |
| GoCommands.VendorApduRoundTrip | ConcatNFCRegProxy/go/internal/nfc/nfc.go:318-326 | the reader recovers exactly the wrapped command |
| GoCommands.TransmitVendorCommand | ConcatNFCRegProxy/go/internal/nfc/nfc.go:319-341 | a command whose Lc would exceed 0xFF is refused unsent; otherwise success means a good reply starting D5 43, which is stripped |
| GoCommands.VendorReplyRoundTrip | ConcatNFCRegProxy/go/internal/nfc/nfc.go:334-340 | a well-formed tunnel reply yields what the card answered |
| GoCommands.LedApdu | ConcatNFCRegProxy/go/internal/nfc/nfc.go:345-364 | the LED and buzzer command: fixed header, on and off times the duration in tenths of a second capped at 255, the repeat count, link 01 |
| GoCommands.LedStateDecodes | ConcatNFCRegProxy/go/internal/nfc/nfc.go:348-355 | the LED byte has the red bits exactly when red was asked for, the green bits exactly when green was, and nothing in the high nibble |
| GoCommands.WriteApdu | ConcatNFCRegProxy/go/internal/nfc/nfc.go:692-697 | UPDATE BINARY of one page: nine bytes, page number in P2, the four data bytes last |
| GoCommands.ReadPage | ConcatNFCRegProxy/go/internal/nfc/nfc.go:674-686 | one READ of the page is sent |
| GoCommands.WritePage | ConcatNFCRegProxy/go/internal/nfc/nfc.go:688-706 | anything but four bytes is refused unsent; otherwise one UPDATE BINARY is sent and succeeds as the transmission does |
| GoCommands.ReadByte | ConcatNFCRegProxy/go/internal/nfc/nfc.go:717-733 | a buffered byte costs nothing; an empty buffer sends one READ and moves the page counter on as a byte |
| GoCommands.ReadBytes | ConcatNFCRegProxy/go/internal/nfc/nfc.go:735-745 | reading sends nothing but READs, and succeeds with exactly n bytes |
| GoCommands.OnlyReadsTransitive | ConcatNFCRegProxy/go/internal/nfc/nfc.go:735-745 | successive reads together send only READs |
| GoCommands.Auth | ConcatNFCRegProxy/go/internal/nfc/nfc.go:644-672 | an unknown card is refused unsent; otherwise PWD_AUTH is tunnelled, and it succeeds exactly when the card's first answer byte is 00 |
| GoCommands.AuthAcknowledged | ConcatNFCRegProxy/go/internal/nfc/nfc.go:663-670 | a card answering 00 to PWD_AUTH authenticates |
| GoCommands.ExtendsTransitive | ConcatNFCRegProxy/go/internal/nfc/nfc.go:499-572 | commands sent are never taken back |
| GoCommands.NextSentKept | ConcatNFCRegProxy/go/internal/nfc/nfc.go:499-572 | the first command of an operation stays its first command whatever follows |
| GoCommands.WriteConfig | ConcatNFCRegProxy/go/internal/nfc/nfc.go:560-567 | CFG0 gets the first four bytes first; success means both configuration pages were written in order, or the second failed with auth required |
| GoCommands.AuthRequiredForgiven | ConcatNFCRegProxy/go/internal/nfc/nfc.go:564-567 | a card refusing the CFG1 write with 63 00 does not make the edit fail |
| GoCommands.Edit | ConcatNFCRegProxy/go/internal/nfc/nfc.go:556-559 | the configuration edit keeps the length of the bytes read |
| GoCommands.EditConfig | ConcatNFCRegProxy/go/internal/nfc/nfc.go:551-567 | the configuration tail sends only READs of the sixteen configuration bytes and then the two writes of the edited bytes |
| GoCommands.SetPassword | ConcatNFCRegProxy/go/internal/nfc/nfc.go:499-572 | an unknown card is refused unsent; otherwise the password is written big-endian to the product's PWD page first, and success means the card was authenticated with it and its configuration protected from page 0x10 |
| GoCommands.AuthThenProtect | ConcatNFCRegProxy/go/internal/nfc/nfc.go:545-567 | after the reset, a success sent PWD_AUTH with the new password first, then only READs of the configuration and the two writes of its `Protect`ed bytes |
| GoCommands.ClearPassword | ConcatNFCRegProxy/go/internal/nfc/nfc.go:574-633 | an unknown card is refused unsent; otherwise FF FF FF FF goes to the PWD page first, and success means the configuration was unprotected |
| KtProxyCommands.KtVendorApdu | ConcatNFCRegProxy/android/app/src/main/java/com/example/nfcproxy/NFCInterface.kt:119-121 | the Kotlin pseudo-APDU: the length byte is 2 + n modulo 256, unchecked |
| KtProxyCommands.KtVendorApduAgreesWithGo | ConcatNFCRegProxy/android/app/src/main/java/com/example/nfcproxy/NFCInterface.kt:119-121 | up to 253 payload bytes Kotlin sends what Go sends; from 254 on the reader cannot recover the payload |
| KtProxyCommands.TransmitVendorCommand | ConcatNFCRegProxy/android/app/src/main/java/com/example/nfcproxy/NFCInterface.kt:119-131 | success exactly when the reply has at least three bytes and starts D5 43; the rest is returned |
| KtProxyCommands.GetVersion | ConcatNFCRegProxy/android/app/src/main/java/com/example/nfcproxy/NFCInterface.kt:106-115 | cached version bytes are returned unsent; otherwise GET_VERSION is tunnelled, and the bytes after a 00 status are cached and returned |
| KtProxyCommands.VersionOutlivesCard | ConcatNFCRegProxy/android/app/src/main/java/com/example/nfcproxy/NFCInterface.kt:72-115 | `setCardPresent` clears the page cache and cursor but not `versionInfo`, so after a card change GET_VERSION is not sent and the previous card's version is returned |
| KtProxyCommands.GetVersionOfReply | ConcatNFCRegProxy/android/app/src/main/java/com/example/nfcproxy/NFCInterface.kt:106-115 | a card answering status 00 with its version has it cached and returned |
| KtProxyCommands.GetCardInfo | ConcatNFCRegProxy/android/app/src/main/java/com/example/nfcproxy/NFCInterface.kt:205-227 | card information exactly when the version is obtained and its lenient reading accepts it |
| KtProxyCommands.Auth | ConcatNFCRegProxy/android/app/src/main/java/com/example/nfcproxy/NFCInterface.kt:229-243 | success means a card with a product name whose PWD_AUTH was tunnelled; a card without a product name throws before sending |
| KtProxyCommands.MinorVersionCrashesAuth | ConcatNFCRegProxy/android/app/src/main/java/com/example/nfcproxy/NFCInterface.kt:221-231 | an NTAG with a nonzero minor version passes `getCardInfo` and then throws on the missing product name, where Go refuses the card |
| KtProxyCommands.AuthAcknowledged | ConcatNFCRegProxy/android/app/src/main/java/com/example/nfcproxy/NFCInterface.kt:236-242 | a recognised card answering 00 authenticates |
| GoCommands.GetUuid | ConcatNFCRegProxy/go/internal/nfc/nfc.go:435-446 | GET DATA is sent; a failed command fails with its own error; the text returned decodes back to exactly the body of the reply |
| GoCommands.GetUuidOfReply | ConcatNFCRegProxy/go/internal/nfc/nfc.go:435-446 | a UID the reader reports comes back as its lower-case hex text |
| Ntag.GenuineVersion | ConcatNFCRegProxy/go/internal/nfc/nfc.go:465-497 | the GET_VERSION reply of a genuine product has eight bytes |
| Ntag.ProductOfStorageSize | ConcatNFCRegProxy/go/internal/nfc/nfc.go:448-463 | the storage size codes 0x0F, 0x11 and 0x13 name NTAG213, 215 and 216, and no other code names a product |
| Ntag.GoCardInfo | ConcatNFCRegProxy/go/internal/nfc/nfc.go:465-497 | a product exactly when the reply has eight bytes or more and bytes 1 to 6 are those of that product's genuine reply |
| Ntag.VersionWindow | ConcatNFCRegProxy/go/internal/nfc/nfc.go:470-486 | matching a genuine reply's bytes 1 to 6 is the byte-by-byte check: NXP, NTAG, 02, 01, minor 00, the storage size |
| Ntag.KtGetCardInfo | ConcatNFCRegProxy/android/app/src/main/java/com/example/nfcproxy/NFCInterface.kt:205-227 | refused exactly for a bad header or a minor-00 reply with an unknown size; a nonzero minor version is accepted with no product |
| Ntag.KtAgreesWithGo | ConcatNFCRegProxy/android/app/src/main/java/com/example/nfcproxy/NFCInterface.kt:205-227 | Kotlin recognises the same product whenever Go does; the only card Kotlin accepts that Go refuses has a nonzero minor version and no product |
| Ntag.GenuineVersionIdentifies | ConcatNFCRegProxy/go/internal/nfc/nfc.go:448-497 | a genuine reply identifies its product in the Go and the Kotlin reader |
| Ntag.ModelOfCc | ConcatNFCRegProxy/esp32/components/pn532/src/PN532.cpp:384-411 | the capability container sizes 0x12, 0x3E and 0x6D name NTAG213, 215 and 216; anything else is unknown |
| Ntag.PwdAuth | ConcatNFCRegProxy/go/internal/nfc/nfc.go:654-655 | PWD_AUTH is 0x1B followed by four bytes whose big-endian value is the password |
| Ntag.PwdAuthInjective | ConcatNFCRegProxy/esp32/components/pn532/src/PN532.cpp:486-490 | different passwords give different PWD_AUTH commands |
| Ntag.SetBit7 | ConcatNFCRegProxy/go/internal/nfc/nfc.go:559 | `b \| 0x80` gives a byte from 0x80 up with the same low seven bits as b |
| Ntag.ClearBit7 | ConcatNFCRegProxy/go/internal/nfc/nfc.go:620 | `b & 0x7F` gives a byte below 0x80 with the same low seven bits as b |
| Ntag.Protect | ConcatNFCRegProxy/go/internal/nfc/nfc.go:556-559 | the setter's edit: AUTH0 becomes 0x10, PROT is set, the other ACCESS bits and every other byte are kept |
| Ntag.Unprotect | ConcatNFCRegProxy/go/internal/nfc/nfc.go:617-620 | the clearer's edit: AUTH0 becomes 0xFF, PROT is cleared, everything else is kept |
| Ntag.ProtectGuardsRecords | ConcatNFCRegProxy/go/internal/nfc/nfc.go:555-559 | with AUTH0 at 0x10 and PROT set, a page needs the password for reading and for writing exactly when it is at or past the record area |
| Ntag.UnprotectGuardsNothing | ConcatNFCRegProxy/go/internal/nfc/nfc.go:617-620 | with AUTH0 at 0xFF and PROT cleared, no page of any product needs the password |
| Ntag.LastEditWins | ConcatNFCRegProxy/esp32/components/pn532/src/PN532.cpp:462-465 | after two edits in a row the configuration is what the second alone gives, and each edit is idempotent |
| Ntag.Bit7Edits | ConcatNFCRegProxy/esp32/components/pn532/src/PN532.cpp:532-535 | on one byte the last bit edit decides bit 7, and repeating an edit changes nothing |
| Pn532Frames.SumAppend | ConcatNFCRegProxy/esp32/components/pn532/src/PN532InterfaceHSU.cpp:267-272 | the byte sum of two runs is the sum of their sums |
| Pn532Frames.Checksum | ConcatNFCRegProxy/esp32/components/pn532/src/PN532Interface.cpp:176 | `~x + 1` is the byte that brings the sum to zero modulo 256 |
| Pn532Frames.WireFrame | ConcatNFCRegProxy/esp32/components/pn532/src/PN532Interface.cpp:158-177 | a normal information frame: preamble, start code, LEN = n + 1 with LCS cancelling it, TFI, data, DCS cancelling their sum, postamble |
| Pn532Frames.DecodeWire | ConcatNFCRegProxy/esp32/components/pn532/src/PN532InterfaceHSU.cpp:191-280 | a frame is accepted only when it is exactly the frame of the TFI and data it yields |
| Pn532Frames.DecodedFrame | ConcatNFCRegProxy/esp32/components/pn532/src/PN532InterfaceHSU.cpp:230-276 | bytes passing the start-code, LEN/LCS, DCS and postamble checks are the frame of their TFI and data |
| Pn532Frames.WireFrameDecodes | ConcatNFCRegProxy/esp32/components/pn532/src/PN532InterfaceHSU.cpp:191-280 | a frame decodes to what it was built from |
| Pn532Frames.WireFrameIsNotAck | ConcatNFCRegProxy/esp32/components/pn532/src/PN532InterfaceHSU.cpp:222-228 | a normal frame is never taken for an ACK or a NACK |
| Pn532Frames.CommandFrame | ConcatNFCRegProxy/esp32/components/pn532/src/PN532Interface.cpp:158-177 | the host frame, with preamble and postamble, is the normal information frame of D4 and the command |
| Pn532Frames.CommandFrameDecodes | ConcatNFCRegProxy/esp32/components/pn532/src/PN532Interface.cpp:158-177 | the command a host frame carries is recovered exactly |
| Pn532Frames.GetFirmwareFrameIsCommand | ConcatNFCRegProxy/esp32/components/pn532/src/PN532InterfaceHSU.cpp:12 | the hard-coded GetFirmwareVersion frame is the command frame of 02 |
| Pn532Frames.HsuWrite | ConcatNFCRegProxy/esp32/components/pn532/src/PN532InterfaceHSU.cpp:282-309 | the wakeup goes first exactly while SAM configuration is not done; the frame goes between a 00 preamble and a 00 postamble |
| Pn532Frames.CommandOnTheWire | ConcatNFCRegProxy/esp32/components/pn532/src/PN532Interface.cpp:158-186 | after any wakeup, the line carries the complete normal frame of the command |
| Pn532Frames.Line | ConcatNFCRegProxy/esp32/components/pn532/src/PN532InterfaceHSU.cpp:203-220 | a working line that delivers these bytes |
| Pn532Frames.HsuRead | ConcatNFCRegProxy/esp32/components/pn532/src/PN532InterfaceHSU.cpp:191-280 | a buffer under six bytes is refused; an accepted read is a prefix of what arrived, within the buffer; a normal frame has LEN and LCS cancelling, is cut to the buffer, and is checksummed only when whole |
| Pn532Frames.HsuReadsWireFrame | ConcatNFCRegProxy/esp32/components/pn532/src/PN532InterfaceHSU.cpp:240-279 | a frame the PN532 sends is accepted whole when it fits, otherwise as much as fits |
| Pn532Frames.HsuReadsAckOrNack | ConcatNFCRegProxy/esp32/components/pn532/src/PN532InterfaceHSU.cpp:222-228 | an ACK or a NACK is accepted as it is |
| Pn532Frames.StartCodeUnchecked | ConcatNFCRegProxy/esp32/components/pn532/src/PN532InterfaceHSU.cpp:230-234 | the start code is never checked: bytes beginning 12 34 56 are accepted as a frame |
| Pn532Frames.Padded | ConcatNFCRegProxy/esp32/components/pn532/src/PN532Interface.cpp:214-216 | the zeroed buffer holds what was read, then zeros |
| Pn532Frames.ReadData | ConcatNFCRegProxy/esp32/components/pn532/src/PN532Interface.cpp:212-241 | fails as `pn532_read` fails; otherwise the first `length` bytes of the zeroed buffer |
| Pn532Frames.ReadAck | ConcatNFCRegProxy/esp32/components/pn532/src/PN532Interface.cpp:393-406 | succeeds exactly when the six bytes read are the ACK frame |
| Pn532Frames.NackRefused | ConcatNFCRegProxy/esp32/components/pn532/src/PN532Interface.cpp:401-403 | a NACK is a failure although `pn532_read` accepts it |
| Pn532Frames.SendCommandWaitAck | ConcatNFCRegProxy/esp32/components/pn532/src/PN532Interface.cpp:354-391 | an empty command is refused unwritten; otherwise the command frame is written, and success means written, ready and ACKed, the first failure being the result |
| Pn532Frames.FindRate | ConcatNFCRegProxy/esp32/components/pn532/src/PN532InterfaceHSU.cpp:28-33 | the first index from n on holding the rate, or none when no later entry holds it |
| Pn532Frames.BaudIndex | ConcatNFCRegProxy/esp32/components/pn532/src/PN532InterfaceHSU.cpp:27-37 | the index of a tabled rate, or index 4 (115200 baud) for any other rate |
| Pn532Frames.SetSerialBaudRateFrame | ConcatNFCRegProxy/esp32/components/pn532/src/PN532InterfaceHSU.cpp:121-129 | the hand-built SetSerialBaudRate frame is the command frame of 10 and the rate index |
| Pn532Frames.SetBaudResponseIsFrame | ConcatNFCRegProxy/esp32/components/pn532/src/PN532InterfaceHSU.cpp:13 | the expected answer is the PN532's SetSerialBaudRate answer frame with no data |
| Pn532Frames.InitExtra | ConcatNFCRegProxy/esp32/components/pn532/src/PN532InterfaceHSU.cpp:115-175 | nothing is done when the rate is in use; otherwise success means an ACK and exactly the expected answer, and only success switches the rate |
| Pn532Frames.BaudHandshake | ConcatNFCRegProxy/esp32/components/pn532/src/PN532InterfaceHSU.cpp:115-175 | a PN532 answering as its manual says switches the link, after the host wrote the command and then an ACK |
| Pn532.Exchange | ConcatNFCRegProxy/esp32/components/pn532/src/PN532Interface.cpp:354-391 | the command is recorded as sent and lands in the packet buffer; the exchange succeeds exactly when the write, the ACK and the read of the answer all succeed, and then yields the number of bytes asked for |
| Pn532.ExchangeOfFrame | ConcatNFCRegProxy/esp32/components/pn532/src/PN532Interface.cpp:212-235 | a PN532 that ACKs and answers with a normal frame hands back as much of that frame as was asked for, then zeros |
| Pn532.FrameBytes | ConcatNFCRegProxy/esp32/components/pn532/src/PN532.cpp:190-200 | bytes that begin with a frame show its preamble, LEN, LCS and TFI at bytes 0 to 5 and its data from byte 6 on |
| Pn532.LandedFrame | ConcatNFCRegProxy/esp32/components/pn532/src/PN532.cpp:265 | the answer read lands at the start of the packet buffer |
| Pn532.GetFirmwareVersion | ConcatNFCRegProxy/esp32/components/pn532/src/PN532.cpp:32-74 | GetFirmwareVersion is sent; a success saw the expected header at bytes 1 to 6 and returns bytes 7 to 10 read big-endian |
| Pn532.FirmwareOfReply | ConcatNFCRegProxy/esp32/components/pn532/src/PN532.cpp:55-73 | a PN532 answering with its four version bytes is reported with exactly that version |
| Pn532.FirmwareInBuffer | ConcatNFCRegProxy/esp32/components/pn532/src/PN532.cpp:60-71 | the GetFirmwareVersion answer in the buffer passes the header check and holds the version at bytes 7 to 10 |
| Pn532.TargetCommand | ConcatNFCRegProxy/esp32/components/pn532/src/PN532.cpp:164-166 | InListPassiveTarget for one target with the given baud rate and modulation |
| Pn532.ReadPassiveTargetId | ConcatNFCRegProxy/esp32/components/pn532/src/PN532.cpp:158-228 | the command is sent and the recorded target kept; a success saw exactly one target and returns the byte-12 count of bytes from byte 13 on |
| Pn532.TargetIdOfReply | ConcatNFCRegProxy/esp32/components/pn532/src/PN532.cpp:186-227 | a card answering with one target is read as its UID; an answer listing any other number of targets is refused |
| Pn532.TargetIdInBuffer | ConcatNFCRegProxy/esp32/components/pn532/src/PN532.cpp:190-200 | the target list answer shows the count at byte 7, the UID length at byte 12 and the UID after it |
| Pn532.InListPassiveTarget | ConcatNFCRegProxy/esp32/components/pn532/src/PN532.cpp:308-369 | a success passed the header check for response 4B, listed exactly one target and records its number; a failure keeps the number recorded before |
| Pn532.InListOfReply | ConcatNFCRegProxy/esp32/components/pn532/src/PN532.cpp:329-356 | an answer listing exactly one target succeeds and records its number; any other count fails and keeps the old number |
| Pn532.InListInBuffer | ConcatNFCRegProxy/esp32/components/pn532/src/PN532.cpp:333-353 | the target list answer passes the header check and shows the count and the target number |
| Pn532.ExchangeCommand | ConcatNFCRegProxy/esp32/components/pn532/src/PN532.cpp:243-247 | InDataExchange with the recorded target and the payload |
| Pn532.InDataExchange | ConcatNFCRegProxy/esp32/components/pn532/src/PN532.cpp:230-306 | a payload over 62 bytes is refused before anything is sent; a success passed the header and status checks and returns LEN - 3 bytes from byte 8 on, cut to the caller's capacity |
| Pn532.ExchangeAnswer | ConcatNFCRegProxy/esp32/components/pn532/src/PN532.cpp:269-305 | a missing header or an error status fails; an accepted answer is the LEN - 3 data bytes from byte 8 on, cut to the capacity |
| Pn532.InDataExchangeOfReply | ConcatNFCRegProxy/esp32/components/pn532/src/PN532.cpp:230-306 | a target answering with no error gets its data back, cut to the caller's capacity |
| Pn532.ExchangeAnswerInBuffer | ConcatNFCRegProxy/esp32/components/pn532/src/PN532.cpp:278-295 | an answer with an error status is refused; otherwise its data comes back, cut to the capacity |
| Pn532.InDataExchangeRefusesStatus | ConcatNFCRegProxy/esp32/components/pn532/src/PN532.cpp:279-284 | a status with any of the low six bits set fails, whatever the data |
| Pn532.ReadCommand | ConcatNFCRegProxy/esp32/components/pn532/src/PN532.cpp:609-612 | NTAG READ of the page, to target 1 |
| Pn532.WriteCommand | ConcatNFCRegProxy/esp32/components/pn532/src/PN532.cpp:688-692 | NTAG WRITE of the page with its four bytes, to target 1 |
| Pn532.ReadLength | ConcatNFCRegProxy/esp32/components/pn532/src/PN532.cpp:601-602 | the bytes handed back are those asked for, at most 16 |
| Pn532.ReadPageAsWritten | ConcatNFCRegProxy/esp32/components/pn532/src/PN532.cpp:585-664 | page 231 or more, or an empty read, is refused before anything is sent; a success saw a good status byte and returns the bytes from byte 8 on, the frame never being checked |
| Pn532.ErrorFrameReadsAsZeros | ConcatNFCRegProxy/esp32/components/pn532/src/PN532.cpp:635-648 | the PN532's error frame is taken for a successful read of four zero bytes |
| Pn532.ReadPage | ConcatNFCRegProxy/esp32/components/pn532/src/PN532.cpp:585-664 | as written, but the answer must also pass the InDataExchange header check before its status and data are used |
| Pn532.PageAnswer | ConcatNFCRegProxy/esp32/components/pn532/src/PN532.cpp:644-654 | an answer is accepted exactly when its header and status are good, and then yields the bytes from byte 8 on |
| Pn532.ReadPageRefusesErrorFrame | ConcatNFCRegProxy/esp32/components/pn532/src/PN532.cpp:644-654 | the checked read refuses the error frame |
| Pn532.ErrorFrameReadsAsZerosAt | ConcatNFCRegProxy/esp32/components/pn532/src/PN532.cpp:644-654 | the read as written takes the PN532 error frame for a successful read of zeros, for any page and length |
| Pn532.CheckedReadAgrees | ConcatNFCRegProxy/esp32/components/pn532/src/PN532.cpp:585-664 | wherever the checked read succeeds, the read as written gives the same bytes and session: the header check only refuses more |
| Pn532.ReadAsWrittenOfGoodReply | ConcatNFCRegProxy/esp32/components/pn532/src/PN532.cpp:585-664 | a READ answered with status 0 and sixteen bytes returns the bytes asked for through the status-only read |
| Pn532.ReadPageOfReply | ConcatNFCRegProxy/esp32/components/pn532/src/PN532.cpp:585-664 | a card answering READ gets the bytes asked for back when its status reports no error, and the read fails otherwise |
| Pn532.PagesInBuffer | ConcatNFCRegProxy/esp32/components/pn532/src/PN532.cpp:644-647 | a READ answer in the buffer passes the checks exactly when its status is good and holds the pages from byte 8 on |
| Pn532.WritePageAsWritten | ConcatNFCRegProxy/esp32/components/pn532/src/PN532.cpp:666-717 | a write goes out exactly for pages 4 to 231, page 231 included |
| Pn532.WritePage | ConcatNFCRegProxy/esp32/components/pn532/src/PN532.cpp:666-717 | a write goes out for pages 4 up to the last page of an NTAG216 and nothing else is sent |
| Pn532.WritePageAgrees | ConcatNFCRegProxy/esp32/components/pn532/src/PN532.cpp:666-717 | below page 231 the corrected writer and the writer as written are the same function |
| Pn532.WritePastTheEnd | ConcatNFCRegProxy/esp32/components/pn532/src/PN532.cpp:666-681 | page 231 lies past the last page of every product, yet the range check lets a write to it go out to the card |
| Pn532.WritePageOutcome | ConcatNFCRegProxy/esp32/components/pn532/src/PN532.cpp:695-716 | a write to an accepted page succeeds exactly when it was written, ACKed and answered |
| Pn532.GetModel | ConcatNFCRegProxy/esp32/components/pn532/src/PN532.cpp:371-414 | page 0 is read with the read as written; the model read succeeds exactly when that read does, and the model is the product whose size byte is byte 14, none for an unknown size |
| Pn532.GetModelOfCard | ConcatNFCRegProxy/esp32/components/pn532/src/PN532.cpp:384-407 | a card whose capability container names a product is that product |
| Pn532.GetModelOfErrorFrame | ConcatNFCRegProxy/esp32/components/pn532/src/PN532.cpp:377-413 | an error frame in answer to the page-0 READ is a successful model read of no known model |
| Pn532.SetPasswordOfErrorFrame | ConcatNFCRegProxy/esp32/components/pn532/src/PN532.cpp:494-504 | setting a password then stops with NOT_SUPPORTED after the model read alone |
| Pn532.AuthCommand | ConcatNFCRegProxy/esp32/components/pn532/src/PN532.cpp:555-558 | PWD_AUTH with the password bytes, through InCommunicateThru |
| Pn532.Authenticate | ConcatNFCRegProxy/esp32/components/pn532/src/PN532.cpp:554-583 | authentication succeeds exactly when the command went through, an answer was read, and bytes 5 to 7 are D5, 43 and 00 |
| Pn532.AuthenticateOfReply | ConcatNFCRegProxy/esp32/components/pn532/src/PN532.cpp:573-580 | a card answering PWD_AUTH through the PN532 authenticates exactly when the status is 0 |
| Pn532.ResetCard | ConcatNFCRegProxy/esp32/components/pn532/src/PN532.cpp:127-156 | InATR is sent; success means written, ACKed and read, the answer not being looked at |
| Pn532.WriteConfig | ConcatNFCRegProxy/esp32/components/pn532/src/PN532.cpp:537-548 | a success wrote the edited bytes 0-3 to the configuration page and bytes 4-7 to the next one |
| Pn532.EditConfig | ConcatNFCRegProxy/esp32/components/pn532/src/PN532.cpp:524-548 | a success read the configuration with the read as written (only its status byte checked) and sent exactly the read and the two writes of that configuration edited |
| Pn532.ProtectCard | ConcatNFCRegProxy/esp32/components/pn532/src/PN532.cpp:506-551 | a success sent, in order, the password write, the card reset, PWD_AUTH, the configuration read and the two protected writes |
| Pn532.SetPassword | ConcatNFCRegProxy/esp32/components/pn532/src/PN532.cpp:484-552 | a failed or unknown model read returns its error or NOT_SUPPORTED after the model read alone; a success sent the full seven-command sequence for the model read |
| Pn532.UnprotectCard | ConcatNFCRegProxy/esp32/components/pn532/src/PN532.cpp:446-481 | a success sent the blank password write, the configuration read and the two unprotected writes |
| Pn532.ClearPassword | ConcatNFCRegProxy/esp32/components/pn532/src/PN532.cpp:433-482 | a failed or unknown model read returns its error or NOT_SUPPORTED after the model read alone; a success sent the five-command sequence for the model read |
| Pn532.SetPasswordCommandsProtect | ConcatNFCRegProxy/esp32/components/pn532/src/PN532.cpp:486-548 | setting a password writes the password big-endian, authenticates with it, and protects from page 0x10 with PROT set and the other ACCESS bits kept |
| Pn532.SetPasswordProtects | ConcatNFCRegProxy/esp32/components/pn532/src/PN532.cpp:484-552 | a successful set appends seven commands: the password it writes to PWD is the one it authenticates with, and the configuration it writes back guards the record area and nothing before it and keeps the other ACCESS bits of the bytes read |
| Pn532.ClearPasswordCommandsUnprotect | ConcatNFCRegProxy/esp32/components/pn532/src/PN532.cpp:446-478 | clearing writes FF FF FF FF and a configuration that guards no page of the product, the other ACCESS bits kept |
| Pn532.ClearPasswordUnprotects | ConcatNFCRegProxy/esp32/components/pn532/src/PN532.cpp:433-482 | a successful clear appends five commands: FF FF FF FF to PWD, and a configuration written back that guards no page of the product and keeps the other ACCESS bits of the bytes read |
| Pn532.IsTagModelValid | ConcatNFCRegProxy/esp32/main/ConCatTag.cpp:293-310 | the card is valid exactly when its model could be read and is an NTAG213, 215 or 216 |
| Pn532.UnlockTag | ConcatNFCRegProxy/esp32/main/ConCatTag.cpp:312-320 | unlocking succeeds exactly when authentication with the password succeeds |
| EspOperations.Failure | ConcatNFCRegProxy/esp32/main/nfc_operations.cpp:39-47 | a refusal carries its message and no error code |
| EspOperations.GuardCalls | ConcatNFCRegProxy/esp32/main/nfc_operations.cpp:33-55 | the calls a passing guard makes: the UID read, the model check, and the unlock when a password is given |
| EspOperations.Guard | ConcatNFCRegProxy/esp32/main/nfc_operations.cpp:26-55 | the guard admits exactly the cards that pass all three checks; a reader error is returned as the error code after the UID read alone; a foreign UID is refused as a mismatch; the calls made are a prefix of the full guard and never touch the tag area |
| EspOperations.GuardOrder | ConcatNFCRegProxy/esp32/main/nfc_operations.cpp:39-55 | the model is asked about only a card with the expected UID, unlocking is tried only on an NTAG21x with a password given, and a refusal names the first check that failed |
| EspOperations.BadgeJson | ConcatNFCRegProxy/esp32/main/nfc_operations.cpp:64 | the message of a badge is the JSON of the definition its records project to |
| EspOperations.WriteOnCard | ConcatNFCRegProxy/esp32/main/nfc_operations.cpp:26-69 | nothing is written when the guard refuses; an admitted card gets the pages of the stream written in order; a success returns the badge's JSON and any other outcome of an admitted card the write-failure message |
| EspOperations.AfterRead | ConcatNFCRegProxy/esp32/main/nfc_operations.cpp:101-112 | a failed read returns its message and keeps the definition; a good one resets the reader and returns the badge's JSON, the definition set to the projection of the records |
| EspOperations.ReadTagData | ConcatNFCRegProxy/esp32/main/nfc_operations.cpp:71-113 | a refused card is answered by the guard; a success read the records, reset the reader and returned their JSON; an admitted failure left the definition alone |
| EspOperations.ReadReturnsWrittenBadge | ConcatNFCRegProxy/esp32/main/nfc_operations.cpp:26-113 | reading back a written badge returns the same JSON a successful write of it returns and projects the same definition |

## Left out

- Device plumbing: PC/SC and USB reader handling, Android NFC dispatch, the ESP-IDF UART and GPIO calls, `pn532_wait_ready` and IRQ handling, `pn532_init_io`, the input flush before each write, and every timeout. Each is I/O or timing; the replies they produce are parameters (a `Uart` record, a `Device`, an `Scard`, a reader function).
- `pn532_read_data`'s mapping of a zero timeout to -1: timeouts are not modelled, a read either delivers the bytes that arrived or times out.
- `PN532InterfaceI2C.cpp`: the I2C link is not part of this model; only the HSU link is.
- `pn532_set_passive_activation_retries` and `pn532_auto_poll`: the firmware never calls them.
- ECDSA and SHA-256 verification and P-256 key reconstruction: foreign cryptography, an uninterpreted `verify` function of the environment.
- Base64 encoding and decoding: library calls, a codec parameter whose only property is that decoding undoes encoding.
- Logging, `fmt.Printf` debugging, toasts and UI text other than the messages the decision chain returns.
- HTTP handlers, login, the proxy's web server and the command-line program: they only call the modelled operations; the main program's record building is modelled as `Tags.CardTags`.
- `BeepReader`: a fixed call of the modelled LED command.
- The readers' `fuel` bound: every read loop takes a bound on the number of records. A stream that never reaches a zero id byte ends in `ScanLimit` (Kotlin, Go) or `None` (ESP32) where the source would keep reading until a page read fails or, with the ESP32's wrapping cursor, forever. The round-trip theorems give enough fuel for every record.
- EspOperations.ReadTagData: returns `None` only when its read loop runs out of fuel (see above).
- The C++ reader treats a page read that returns fewer than four bytes as a failure; the source would then index past the end of a short buffer.
- The Go reader's index panic on a page read with an empty body is the error `EmptyPage`, and a panic is not otherwise modelled.
- `Overrun` in `Pn532Frames.EspError` stands for a read past the end of the 64-byte packet buffer (a UID length or an answer length byte that points past it); the C code would read whatever memory follows.
- The ESP32 UID buffer is seven bytes; a card reporting a longer UID overflows it in `write_on_card` and `read_tag_data`. The guard compares the UID the reader reports, without the overflow.
- `nfc_operations.h` declares `read_tag_data` with a different signature from its definition; the definition is modelled.
- Pn532Frames.CommandFrame: requires at most 250 command bytes, the room left in `pn532_write_command`'s static 256-byte buffer; every caller sends at most 64.
- Page numbers are bytes in the writers, so a stream long enough to pass page 0xFF wraps; the round-trip theorems assume it does not, and the ESP32 theorems assume the stream fits the 256-byte reach of the 8-bit cursor.
- The Android proxy's `transmitAndValidate` belongs to a reader subclass that is not part of this model; it is a parameter that answers or throws.
- The current validator's `AuthService` response type is not part of this model; the password is taken to be text, as in the original validator.
- The original validator's `NFC` class is not part of this model; it is taken to read cards as the current one does.
- Ntag.SetBit7 and Ntag.ClearBit7: the bitwise `| 0x80` and `& 0x7F` on the ACCESS byte are written on the byte's value, as adding or taking away 0x80 according to bit 7; the equality with the bit-vector operators is not stated as a lemma.
- The C++ `CardDefinition` declaration is not part of this model; its field widths follow the format specifiers of `toJSON` and the arguments of `toTagArray`.
- CppCard.ToStruct: starts from a definition whose numbers are zero and whose signature is null (`EMPTY_DEFINITION`), which `CardDefinition def;` gives only if the declaration, not part of this model, initialises its members so.
- CppCard.ToStruct: stores `codec.encode([])` for a signature record with no bytes; `mbedtls_base64_encode` then writes nothing into the `malloc`ed buffer, and `strdup` copies uninitialised memory, which the model does not represent.
- CppTagIo.CppUncheckedPayloadAgrees: holds for a `PageSource` that answers each page read the same way every time, which `ReadNFailsAgain` and `CppByteReaderFailsInPlace` rest on too. A card whose page read fails once and then succeeds is not modelled; with one, `readTags` would go on from the middle of a payload after its unchecked `readBytes` fails, and read payload bytes as record ids.
- GoCard.TagsToRequest: on a refused record the Go function returns the partly filled request together with the error; the model returns only the error, since every caller discards that request.
- GoCard.UpdateTags: the Go function assigns each replacement into the caller's slice as it goes, so a refused record leaves the records before it already replaced in the caller's slice; the model returns only the error and does not model that aliasing.
- Pn532Frames.InitExtra: one `uart` report stands for every UART driver call, so a failure of only the final ACK write or of only `uart_set_baudrate`, after a good handshake, is not distinguished.
- KotlinTagIo.StoreChunks: a read whose length is not a multiple of four drops the chunks before its last, where `readPage` has already cached them; every read is 16 bytes, so this never arises.
- CppCard.ToTagArray: for signature text that does not decode, the model takes an empty signature record. The source ignores `mbedtls_base64_decode`'s result and builds the record from an `output_len` it never initialised, so its length and bytes there are indeterminate.
- GoCard.TagToText: the model returns a record of the printed values, not the text. The `TAG=... UserID=%d ConventionID=%d` labels and the RFC3339 rendering of the timestamps are not modelled, nor is the expiration record's label `TAG=TAG_TIMESTAMP Expiration=`, which repeats the issue record's tag name (tags.go:57).
- Decimal.KtToUInt: only the ASCII digits '0' to '9' are modelled. The JVM's `toUInt()` reads each digit with `Character.digit`, which also accepts other Unicode decimal digits, so text such as "١٢" is 12 there and refused here. `KtToUIntRejectsText` is stated for this ASCII model.
- KtProxyCommands.KtVendorApdu: the Kotlin `bytes(...)` helper that builds the pseudo-APDU is not part of this model; its conversion of each `Int` to a `Byte` is taken to keep the low eight bits, as `Int.toByte()` does.
- Validator.Check: the exceptions that Base64-URL decoding of the key's coordinates, `generatePublic` and `verify` on a malformed signature can throw are not modelled as exceptions. They are folded into the uninterpreted `verify`, so each such throw appears as a verdict.

## Findings

| source | as written | input that shows it | evidently intended | confidence | as-written member | corrected member |
|---|---|---|---|---|---|---|
| ConcatNFCRegProxy/go/internal/nfc/nfc.go:785-801 | the writers pad only a final partial page, so a stream whose length is a multiple of 4 is written with no terminating zero byte (the same in ConcatNFCRegProxy/esp32/main/ConCatTag.cpp:462-483) | a single record 01 02 07 07 written over a card whose page 0x11 still holds 05 01 09 00 from an older badge: every reader returns a second record that was never written | the stream followed by a zero byte is left on the card | not executed | RoundTrip.UnterminatedWriteCounterexample | RoundTrip.WriteTagsTerminated, RoundTrip.TerminatedRoundTrip |
| ConcatNFCRegProxy/esp32/main/ConCatTag.cpp:256 | the four-byte value is assembled in `int`, so a top byte of 0x80 or more sign-extends when widened to `uint64_t` | issuance count 0x80000000 reads back as 0xFFFFFFFF80000000; a four-byte timestamp 80 00 00 00 lands in `toStruct`'s definition, and so in the JSON `read_tag_data` returns, as 18446744071562067968 | the big-endian value of the four bytes | not executed | Tags.CppTagValueULongAsWritten, Tags.CppTagValueULongSignExtends, CppCard.ToStructSignExtends | Tags.CppTagValueULong, Tags.CppULongAgreesWithKotlin |
| ConcatNFCRegProxy/go/internal/tags/tags.go:24-25 | `TagToText` decodes the convention id from bytes 0-3, the same bytes as the user id | the attendee record of user 1 and convention 2 prints convention 1 | the convention id from bytes 4-7, as `TagsToRequest` reads it | not executed | GoCard.TagToTextAsWritten, GoCard.TagToTextConventionLost | GoCard.TagToText, GoCard.TagToTextAgreesWithRequest |
| ConcatNFCRegProxy/esp32/components/pn532/src/PN532.cpp:675-681 | `ntag2xx_write_page` refuses pages above 231, so page 231 is sent although no NTAG21x has it, while `ntag2xx_read_page` refuses it | a write to page 231 | pages 4 to 230, the bound the read uses | not executed | Pn532.WritePageAsWritten, Pn532.WritePastTheEnd | Pn532.WritePage |
| ConcatNFCRegProxy/esp32/components/pn532/src/PN532.cpp:644-654 | `ntag2xx_read_page` looks only at the status byte of the 26 bytes read, never at the frame | the PN532 answers with its error frame 00 00 FF 01 FF 7F 81 00: `pn532_read` accepts it, the zero padding makes the status 0, and the read returns zero bytes; answered so to the model read, `ntag2xx_set_password` reports NOT_SUPPORTED instead of the PN532's error | the answer is checked to be an InDataExchange response before its status and data are used, as `pn532_in_data_exchange` does | not executed | Pn532.ReadPageAsWritten, Pn532.ErrorFrameReadsAsZeros, Pn532.GetModelOfErrorFrame, Pn532.SetPasswordOfErrorFrame | Pn532.ReadPage, Pn532.ReadPageRefusesErrorFrame, Pn532.CheckedReadAgrees |

=== FILE: base64.dfy ===
/** Standard Base64 (Go `encoding/base64`, mbedtls, `android.util.Base64`). The libraries are
    not modelled: a codec is a pair of functions, and the one property the badge relies on is
    that decoding undoes encoding. */
module Base64 {
  import opened Wrappers
  import opened Bytes

  datatype Codec = Codec(encode: seq<uint8> -> string, decode: string -> Option<seq<uint8>>)

  /** Decoding the text of any byte string gives the bytes back; this also makes `encode`
      injective. */
  ghost predicate Sound(c: Codec) {
    forall b :: c.decode(c.encode(b)) == Some(b)
  }
}

=== FILE: byte_readers.dfy ===
/** A byte reader is a state machine that yields one byte per step or fails. The Kotlin, Go and
    C++ readers all read the tag area this way, each with its own state and error type. */
module ByteReaders {
  import opened Wrappers
  import opened Bytes

  type ByteReader<!S, E> = S -> Result<(uint8, S), E>

  /** n successive bytes, or the first failure. */
  function ReadN<S, E>(rb: ByteReader<S, E>, st: S, n: nat): (r: Result<(seq<uint8>, S), E>)
    ensures r.Ok? ==> |r.value.0| == n
    ensures n > 0 && rb(st).Err? ==> r == Err(rb(st).error)
    decreases n
  {
    if n == 0 then Ok(([], st))
    else
      match rb(st)
      case Err(e) => Err(e)
      case Ok(v) =>
        match ReadN(rb, v.1, n - 1)
        case Err(e) => Err(e)
        case Ok(w) => Ok(([v.0] + w.0, w.1))
  }

  /** The reader, started at `st`, yields the bytes `s` and ends at `st'`. */
  ghost predicate Yields<S, E>(rb: ByteReader<S, E>, st: S, s: seq<uint8>, st': S) {
    ReadN(rb, st, |s|) == Ok((s, st'))
  }

  /** Yielding the first byte and then the rest is yielding the whole. */
  lemma YieldsCons<S, E>(rb: ByteReader<S, E>, st: S, b: uint8, mid: S, s: seq<uint8>, st': S)
    requires rb(st) == Ok((b, mid)) && Yields(rb, mid, s, st')
    ensures Yields(rb, st, [b] + s, st')
  {
  }

  /** A nonempty stream the reader yields starts with one step of the reader. */
  lemma YieldsUncons<S, E>(rb: ByteReader<S, E>, st: S, s: seq<uint8>, st': S)
    requires Yields(rb, st, s, st') && |s| > 0
    ensures rb(st).Ok? && rb(st).value.0 == s[0]
    ensures Yields(rb, rb(st).value.1, s[1..], st')
  {
    var w := ReadN(rb, rb(st).value.1, |s| - 1).value;
    assert s == [rb(st).value.0] + w.0;
  }

  /** A stream the reader yields splits at any point into two streams it yields in turn. */
  lemma {:induction false} ReadNSplit<S, E>(rb: ByteReader<S, E>, st: S, s: seq<uint8>, st': S, k: nat)
    requires Yields(rb, st, s, st') && k <= |s|
    ensures ReadN(rb, st, k).Ok?
    ensures Yields(rb, st, s[..k], ReadN(rb, st, k).value.1)
    ensures Yields(rb, ReadN(rb, st, k).value.1, s[k..], st')
    decreases k
  {
    if k > 0 {
      var v := rb(st).value;
      assert Yields(rb, v.1, s[1..], st');
      ReadNSplit(rb, v.1, s[1..], st', k - 1);
      assert s[1..][..k - 1] == s[..k][1..];
      assert s[1..][k - 1..] == s[k..];
      assert [s[0]] + s[..k][1..] == s[..k];
    } else {
      assert s[..0] == [];
      assert s[0..] == s;
    }
  }
}

=== FILE: bytes.dfy ===
/** Unsigned machine integers, big-endian byte order and lower-case hex, as used by the
    Kotlin, Go and C++ implementations of the badge system. */
module Bytes {
  import opened Wrappers

  type uint8 = x: int | 0 <= x < 0x100
  type uint16 = x: int | 0 <= x < 0x1_0000
  type uint32 = x: int | 0 <= x < 0x1_0000_0000
  type uint64 = x: int | 0 <= x < 0x1_0000_0000_0000_0000

  const TWO_TO_32: nat := 0x1_0000_0000
  const TWO_TO_64: nat := 0x1_0000_0000_0000_0000

  /** 256 to the power n: one more than the largest value n bytes can hold. */
  function Pow256(n: nat): (r: nat)
    ensures r >= 1
  {
    if n == 0 then 1 else 256 * Pow256(n - 1)
  }

  lemma Pow256Values()
    ensures Pow256(4) == TWO_TO_32
    ensures Pow256(8) == TWO_TO_64
  {
    assert Pow256(2) == 0x1_0000;
    assert Pow256(4) == 0x1_0000 * 0x1_0000;
    assert Pow256(6) == 0x1_0000 * Pow256(4);
    assert Pow256(8) == 0x1_0000 * Pow256(6);
  }

  /** The number that `s` denotes when read most-significant byte first. */
  function BeValue(s: seq<uint8>): (v: nat)
    ensures v < Pow256(|s|)
  {
    if |s| == 0 then 0 else BeValue(s[..|s| - 1]) * 256 + s[|s| - 1]
  }

  /** The n-byte big-endian representation of v. */
  function BeBytes(v: nat, n: nat): (r: seq<uint8>)
    requires v < Pow256(n)
    ensures |r| == n
    ensures BeValue(r) == v
  {
    if n == 0 then []
    else
      var high := BeBytes(v / 256, n - 1);
      var r := high + [v % 256];
      assert r[..|r| - 1] == high;
      r
  }

  /** Reading a big-endian number and writing it back with the same width gives the bytes back. */
  lemma {:induction false} BeBytesOfValue(s: seq<uint8>)
    ensures BeBytes(BeValue(s), |s|) == s
  {
    if |s| > 0 {
      var init := s[..|s| - 1];
      BeBytesOfValue(init);
      assert BeValue(s) / 256 == BeValue(init);
      assert BeValue(s) % 256 == s[|s| - 1];
      assert s == init + [s[|s| - 1]];
    }
  }

  /** Two byte strings of the same width denote the same number only if they are equal. */
  lemma BeValueInjective(a: seq<uint8>, b: seq<uint8>)
    requires |a| == |b|
    requires BeValue(a) == BeValue(b)
    ensures a == b
  {
    BeBytesOfValue(a);
    BeBytesOfValue(b);
  }

  /** The value of a concatenation: the high part shifted left by the width of the low part. */
  lemma {:induction false} BeValueAppend(a: seq<uint8>, b: seq<uint8>)
    ensures BeValue(a + b) == BeValue(a) * Pow256(|b|) + BeValue(b)
  {
    if |b| > 0 {
      var ab := a + b;
      var b', c := b[..|b| - 1], b[|b| - 1];
      assert ab[..|ab| - 1] == a + b' && ab[|ab| - 1] == c;
      BeValueAppend(a, b');
      ShiftStep(BeValue(ab), BeValue(a + b'), BeValue(a), Pow256(|b'|), Pow256(|b|), BeValue(b'), BeValue(b), c);
    } else {
      assert a + b == a;
    }
  }

  /** The arithmetic of one step of `BeValueAppend`. */
  lemma ShiftStep(vab: int, vab': int, x: int, p: int, pb: int, y: int, yb: int, c: int)
    requires vab == vab' * 256 + c && vab' == x * p + y
    requires yb == y * 256 + c && pb == 256 * p
    ensures vab == x * pb + yb
  {
    assert x * pb == x * (256 * p) == (x * p) * 256;
  }

  /** Four bytes, most significant first: Kotlin's `UInt.toByteArray`, Go's `PutUint32`,
      C++ `uint32ToBytes` and `uint32_to_big_endian_bytes` all lay a 32-bit value out this way. */
  function U32ToBe(v: uint32): (r: seq<uint8>)
    ensures |r| == 4
    ensures BeValue(r) == v
    ensures r[0] == v / 0x100_0000 && r[3] == v % 0x100
  {
    Pow256Values();
    var r := BeBytes(v, 4);
    assert r[0] == v / 0x100_0000 && r[3] == v % 0x100 by {
      assert BeValue(r[..3]) == v / 256;
      assert BeValue(r[..3][..2]) == v / 256 / 256;
      assert r[..3][..2][..1] == [r[0]];
      assert BeValue(r[..3][..2][..1]) == v / 256 / 256 / 256;
    }
    r
  }

  /** Eight bytes, most significant first (`uint64ToBytes`, `PutUint64`, `ByteBuffer.putLong`). */
  function U64ToBe(v: uint64): (r: seq<uint8>)
    ensures |r| == 8
    ensures BeValue(r) == v
  {
    Pow256Values();
    BeBytes(v, 8)
  }

  /** Kotlin `ByteArray.toUIntBe` (a shift-and-or loop over the first four bytes). */
  method ToUIntBe(s: seq<uint8>) returns (r: uint32)
    requires |s| >= 4
    ensures r == BeValue(s[..4])
    ensures U32ToBe(r) == s[..4]
  {
    Pow256Values();
    var acc: nat := 0;
    var i := 0;
    while i < 4
      invariant 0 <= i <= 4
      invariant acc == BeValue(s[..i])
    {
      assert s[..i + 1][..i] == s[..i];
      acc := acc * 256 + s[i];
      i := i + 1;
    }
    r := acc;
    BeValueInjective(U32ToBe(r), s[..4]);
  }

  /** Kotlin `ByteArray.toULongBe` (the same loop over the first eight bytes). */
  method ToULongBe(s: seq<uint8>) returns (r: uint64)
    requires |s| >= 8
    ensures r == BeValue(s[..8])
    ensures U64ToBe(r) == s[..8]
  {
    Pow256Values();
    var acc: nat := 0;
    var i := 0;
    while i < 8
      invariant 0 <= i <= 8
      invariant acc == BeValue(s[..i])
    {
      assert s[..i + 1][..i] == s[..i];
      acc := acc * 256 + s[i];
      i := i + 1;
    }
    r := acc;
    BeValueInjective(U64ToBe(r), s[..8]);
  }

  /** Truncation of an unbounded integer to the width of an unsigned C, Go or Kotlin type. */
  function Trunc8(x: int): (r: uint8)
    ensures 0 <= x < 0x100 ==> r == x
  {
    x % 0x100
  }

  function Trunc32(x: int): (r: uint32)
    ensures 0 <= x < TWO_TO_32 ==> r == x
  {
    x % TWO_TO_32
  }

  // ---------------------------------------------------------------- lower-case hex

  /** A lower-case hex digit. */
  predicate IsHexDigit(c: char) {
    '0' <= c <= '9' || 'a' <= c <= 'f'
  }

  /** The lower-case hex digit of a value below 16. */
  function HexDigit(d: nat): (c: char)
    requires d < 16
    ensures IsHexDigit(c)
  {
    if d < 10 then ('0' as int + d) as char else ('a' as int + d - 10) as char
  }

  /** The value of a lower-case hex digit, or None for any other character. */
  function HexValue(c: char): (r: Option<nat>)
    ensures r.Some? <==> IsHexDigit(c)
    ensures r.Some? ==> r.value < 16 && HexDigit(r.value) == c
  {
    if '0' <= c <= '9' then Some(c as int - '0' as int)
    else if 'a' <= c <= 'f' then Some(c as int - 'a' as int + 10)
    else None
  }

  lemma HexValueOfDigit(d: nat)
    requires d < 16
    ensures HexValue(HexDigit(d)) == Some(d)
  {
  }

  /** The identifier formatting of a tag UID: every byte as two lower-case hex digits, high
      nibble first (Kotlin `"%02x".format(it)` joined, Go `fmt.Sprintf("%x", uid)`). */
  function Hex(s: seq<uint8>): (r: string)
    ensures |r| == 2 * |s|
  {
    seq(2 * |s|, i requires 0 <= i < 2 * |s| =>
      if i % 2 == 0 then HexDigit(s[i / 2] / 16) else HexDigit(s[i / 2] % 16))
  }

  /** Reference decoder for `Hex`: an even number of lower-case digits, read in pairs, high
      nibble first; anything else is not the text of any UID. */
  function UnHex(t: string): (r: Option<seq<uint8>>)
    ensures r.Some? <==> |t| % 2 == 0 && forall i :: 0 <= i < |t| ==> IsHexDigit(t[i])
    ensures r.Some? ==> 2 * |r.value| == |t|
  {
    if |t| % 2 == 0 && forall i :: 0 <= i < |t| ==> IsHexDigit(t[i]) then
      Some(seq(|t| / 2, k requires 0 <= k < |t| / 2 =>
        HexValue(t[2 * k]).value * 16 + HexValue(t[2 * k + 1]).value))
    else None
  }

  /** A byte is its high nibble times 16 plus its low nibble. */
  lemma Nibbles(b: uint8)
    ensures b / 16 < 16 && b % 16 < 16 && (b / 16) * 16 + b % 16 == b
  {
  }

  /** The UID string determines the UID: decoding the hex text gives the bytes back. */
  lemma UnHexHex(s: seq<uint8>)
    ensures UnHex(Hex(s)) == Some(s)
  {
    var t := Hex(s);
    assert forall i :: 0 <= i < |t| ==> IsHexDigit(t[i]);
    var r := UnHex(t).value;
    forall k | 0 <= k < |s| ensures r[k] == s[k] {
      assert t[2 * k] == HexDigit(s[k] / 16) && t[2 * k + 1] == HexDigit(s[k] % 16);
      HexValueOfDigit(s[k] / 16);
      HexValueOfDigit(s[k] % 16);
      Nibbles(s[k]);
    }
    assert |r| == |s|;
    assert r == s;
  }

  /** Distinct UIDs are looked up under distinct identifiers. */
  lemma HexInjective(a: seq<uint8>, b: seq<uint8>)
    requires Hex(a) == Hex(b)
    ensures a == b
  {
    UnHexHex(a);
    UnHexHex(b);
  }
}

=== FILE: cpp_card.dfy ===
/** The ESP32 card record (`CardDefinition`): the projection of the tags into it (`toStruct`),
    its JSON text (`toJSON`), and the tags written for it (`toTagArray`). The declaration of
    `CardDefinition` is not part of this model; the field widths follow the format specifiers
    of `toJSON` (`%lu` for 32-bit fields, `%llu` for 64-bit ones) and the constructor
    arguments of `toTagArray`. */
module CppCard {
  import opened Wrappers
  import opened Bytes
  import opened Tags
  import opened Decimal
  import opened JsonText
  import Base64

  /** The signature is a C string that may be null (`None`). */
  datatype CardDefinition = CardDefinition(attendeeId: uint32, conventionId: uint32, signature: Option<string>,
                                           issuance: uint32, timestamp: uint64, expiration: uint64)

  const EMPTY_DEFINITION := CardDefinition(0, 0, None, 0, 0, 0)

  // ---------------------------------------------------------------- toStruct

  /** One pass of the `toStruct` loop: the record's value stored in its field, unknown ids
      skipped. The three numbers go through the 64-bit getter as written, which sign-extends a
      four-byte value; the issuance count is then cut to its 32-bit field. */
  function StoreTag(codec: Base64.Codec, def: CardDefinition, t: Tag): (r: CardDefinition)
    ensures !IsKnownId(t.id) ==> r == def
  {
    if t.id == ATTENDEE_CONVENTION_ID then
      var du := CppTagValueDualUInt(t);
      def.(attendeeId := du.first, conventionId := du.second)
    else if t.id == SIGNATURE then def.(signature := Some(codec.encode(t.data)))
    else if t.id == ISSUANCE then def.(issuance := Trunc32(CppTagValueULongAsWritten(t)))
    else if t.id == TIMESTAMP then def.(timestamp := CppTagValueULongAsWritten(t))
    else if t.id == EXPIRATION then def.(expiration := CppTagValueULongAsWritten(t))
    else def
  }

  /** Reference for `toStruct`: every field from the last record carrying it; zero, or a null
      signature, when there is none. */
  function LastWinsDefinition(codec: Base64.Codec, tags: seq<Tag>): (r: CardDefinition)
    ensures r.signature.None? <==> LastTag(tags, SIGNATURE).None?
  {
    var a, s, n := LastTag(tags, ATTENDEE_CONVENTION_ID), LastTag(tags, SIGNATURE), LastTag(tags, ISSUANCE);
    var ts, e := LastTag(tags, TIMESTAMP), LastTag(tags, EXPIRATION);
    CardDefinition(
      if a.Some? then CppTagValueDualUInt(a.value).first else 0,
      if a.Some? then CppTagValueDualUInt(a.value).second else 0,
      if s.Some? then Some(codec.encode(s.value.data)) else None,
      if n.Some? then Trunc32(CppTagValueULongAsWritten(n.value)) else 0,
      if ts.Some? then CppTagValueULongAsWritten(ts.value) else 0,
      if e.Some? then CppTagValueULongAsWritten(e.value) else 0)
  }

  /** Storing the last record into the reference definition of the others gives the reference
      definition of the whole list. */
  lemma StoreTagLastWins(codec: Base64.Codec, tags: seq<Tag>)
    requires |tags| > 0
    ensures StoreTag(codec, LastWinsDefinition(codec, tags[..|tags| - 1]), tags[|tags| - 1]) ==
            LastWinsDefinition(codec, tags)
  {
    LastTagStep(tags, ATTENDEE_CONVENTION_ID);
    LastTagStep(tags, SIGNATURE);
    LastTagStep(tags, ISSUANCE);
    LastTagStep(tags, TIMESTAMP);
    LastTagStep(tags, EXPIRATION);
  }

  /** `TagArray::toStruct`: never fails; each field holds the value of the last record that
      carries it, with the C++ getters' zero for a record of the wrong length. */
  function ToStruct(codec: Base64.Codec, tags: seq<Tag>): (d: CardDefinition)
    ensures d == LastWinsDefinition(codec, tags)
    decreases |tags|
  {
    if |tags| == 0 then EMPTY_DEFINITION
    else
      var d := StoreTag(codec, ToStruct(codec, tags[..|tags| - 1]), tags[|tags| - 1]);
      StoreTagLastWins(codec, tags);
      d
  }

  /** The sign extension of the as-written 4-byte getter cannot reach the issuance count: the
      32-bit field keeps only the low half, which is the big-endian value either way. */
  lemma IssuanceMasksSignExtension(t: Tag)
    ensures Trunc32(CppTagValueULongAsWritten(t)) == Trunc32(CppTagValueULong(t))
  {
    Pow256Values();
  }

  /** A four-byte timestamp with the top bit set lands sign-extended in the 64-bit field, and
      `toJSON` prints that value. */
  lemma ToStructSignExtends(codec: Base64.Codec)
    ensures ToStruct(codec, [Tag(TIMESTAMP, [0x80, 0, 0, 0])]).timestamp == 0xFFFF_FFFF_8000_0000
  {
    var t := Tag(TIMESTAMP, [0x80, 0, 0, 0]);
    var d := t.data;
    assert BeValue(d[..1]) == 0x80 by { assert d[..1][..0] == []; }
    assert BeValue(d[..2]) == 0x8000 by { assert d[..2][..1] == d[..1]; }
    assert BeValue(d[..3]) == 0x80_0000 by { assert d[..3][..2] == d[..2]; }
    assert BeValue(d) == 0x8000_0000 by { assert d[..|d| - 1] == d[..3]; }
    assert LastTag([t], TIMESTAMP) == Some(t);
  }

  // ---------------------------------------------------------------- toJSON

  /** One `if (field) sprintf(...)`: whether it appends, and the member it appends. */
  function Field(present: bool, key: string, value: string): (f: (bool, string))
    ensures f.0 == present && f.1 == Member(key, value) && |f.1| > 0
  {
    (present, Member(key, value))
  }

  /** The six `if (field) sprintf(...)` of `toJSON` in order: whether the field is set, and the
      member printed for it. The numbers are bare except the two timestamps, which are quoted
      like the signature. */
  function Fields(def: CardDefinition): (fs: seq<(bool, string)>)
    ensures |fs| == 6 && forall i :: 0 <= i < |fs| ==> |fs[i].1| > 0
    ensures fs[0].0 == (def.attendeeId != 0) && fs[1].0 == (def.conventionId != 0) && fs[3].0 == (def.issuance != 0)
    ensures fs[2].0 == (def.signature.Some? && def.signature.value != "")
    ensures fs[4].0 == (def.timestamp != 0) && fs[5].0 == (def.expiration != 0)
  {
    var sig := def.signature.Some? && def.signature.value != "";
    var fs := [Field(def.attendeeId != 0, "attendeeId", NatToString(def.attendeeId)),
               Field(def.conventionId != 0, "conventionId", NatToString(def.conventionId)),
               Field(sig, "signature", Quote(if sig then def.signature.value else "")),
               Field(def.issuance != 0, "issuance", NatToString(def.issuance)),
               Field(def.timestamp != 0, "timestamp", Quote(NatToString(def.timestamp))),
               Field(def.expiration != 0, "expiration", Quote(NatToString(def.expiration)))];
    fs
  }

  /** The members of the JSON text of a definition, in the order printed. */
  function Members(def: CardDefinition): (ms: seq<string>)
    ensures |ms| == 0 <==> (def.attendeeId == 0 && def.conventionId == 0 && def.issuance == 0 &&
                           def.timestamp == 0 && def.expiration == 0 &&
                           (def.signature.None? || def.signature.value == ""))
    ensures forall j :: 0 <= j < |ms| ==> |ms[j]| > 0
  {
    var fs := Fields(def);
    PrintedFields(fs);
    assert !fs[0].0 && !fs[1].0 && !fs[2].0 && !fs[3].0 && !fs[4].0 && !fs[5].0 ==>
           forall i :: 0 <= i < |fs| ==> !fs[i].0;
    Printed(fs)
  }

  /** `CardDefinition::toJSON`: the buffer grows one `"key":value,` at a time and the last
      comma is turned into the closing brace. The result is the object of `Members`, "{}" for a
      blank definition. */
  function ToJson(def: CardDefinition): (r: string)
    ensures r == JoinObject(Members(def))
    ensures r == "{}" <==> |Members(def)| == 0
  {
    CloseFields(def);
    BlankObject(Members(def));
    CppClose(Buffer("{", Fields(def)))
  }

  /** The object is "{}" exactly when it has no member, members being nonempty. */
  lemma BlankObject(ms: seq<string>)
    requires forall j :: 0 <= j < |ms| ==> |ms[j]| > 0
    ensures JoinObject(ms) == "{}" <==> |ms| == 0
  {
    if |ms| > 0 {
      assert |JoinObject(ms)| >= 3;
    }
  }

  /** Closing the buffer of the present fields gives the object of their members. */
  lemma CloseFields(def: CardDefinition)
    ensures CppClose(Buffer("{", Fields(def))) == JoinObject(Members(def))
  {
    BufferPrinted("{", Fields(def));
    CppCloseObject(Members(def));
  }

  // ---------------------------------------------------------------- toTagArray

  /** `CardDefinition::toTagArray`: the records of a fresh card. The signature text is decoded;
      a decoding failure is ignored. The model then takes an empty signature record; the source's
      length there is an uninitialised `output_len`, so its record is indeterminate. The source
      calls `strlen` on the signature, so a null signature is not allowed. */
  function ToTagArray(codec: Base64.Codec, def: CardDefinition): (r: seq<Tag>)
    requires def.signature.Some?
    ensures |r| == if def.expiration == 0 then 4 else 5
    ensures r[|r| - 1].id == SIGNATURE
    ensures codec.decode(def.signature.value).Some? ==> r[|r| - 1].data == codec.decode(def.signature.value).value
    ensures codec.decode(def.signature.value).None? ==> r[|r| - 1].data == []
  {
    var decoded := match codec.decode(def.signature.value) case Some(b) => b case None => [];
    CardTags(def.attendeeId, def.conventionId, def.issuance, def.timestamp, def.expiration, decoded)
  }

  /** Writing a definition's records and projecting them back gives the definition, when its
      signature is the text of some bytes. */
  lemma ToStructOfTagArray(codec: Base64.Codec, def: CardDefinition, signature: seq<uint8>)
    requires Base64.Sound(codec) && def.signature == Some(codec.encode(signature))
    ensures ToStruct(codec, ToTagArray(codec, def)) == def
  {
    CardTagsLast(def.attendeeId, def.conventionId, def.issuance, def.timestamp, def.expiration, signature);
    CppDecodersInvertConstructors(def.attendeeId, def.conventionId, def.issuance, def.timestamp);
    CppDecodersInvertConstructors(def.attendeeId, def.conventionId, def.issuance, def.expiration);
  }

  /** Projecting a fresh card and writing the projection gives the same records back. */
  lemma ToTagArrayOfStruct(codec: Base64.Codec, user: uint32, convention: uint32, count: uint32, issued: uint64,
                           expiration: uint64, signature: seq<uint8>)
    requires Base64.Sound(codec)
    ensures var tags := CardTags(user, convention, count, issued, expiration, signature);
            ToStruct(codec, tags).signature.Some? &&
            ToTagArray(codec, ToStruct(codec, tags)) == tags
  {
    CardTagsLast(user, convention, count, issued, expiration, signature);
    CppDecodersInvertConstructors(user, convention, count, issued);
    CppDecodersInvertConstructors(user, convention, count, expiration);
  }

  // ---------------------------------------------------------------- signature check

  /** The two failures of `Tag::ValidateSignatureStructure` (its `errorType`). */
  datatype SignatureError = NullSignature | DecodeFailed

  /** The decoder writes into a 256-byte buffer. */
  const SIGNATURE_CAPACITY: nat := 256

  /** `Tag::ValidateSignatureStructure`: a null signature is error 0; text that does not decode,
      or decodes to more than the buffer holds, is error 1. */
  function ValidateSignatureStructure(codec: Base64.Codec, signature: Option<string>): (r: Result<seq<uint8>, SignatureError>)
    ensures signature.None? <==> r == Err(NullSignature)
    ensures r.Ok? ==> codec.decode(signature.value) == Some(r.value) && |r.value| <= SIGNATURE_CAPACITY
  {
    if signature.None? then Err(NullSignature)
    else match codec.decode(signature.value)
      case None => Err(DecodeFailed)
      case Some(b) => if |b| > SIGNATURE_CAPACITY then Err(DecodeFailed) else Ok(b)
  }

  /** The text of a signature that fits the buffer is accepted with its bytes; a longer one is
      refused although it is well formed. */
  lemma ValidateEncodedSignature(codec: Base64.Codec, signature: seq<uint8>)
    requires Base64.Sound(codec)
    ensures |signature| <= SIGNATURE_CAPACITY ==>
              ValidateSignatureStructure(codec, Some(codec.encode(signature))) == Ok(signature)
    ensures |signature| > SIGNATURE_CAPACITY ==>
              ValidateSignatureStructure(codec, Some(codec.encode(signature))) == Err(DecodeFailed)
  {
  }
}

=== FILE: cpp_tag_io.dfy ===
/** The ESP32 reader and writer (`ConCatTag`): a page cache filled one page per read, a `uint8_t`
    byte cursor, `readTags` with its status code, and `writeTags`, which serialises into a
    1000-byte buffer and writes zero-padded 4-byte chunks from page 0x10. */
module CppTagIo {
  import opened Wrappers
  import opened Bytes
  import opened Tags
  import opened PageMemory
  import opened TagStream
  import opened ByteReaders

  /** Reader state: `tagMemory` and `bytePosition`. The cursor is a `uint8_t`, so it wraps after
      256 bytes and the reader never leaves pages 0x10 .. 0x4F. */
  datatype CppReader = CppReader(cache: map<nat, Page>, pos: uint8)

  const CPP_FRESH := CppReader(map[], 0)

  /** `readPage`: a cached page is returned as is; otherwise one page is read and cached only if
      the read succeeds. The transport copies 4 bytes out of its response, so a read that
      returns fewer counts as a failure. */
  function CppReadPage(src: PageSource, cache: map<nat, Page>, addr: nat): (r: Option<(Page, map<nat, Page>)>)
    ensures addr in cache ==> r == Some((cache[addr], cache))
    ensures addr !in cache ==>
              (r.Some? <==> src(addr).Some? && |src(addr).value| >= 4) &&
              (r.Some? ==> r.value == (src(addr).value[..4], cache[addr := src(addr).value[..4]]))
  {
    if addr in cache then Some((cache[addr], cache))
    else match src(addr)
      case None => None
      case Some(d) =>
        if |d| < 4 then None
        else
          var p: Page := d[..4];
          Some((p, cache[addr := p]))
  }

  /** `readByte`: byte `pos mod 4` of page 0x10 + pos / 4, and the cursor moves on modulo 256.
      A failed page read returns status 1 and leaves the whole state as it was; the model
      carries that state in the error. */
  function CppReadByte(src: PageSource, st: CppReader): (r: Result<(uint8, CppReader), CppReader>)
    ensures r.Err? ==> r.error == st
    ensures r.Ok? ==> r.value.1.pos == (st.pos + 1) % 256
    ensures r.Ok? ==> var p := START_PAGE + st.pos / 4;
                      p <= 0x4F && p in r.value.1.cache && r.value.0 == r.value.1.cache[p][st.pos % 4]
    ensures r.Ok? ==> forall p :: p in st.cache ==> p in r.value.1.cache && r.value.1.cache[p] == st.cache[p]
  {
    match CppReadPage(src, st.cache, START_PAGE + st.pos / 4)
    case None => Err(st)
    case Some(v) => Ok((v.0[st.pos % 4], CppReader(v.1, (st.pos + 1) % 256)))
  }

  function CppByteReader(src: PageSource): (rb: ByteReader<CppReader, CppReader>)
    ensures forall st :: rb(st) == CppReadByte(src, st)
  {
    (st: CppReader) => CppReadByte(src, st)
  }

  /** A reader whose every successful step moves the cursor on by one, modulo 256. */
  ghost predicate StepsCursor(rb: ByteReader<CppReader, CppReader>) {
    forall st :: rb(st).Ok? ==> rb(st).value.1.pos == (st.pos + 1) % 256
  }

  /** The cursor after n bytes read successfully is n positions on, modulo 256: a read of more
      than 256 bytes comes back to where it started. */
  lemma {:induction false} ReadNPosition(rb: ByteReader<CppReader, CppReader>, st: CppReader, n: nat)
    requires StepsCursor(rb) && ReadN(rb, st, n).Ok?
    ensures ReadN(rb, st, n).value.1.pos == (st.pos + n) % 256
    decreases n
  {
    if n > 0 {
      var st1 := rb(st).value.1;
      assert st1.pos == (st.pos + 1) % 256;
      assert ReadN(rb, st, n).value.1 == ReadN(rb, st1, n - 1).value.1;
      ReadNPosition(rb, st1, n - 1);
      WrapAdd(st.pos + 1, n - 1);
    }
  }

  /** Wrapping once before adding wraps to the same place. */
  lemma WrapAdd(a: nat, b: nat)
    ensures (a % 256 + b) % 256 == (a + b) % 256
  {
  }

  lemma CppByteReaderStepsCursor(src: PageSource)
    ensures StepsCursor(CppByteReader(src))
  {
  }

  /** `TagArrayStatus` and the reader state after `readTags`. */
  datatype CppOutcome = CppOutcome(tags: seq<Tag>, status: uint8, reader: CppReader)

  /** A record in front of the outcome of the rest of the loop: an error status returns an
      empty array, whatever was read before it. */
  function CppPrepend(t: Tag, r: Option<CppOutcome>): (r': Option<CppOutcome>)
    ensures r'.Some? <==> r.Some?
    ensures r.Some? && r.value.status != 0 ==> r' == r
    ensures r.Some? && r.value.status == 0 ==> r' == Some(r.value.(tags := [t] + r.value.tags))
  {
    match r
    case None => None
    case Some(o) => if o.status != 0 then r else Some(o.(tags := [t] + o.tags))
  }

  /** The `readTags` loop over a byte reader whose errors carry the state. A failed id or length
      read returns status 1 and no records; a zero id ends the array with status 0; a failed
      payload read (`readBytes` returning a null array) is not checked, so the record is kept
      with an empty payload and the loop goes on from where the failure left the cursor. `None`
      is where the model stops a loop that never reaches a zero id. */
  function CppReadTagsWith(rb: ByteReader<CppReader, CppReader>, st: CppReader, fuel: nat): (r: Option<CppOutcome>)
    ensures r.Some? && r.value.status != 0 ==> r.value.status == 1 && r.value.tags == []
    ensures r.Some? ==> forall i :: 0 <= i < |r.value.tags| ==> r.value.tags[i].id != 0
    ensures fuel == 0 ==> r.None?
    decreases fuel
  {
    if fuel == 0 then None
    else match rb(st)
      case Err(e) => Some(CppOutcome([], 1, e))
      case Ok(v1) =>
        if v1.0 == 0 then Some(CppOutcome([], 0, v1.1))
        else match rb(v1.1)
          case Err(e) => Some(CppOutcome([], 1, e))
          case Ok(v2) =>
            match ReadN(rb, v2.1, v2.0)
            case Err(e) => CppPrepend(Tag(v1.0, []), CppReadTagsWith(rb, e, fuel - 1))
            case Ok(v3) => CppPrepend(Tag(v1.0, v3.0), CppReadTagsWith(rb, v3.1, fuel - 1))
  }

  /** `readTags`: the cursor goes back to 0, the cache stays. */
  function CppReadTags(src: PageSource, st: CppReader, fuel: nat): (r: Option<CppOutcome>)
    ensures r.Some? && r.value.status != 0 ==> r.value.status == 1 && r.value.tags == []
    ensures r.Some? ==> forall i :: 0 <= i < |r.value.tags| ==> r.value.tags[i].id != 0
  {
    CppReadTagsWith(CppByteReader(src), st.(pos := 0), fuel)
  }

  /** Where an earlier read left the cursor makes no difference: `readTags` starts from byte 0. */
  lemma CppReadTagsRestarts(src: PageSource, st: CppReader, pos: uint8, fuel: nat)
    ensures CppReadTags(src, st, fuel) == CppReadTags(src, st.(pos := pos), fuel)
  {
  }

  // ---------------------------------------------------------------- the unchecked payload read

  /** A reader that fails in place: a failed step leaves the state where it was, so the same
      step fails again. `readByte` over a `PageSource` is one, because a page source answers
      each page the same way every time; a card whose page read fails once and then succeeds
      is outside this model. */
  ghost predicate FailsInPlace(rb: ByteReader<CppReader, CppReader>) {
    forall st :: rb(st).Err? ==> rb(st).error == st
  }

  lemma CppByteReaderFailsInPlace(src: PageSource)
    ensures FailsInPlace(CppByteReader(src))
  {
  }

  /** When a reader fails in place, the state a failed multi-byte read stops at fails again. */
  lemma {:induction false} ReadNFailsAgain(rb: ByteReader<CppReader, CppReader>, st: CppReader, n: nat)
    requires FailsInPlace(rb)
    ensures ReadN(rb, st, n).Err? ==> rb(ReadN(rb, st, n).error).Err?
    decreases n
  {
    if n > 0 && rb(st).Ok? {
      ReadNFailsAgain(rb, rb(st).value.1, n - 1);
    }
  }

  /** Reference loop that checks the payload read like the id and length reads. */
  function CppReadTagsChecked(rb: ByteReader<CppReader, CppReader>, st: CppReader, fuel: nat): (r: Option<CppOutcome>)
    ensures r.Some? && r.value.status != 0 ==> r.value.tags == []
    decreases fuel
  {
    if fuel == 0 then None
    else match rb(st)
      case Err(e) => Some(CppOutcome([], 1, e))
      case Ok(v1) =>
        if v1.0 == 0 then Some(CppOutcome([], 0, v1.1))
        else match rb(v1.1)
          case Err(e) => Some(CppOutcome([], 1, e))
          case Ok(v2) =>
            match ReadN(rb, v2.1, v2.0)
            case Err(e) => Some(CppOutcome([], 1, e))
            case Ok(v3) => CppPrepend(Tag(v1.0, v3.0), CppReadTagsChecked(rb, v3.1, fuel - 1))
  }

  /** Over a reader that fails in place, the missing payload check changes nothing: the loop
      goes on at the failed position, the next id read fails there too, and the whole read ends
      with status 1 and no records, as the checked loop does at once. The unchecked loop needs
      one more pass for that. A reader whose failures are transient does not fail in place, and
      for it the unchecked loop can go on reading payload bytes as record ids. */
  lemma {:induction false} CppUncheckedPayloadAgrees(rb: ByteReader<CppReader, CppReader>, st: CppReader, fuel: nat)
    requires FailsInPlace(rb)
    ensures CppReadTagsChecked(rb, st, fuel).Some? ==>
              CppReadTagsWith(rb, st, fuel + 1) == CppReadTagsChecked(rb, st, fuel)
    decreases fuel
  {
    if fuel > 0 && rb(st).Ok? && rb(st).value.0 != 0 {
      var st1 := rb(st).value.1;
      if rb(st1).Ok? {
        var v2 := rb(st1).value;
        var rd := ReadN(rb, v2.1, v2.0);
        if rd.Err? {
          ReadNFailsAgain(rb, v2.1, v2.0);
          assert CppReadTagsWith(rb, rd.error, fuel) == Some(CppOutcome([], 1, rd.error));
        } else {
          CppUncheckedPayloadAgrees(rb, rd.value.1, fuel - 1);
        }
      }
    }
  }

  // ---------------------------------------------------------------- reading a card

  /** Every cached page is the card's page. */
  ghost predicate CppConsistent(cache: map<nat, Page>, mem: Memory) {
    forall p :: p in cache ==> p in mem && cache[p] == mem[p]
  }

  lemma CppReadByteFromMemory(src: PageSource, mem: Memory, st: CppReader)
    requires Faithful(src, mem) && CppConsistent(st.cache, mem)
    requires ByteAt(mem, st.pos).Some?
    ensures var r := CppReadByte(src, st);
            r.Ok? && r.value.0 == ByteAt(mem, st.pos).value && r.value.1.pos == (st.pos + 1) % 256 &&
            CppConsistent(r.value.1.cache, mem)
  {
    var addr := START_PAGE + st.pos / 4;
    if addr !in st.cache {
      var d := src(addr).value;
      assert PageAt(mem, addr, 0) == Some(Chunk(d, 0));
    }
  }

  /** Reading a card through a faithful cache, without the cursor wrapping, yields the bytes the
      tag area holds. */
  lemma {:induction false} CppReadsHeld(src: PageSource, mem: Memory, st: CppReader, s: seq<uint8>)
    requires Faithful(src, mem) && CppConsistent(st.cache, mem)
    requires Holds(mem, st.pos, s) && st.pos + |s| <= 256
    ensures ReadN(CppByteReader(src), st, |s|).Ok?
    ensures Yields(CppByteReader(src), st, s, ReadN(CppByteReader(src), st, |s|).value.1)
    decreases |s|
  {
    if |s| > 0 {
      var rb := CppByteReader(src);
      assert ByteAt(mem, st.pos + 0) == Some(s[0]);
      CppReadByteFromMemory(src, mem, st);
      var st1 := rb(st).value.1;
      HoldsSuffix(mem, st.pos, s, 1);
      if |s| > 1 {
        assert st1.pos == st.pos + 1;
      }
      CppReadsHeld(src, mem, st1, s[1..]);
      YieldsCons(rb, st, s[0], st1, s[1..], ReadN(rb, st1, |s| - 1).value.1);
      assert [s[0]] + s[1..] == s;
    }
  }

  /** One pass of the loop over a reader that yields a record and then `tail`. */
  lemma CppReadRecord(rb: ByteReader<CppReader, CppReader>, st: CppReader, t: Tag, tail: seq<uint8>,
                      st': CppReader, fuel: nat) returns (st3: CppReader)
    requires t.id != 0 && |t.data| <= 255 && fuel > 0
    requires Yields(rb, st, EncodeTag(t) + tail, st')
    ensures Yields(rb, st3, tail, st')
    ensures CppReadTagsWith(rb, st, fuel) == CppPrepend(t, CppReadTagsWith(rb, st3, fuel - 1))
  {
    var s := EncodeTag(t) + tail;
    YieldsUncons(rb, st, s, st');
    var st1 := rb(st).value.1;
    YieldsUncons(rb, st1, s[1..], st');
    var st2 := rb(st1).value.1;
    assert s[1..][1..] == t.data + tail;
    ReadNSplit(rb, st2, t.data + tail, st', |t.data|);
    assert (t.data + tail)[..|t.data|] == t.data && (t.data + tail)[|t.data|..] == tail;
    st3 := ReadN(rb, st2, |t.data|).value.1;
  }

  /** The loop over any reader that yields writable records and a zero byte returns those
      records with status 0, and stops right after the zero byte. */
  lemma {:induction false} CppReadTagsOfStream(rb: ByteReader<CppReader, CppReader>, st: CppReader,
                                               tags: seq<Tag>, st': CppReader, fuel: nat)
    requires Writable(tags) && fuel > |tags|
    requires Yields(rb, st, Encode(tags) + [0], st')
    ensures CppReadTagsWith(rb, st, fuel) == Some(CppOutcome(tags, 0, st'))
    decreases |tags|
  {
    var s := Encode(tags) + [0];
    if |tags| == 0 {
      assert s == [0];
      YieldsUncons(rb, st, s, st');
    } else {
      var tail := Encode(tags[1..]) + [0];
      assert s == EncodeTag(tags[0]) + tail;
      assert Writable(tags[1..]) by {
        assert forall i :: 0 <= i < |tags[1..]| ==> tags[1..][i] == tags[i + 1];
      }
      var st3 := CppReadRecord(rb, st, tags[0], tail, st', fuel);
      CppReadTagsOfStream(rb, st3, tags[1..], st', fuel - 1);
      assert [tags[0]] + tags[1..] == tags;
    }
  }

  /** `readTags` on a card whose tag area holds writable records and a zero byte within the
      256 bytes the cursor reaches returns exactly those records with status 0, whatever
      faithful pages are already cached. */
  lemma CppReadTagsFromMemory(src: PageSource, mem: Memory, st: CppReader, tags: seq<Tag>, fuel: nat)
    requires Faithful(src, mem) && CppConsistent(st.cache, mem)
    requires Writable(tags) && fuel > |tags|
    requires Holds(mem, 0, Encode(tags) + [0]) && |Encode(tags)| < 256
    ensures var r := CppReadTags(src, st, fuel);
            r.Some? && r.value.tags == tags && r.value.status == 0
  {
    var st0 := st.(pos := 0);
    var s := Encode(tags) + [0];
    CppReadsHeld(src, mem, st0, s);
    var rb := CppByteReader(src);
    CppReadTagsOfStream(rb, st0, tags, ReadN(rb, st0, |s|).value.1, fuel);
  }

  // ---------------------------------------------------------------- lock probe and reset

  /** `checkIfLocked`: true when page 0x10 can be read. */
  function CheckIfLocked(src: PageSource): (r: bool)
  {
    src(START_PAGE).Some? && |src(START_PAGE).value| >= 4
  }

  /** The probe answers whether the first byte of the tag area can be read from a fresh
      reader. */
  lemma CheckIfLockedIsFirstRead(src: PageSource)
    ensures CheckIfLocked(src) <==> CppReadByte(src, CPP_FRESH).Ok?
  {
  }

  /** `reset`: the cache and the cursor are cleared whatever the card reset reports, and the
      result is that report. */
  function Reset(st: CppReader, cardReset: bool): (r: (bool, CppReader))
    ensures r.0 == cardReset && r.1.pos == 0 && |r.1.cache| == 0
  {
    (cardReset, CPP_FRESH)
  }

  /** After a reset the reader sees the card in front of it, whatever pages of an earlier card
      the cache held. */
  lemma ResetThenRead(src: PageSource, mem: Memory, st: CppReader, cardReset: bool, tags: seq<Tag>, fuel: nat)
    requires Faithful(src, mem)
    requires Writable(tags) && fuel > |tags|
    requires Holds(mem, 0, Encode(tags) + [0]) && |Encode(tags)| < 256
    ensures var r := CppReadTags(src, Reset(st, cardReset).1, fuel);
            r.Some? && r.value.tags == tags && r.value.status == 0
  {
    CppReadTagsFromMemory(src, mem, Reset(st, cardReset).1, tags, fuel);
  }

  // ---------------------------------------------------------------- writing

  /** The size of the `writeTags` buffer check. */
  const WRITE_LIMIT: nat := 1000

  /** The payload loop of `writeTags`: each byte is stored and the position checked against the
      limit. */
  function CppAppendPayload(acc: seq<uint8>, d: seq<uint8>): (r: Option<seq<uint8>>)
    requires |acc| <= WRITE_LIMIT
    ensures r.Some? ==> r.value == acc + d && |r.value| <= WRITE_LIMIT
    ensures |acc| + |d| < WRITE_LIMIT ==> r.Some?
    ensures |d| > 0 && |acc| + |d| >= WRITE_LIMIT ==> r.None?
    decreases |d|
  {
    if |d| == 0 then Some(acc)
    else
      var acc' := acc + [d[0]];
      if |acc'| >= WRITE_LIMIT then None
      else
        var r := CppAppendPayload(acc', d[1..]);
        assert acc' + d[1..] == acc + d;
        r
  }

  /** The serialising loop of `writeTags`: the id is stored and the position checked, the
      length is stored as a byte without a check, then the payload. */
  function CppSerialiseFrom(acc: seq<uint8>, tags: seq<Tag>): (r: Option<seq<uint8>>)
    requires |acc| <= WRITE_LIMIT
    ensures r.Some? ==> r.value == acc + Encode(tags) && |r.value| <= WRITE_LIMIT
    ensures |acc| + |Encode(tags)| < WRITE_LIMIT ==> r.Some?
    ensures |acc| + |Encode(tags)| > WRITE_LIMIT ==> r.None?
    decreases |tags|
  {
    if |tags| == 0 then Some(acc)
    else
      var t := tags[0];
      var a1 := acc + [t.id];
      if |a1| >= WRITE_LIMIT then None
      else
        EncodeCons(tags);
        var a2 := a1 + [Trunc8(|t.data|)];
        match CppAppendPayload(a2, t.data)
        case None => None
        case Some(a3) =>
          SerialiseStep(acc, tags, a3);
          CppSerialiseFrom(a3, tags[1..])
  }

  /** After the first record's bytes the rest of the stream is what remains to be stored. */
  lemma SerialiseStep(acc: seq<uint8>, tags: seq<Tag>, a3: seq<uint8>)
    requires |tags| > 0
    requires a3 == acc + [tags[0].id] + [Trunc8(|tags[0].data|)] + tags[0].data
    ensures |a3| == |acc| + |EncodeTag(tags[0])|
    ensures a3 + Encode(tags[1..]) == acc + Encode(tags)
  {
    var e := EncodeTag(tags[0]);
    assert a3 == acc + e;
    EncodeCons(tags);
  }

  function CppSerialise(tags: seq<Tag>): (r: Option<seq<uint8>>)
    ensures r.Some? ==> r.value == Encode(tags)
    ensures |Encode(tags)| < WRITE_LIMIT ==> r.Some?
    ensures |Encode(tags)| > WRITE_LIMIT ==> r.None?
  {
    CppSerialiseFrom([], tags)
  }

  /** Serialising two runs of records is serialising the first and then the second from
      where the first ended. */
  lemma {:induction false} CppSerialiseAppend(acc: seq<uint8>, a: seq<Tag>, b: seq<Tag>)
    requires |acc| <= WRITE_LIMIT
    ensures CppSerialiseFrom(acc, a + b) ==
              match CppSerialiseFrom(acc, a)
              case None => None
              case Some(x) => CppSerialiseFrom(x, b)
    decreases |a|
  {
    if |a| == 0 {
      assert a + b == b;
    } else {
      assert (a + b)[0] == a[0] && (a + b)[1..] == a[1..] + b;
      var t := a[0];
      var a1 := acc + [t.id];
      if |a1| < WRITE_LIMIT {
        var a2 := a1 + [Trunc8(|t.data|)];
        if CppAppendPayload(a2, t.data).Some? {
          CppSerialiseAppend(CppAppendPayload(a2, t.data).value, a[1..], b);
        }
      }
    }
  }

  /** The length byte is not checked against the limit, so a stream of exactly 1000 bytes goes
      through if and only if its last record has an empty payload. */
  lemma CppSerialiseAtLimit(tags: seq<Tag>)
    requires |tags| > 0 && |Encode(tags)| == WRITE_LIMIT
    ensures CppSerialise(tags).Some? <==> |tags[|tags| - 1].data| == 0
  {
    var init := tags[..|tags| - 1];
    var last := tags[|tags| - 1];
    assert tags == init + [last];
    EncodeAppend(init, [last]);
    EncodeCons([last]);
    assert Encode([last]) == EncodeTag(last);
    CppSerialiseAppend([], init, [last]);
    var x := Encode(init);
    assert |x| < WRITE_LIMIT && [] + x == x;
    assert CppSerialiseFrom([], init) == Some(x);
    assert [last][1..] == [];
  }

  /** The chunk loop of `writeTags`: up to 4 bytes at a time into a zeroed chunk, written to
      page 0x10 upward (a `uint8_t` counter), stopping at the first failed write. */
  method CppWritePages(s: seq<uint8>, write: (uint8, Page) -> bool) returns (ok: bool, ws: seq<PageWrite>)
    ensures PlanOutcome(s, write, ok, ws)
  {
    ws := [];
    var written, n := 0, 0;
    while written < |s|
      invariant 0 <= written <= |s| && n == |ws|
      invariant written == 4 * n
      invariant n <= |PagePlan(s)| && ws == PagePlan(s)[..n]
      invariant forall k :: 0 <= k < n ==> write(ws[k].page, ws[k].data)
    {
      var start := written;
      var p, k := CppFillChunk(s, start);
      written := start + k;
      var page: uint8 := (START_PAGE + n) % 256;
      if k == 4 {
        PlanExtend(s, n);
        assert p == Chunk(s, n);
        ws := ws + [PageWrite(page, p)];
        n := n + 1;
        if !write(page, p) {
          PlanRejected(s, write, ws);
          return false, ws;
        }
      } else {
        // a partial chunk is the last one: the loop ends after its write
        assert s[start..start + k] == s[4 * n..];
        PlanLastOutcome(s, write, ws, p);
        ws := ws + [PageWrite(page, p)];
        return write(page, p), ws;
      }
    }
    assert ws == PagePlan(s);
    PlanAccepted(s, write, ws);
    ok := true;
  }

  /** The inner loop of `writeTags`: up to four bytes of the stream from `start` copied into a
      zeroed page. */
  method CppFillChunk(s: seq<uint8>, start: nat) returns (p: Page, k: nat)
    requires start < |s|
    ensures 0 < k <= 4 && start + k <= |s| && (k < 4 ==> start + k == |s|)
    ensures p == s[start..start + k] + Zeros(4 - k)
  {
    var chunk: seq<uint8> := [0, 0, 0, 0];
    var written := start;
    k := 0;
    while k < 4 && written < |s|
      invariant 0 <= k <= 4 && written == start + k <= |s|
      invariant |chunk| == 4 && chunk == s[start..written] + Zeros(4 - k)
    {
      chunk := chunk[k := s[written]];
      written := written + 1;
      k := k + 1;
    }
    p := chunk;
  }

  /** `writeTags`: a stream the buffer check refuses writes nothing; otherwise its pages are
      written in order. */
  method CppWriteTags(tags: seq<Tag>, write: (uint8, Page) -> bool) returns (ok: bool, ws: seq<PageWrite>)
    ensures CppSerialise(tags).None? ==> !ok && ws == []
    ensures CppSerialise(tags).Some? ==> PlanOutcome(Encode(tags), write, ok, ws)
  {
    match CppSerialise(tags)
    case None =>
      return false, [];
    case Some(s) =>
      ok, ws := CppWritePages(s, write);
  }
}

=== FILE: decimal.dfy ===
/** Decimal text of unsigned numbers: Kotlin `toString`, C `%lu` / `%llu` and Kotlin
    `String.toUInt`. */
module Decimal {
  import opened Wrappers
  import opened Bytes

  predicate IsDigit(c: char) {
    '0' <= c <= '9'
  }

  function DigitChar(d: nat): (c: char)
    requires d < 10
    ensures IsDigit(c) && c as int - '0' as int == d
  {
    ('0' as int + d) as char
  }

  /** The shortest decimal text of `n`. */
  function NatToString(n: nat): (s: string)
    ensures |s| > 0 && forall i :: 0 <= i < |s| ==> IsDigit(s[i])
    ensures |s| > 1 ==> s[0] != '0'
    decreases n
  {
    if n < 10 then [DigitChar(n)] else NatToString(n / 10) + [DigitChar(n % 10)]
  }

  /** The value of a nonempty run of digits (leading zeros allowed), or nothing. */
  function ParseNat(s: string): (r: Option<nat>)
    ensures r.Some? <==> |s| > 0 && forall i :: 0 <= i < |s| ==> IsDigit(s[i])
    decreases |s|
  {
    if |s| == 0 || !IsDigit(s[|s| - 1]) then None
    else
      var d := s[|s| - 1] as int - '0' as int;
      if |s| == 1 then Some(d)
      else match ParseNat(s[..|s| - 1])
        case None => None
        case Some(v) => Some(10 * v + d)
  }

  /** Decimal text reads back as the number it was printed from. */
  lemma {:induction false} ParseNatToString(n: nat)
    ensures ParseNat(NatToString(n)) == Some(n)
    decreases n
  {
    if n >= 10 {
      var s := NatToString(n);
      assert s[..|s| - 1] == NatToString(n / 10);
      ParseNatToString(n / 10);
    }
  }

  /** Printing is injective: different numbers have different text. */
  lemma NatToStringInjective(a: nat, b: nat)
    requires NatToString(a) == NatToString(b)
    ensures a == b
  {
    ParseNatToString(a);
    ParseNatToString(b);
  }

  /** Kotlin `String.toUInt()`: an optional leading '+', then decimal digits, and a value that
      fits 32 bits; anything else throws `NumberFormatException` (here: nothing). Only the ASCII
      digits '0' to '9' are modelled; the JVM also reads other Unicode decimal digits. */
  function KtToUInt(s: string): (r: Option<uint32>)
    ensures r.Some? ==> |s| > 0 && (IsDigit(s[0]) || s[0] == '+')
    ensures r.Some? && IsDigit(s[0]) ==> ParseNat(s) == Some(r.value)
    ensures r.Some? && s[0] == '+' ==> ParseNat(s[1..]) == Some(r.value)
    ensures |s| > 0 && IsDigit(s[0]) ==> (r.Some? <==> ParseNat(s).Some? && ParseNat(s).value < TWO_TO_32)
    ensures |s| > 0 && s[0] == '+' ==> (r.Some? <==> ParseNat(s[1..]).Some? && ParseNat(s[1..]).value < TWO_TO_32)
  {
    var digits := if |s| > 0 && s[0] == '+' then s[1..] else s;
    match ParseNat(digits)
    case None => None
    case Some(v) => if v < TWO_TO_32 then Some(v) else None
  }

  /** `toUInt` reads back every 32-bit number printed in decimal. */
  lemma KtToUIntOfString(n: uint32)
    ensures KtToUInt(NatToString(n)) == Some(n)
  {
    ParseNatToString(n);
  }

  /** Text that starts with neither an ASCII digit nor a sign is refused. */
  lemma KtToUIntRejectsText(s: string)
    requires |s| > 0 && !IsDigit(s[0]) && s[0] != '+'
    ensures KtToUInt(s) == None
  {
  }
}

=== FILE: esp_operations.dfy ===
// The two operations the ESP32 firmware offers over a card in front of the reader: writing a
// badge and reading one back. Both run the same guard first: the UID the reader sees must be the
// expected one, the card must be an NTAG21x, and a given password must unlock it.

module EspOperations {
  import opened Wrappers
  import opened Bytes
  import opened Tags
  import opened PageMemory
  import opened TagStream
  import opened CppTagIo
  import opened Pn532Frames
  import RoundTrip
  import CppCard
  import Base64

  /** `returnData`: the cleared structure has `success` false, a null message and ESP_OK, which
      are `false`, `None` and `None` here. */
  datatype ReturnData = ReturnData(success: bool, message: Option<string>, errorCode: Option<EspError>)

  /** A refusal that carries only a message. */
  function Failure(message: string): (r: ReturnData)
    ensures !r.success && r.message == Some(message) && r.errorCode.None?
  {
    ReturnData(false, Some(message), None)
  }

  const UUID_MISMATCH: string := "UUID mismatch"
  const NOT_NTAG: string := "Only NXP NTAG21x supports password"
  const UNLOCK_FAILED: string := "Unlock failed"
  const WRITE_FAILED: string := "oh shit, failed to write :("
  const READ_FAILED: string := "Failed to read tags"

  /** The card as the two operations see it through the reader: the UID that
      `pn532_read_passive_target_id` reports (or its error), whether `IsTagModelValid` holds,
      which passwords `unlockTag` accepts, the pages `readPage` returns, which page writes the
      card accepts, and what resetting the card reports. */
  datatype Card = Card(uid: Result<seq<uint8>, EspError>, modelValid: bool, unlock: uint32 -> bool,
                       pages: PageSource, write: (uint8, Page) -> bool, cardReset: bool)

  /** The calls the operations make on the card, in order. */
  datatype Op = GetUid | CheckModel | Unlock(password: uint32) | WriteTags | ReadTags | ResetReader

  /** `memcmp` over `uidLength` bytes after the lengths were compared. */
  predicate UidMatches(expected: seq<uint8>, uid: seq<uint8>) {
    |expected| == |uid| && forall i :: 0 <= i < |uid| ==> expected[i] == uid[i]
  }

  /** The byte comparison of the UIDs is equality of the two byte strings. */
  lemma UidMatchesIsEquality(expected: seq<uint8>, uid: seq<uint8>)
    ensures UidMatches(expected, uid) <==> expected == uid
  {
  }

  /** The calls of a guard that lets the operation through, in order. */
  function GuardCalls(password: Option<uint32>): (ops: seq<Op>)
    ensures |ops| == if password.Some? then 3 else 2
  {
    [GetUid, CheckModel] + if password.Some? then [Unlock(password.value)] else []
  }

  /** The guard's verdict: the operation goes on, or returns `ret` at once. */
  datatype Gate = Admit(ops: seq<Op>) | Refuse(ret: ReturnData, ops: seq<Op>)

  /** Whether the card passes all three checks. */
  predicate Admitted(card: Card, expected: seq<uint8>, password: Option<uint32>) {
    card.uid == Ok(expected) && card.modelValid && (password.Some? ==> card.unlock(password.value))
  }

  /** The checks both operations run before touching the tag area. A reader error is returned
      as the error code; a foreign UID, a card that is not an NTAG21x and a refused password
      each return their message. Each check runs only when the ones before it passed, so the
      calls made are a prefix of the full list, and a refusal is never a success. */
  function Guard(card: Card, expected: seq<uint8>, password: Option<uint32>): (g: Gate)
    ensures g.Admit? <==> Admitted(card, expected, password)
    ensures g.Admit? ==> g.ops == GuardCalls(password)
    ensures g.Refuse? ==> !g.ret.success && 0 < |g.ops| <= |GuardCalls(password)| && g.ops == GuardCalls(password)[..|g.ops|]
    ensures g.Refuse? ==> (g.ret.errorCode.Some? <==> card.uid.Err?)
    ensures WriteTags !in g.ops && ReadTags !in g.ops && ResetReader !in g.ops
    ensures card.uid.Err? ==> g == Refuse(ReturnData(false, None, Some(card.uid.error)), [GetUid])
    ensures card.uid.Ok? && !UidMatches(expected, card.uid.value) ==> g == Refuse(Failure(UUID_MISMATCH), [GetUid])
  {
    match card.uid
    case Err(e) => Refuse(ReturnData(false, None, Some(e)), [GetUid])
    case Ok(uid) =>
      UidMatchesIsEquality(expected, uid);
      if !UidMatches(expected, uid) then Refuse(Failure(UUID_MISMATCH), [GetUid])
      else if !card.modelValid then Refuse(Failure(NOT_NTAG), [GetUid, CheckModel])
      else if password.Some? && !card.unlock(password.value) then
        Refuse(Failure(UNLOCK_FAILED), [GetUid, CheckModel, Unlock(password.value)])
      else Admit(GuardCalls(password))
  }

  /** Each check of the guard is reached only when every check before it passed: the model is
      asked about only a card with the expected UID, and unlocking is tried only on an NTAG21x.
      A refusal names the first check that failed. */
  lemma GuardOrder(card: Card, expected: seq<uint8>, password: Option<uint32>)
    ensures var g := Guard(card, expected, password);
            (CheckModel in g.ops ==> card.uid == Ok(expected)) &&
            (forall p: uint32 :: Unlock(p) in g.ops ==> card.uid == Ok(expected) && card.modelValid && password == Some(p)) &&
            (g == Refuse(Failure(NOT_NTAG), [GetUid, CheckModel]) <==> card.uid == Ok(expected) && !card.modelValid) &&
            (g.Refuse? && g.ret.message == Some(UNLOCK_FAILED) <==>
               card.uid == Ok(expected) && card.modelValid && password.Some? && !card.unlock(password.value))
  {
    var g := Guard(card, expected, password);
    if card.uid.Ok? {
      UidMatchesIsEquality(expected, card.uid.value);
    }
    if CheckModel in g.ops {
      assert g.ops[0] == GetUid;
    }
  }

  /** The message of a badge: the JSON object of the definition the records project to. */
  function BadgeJson(codec: Base64.Codec, tags: seq<Tag>): (r: string)
    ensures r == CppCard.ToJson(CppCard.LastWinsDefinition(codec, tags))
  {
    CppCard.ToJson(CppCard.ToStruct(codec, tags))
  }

  // ---------------------------------------------------------------- write_on_card

  /** `write_on_card`: after the guard, the records are written. A success returns the badge's
      JSON; a stream the buffer check refuses writes nothing and fails; otherwise the pages of
      the stream are written in order, success meaning every one was accepted. Nothing is
      written when the guard refuses. */
  method WriteOnCard(codec: Base64.Codec, tagsNew: seq<Tag>, card: Card, expected: seq<uint8>, password: Option<uint32>)
    returns (ret: ReturnData, ops: seq<Op>, ws: seq<PageWrite>)
    ensures var g := Guard(card, expected, password);
            g.Refuse? ==> ret == g.ret && ops == g.ops && ws == []
    ensures var g := Guard(card, expected, password);
            g.Admit? ==> ops == GuardCalls(password) + [WriteTags]
    ensures WriteTags in ops ==> Admitted(card, expected, password)
    ensures Admitted(card, expected, password) && CppSerialise(tagsNew).None? ==> ret == Failure(WRITE_FAILED) && ws == []
    ensures Admitted(card, expected, password) && CppSerialise(tagsNew).Some? ==>
              PlanOutcome(Encode(tagsNew), card.write, ret.success, ws)
    ensures ret.success ==> ret == ReturnData(true, Some(BadgeJson(codec, tagsNew)), None)
    ensures Admitted(card, expected, password) && !ret.success ==> ret == Failure(WRITE_FAILED)
  {
    var g := Guard(card, expected, password);
    if g.Refuse? {
      return g.ret, g.ops, [];
    }
    ops := g.ops + [WriteTags];
    var ok;
    ok, ws := CppWriteTags(tagsNew, card.write);
    if !ok {
      return Failure(WRITE_FAILED), ops, ws;
    }
    ret := ReturnData(true, Some(BadgeJson(codec, tagsNew)), None);
  }

  // ---------------------------------------------------------------- read_tag_data

  /** What `read_tag_data` leaves: the returned structure, the calls made, the `ConCatTag`
      reader state, and the definition the caller passed by reference. */
  datatype ReadOutcome = ReadOutcome(ret: ReturnData, ops: seq<Op>, reader: CppReader, definition: CppCard.CardDefinition)

  /** What follows a finished read: a failed one returns its message and leaves the
      definition alone; a good one resets the reader, whatever the card reset reports, and
      returns the badge's JSON with the definition set to the projection of the records. */
  function AfterRead(codec: Base64.Codec, previous: CppCard.CardDefinition, admitted: seq<Op>, o: CppOutcome,
                     cardReset: bool): (r: ReadOutcome)
    ensures o.status != 0 ==> r == ReadOutcome(Failure(READ_FAILED), admitted + [ReadTags], o.reader, previous)
    ensures o.status == 0 ==>
              r == ReadOutcome(ReturnData(true, Some(BadgeJson(codec, o.tags)), None), admitted + [ReadTags, ResetReader],
                               CPP_FRESH, CppCard.ToStruct(codec, o.tags))
  {
    var ops := admitted + [ReadTags];
    if o.status != 0 then ReadOutcome(Failure(READ_FAILED), ops, o.reader, previous)
    else
      var def := CppCard.ToStruct(codec, o.tags);
      var reset := Reset(o.reader, cardReset);
      assert ops + [ResetReader] == admitted + [ReadTags, ResetReader];
      ReadOutcome(ReturnData(true, Some(BadgeJson(codec, o.tags)), None), ops + [ResetReader], reset.1, def)
  }

  /** `read_tag_data`: after the guard, the records are read. A failed read returns its
      message and leaves the definition alone; a good one resets the reader and returns the
      badge's JSON, with the definition set to the projection of the records. Nothing is read
      when the guard refuses. `None` only where the read loop runs out of `fuel`. */
  function ReadTagData(codec: Base64.Codec, previous: CppCard.CardDefinition, card: Card, reader: CppReader,
                       expected: seq<uint8>, password: Option<uint32>, fuel: nat): (r: Option<ReadOutcome>)
    ensures r.None? <==> Admitted(card, expected, password) && CppReadTags(card.pages, reader, fuel).None?
    ensures var g := Guard(card, expected, password);
            g.Refuse? ==> r == Some(ReadOutcome(g.ret, g.ops, reader, previous))
    ensures r.Some? && ReadTags in r.value.ops ==> Admitted(card, expected, password)
    ensures var o := CppReadTags(card.pages, reader, fuel);
            r.Some? && r.value.ret.success ==>
              o.Some? && o.value.status == 0 &&
              r.value == ReadOutcome(ReturnData(true, Some(BadgeJson(codec, o.value.tags)), None),
                                     GuardCalls(password) + [ReadTags, ResetReader], CPP_FRESH,
                                     CppCard.ToStruct(codec, o.value.tags))
    ensures r.Some? && Admitted(card, expected, password) && !r.value.ret.success ==>
              r.value.ret == Failure(READ_FAILED) && r.value.definition == previous &&
              r.value.ops == GuardCalls(password) + [ReadTags] &&
              CppReadTags(card.pages, reader, fuel).value.status != 0
  {
    var g := Guard(card, expected, password);
    if g.Refuse? then Some(ReadOutcome(g.ret, g.ops, reader, previous))
    else match CppReadTags(card.pages, reader, fuel)
      case None => None
      case Some(o) => Some(AfterRead(codec, previous, g.ops, o, card.cardReset))
  }

  /** Reading back a written badge: when the card holds the stream of `tags` and a terminating
      zero, the reader's cache agrees with it and the guard lets the read through, the read
      succeeds with the same JSON a successful write of `tags` returns and projects the same
      definition. */
  lemma ReadReturnsWrittenBadge(codec: Base64.Codec, previous: CppCard.CardDefinition, card: Card, reader: CppReader,
                                mem: Memory, expected: seq<uint8>, password: Option<uint32>, tags: seq<Tag>, fuel: nat)
    requires Admitted(card, expected, password)
    requires Writable(tags) && fuel > |tags| && |Encode(tags)| < 256
    requires RoundTrip.Terminated(mem, Encode(tags))
    requires Faithful(card.pages, RoundTrip.Written(mem, Encode(tags)))
    requires CppConsistent(reader.cache, RoundTrip.Written(mem, Encode(tags)))
    ensures var r := ReadTagData(codec, previous, card, reader, expected, password, fuel);
            r.Some? && r.value.ret == ReturnData(true, Some(BadgeJson(codec, tags)), None) &&
            r.value.definition == CppCard.ToStruct(codec, tags) && r.value.reader == CPP_FRESH &&
            r.value.ops == GuardCalls(password) + [ReadTags, ResetReader]
  {
    RoundTrip.CppReadsWritten(card.pages, mem, reader, tags, fuel);
    var g := Guard(card, expected, password);
    var o := CppReadTags(card.pages, reader, fuel).value;
    assert ReadTagData(codec, previous, card, reader, expected, password, fuel) ==
           Some(AfterRead(codec, previous, g.ops, o, card.cardReset));
  }
}

=== FILE: go_card.dfy ===
/** The Go proxy's card records (`internal/tags`): the request the HTTP API exchanges, its
    projection from the tags on a card, the update of a card's tags from a request, and the
    one-line text of a tag. */
module GoCard {
  import opened Wrappers
  import opened Bytes
  import opened Tags
  import opened Decimal
  import Base64

  /** `CardDefinitionRequest`. */
  datatype CardRequest = CardRequest(attendeeId: uint32, conventionId: uint32, issuanceCount: uint32,
                                     issuanceTimestamp: uint64, expiration: uint64, signature: string,
                                     password: uint32, uuid: string)

  const EMPTY_REQUEST := CardRequest(0, 0, 0, 0, 0, "", 0, "")

  /** Go `%x` of one byte: lower-case hex without leading zero. */
  function HexByteText(b: uint8): (r: string)
    ensures 1 <= |r| <= 2 && forall i :: 0 <= i < |r| ==> IsHexDigit(r[i])
    ensures |r| == 1 <==> b < 16
  {
    if b < 16 then [HexDigit(b)] else [HexDigit(b / 16), HexDigit(b % 16)]
  }

  // ---------------------------------------------------------------- TagsToRequest

  /** The lengths `TagsToRequest` insists on: 8, 4, 8 and 8 bytes for the attendee, issuance,
      timestamp and expiration records, anything for the signature; other ids are refused. */
  predicate GoFieldValid(t: Tag) {
    if t.id == ATTENDEE_CONVENTION_ID then |t.data| == 8
    else if t.id == SIGNATURE then true
    else if t.id == ISSUANCE then |t.data| == 4
    else if t.id == TIMESTAMP || t.id == EXPIRATION then |t.data| == 8
    else false
  }

  /** The message for a record that `TagsToRequest` (or `TagToText`) refuses. The attendee
      message says 4 bytes although 8 are required. */
  function GoFieldError(t: Tag): (m: string)
    ensures |m| > 0
  {
    var got := NatToString(|t.data|);
    if t.id == ATTENDEE_CONVENTION_ID then "Tag TAG_ATTENDEE_ID expected 4 bytes but got " + got
    else if t.id == ISSUANCE then "Tag TAG_ISSUANCE expected 4 bytes but got " + got
    else if t.id == TIMESTAMP then "Tag TAG_TIMESTAMP expected 8 bytes but got " + got
    else if t.id == EXPIRATION then "Tag TAG_EXPIRATION expected 8 bytes but got " + got
    else "Unexpected tag type: " + HexByteText(t.id)
  }

  /** One pass of the `TagsToRequest` loop: the record's value stored in its field. */
  function StoreField(codec: Base64.Codec, req: CardRequest, t: Tag): (r: Result<CardRequest, string>)
    ensures r.Ok? <==> GoFieldValid(t)
    ensures r.Err? ==> r.error == GoFieldError(t)
  {
    Pow256Values();
    if !GoFieldValid(t) then Err(GoFieldError(t))
    else if t.id == ATTENDEE_CONVENTION_ID then
      Ok(req.(attendeeId := BeValue(t.data[..4]), conventionId := BeValue(t.data[4..])))
    else if t.id == SIGNATURE then Ok(req.(signature := codec.encode(t.data)))
    else if t.id == ISSUANCE then Ok(req.(issuanceCount := BeValue(t.data)))
    else if t.id == TIMESTAMP then Ok(req.(issuanceTimestamp := BeValue(t.data)))
    else Ok(req.(expiration := BeValue(t.data)))
  }

  /** The last record with an id in an accepted list is itself accepted. */
  lemma LastTagValid(tags: seq<Tag>, id: uint8)
    requires forall i :: 0 <= i < |tags| ==> GoFieldValid(tags[i])
    ensures LastTag(tags, id).Some? ==> LastTag(tags, id).value.id == id && GoFieldValid(LastTag(tags, id).value)
  {
    if LastTag(tags, id).Some? {
      var i :| 0 <= i < |tags| && tags[i] == LastTag(tags, id).value;
    }
  }

  /** Reference for `TagsToRequest`: every field from the last record carrying it, zero (or
      empty) when there is none. */
  function LastWinsRequest(codec: Base64.Codec, tags: seq<Tag>): (r: CardRequest)
    requires forall i :: 0 <= i < |tags| ==> GoFieldValid(tags[i])
    ensures r.password == 0 && r.uuid == ""
  {
    Pow256Values();
    LastTagValid(tags, ATTENDEE_CONVENTION_ID);
    LastTagValid(tags, ISSUANCE);
    LastTagValid(tags, TIMESTAMP);
    LastTagValid(tags, EXPIRATION);
    var a, s, n := LastTag(tags, ATTENDEE_CONVENTION_ID), LastTag(tags, SIGNATURE), LastTag(tags, ISSUANCE);
    var ts, e := LastTag(tags, TIMESTAMP), LastTag(tags, EXPIRATION);
    CardRequest(
      if a.Some? then BeValue(a.value.data[..4]) else 0,
      if a.Some? then BeValue(a.value.data[4..]) else 0,
      if n.Some? then BeValue(n.value.data) else 0,
      if ts.Some? then BeValue(ts.value.data) else 0,
      if e.Some? then BeValue(e.value.data) else 0,
      if s.Some? then codec.encode(s.value.data) else "",
      0, "")
  }

  /** Storing the last record into the reference request of the others gives the reference
      request of the whole list. */
  lemma StoreFieldLastWins(codec: Base64.Codec, tags: seq<Tag>)
    requires |tags| > 0 && forall i :: 0 <= i < |tags| ==> GoFieldValid(tags[i])
    ensures var pre := tags[..|tags| - 1];
            (forall i :: 0 <= i < |pre| ==> GoFieldValid(pre[i])) &&
            StoreField(codec, LastWinsRequest(codec, pre), tags[|tags| - 1]) == Ok(LastWinsRequest(codec, tags))
  {
    var pre := tags[..|tags| - 1];
    assert forall i :: 0 <= i < |pre| ==> pre[i] == tags[i];
    LastTagStep(tags, ATTENDEE_CONVENTION_ID);
    LastTagStep(tags, SIGNATURE);
    LastTagStep(tags, ISSUANCE);
    LastTagStep(tags, TIMESTAMP);
    LastTagStep(tags, EXPIRATION);
  }

  /** `TagsToRequest`: the first refused record ends the projection with its message; otherwise
      every field holds the value of the last record that carries it. */
  function TagsToRequest(codec: Base64.Codec, tags: seq<Tag>): (r: Result<CardRequest, string>)
    ensures r.Ok? <==> forall i :: 0 <= i < |tags| ==> GoFieldValid(tags[i])
    ensures r.Ok? ==> r.value == LastWinsRequest(codec, tags)
    decreases |tags|
  {
    if |tags| == 0 then Ok(EMPTY_REQUEST)
    else
      var pre, t := tags[..|tags| - 1], tags[|tags| - 1];
      assert forall i :: 0 <= i < |pre| ==> tags[i] == pre[i];
      match TagsToRequest(codec, pre)
      case Err(e) => Err(e)
      case Ok(req) =>
        var r := StoreField(codec, req, t);
        assert r.Ok? ==> r.value == LastWinsRequest(codec, tags) by {
          if r.Ok? {
            StoreFieldLastWins(codec, tags);
          }
        }
        r
  }

  /** A refusal carries the message of the first record refused. */
  lemma {:induction false} TagsToRequestFirstError(codec: Base64.Codec, tags: seq<Tag>)
    requires TagsToRequest(codec, tags).Err?
    ensures exists i :: 0 <= i < |tags| && !GoFieldValid(tags[i]) &&
                        TagsToRequest(codec, tags).error == GoFieldError(tags[i]) &&
                        forall j :: 0 <= j < i ==> GoFieldValid(tags[j])
    decreases |tags|
  {
    var pre, t := tags[..|tags| - 1], tags[|tags| - 1];
    assert forall i :: 0 <= i < |pre| ==> tags[i] == pre[i];
    if TagsToRequest(codec, pre).Err? {
      TagsToRequestFirstError(codec, pre);
      var k :| 0 <= k < |pre| && !GoFieldValid(pre[k]) && TagsToRequest(codec, pre).error == GoFieldError(pre[k]) &&
               forall j :: 0 <= j < k ==> GoFieldValid(pre[j]);
      assert tags[k] == pre[k];
    } else {
      assert !GoFieldValid(tags[|tags| - 1]);
    }
  }

  /** `TagsToRequest` accepts every record of a fresh card. */
  lemma CardTagsValid(user: uint32, convention: uint32, count: uint32, issued: uint64, expiration: uint64,
                      signature: seq<uint8>)
    ensures var tags := CardTags(user, convention, count, issued, expiration, signature);
            forall i :: 0 <= i < |tags| ==> GoFieldValid(tags[i])
  {
  }

  /** A card written from a request reads back as that request (without the password and the
      UUID, which are not stored in the tags), when the request's signature is the canonical
      text of its bytes. */
  lemma WriteThenReadRequest(codec: Base64.Codec, req: CardRequest, signature: seq<uint8>)
    requires ValidateSignatureStructure(codec, req.signature) == Ok(signature)
    requires codec.encode(signature) == req.signature
    ensures TagsToRequest(codec, CardTags(req.attendeeId, req.conventionId, req.issuanceCount,
                                          req.issuanceTimestamp, req.expiration, signature))
            == Ok(req.(password := 0, uuid := ""))
  {
    CardTagsValid(req.attendeeId, req.conventionId, req.issuanceCount, req.issuanceTimestamp, req.expiration, signature);
    CardTagsLast(req.attendeeId, req.conventionId, req.issuanceCount, req.issuanceTimestamp, req.expiration, signature);
  }

  // ---------------------------------------------------------------- signatures

  /** `ValidateSignatureStructure`: the bytes of a Base64 signature, or an error. */
  function ValidateSignatureStructure(codec: Base64.Codec, text: string): (r: Result<seq<uint8>, UpdateError>)
    ensures r.Ok? <==> codec.decode(text).Some?
    ensures r.Ok? ==> codec.decode(text) == Some(r.value)
    ensures r.Err? ==> r.error == MalformedSignature
  {
    match codec.decode(text)
    case None => Err(MalformedSignature)
    case Some(b) => Ok(b)
  }

  /** Every signature the proxy itself prints passes validation, with its bytes. */
  lemma ValidateEncodedSignature(codec: Base64.Codec, signature: seq<uint8>)
    requires Base64.Sound(codec)
    ensures ValidateSignatureStructure(codec, codec.encode(signature)) == Ok(signature)
  {
  }

  // ---------------------------------------------------------------- UpdateTags

  /** Why `UpdateTags` refuses a request. */
  datatype UpdateError = AttendeeIncomplete | MalformedSignature

  /** `UpdateTagAttendee`: a new attendee record, only when both numbers are set. */
  function UpdateTagAttendee(data: CardRequest): (r: Result<Tag, UpdateError>)
    ensures r.Ok? <==> data.attendeeId != 0 && data.conventionId != 0
    ensures r.Ok? ==> CppTagValueDualUInt(r.value) == DoubleUint(data.attendeeId, data.conventionId)
    ensures r.Err? ==> r.error == AttendeeIncomplete
  {
    if data.attendeeId == 0 || data.conventionId == 0 then Err(AttendeeIncomplete)
    else
      CppDecodersInvertConstructors(data.attendeeId, data.conventionId, 0, 0);
      Ok(NewAttendeeId(data.attendeeId, data.conventionId))
  }

  /** The request asks for records with this id to be replaced: its field for them is set. */
  predicate Requests(data: CardRequest, id: uint8) {
    if id == ATTENDEE_CONVENTION_ID then data.attendeeId != 0 || data.conventionId != 0
    else if id == SIGNATURE then data.signature != ""
    else if id == ISSUANCE then data.issuanceCount != 0
    else if id == TIMESTAMP then data.issuanceTimestamp != 0
    else if id == EXPIRATION then data.expiration != 0
    else false
  }

  /** One pass of the `UpdateTags` loop. */
  function UpdateTag(codec: Base64.Codec, t: Tag, data: CardRequest): (r: Result<Tag, UpdateError>)
    ensures !Requests(data, t.id) ==> r == Ok(t)
    ensures r.Ok? ==> r.value.id == t.id
    ensures r.Err? <==> Requests(data, t.id) &&
                        ((t.id == ATTENDEE_CONVENTION_ID && (data.attendeeId == 0 || data.conventionId == 0)) ||
                         (t.id == SIGNATURE && codec.decode(data.signature).None?))
  {
    if !Requests(data, t.id) then Ok(t)
    else if t.id == ATTENDEE_CONVENTION_ID then UpdateTagAttendee(data)
    else if t.id == SIGNATURE then
      match ValidateSignatureStructure(codec, data.signature)
      case Err(e) => Err(e)
      case Ok(b) => Ok(NewSignature(b))
    else if t.id == ISSUANCE then Ok(NewIssuance(data.issuanceCount))
    else if t.id == TIMESTAMP then Ok(NewTimestamp(data.issuanceTimestamp))
    else Ok(NewExpiration(data.expiration))
  }

  /** `UpdateTags`: the tags in place, each replaced when the request sets its field; the first
      refused replacement ends the update with its error and no tags. */
  function UpdateTags(codec: Base64.Codec, tags: seq<Tag>, data: CardRequest): (r: Result<seq<Tag>, UpdateError>)
    ensures r.Ok? <==> forall i :: 0 <= i < |tags| ==> UpdateTag(codec, tags[i], data).Ok?
    ensures r.Ok? ==> |r.value| == |tags| &&
                      forall i :: 0 <= i < |tags| ==> r.value[i].id == tags[i].id &&
                                                      (r.value[i] == tags[i] || Requests(data, tags[i].id)) &&
                                                      Ok(r.value[i]) == UpdateTag(codec, tags[i], data)
    decreases |tags|
  {
    if |tags| == 0 then Ok([])
    else
      assert forall i :: 1 <= i < |tags| ==> tags[i] == tags[1..][i - 1];
      match UpdateTag(codec, tags[0], data)
      case Err(e) => Err(e)
      case Ok(t) =>
        match UpdateTags(codec, tags[1..], data)
        case Err(e) => Err(e)
        case Ok(rest) =>
          var r := [t] + rest;
          assert r[0] == t && forall i :: 1 <= i < |tags| ==> r[i] == rest[i - 1];
          Ok(r)
  }

  /** A refused update carries the error of the first record whose replacement was refused. */
  lemma {:induction false} UpdateTagsFirstError(codec: Base64.Codec, tags: seq<Tag>, data: CardRequest)
    requires UpdateTags(codec, tags, data).Err?
    ensures exists i :: 0 <= i < |tags| && UpdateTag(codec, tags[i], data) == Err(UpdateTags(codec, tags, data).error) &&
                        forall j :: 0 <= j < i ==> UpdateTag(codec, tags[j], data).Ok?
    decreases |tags|
  {
    var e := UpdateTags(codec, tags, data).error;
    if UpdateTag(codec, tags[0], data).Ok? {
      var rest := tags[1..];
      UpdateTagsFirstError(codec, rest, data);
      var k :| 0 <= k < |rest| && UpdateTag(codec, rest[k], data) == Err(e) &&
               forall j :: 0 <= j < k ==> UpdateTag(codec, rest[j], data).Ok?;
      assert tags[k + 1] == rest[k];
      forall j | 0 <= j < k + 1 ensures UpdateTag(codec, tags[j], data).Ok? {
        if j > 0 {
          assert tags[j] == rest[j - 1];
        }
      }
    }
  }

  /** An attendee update that sets only one of the two numbers is refused whenever the card has
      an attendee record; a request that sets neither leaves the record alone. */
  lemma UpdateHalfAttendeeFails(codec: Base64.Codec, tags: seq<Tag>, data: CardRequest)
    requires exists i :: 0 <= i < |tags| && tags[i].id == ATTENDEE_CONVENTION_ID
    requires (data.attendeeId == 0) != (data.conventionId == 0)
    ensures UpdateTags(codec, tags, data).Err?
  {
    var i :| 0 <= i < |tags| && tags[i].id == ATTENDEE_CONVENTION_ID;
    assert UpdateTag(codec, tags[i], data).Err?;
  }

  /** The records after an update are still accepted by `TagsToRequest`. */
  lemma UpdatePreservesValidity(codec: Base64.Codec, tags: seq<Tag>, data: CardRequest)
    requires forall i :: 0 <= i < |tags| ==> GoFieldValid(tags[i])
    requires UpdateTags(codec, tags, data).Ok?
    ensures var u := UpdateTags(codec, tags, data).value;
            forall i :: 0 <= i < |u| ==> GoFieldValid(u[i])
  {
  }

  /** The last record with an id after the update is the update of the last one before it. */
  lemma {:induction false} LastTagOfUpdate(codec: Base64.Codec, tags: seq<Tag>, data: CardRequest, id: uint8)
    requires UpdateTags(codec, tags, data).Ok?
    ensures var l := LastTag(tags, id);
            LastTag(UpdateTags(codec, tags, data).value, id) ==
              if l.Some? then Some(UpdateTag(codec, l.value, data).value) else None
    decreases |tags|
  {
    var u := UpdateTags(codec, tags, data).value;
    if |tags| > 0 {
      var pre := tags[..|tags| - 1];
      assert UpdateTags(codec, pre, data).Ok?;
      var up := UpdateTags(codec, pre, data).value;
      assert up == u[..|u| - 1];
      LastTagOfUpdate(codec, pre, data, id);
      forall id' ensures LastTag(tags, id') == (if tags[|tags| - 1].id == id' then Some(tags[|tags| - 1]) else LastTag(pre, id')) {
        LastTagStep(tags, id');
      }
      LastTagStep(u, id);
    }
  }

  /** Reading a card back after an update: every field the request set, and the card has a
      record for, takes the request's value (the signature in its canonical text); every other
      field keeps what the card held. */
  lemma UpdateThenRead(codec: Base64.Codec, tags: seq<Tag>, data: CardRequest)
    requires Base64.Sound(codec)
    requires forall i :: 0 <= i < |tags| ==> GoFieldValid(tags[i])
    requires UpdateTags(codec, tags, data).Ok?
    ensures var u := UpdateTags(codec, tags, data).value;
            var p, q := TagsToRequest(codec, tags), TagsToRequest(codec, u);
            p.Ok? && q.Ok? &&
            q.value.attendeeId == (if Requests(data, ATTENDEE_CONVENTION_ID) && LastTag(tags, ATTENDEE_CONVENTION_ID).Some?
                                   then data.attendeeId else p.value.attendeeId) &&
            q.value.conventionId == (if Requests(data, ATTENDEE_CONVENTION_ID) && LastTag(tags, ATTENDEE_CONVENTION_ID).Some?
                                     then data.conventionId else p.value.conventionId) &&
            q.value.issuanceCount == (if Requests(data, ISSUANCE) && LastTag(tags, ISSUANCE).Some?
                                      then data.issuanceCount else p.value.issuanceCount) &&
            q.value.issuanceTimestamp == (if Requests(data, TIMESTAMP) && LastTag(tags, TIMESTAMP).Some?
                                          then data.issuanceTimestamp else p.value.issuanceTimestamp) &&
            q.value.expiration == (if Requests(data, EXPIRATION) && LastTag(tags, EXPIRATION).Some?
                                   then data.expiration else p.value.expiration) &&
            (Requests(data, SIGNATURE) && LastTag(tags, SIGNATURE).Some? ==>
               codec.decode(data.signature) == codec.decode(q.value.signature)) &&
            (!Requests(data, SIGNATURE) ==> q.value.signature == p.value.signature)
  {
    UpdatePreservesValidity(codec, tags, data);
    var u := UpdateTags(codec, tags, data).value;
    assert TagsToRequest(codec, tags) == Ok(LastWinsRequest(codec, tags));
    assert TagsToRequest(codec, u) == Ok(LastWinsRequest(codec, u));
    UpdatedAttendee(codec, tags, data);
    UpdatedIssuance(codec, tags, data);
    UpdatedTimestamp(codec, tags, data);
    UpdatedExpiration(codec, tags, data);
    UpdatedSignature(codec, tags, data);
  }

  /** The last record with an id after an update: absent when there was none, otherwise the
      update of the last one before it, which is that record itself when the request does not
      set its field. */
  lemma LastUpdated(codec: Base64.Codec, tags: seq<Tag>, data: CardRequest, id: uint8)
    requires UpdateTags(codec, tags, data).Ok?
    ensures var l, lu := LastTag(tags, id), LastTag(UpdateTags(codec, tags, data).value, id);
            (lu.Some? <==> l.Some?) &&
            (l.Some? && Requests(data, id) ==> lu == Some(UpdateTag(codec, l.value, data).value)) &&
            (!Requests(data, id) ==> lu == l)
  {
    LastTagOfUpdate(codec, tags, data, id);
    var l := LastTag(tags, id);
    if l.Some? {
      assert l.value.id == id;
    }
  }

  lemma UpdatedAttendee(codec: Base64.Codec, tags: seq<Tag>, data: CardRequest)
    requires forall i :: 0 <= i < |tags| ==> GoFieldValid(tags[i])
    requires UpdateTags(codec, tags, data).Ok?
    ensures var u := UpdateTags(codec, tags, data).value;
            (forall i :: 0 <= i < |u| ==> GoFieldValid(u[i])) &&
            var p, q := LastWinsRequest(codec, tags), LastWinsRequest(codec, u);
            var a := Requests(data, ATTENDEE_CONVENTION_ID) && LastTag(tags, ATTENDEE_CONVENTION_ID).Some?;
            q.attendeeId == (if a then data.attendeeId else p.attendeeId) &&
            q.conventionId == (if a then data.conventionId else p.conventionId)
  {
    UpdatePreservesValidity(codec, tags, data);
    LastUpdated(codec, tags, data, ATTENDEE_CONVENTION_ID);
  }

  lemma UpdatedIssuance(codec: Base64.Codec, tags: seq<Tag>, data: CardRequest)
    requires forall i :: 0 <= i < |tags| ==> GoFieldValid(tags[i])
    requires UpdateTags(codec, tags, data).Ok?
    ensures var u := UpdateTags(codec, tags, data).value;
            (forall i :: 0 <= i < |u| ==> GoFieldValid(u[i])) &&
            LastWinsRequest(codec, u).issuanceCount ==
              if Requests(data, ISSUANCE) && LastTag(tags, ISSUANCE).Some?
              then data.issuanceCount else LastWinsRequest(codec, tags).issuanceCount
  {
    UpdatePreservesValidity(codec, tags, data);
    LastUpdated(codec, tags, data, ISSUANCE);
    var l := LastTag(tags, ISSUANCE);
    if l.Some? && Requests(data, ISSUANCE) {
      UpdateTagValue(codec, l.value, data);
    }
  }

  /** Updating an issuance, timestamp or expiration record the request sets gives the
      record of the requested value. */
  lemma UpdateTagValue(codec: Base64.Codec, t: Tag, data: CardRequest)
    requires Requests(data, t.id)
    ensures t.id == ISSUANCE ==> UpdateTag(codec, t, data) == Ok(NewIssuance(data.issuanceCount))
    ensures t.id == TIMESTAMP ==> UpdateTag(codec, t, data) == Ok(NewTimestamp(data.issuanceTimestamp))
    ensures t.id == EXPIRATION ==> UpdateTag(codec, t, data) == Ok(NewExpiration(data.expiration))
  {
  }

  /** The last timestamp record after an update: the requested value when the list had one and
      the request sets it, the old one otherwise. */
  function LastTimestampAfter(tags: seq<Tag>, data: CardRequest): (l: Option<Tag>)
    ensures l.Some? <==> LastTag(tags, TIMESTAMP).Some?
  {
    var l := LastTag(tags, TIMESTAMP);
    if l.Some? && Requests(data, TIMESTAMP) then Some(NewTimestamp(data.issuanceTimestamp)) else l
  }

  lemma LastTimestampUpdated(codec: Base64.Codec, tags: seq<Tag>, data: CardRequest)
    requires UpdateTags(codec, tags, data).Ok?
    ensures LastTag(UpdateTags(codec, tags, data).value, TIMESTAMP) == LastTimestampAfter(tags, data)
  {
    LastUpdated(codec, tags, data, TIMESTAMP);
    var l := LastTag(tags, TIMESTAMP);
    if l.Some? && Requests(data, TIMESTAMP) {
      UpdateTagValue(codec, l.value, data);
    }
  }

  /** The timestamp of the reference request is the value of the last timestamp record. */
  lemma LastWinsTimestamp(codec: Base64.Codec, tags: seq<Tag>, u: seq<Tag>, data: CardRequest)
    requires forall i :: 0 <= i < |tags| ==> GoFieldValid(tags[i])
    requires forall i :: 0 <= i < |u| ==> GoFieldValid(u[i])
    requires LastTag(u, TIMESTAMP) == LastTimestampAfter(tags, data)
    ensures LastWinsRequest(codec, u).issuanceTimestamp ==
              if Requests(data, TIMESTAMP) && LastTag(tags, TIMESTAMP).Some?
              then data.issuanceTimestamp else LastWinsRequest(codec, tags).issuanceTimestamp
  {
  }

  lemma UpdatedTimestamp(codec: Base64.Codec, tags: seq<Tag>, data: CardRequest)
    requires forall i :: 0 <= i < |tags| ==> GoFieldValid(tags[i])
    requires UpdateTags(codec, tags, data).Ok?
    ensures var u := UpdateTags(codec, tags, data).value;
            (forall i :: 0 <= i < |u| ==> GoFieldValid(u[i])) &&
            LastWinsRequest(codec, u).issuanceTimestamp ==
              if Requests(data, TIMESTAMP) && LastTag(tags, TIMESTAMP).Some?
              then data.issuanceTimestamp else LastWinsRequest(codec, tags).issuanceTimestamp
  {
    UpdatePreservesValidity(codec, tags, data);
    LastTimestampUpdated(codec, tags, data);
    LastWinsTimestamp(codec, tags, UpdateTags(codec, tags, data).value, data);
  }

  /** The last expiration record after an update: the requested value when the list had one and
      the request sets it, the old one otherwise. */
  function LastExpirationAfter(tags: seq<Tag>, data: CardRequest): (l: Option<Tag>)
    ensures l.Some? <==> LastTag(tags, EXPIRATION).Some?
  {
    var l := LastTag(tags, EXPIRATION);
    if l.Some? && Requests(data, EXPIRATION) then Some(NewExpiration(data.expiration)) else l
  }

  lemma LastExpirationUpdated(codec: Base64.Codec, tags: seq<Tag>, data: CardRequest)
    requires UpdateTags(codec, tags, data).Ok?
    ensures LastTag(UpdateTags(codec, tags, data).value, EXPIRATION) == LastExpirationAfter(tags, data)
  {
    LastUpdated(codec, tags, data, EXPIRATION);
    var l := LastTag(tags, EXPIRATION);
    if l.Some? && Requests(data, EXPIRATION) {
      UpdateTagValue(codec, l.value, data);
    }
  }

  /** The expiration of the reference request is the value of the last expiration record. */
  lemma LastWinsExpiration(codec: Base64.Codec, tags: seq<Tag>, u: seq<Tag>, data: CardRequest)
    requires forall i :: 0 <= i < |tags| ==> GoFieldValid(tags[i])
    requires forall i :: 0 <= i < |u| ==> GoFieldValid(u[i])
    requires LastTag(u, EXPIRATION) == LastExpirationAfter(tags, data)
    ensures LastWinsRequest(codec, u).expiration ==
              if Requests(data, EXPIRATION) && LastTag(tags, EXPIRATION).Some?
              then data.expiration else LastWinsRequest(codec, tags).expiration
  {
  }

  lemma UpdatedExpiration(codec: Base64.Codec, tags: seq<Tag>, data: CardRequest)
    requires forall i :: 0 <= i < |tags| ==> GoFieldValid(tags[i])
    requires UpdateTags(codec, tags, data).Ok?
    ensures var u := UpdateTags(codec, tags, data).value;
            (forall i :: 0 <= i < |u| ==> GoFieldValid(u[i])) &&
            LastWinsRequest(codec, u).expiration ==
              if Requests(data, EXPIRATION) && LastTag(tags, EXPIRATION).Some?
              then data.expiration else LastWinsRequest(codec, tags).expiration
  {
    UpdatePreservesValidity(codec, tags, data);
    LastExpirationUpdated(codec, tags, data);
    LastWinsExpiration(codec, tags, UpdateTags(codec, tags, data).value, data);
  }

  lemma UpdatedSignature(codec: Base64.Codec, tags: seq<Tag>, data: CardRequest)
    requires Base64.Sound(codec)
    requires forall i :: 0 <= i < |tags| ==> GoFieldValid(tags[i])
    requires UpdateTags(codec, tags, data).Ok?
    ensures var u := UpdateTags(codec, tags, data).value;
            (forall i :: 0 <= i < |u| ==> GoFieldValid(u[i])) &&
            var p, q := LastWinsRequest(codec, tags), LastWinsRequest(codec, u);
            (Requests(data, SIGNATURE) && LastTag(tags, SIGNATURE).Some? ==>
               codec.decode(data.signature) == codec.decode(q.signature)) &&
            (!Requests(data, SIGNATURE) ==> q.signature == p.signature)
  {
    UpdatePreservesValidity(codec, tags, data);
    LastUpdated(codec, tags, data, SIGNATURE);
  }

  // ---------------------------------------------------------------- TagToText

  /** What `TagToText` prints, before formatting: the numbers it shows, the signature text, and
      the timestamps as the signed seconds handed to `time.Unix`. */
  datatype TagText =
    | AttendeeText(user: uint32, convention: uint32)
    | SignatureText(base64: string)
    | IssuanceText(count: uint32)
    | IssuedText(unix: int)
    | ExpirationText(unix: int)

  /** Go `int64(v)` of a `uint64`: two's complement wrap-around. */
  function GoInt64(v: uint64): (r: int)
    ensures -0x8000_0000_0000_0000 <= r < 0x8000_0000_0000_0000
    ensures (r - v) % TWO_TO_64 == 0
  {
    if v < 0x8000_0000_0000_0000 then v else v - TWO_TO_64
  }

  /** The attendee branch of `TagToText` as written: the convention is decoded from the same
      first four bytes as the user. */
  function TagToTextAsWritten(codec: Base64.Codec, t: Tag): (r: Result<TagText, string>)
    ensures r.Err? <==> !GoFieldValid(t)
    ensures t.id != ATTENDEE_CONVENTION_ID ==> r == TagToText(codec, t)
  {
    Pow256Values();
    if t.id == ATTENDEE_CONVENTION_ID && |t.data| == 8 then
      Ok(AttendeeText(BeValue(t.data[..4]), BeValue(t.data[..4])))
    else TagToText(codec, t)
  }

  /** As written, every attendee record prints with ConventionID equal to UserID: attendee 1 of
      convention 2 shows as convention 1. */
  lemma TagToTextConventionLost(codec: Base64.Codec, user: uint32, convention: uint32)
    ensures TagToTextAsWritten(codec, NewAttendeeId(user, convention)) == Ok(AttendeeText(user, user))
    ensures TagToTextAsWritten(codec, NewAttendeeId(1, 2)) != Ok(AttendeeText(1, 2))
  {
    var t := NewAttendeeId(1, 2);
    assert TagToTextAsWritten(codec, t) == Ok(AttendeeText(1, 1));
  }

  /** `TagToText` with the convention read from bytes 4..8, as the attendee layout and
      `TagsToRequest` have it. */
  function TagToText(codec: Base64.Codec, t: Tag): (r: Result<TagText, string>)
    ensures r.Err? <==> !GoFieldValid(t)
    ensures r.Err? ==> r.error == GoFieldError(t)
  {
    Pow256Values();
    if !GoFieldValid(t) then Err(GoFieldError(t))
    else if t.id == ATTENDEE_CONVENTION_ID then Ok(AttendeeText(BeValue(t.data[..4]), BeValue(t.data[4..])))
    else if t.id == SIGNATURE then Ok(SignatureText(codec.encode(t.data)))
    else if t.id == ISSUANCE then Ok(IssuanceText(BeValue(t.data)))
    else if t.id == TIMESTAMP then Ok(IssuedText(GoInt64(BeValue(t.data))))
    else Ok(ExpirationText(GoInt64(BeValue(t.data))))
  }

  /** The text of a record agrees with its projection into the request: the same numbers and
      the same signature text, with timestamps before 2^63 shown unchanged. */
  lemma TagToTextAgreesWithRequest(codec: Base64.Codec, t: Tag)
    requires GoFieldValid(t)
    ensures var q := TagsToRequest(codec, [t]).value;
            match TagToText(codec, t).value
            case AttendeeText(u, c) => t.id == ATTENDEE_CONVENTION_ID && u == q.attendeeId && c == q.conventionId
            case SignatureText(s) => t.id == SIGNATURE && s == q.signature
            case IssuanceText(n) => t.id == ISSUANCE && n == q.issuanceCount
            case IssuedText(x) => t.id == TIMESTAMP && (x - q.issuanceTimestamp) % TWO_TO_64 == 0
            case ExpirationText(x) => t.id == EXPIRATION && (x - q.expiration) % TWO_TO_64 == 0
  {
    LastTagStep([t], t.id);
  }
}

=== FILE: go_commands.dfy ===
/** The Go reader's card commands (`nfc.go`) over a PC/SC connection to an ACR122U: the
    status-word check every command goes through, the pseudo-APDU that tunnels a raw NTAG
    command through the reader's PN533 (InCommunicateThru), the LED and buzzer command, page
    reads and writes, PWD_AUTH, and setting and clearing the card's password. The card is a
    parameter that answers each command given the commands sent before it. */
module GoCommands {
  import opened Wrappers
  import opened Bytes
  import opened Ntag

  /** The connection: the reply to a command given every command sent before it (None when
      `Transmit` returns an error), and the card's GET_VERSION bytes after `ResetCard` has
      reconnected (None when reconnecting fails). */
  datatype Scard = Scard(transmit: (seq<seq<uint8>>, seq<uint8>) -> Option<seq<uint8>>,
                         reconnect: seq<seq<uint8>> -> Option<seq<uint8>>)

  /** The parts of `NFCEnvoriment` the commands touch: every command sent so far,
      `lastErrorCode`, and `version` (GET_VERSION without its status byte). */
  datatype Session = Session(sent: seq<seq<uint8>>, lastErrorCode: seq<uint8>, version: seq<uint8>)

  /** The errors the commands return. */
  datatype CmdError =
    | TransmitFailed              // the error of `Transmit`
    | NoStatusWord                // "Unexpected response": fewer than two bytes
    | StatusWord(sw: seq<uint8>)  // "Operation failed to complete. Error code ..."
    | VendorTooLarge(length: nat) // "Vendor command is too large"
    | TooShort                    // "response too short"
    | VendorUnexpected(got: seq<uint8>)
    | UnsupportedCard
    | AuthFailed                  // "Authentication failed"
    | PageSizeWrong               // "Page must be 4 bytes"
    | ReconnectFailed
    | EmptyPage                   // the index panic of `readByte` on an empty page body

  /** What a command returns, and the session after it. */
  datatype Step<T> = Step(result: Result<T, CmdError>, session: Session)

  /** `s'` has sent what `s` had sent and then `cmds`, and the version bytes are unchanged. */
  predicate SentThen(s: Session, s': Session, cmds: seq<seq<uint8>>) {
    s'.sent == s.sent + cmds && s'.version == s.version
  }

  // ---------------------------------------------------------------- status words

  /** A reply as ISO/IEC 7816-4 section 5.1.3 lays it out: the body, then SW1 SW2. */
  function Respond(body: seq<uint8>, sw1: uint8, sw2: uint8): (rsp: seq<uint8>)
    ensures |rsp| == |body| + 2 && rsp[..|body|] == body && rsp[|body|] == sw1 && rsp[|body| + 1] == sw2
  {
    body + [sw1, sw2]
  }

  /** `transmitAndValidate`: a reply shorter than two bytes is an error; an SW1 other than
      0x90 is an error and is remembered, with SW2, as `lastErrorCode` (SW2 itself is never
      checked); otherwise the body before the status word is returned. A successful command
      leaves `lastErrorCode` as it was. */
  function TransmitAndValidate(card: Scard, s: Session, apdu: seq<uint8>): (r: Step<seq<uint8>>)
    ensures SentThen(s, r.session, [apdu])
    ensures r.result.Ok? <==>
              (card.transmit(s.sent, apdu).Some? && |card.transmit(s.sent, apdu).value| >= 2 &&
               card.transmit(s.sent, apdu).value[|card.transmit(s.sent, apdu).value| - 2] == 0x90)
    ensures r.result.Ok? ==> exists sw2: uint8 :: card.transmit(s.sent, apdu) == Some(Respond(r.result.value, 0x90, sw2))
    ensures r.session.lastErrorCode != s.lastErrorCode ==> r.result == Err(StatusWord(r.session.lastErrorCode))
    ensures r.result.Err? && r.result.error.StatusWord? ==>
              r.session.lastErrorCode == r.result.error.sw && |r.result.error.sw| == 2 && r.result.error.sw[0] != 0x90
  {
    var s' := s.(sent := s.sent + [apdu]);
    match card.transmit(s.sent, apdu)
    case None => Step(Err(TransmitFailed), s')
    case Some(rsp) =>
      if |rsp| < 2 then Step(Err(NoStatusWord), s')
      else
        var sw := rsp[|rsp| - 2..];
        if rsp[|rsp| - 2] != 0x90 then Step(Err(StatusWord(sw)), s'.(lastErrorCode := sw))
        else
          var body := rsp[..|rsp| - 2];
          assert rsp == Respond(body, 0x90, rsp[|rsp| - 1]);
          Step(Ok(body), s')
  }

  /** Any reply with SW1 0x90 hands back exactly its body, whatever SW2 says. */
  lemma TransmitReturnsBody(card: Scard, s: Session, apdu: seq<uint8>, body: seq<uint8>, sw2: uint8)
    requires card.transmit(s.sent, apdu) == Some(Respond(body, 0x90, sw2))
    ensures TransmitAndValidate(card, s, apdu) == Step(Ok(body), s.(sent := s.sent + [apdu]))
  {
    assert Respond(body, 0x90, sw2)[..|body|] == body;
  }

  /** A reply whose SW1 is not 0x90 is an error carrying both status bytes, and they become
      `lastErrorCode`. */
  lemma TransmitRecordsStatus(card: Scard, s: Session, apdu: seq<uint8>, body: seq<uint8>, sw1: uint8, sw2: uint8)
    requires card.transmit(s.sent, apdu) == Some(Respond(body, sw1, sw2)) && sw1 != 0x90
    ensures TransmitAndValidate(card, s, apdu) ==
              Step(Err(StatusWord([sw1, sw2])), s.(sent := s.sent + [apdu], lastErrorCode := [sw1, sw2]))
  {
    var rsp := Respond(body, sw1, sw2);
    assert rsp[|rsp| - 2..] == [sw1, sw2];
  }

  /** `IsAuthRequired`: the last status error was 63 00. */
  predicate IsAuthRequired(s: Session) {
    s.lastErrorCode == [0x63, 0x00]
  }

  /** The ACR122U GET DATA pseudo-APDU that asks for the UID of the card in the field. */
  const GET_UID_APDU: seq<uint8> := [0xFF, 0xCA, 0x00, 0x00, 0x00]

  /** `GetUUID`: the UID the reader reports, as lower-case hex text. The text decodes back to
      exactly the body of the reply; a failed command fails with its own error. */
  function GetUuid(card: Scard, s: Session): (r: Step<string>)
    ensures SentThen(s, r.session, [GET_UID_APDU])
    ensures r.result.Ok? <==> TransmitAndValidate(card, s, GET_UID_APDU).result.Ok?
    ensures r.result.Err? ==> r.result == Err(TransmitAndValidate(card, s, GET_UID_APDU).result.error)
    ensures r.result.Ok? ==>
              UnHex(r.result.value).Some? &&
              exists sw2: uint8 :: card.transmit(s.sent, GET_UID_APDU) == Some(Respond(UnHex(r.result.value).value, 0x90, sw2))
  {
    var x := TransmitAndValidate(card, s, GET_UID_APDU);
    match x.result
    case Err(e) => Step(Err(e), x.session)
    case Ok(uid) => UnHexHex(uid); Step(Ok(Hex(uid)), x.session)
  }

  /** A UID the reader reports comes back as its hex text. */
  lemma GetUuidOfReply(card: Scard, s: Session, uid: seq<uint8>, sw2: uint8)
    requires card.transmit(s.sent, GET_UID_APDU) == Some(Respond(uid, 0x90, sw2))
    ensures GetUuid(card, s).result == Ok(Hex(uid))
  {
    TransmitReturnsBody(card, s, GET_UID_APDU, uid, sw2);
  }

  // ---------------------------------------------------------------- the InCommunicateThru tunnel

  /** The ACR122U pseudo-APDU for a PN533 InCommunicateThru (application note 157830, section
      8.4.9): class FF, INS 00, P1 P2 00 00, Lc counting D4 42 and the payload. */
  function VendorApdu(cmd: seq<uint8>): (apdu: seq<uint8>)
    requires 2 + |cmd| <= 0xFF
    ensures |apdu| == 7 + |cmd| && apdu[7..] == cmd
  {
    [0xFF, 0x00, 0x00, 0x00, 2 + |cmd|, 0xD4, 0x42] + cmd
  }

  /** How the reader takes such a pseudo-APDU apart: the header, an Lc that matches the
      length, the InCommunicateThru code, and the payload after it. */
  function VendorPayload(apdu: seq<uint8>): (r: Option<seq<uint8>>)
    ensures r.Some? ==> |apdu| >= 7 && r.value == apdu[7..]
  {
    if |apdu| >= 7 && apdu[..4] == [0xFF, 0x00, 0x00, 0x00] && apdu[4] as int == |apdu| - 5
       && apdu[5] == 0xD4 && apdu[6] == 0x42
    then Some(apdu[7..])
    else None
  }

  /** The reader gets back exactly the command that was wrapped, so different commands give
      different pseudo-APDUs. */
  lemma VendorApduRoundTrip(cmd: seq<uint8>)
    requires 2 + |cmd| <= 0xFF
    ensures VendorPayload(VendorApdu(cmd)) == Some(cmd)
  {
    assert VendorApdu(cmd)[..4] == [0xFF, 0x00, 0x00, 0x00];
  }

  /** `transmitVendorCommand`: a payload that would make Lc exceed 0xFF is refused before
      anything is sent; otherwise the pseudo-APDU is sent and the reply must be at least three
      bytes long and start with the InCommunicateThru answer D5 43, which is stripped. */
  function TransmitVendorCommand(card: Scard, s: Session, cmd: seq<uint8>): (r: Step<seq<uint8>>)
    ensures 2 + |cmd| > 0xFF ==> r == Step(Err(VendorTooLarge(2 + |cmd|)), s)
    ensures 2 + |cmd| <= 0xFF ==> SentThen(s, r.session, [VendorApdu(cmd)])
    ensures r.result.Ok? ==>
              2 + |cmd| <= 0xFF && |r.result.value| >= 1 &&
              exists sw2: uint8 :: card.transmit(s.sent, VendorApdu(cmd)) == Some(Respond([0xD5, 0x43] + r.result.value, 0x90, sw2))
  {
    if 2 + |cmd| > 0xFF then Step(Err(VendorTooLarge(2 + |cmd|)), s)
    else
      var t := TransmitAndValidate(card, s, VendorApdu(cmd));
      match t.result
      case Err(e) => t
      case Ok(resp) =>
        if |resp| < 3 then Step(Err(TooShort), t.session)
        else if resp[0] != 0xD5 || resp[1] != 0x43 then Step(Err(VendorUnexpected(resp[..2])), t.session)
        else
          assert resp == [0xD5, 0x43] + resp[2..];
          Step(Ok(resp[2..]), t.session)
  }

  /** A well-formed tunnel reply gives back what the card said. */
  lemma VendorReplyRoundTrip(card: Scard, s: Session, cmd: seq<uint8>, data: seq<uint8>, sw2: uint8)
    requires 2 + |cmd| <= 0xFF && |data| >= 1
    requires card.transmit(s.sent, VendorApdu(cmd)) == Some(Respond([0xD5, 0x43] + data, 0x90, sw2))
    ensures TransmitVendorCommand(card, s, cmd).result == Ok(data)
  {
    TransmitReturnsBody(card, s, VendorApdu(cmd), [0xD5, 0x43] + data, sw2);
    assert ([0xD5, 0x43] + data)[2..] == data;
  }

  // ---------------------------------------------------------------- LED and buzzer

  /** The ACR122U "LED and buzzer control" pseudo-APDU of `controlLEDAndBuzzer`: red ORs 0x05
      and green 0x0A into the LED state, the buzzer's on and off times are the duration in
      tenths of a second capped at 255, then the repetition count and link 01. */
  function LedApdu(red: bool, green: bool, durationMs: uint64, repeat: uint8): (apdu: seq<uint8>)
    ensures |apdu| == 9 && apdu[..3] == [0xFF, 0x00, 0x40] && apdu[4] == 0x04 && apdu[8] == 0x01
    ensures apdu[5] == apdu[6] == (if durationMs / 100 > 255 then 255 else durationMs / 100)
    ensures apdu[7] == repeat
  {
    var led: bv8 := 0;
    var led := if red then led | 0x05 else led;
    var led := if green then led | 0x0A else led;
    var duration: uint8 := if durationMs / 100 > 255 then 255 else durationMs / 100;
    [0xFF, 0x00, 0x40, led as int, 0x04, duration, duration, repeat, 0x01]
  }

  /** The LED state byte says which LEDs were asked for: bits 0 and 2 for red, bits 1 and 3
      for green, and nothing in the high nibble. */
  lemma LedStateDecodes(red: bool, green: bool, durationMs: uint64, repeat: uint8)
    ensures (LedApdu(red, green, durationMs, repeat)[3] as bv8) & 0x05 == (if red then 0x05 else 0)
    ensures (LedApdu(red, green, durationMs, repeat)[3] as bv8) & 0x0A == (if green then 0x0A else 0)
    ensures LedApdu(red, green, durationMs, repeat)[3] < 0x10
  {
    var led: bv8 := (if red then 0x05 else 0) | (if green then 0x0A else 0);
    assert LedApdu(red, green, durationMs, repeat)[3] == led as int;
    BvIntBv(led);
  }

  // ---------------------------------------------------------------- pages

  /** `OPERATION_READ` for a page: READ BINARY of four bytes. */
  function ReadApdu(page: uint8): seq<uint8> {
    [0xFF, 0xB0, 0x00, page, 0x04]
  }

  predicate IsReadApdu(c: seq<uint8>) {
    |c| == 5 && c[0] == 0xFF && c[1] == 0xB0 && c[2] == 0x00 && c[4] == 0x04
  }

  /** `OPERATION_WRITE` for a page: UPDATE BINARY of the four bytes. */
  function WriteApdu(page: uint8, data: seq<uint8>): (apdu: seq<uint8>)
    requires |data| == 4
    ensures |apdu| == 9 && !IsReadApdu(apdu) && apdu[3] == page && apdu[5..] == data
  {
    [0xFF, 0xD6, 0x00, page, 0x04] + data
  }

  /** `readPage`. */
  function ReadPage(card: Scard, s: Session, page: uint8): (r: Step<seq<uint8>>)
    ensures SentThen(s, r.session, [ReadApdu(page)])
  {
    TransmitAndValidate(card, s, ReadApdu(page))
  }

  /** `writePage`: anything but four bytes is refused before sending. */
  function WritePage(card: Scard, s: Session, page: uint8, data: seq<uint8>): (r: Step<()>)
    ensures |data| != 4 ==> r == Step(Err(PageSizeWrong), s)
    ensures |data| == 4 ==> SentThen(s, r.session, [WriteApdu(page, data)])
    ensures |data| == 4 ==> (r.result.Ok? <==> TransmitAndValidate(card, s, WriteApdu(page, data)).result.Ok?)
    ensures r.session.lastErrorCode != s.lastErrorCode ==> r.result == Err(StatusWord(r.session.lastErrorCode))
  {
    if |data| != 4 then Step(Err(PageSizeWrong), s)
    else
      var t := TransmitAndValidate(card, s, WriteApdu(page, data));
      match t.result
      case Err(e) => Step(Err(e), t.session)
      case Ok(_) => Step(Ok(()), t.session)
  }

  /** `env.buffer` and `env.currentPage`. */
  datatype Cursor = Cursor(buffer: seq<uint8>, page: uint8)

  /** `readByte` over the connection: an empty buffer is refilled from the current page, cut
      to four bytes, and the page counter moves on. */
  function ReadByte(card: Scard, s: Session, c: Cursor): (r: Step<(uint8, Cursor)>)
    ensures |c.buffer| > 0 ==> r == Step(Ok((c.buffer[0], Cursor(c.buffer[1..], c.page))), s)
    ensures |c.buffer| == 0 ==> SentThen(s, r.session, [ReadApdu(c.page)])
    ensures |c.buffer| == 0 && r.result.Ok? ==> r.result.value.1.page == (c.page + 1) % 256
  {
    if |c.buffer| > 0 then Step(Ok((c.buffer[0], Cursor(c.buffer[1..], c.page))), s)
    else
      var t := ReadPage(card, s, c.page);
      match t.result
      case Err(e) => Step(Err(e), t.session)
      case Ok(d) =>
        var b := if |d| > 4 then d[..4] else d;
        if |b| == 0 then Step(Err(EmptyPage), t.session)
        else Step(Ok((b[0], Cursor(b[1..], (c.page + 1) % 256))), t.session)
  }

  /** Only READ commands were added to what `s` had sent, and the version bytes are unchanged. */
  predicate OnlyReads(s: Session, s': Session) {
    |s'.sent| >= |s.sent| && s'.sent[..|s.sent|] == s.sent && s'.version == s.version &&
    forall i :: |s.sent| <= i < |s'.sent| ==> IsReadApdu(s'.sent[i])
  }

  /** `readBytes(n)`: n bytes in order, or the first error. */
  function ReadBytes(card: Scard, s: Session, c: Cursor, n: nat): (r: Step<seq<uint8>>)
    ensures OnlyReads(s, r.session)
    ensures r.result.Ok? ==> |r.result.value| == n
    decreases n
  {
    if n == 0 then Step(Ok([]), s)
    else
      var b := ReadByte(card, s, c);
      match b.result
      case Err(e) => Step(Err(e), b.session)
      case Ok(v) =>
        var rest := ReadBytes(card, b.session, v.1, n - 1);
        assert OnlyReads(s, rest.session) by {
          assert OnlyReads(s, b.session);
          OnlyReadsTransitive(s, b.session, rest.session);
        }
        match rest.result
        case Err(e) => Step(Err(e), rest.session)
        case Ok(bs) => Step(Ok([v.0] + bs), rest.session)
  }

  lemma OnlyReadsTransitive(a: Session, b: Session, c: Session)
    requires OnlyReads(a, b) && OnlyReads(b, c)
    ensures OnlyReads(a, c)
  {
    assert c.sent[..|a.sent|] == c.sent[..|b.sent|][..|a.sent|];
  }

  // ---------------------------------------------------------------- password

  /** `NTAG21xAuth`: the card must be a known NTAG21x; PWD_AUTH goes through the tunnel and
      the first byte of the card's answer must be 00. */
  function Auth(card: Scard, s: Session, password: uint32): (r: Step<()>)
    ensures GoCardInfo(s.version).None? ==> r == Step(Err(UnsupportedCard), s)
    ensures GoCardInfo(s.version).Some? ==> SentThen(s, r.session, [VendorApdu(PwdAuth(password))])
    ensures r.result.Ok? <==>
              GoCardInfo(s.version).Some? &&
              TransmitVendorCommand(card, s, PwdAuth(password)).result.Ok? &&
              TransmitVendorCommand(card, s, PwdAuth(password)).result.value[0] == 0x00
  {
    match GoCardInfo(s.version)
    case None => Step(Err(UnsupportedCard), s)
    case Some(_) =>
      var t := TransmitVendorCommand(card, s, PwdAuth(password));
      match t.result
      case Err(e) => Step(Err(e), t.session)
      case Ok(resp) =>
        if |resp| < 1 then Step(Err(TooShort), t.session)
        else if resp[0] != 0x00 then Step(Err(AuthFailed), t.session)
        else Step(Ok(()), t.session)
  }

  /** A card that acknowledges PWD_AUTH (answer 00) authenticates. */
  lemma AuthAcknowledged(card: Scard, s: Session, password: uint32, rest: seq<uint8>, sw2: uint8)
    requires GoCardInfo(s.version).Some?
    requires card.transmit(s.sent, VendorApdu(PwdAuth(password))) == Some(Respond([0xD5, 0x43, 0x00] + rest, 0x90, sw2))
    ensures Auth(card, s, password).result.Ok?
  {
    assert [0xD5, 0x43, 0x00] + rest == [0xD5, 0x43] + ([0x00] + rest);
    VendorReplyRoundTrip(card, s, PwdAuth(password), [0x00] + rest, sw2);
  }

  /** `b` has sent what `a` had sent, and possibly more. */
  predicate Extends(a: Session, b: Session) {
    |b.sent| >= |a.sent| && b.sent[..|a.sent|] == a.sent
  }

  lemma ExtendsTransitive(a: Session, b: Session, c: Session)
    requires Extends(a, b) && Extends(b, c)
    ensures Extends(a, c)
  {
    assert c.sent[..|a.sent|] == c.sent[..|b.sent|][..|a.sent|];
  }

  /** The command `s` sent next is `cmd`. */
  predicate NextSent(s: Session, s': Session, cmd: seq<uint8>) {
    Extends(s, s') && |s'.sent| > |s.sent| && s'.sent[|s.sent|] == cmd
  }

  lemma NextSentKept(s: Session, a: Session, b: Session, cmd: seq<uint8>)
    requires NextSent(s, a, cmd) && Extends(a, b)
    ensures NextSent(s, b, cmd)
  {
    ExtendsTransitive(s, a, b);
    assert b.sent[|s.sent|] == b.sent[..|a.sent|][|s.sent|];
  }

  /** Writing the edited configuration back: the first four bytes to CFG0, then bytes 4 to 7
      to CFG1; a failure of the second write is forgiven when `IsAuthRequired` holds after it. */
  function WriteConfig(card: Scard, s: Session, page: uint8, cfg: seq<uint8>): (r: Step<()>)
    requires |cfg| >= 8 && page < 0xFF
    ensures NextSent(s, r.session, WriteApdu(page, cfg[..4])) && r.session.version == s.version
    ensures r.result.Ok? ==> r.session.sent == s.sent + [WriteApdu(page, cfg[..4]), WriteApdu(page + 1, cfg[4..8])]
  {
    var w0 := WritePage(card, s, page, cfg[..4]);
    if w0.result.Err? then Step(Err(w0.result.error), w0.session)
    else
      var w1 := WritePage(card, w0.session, page + 1, cfg[4..8]);
      assert NextSent(s, w1.session, WriteApdu(page, cfg[..4])) by {
        NextSentKept(s, w0.session, w1.session, WriteApdu(page, cfg[..4]));
      }
      if w1.result.Err? && !IsAuthRequired(w1.session) then Step(Err(w1.result.error), w1.session)
      else Step(Ok(()), w1.session)
  }

  /** A card that refuses the CFG1 write with 63 00 does not make the edit fail. */
  lemma AuthRequiredForgiven(card: Scard, s: Session, page: uint8, cfg: seq<uint8>, sw2: uint8)
    requires |cfg| >= 8 && page < 0xFF
    requires card.transmit(s.sent, WriteApdu(page, cfg[..4])) == Some([0x90, sw2])
    requires card.transmit(s.sent + [WriteApdu(page, cfg[..4])], WriteApdu(page + 1, cfg[4..8])) == Some([0x63, 0x00])
    ensures WriteConfig(card, s, page, cfg).result.Ok?
  {
    assert [0x90, sw2] == Respond([], 0x90, sw2);
    TransmitReturnsBody(card, s, WriteApdu(page, cfg[..4]), [], sw2);
    var s1 := s.(sent := s.sent + [WriteApdu(page, cfg[..4])]);
    assert [0x63, 0x00] == Respond([], 0x63, 0x00);
    TransmitRecordsStatus(card, s1, WriteApdu(page + 1, cfg[4..8]), [], 0x63, 0x00);
  }

  /** The configuration edit of the setter (`Protect`) or of the clearer (`Unprotect`). */
  function Edit(protect: bool, raw: seq<uint8>): (cfg: seq<uint8>)
    requires |raw| >= 5
    ensures |cfg| == |raw|
  {
    if protect then Protect(raw) else Unprotect(raw)
  }

  /** After the first `n` commands: only READs, then the two writes of `cfg` from `page` on. */
  ghost predicate ConfigTail(n: nat, sent: seq<seq<uint8>>, page: uint8, cfg: seq<uint8>)
    requires |cfg| >= 8 && page < 0xFF
  {
    |sent| >= n + 2 &&
    (forall i :: n <= i < |sent| - 2 ==> IsReadApdu(sent[i])) &&
    sent[|sent| - 2] == WriteApdu(page, cfg[..4]) &&
    sent[|sent| - 1] == WriteApdu(page + 1, cfg[4..8])
  }

  /** The common tail of setting and clearing: `setPage(cfgStartPage)`, `readBytes(16)`, the
      edit, and the two writes. The result is the sixteen bytes read. */
  function EditConfig(card: Scard, s: Session, page: uint8, protect: bool): (r: Step<seq<uint8>>)
    requires page < 0xFF
    ensures Extends(s, r.session) && r.session.version == s.version
    ensures r.result.Ok? ==>
              |r.result.value| == 16 && ConfigTail(|s.sent|, r.session.sent, page, Edit(protect, r.result.value))
  {
    var rd := ReadBytes(card, s, Cursor([], page), 16);
    if rd.result.Err? then Step(Err(rd.result.error), rd.session)
    else
      var raw := rd.result.value;
      var wc := WriteConfig(card, rd.session, page, Edit(protect, raw));
      ExtendsTransitive(s, rd.session, wc.session);
      if wc.result.Err? then Step(Err(wc.result.error), wc.session)
      else
        assert ConfigTail(|s.sent|, wc.session.sent, page, Edit(protect, raw)) by {
          forall i | |s.sent| <= i < |wc.session.sent| - 2
            ensures IsReadApdu(wc.session.sent[i])
          {
            assert wc.session.sent[i] == rd.session.sent[i];
          }
        }
        Step(Ok(raw), wc.session)
  }

  /** `SetNTAG21xPassword`. The card must be a known NTAG21x. The password is written
      big-endian to the product's PWD page. The card is reset (reconnected, which refreshes the
      version bytes) and authenticated with the new password. Sixteen bytes are read from CFG0
      on, and `Protect`ed bytes 0 to 7 are written back. The result is the sixteen bytes read,
      which the edit turns into the bytes printed. */
  function SetPassword(card: Scard, s: Session, password: uint32): (r: Step<seq<uint8>>)
    ensures GoCardInfo(s.version).None? ==> r == Step(Err(UnsupportedCard), s)
    ensures GoCardInfo(s.version).Some? ==>
              NextSent(s, r.session, WriteApdu(PasswordPage(GoCardInfo(s.version).value), U32ToBe(password)))
    ensures r.result.Ok? ==> SetPasswordTrace(s, r.session.sent, password, r.result.value)
  {
    match GoCardInfo(s.version)
    case None => Step(Err(UnsupportedCard), s)
    case Some(p) =>
      var w := WritePage(card, s, PasswordPage(p), U32ToBe(password));
      if w.result.Err? then Step(Err(w.result.error), w.session)
      else
        match card.reconnect(w.session.sent)
        case None => Step(Err(ReconnectFailed), w.session)
        case Some(v) =>
          var t := AuthThenProtect(card, w.session.(version := v), password, p);
          NextSentKept(s, w.session, t.session, WriteApdu(PasswordPage(p), U32ToBe(password)));
          assert |w.session.sent| == |s.sent| + 1;
          assert t.result.Ok? ==> SetPasswordTrace(s, t.session.sent, password, t.result.value) by {
            if t.result.Ok? {
              assert t.session.sent[..|s.sent|] == s.sent;
              assert t.session.sent[|s.sent| + 1] == VendorApdu(PwdAuth(password));
              assert ConfigTail(|s.sent| + 2, t.session.sent, ConfigPage(p), Protect(t.result.value));
            }
          }
          t
  }

  /** The part of `SetNTAG21xPassword` after the reconnect: PWD_AUTH with the new password,
      then the configuration of product `p` read and written back `Protect`ed. */
  function AuthThenProtect(card: Scard, s: Session, password: uint32, p: Product): (r: Step<seq<uint8>>)
    ensures Extends(s, r.session)
    ensures r.result.Ok? ==>
              |r.result.value| == 16 && |r.session.sent| > |s.sent| &&
              r.session.sent[|s.sent|] == VendorApdu(PwdAuth(password)) &&
              ConfigTail(|s.sent| + 1, r.session.sent, ConfigPage(p), Protect(r.result.value))
  {
    var a := Auth(card, s, password);
    if a.result.Err? then Step(Err(a.result.error), a.session)
    else
      var e := EditConfig(card, a.session, ConfigPage(p), true);
      ExtendsTransitive(s, a.session, e.session);
      if e.result.Err? then Step(Err(e.result.error), e.session)
      else
        assert e.session.sent[|s.sent|] == e.session.sent[..|a.session.sent|][|s.sent|];
        Step(Ok(e.result.value), e.session)
  }

  /** What a successful `SetNTAG21xPassword` sent after the commands before it, in order: the
      password write, PWD_AUTH with the new password, READs of the configuration, and the two
      configuration writes carrying the `Protect`ed bytes that were read. */
  ghost predicate SetPasswordTrace(s: Session, sent: seq<seq<uint8>>, password: uint32, raw: seq<uint8>) {
    GoCardInfo(s.version).Some? && |raw| == 16 &&
    var p := GoCardInfo(s.version).value;
    var n := |s.sent|;
    |sent| >= n + 2 && sent[..n] == s.sent &&
    sent[n] == WriteApdu(PasswordPage(p), U32ToBe(password)) &&
    sent[n + 1] == VendorApdu(PwdAuth(password)) &&
    ConfigTail(n + 2, sent, ConfigPage(p), Protect(raw))
  }

  /** `ClearNTAG21xPassword`: like setting, but FF FF FF FF goes to the PWD page, there is no
      reset and no authentication, and the configuration is `Unprotect`ed. */
  function ClearPassword(card: Scard, s: Session): (r: Step<seq<uint8>>)
    ensures GoCardInfo(s.version).None? ==> r == Step(Err(UnsupportedCard), s)
    ensures GoCardInfo(s.version).Some? ==>
              NextSent(s, r.session, WriteApdu(PasswordPage(GoCardInfo(s.version).value), [0xFF, 0xFF, 0xFF, 0xFF]))
    ensures r.result.Ok? ==> ClearPasswordTrace(s, r.session.sent, r.result.value)
  {
    match GoCardInfo(s.version)
    case None => Step(Err(UnsupportedCard), s)
    case Some(p) =>
      var w := WritePage(card, s, PasswordPage(p), [0xFF, 0xFF, 0xFF, 0xFF]);
      if w.result.Err? then Step(Err(w.result.error), w.session)
      else
        var e := EditConfig(card, w.session, ConfigPage(p), false);
        NextSentKept(s, w.session, e.session, WriteApdu(PasswordPage(p), [0xFF, 0xFF, 0xFF, 0xFF]));
        e
  }

  /** What a successful `ClearNTAG21xPassword` sent after the commands before it, in order:
      the blank password write, READs of the configuration, and the two configuration writes
      carrying the `Unprotect`ed bytes that were read. */
  ghost predicate ClearPasswordTrace(s: Session, sent: seq<seq<uint8>>, raw: seq<uint8>) {
    GoCardInfo(s.version).Some? && |raw| == 16 &&
    var p := GoCardInfo(s.version).value;
    var n := |s.sent|;
    |sent| >= n + 1 && sent[..n] == s.sent &&
    sent[n] == WriteApdu(PasswordPage(p), [0xFF, 0xFF, 0xFF, 0xFF]) &&
    ConfigTail(n + 1, sent, ConfigPage(p), Unprotect(raw))
  }
}

=== FILE: go_tag_io.dfy ===
/** The Go reader (`nfc.go`): a streaming page buffer and a page counter, `ReadTags` from page
    0x10, and `WriteTags`, which sends a page each time four bytes have accumulated. */
module GoTagIo {
  import opened Wrappers
  import opened Bytes
  import opened Tags
  import opened PageMemory
  import opened TagStream
  import opened ByteReaders

  /** How a Go read ends early. `EmptyPage` is the index panic of `env.buffer[0]` after a
      successful read with an empty body; `ScanLimit` is where the model stops a stream that
      never reaches a zero id. */
  datatype GoError = ReadFailed | EmptyPage | ZeroLength | ScanLimit

  /** `env.buffer` and `env.currentPage` (a `byte`, so it wraps after 0xFF). */
  datatype GoReader = GoReader(buffer: seq<uint8>, page: uint8)

  /** `setPage(STARTING_REGION)`: page 0x10 with an empty buffer. */
  const GO_START := GoReader([], 0x10)

  /** `readByte`: when the buffer is empty the current page is read, cut to 4 bytes, and the page
      counter moves on; then the first buffered byte is taken. */
  function GoReadByte(src: PageSource, st: GoReader): (r: Result<(uint8, GoReader), GoError>)
    ensures |st.buffer| > 0 ==> r == Ok((st.buffer[0], GoReader(st.buffer[1..], st.page)))
    ensures |st.buffer| == 0 && src(st.page).None? ==> r == Err(ReadFailed)
    ensures |st.buffer| == 0 && r.Ok? ==> r.value.1.page == (st.page + 1) % 256 && |r.value.1.buffer| < 4
  {
    if |st.buffer| > 0 then Ok((st.buffer[0], GoReader(st.buffer[1..], st.page)))
    else match src(st.page)
      case None => Err(ReadFailed)
      case Some(d) =>
        var b := if |d| > 4 then d[..4] else d;
        if |b| == 0 then Err(EmptyPage)
        else Ok((b[0], GoReader(b[1..], (st.page + 1) % 256)))
  }

  function GoByteReader(src: PageSource): (rb: ByteReader<GoReader, GoError>)
    ensures forall st :: rb(st) == GoReadByte(src, st)
  {
    (st: GoReader) => GoReadByte(src, st)
  }

  /** What `ReadTags` returns: the records read so far, and the error that stopped it, if any. */
  type GoReadResult = (seq<Tag>, Option<GoError>)

  /** The `ReadTags` loop over a byte reader: a zero id ends the stream, a zero length byte is an
      error, and any error returns the records read before it together with the error. */
  function GoReadTagsWith(rb: ByteReader<GoReader, GoError>, st: GoReader, fuel: nat): (r: GoReadResult)
    ensures forall i :: 0 <= i < |r.0| ==> r.0[i].id != 0 && 0 < |r.0[i].data| < 256
    ensures fuel == 0 ==> r == ([], Some(ScanLimit))
    decreases fuel
  {
    if fuel == 0 then ([], Some(ScanLimit))
    else match rb(st)
      case Err(e) => ([], Some(e))
      case Ok(v1) =>
        if v1.0 == 0 then ([], None)
        else match rb(v1.1)
          case Err(e) => ([], Some(e))
          case Ok(v2) =>
            if v2.0 == 0 then ([], Some(ZeroLength))
            else match ReadN(rb, v2.1, v2.0)
              case Err(e) => ([], Some(e))
              case Ok(v3) => GoPrepend(Tag(v1.0, v3.0), GoReadTagsWith(rb, v3.1, fuel - 1))
  }

  function GoPrepend(t: Tag, r: GoReadResult): (r': GoReadResult)
    ensures r' == ([t] + r.0, r.1)
  {
    ([t] + r.0, r.1)
  }

  /** `ReadTags`: from page 0x10 with an empty buffer. */
  function GoReadTags(src: PageSource, fuel: nat): (r: GoReadResult)
  {
    GoReadTagsWith(GoByteReader(src), GO_START, fuel)
  }

  /** Index of the first record with an empty payload, or the number of records. */
  function FirstEmpty(tags: seq<Tag>): (k: nat)
    ensures k <= |tags|
    ensures forall i :: 0 <= i < k ==> |tags[i].data| > 0
    ensures k < |tags| ==> |tags[k].data| == 0
  {
    if |tags| == 0 || |tags[0].data| == 0 then 0 else 1 + FirstEmpty(tags[1..])
  }

  /** One pass of the loop over a reader that yields a record and then `tail`. */
  lemma GoReadRecord(rb: ByteReader<GoReader, GoError>, st: GoReader, t: Tag, tail: seq<uint8>,
                     st': GoReader, fuel: nat) returns (st3: GoReader)
    requires t.id != 0 && |t.data| <= 255 && fuel > 0
    requires Yields(rb, st, EncodeTag(t) + tail, st')
    ensures |t.data| == 0 ==> GoReadTagsWith(rb, st, fuel) == ([], Some(ZeroLength))
    ensures |t.data| > 0 ==>
              Yields(rb, st3, tail, st') &&
              GoReadTagsWith(rb, st, fuel) == GoPrepend(t, GoReadTagsWith(rb, st3, fuel - 1))
  {
    var s := EncodeTag(t) + tail;
    YieldsUncons(rb, st, s, st');
    var st1 := rb(st).value.1;
    YieldsUncons(rb, st1, s[1..], st');
    var st2 := rb(st1).value.1;
    assert s[1..][1..] == t.data + tail;
    st3 := st2;
    if |t.data| > 0 {
      ReadNSplit(rb, st2, t.data + tail, st', |t.data|);
      assert (t.data + tail)[..|t.data|] == t.data && (t.data + tail)[|t.data|..] == tail;
      st3 := ReadN(rb, st2, |t.data|).value.1;
    }
  }

  /** The loop over any reader that yields writable records and a zero byte returns the records
      up to the first empty payload, with the zero-length error if there is one. */
  lemma {:induction false} GoReadTagsOfStream(rb: ByteReader<GoReader, GoError>, st: GoReader,
                                              tags: seq<Tag>, st': GoReader, fuel: nat)
    requires Writable(tags) && fuel > |tags|
    requires Yields(rb, st, Encode(tags) + [0], st')
    ensures var k := FirstEmpty(tags);
            GoReadTagsWith(rb, st, fuel) == (tags[..k], if k == |tags| then None else Some(ZeroLength))
    decreases |tags|
  {
    var s := Encode(tags) + [0];
    if |tags| == 0 {
      assert s == [0];
      YieldsUncons(rb, st, s, st');
    } else {
      var tail := Encode(tags[1..]) + [0];
      assert s == EncodeTag(tags[0]) + tail;
      assert Writable(tags[1..]) by {
        assert forall i :: 0 <= i < |tags[1..]| ==> tags[1..][i] == tags[i + 1];
      }
      var st3 := GoReadRecord(rb, st, tags[0], tail, st', fuel);
      if |tags[0].data| > 0 {
        GoReadTagsOfStream(rb, st3, tags[1..], st', fuel - 1);
        var k := FirstEmpty(tags[1..]);
        assert [tags[0]] + tags[1..][..k] == tags[..k + 1];
      }
    }
  }

  // ---------------------------------------------------------------- reading a card

  /** The Go reader stands at byte `pos` of the tag area: the page counter is the page after the
      buffered one, and the buffer holds the rest of the current page. */
  ghost predicate GoAt(mem: Memory, st: GoReader, pos: nat) {
    st.page as nat == (START_PAGE + (pos + 3) / 4) % 256 &&
    if pos % 4 == 0 then st.buffer == []
    else START_PAGE + pos / 4 in mem && st.buffer == mem[START_PAGE + pos / 4][pos % 4..]
  }

  lemma GoReadByteFromMemory(src: PageSource, mem: Memory, st: GoReader, pos: nat)
    requires Faithful(src, mem) && GoAt(mem, st, pos)
    requires ByteAt(mem, pos).Some? && START_PAGE + pos / 4 < 256
    ensures var r := GoReadByte(src, st);
            r.Ok? && r.value.0 == ByteAt(mem, pos).value && GoAt(mem, r.value.1, pos + 1)
  {
    var p := START_PAGE + pos / 4;
    if pos % 4 == 0 {
      assert st.page as nat == p;
      var d := src(p).value;
      assert PageAt(mem, p, 0) == Some(Chunk(d, 0));
      var b := if |d| > 4 then d[..4] else d;
      assert b == mem[p];
    }
  }

  /** Reading a card from a position yields the bytes the tag area holds there. */
  lemma {:induction false} GoReadsHeld(src: PageSource, mem: Memory, st: GoReader, pos: nat, s: seq<uint8>)
    returns (st': GoReader)
    requires Faithful(src, mem) && GoAt(mem, st, pos) && Holds(mem, pos, s)
    requires |s| == 0 || START_PAGE + (pos + |s| - 1) / 4 < 256
    ensures Yields(GoByteReader(src), st, s, st') && GoAt(mem, st', pos + |s|)
    decreases |s|
  {
    var rb := GoByteReader(src);
    if |s| == 0 {
      st' := st;
    } else {
      assert ByteAt(mem, pos + 0) == Some(s[0]);
      GoReadByteFromMemory(src, mem, st, pos);
      var st1 := rb(st).value.1;
      HoldsSuffix(mem, pos, s, 1);
      st' := GoReadsHeld(src, mem, st1, pos + 1, s[1..]);
      YieldsCons(rb, st, s[0], st1, s[1..], st');
      assert [s[0]] + s[1..] == s;
    }
  }

  /** `ReadTags` on a card whose tag area holds writable records and a zero byte, below page 256,
      returns the records up to the first empty payload, and the zero-length error if there is
      one. */
  lemma GoReadTagsFromMemory(src: PageSource, mem: Memory, tags: seq<Tag>, fuel: nat)
    requires Faithful(src, mem) && Writable(tags) && fuel > |tags|
    requires Holds(mem, 0, Encode(tags) + [0])
    requires START_PAGE + |Encode(tags)| / 4 < 256
    ensures var k := FirstEmpty(tags);
            GoReadTags(src, fuel) == (tags[..k], if k == |tags| then None else Some(ZeroLength))
  {
    var s := Encode(tags) + [0];
    var st' := GoReadsHeld(src, mem, GO_START, 0, s);
    GoReadTagsOfStream(GoByteReader(src), GO_START, tags, st', fuel);
  }

  // ---------------------------------------------------------------- writing

  /** `WriteTags` over the serialised stream: each byte is appended to the accumulator and
      `checkAndTransmit` writes a page (counter from 0x10 on, wrapping as a `byte`) once four
      bytes are there; a partial last page is filled with zeros and written. The writes issued
      are a prefix of the page plan, ending at the first rejected write; when all are accepted
      they are the whole plan, which adds no zero page when the stream length is a multiple
      of 4. */
  method GoWriteStream(s: seq<uint8>, write: (uint8, Page) -> bool) returns (ok: bool, ws: seq<PageWrite>)
    ensures PlanOutcome(s, write, ok, ws)
  {
    var acc, n;
    ok, ws, acc, n := GoWriteWholePages(s, write);
    if !ok {
      return;
    }
    if |acc| > 0 {
      var p := GoPadPage(acc);
      var page: uint8 := (START_PAGE + n) % 256;
      PlanLastOutcome(s, write, ws, p);
      ws := ws + [PageWrite(page, p)];
      ok := write(page, p);
    } else {
      assert ws == PagePlan(s);
      PlanAccepted(s, write, ws);
    }
  }

  /** The main loop of `WriteTags`: every byte goes to the accumulator, and each full
      accumulator is written as the next page of the plan. It ends at the first rejected write,
      or at the end of the stream with the bytes of a partial last page still accumulated. */
  method GoWriteWholePages(s: seq<uint8>, write: (uint8, Page) -> bool)
    returns (ok: bool, ws: seq<PageWrite>, acc: seq<uint8>, n: nat)
    ensures !ok ==> PlanOutcome(s, write, false, ws)
    ensures ok ==> 4 * n + |acc| == |s| && |acc| < 4 && acc == s[4 * n..] && n == |ws| && n <= |PagePlan(s)| && ws == PagePlan(s)[..n]
    ensures ok ==> forall k :: 0 <= k < n ==> write(ws[k].page, ws[k].data)
  {
    acc := [];
    ws := [];
    n := 0;
    var i := 0;
    while i < |s|
      invariant 0 <= i <= |s| && |acc| < 4 && n == |ws|
      invariant i == 4 * n + |acc| && acc == s[4 * n..i]
      invariant n <= |PagePlan(s)| && ws == PagePlan(s)[..n]
      invariant forall k :: 0 <= k < n ==> write(ws[k].page, ws[k].data)
    {
      assert s[4 * n..i + 1] == acc + [s[i]];
      acc := acc + [s[i]];
      i := i + 1;
      if |acc| == 4 {
        var p: Page := acc;
        var page: uint8 := (START_PAGE + n) % 256;
        PlanExtend(s, n);
        assert p == Chunk(s, n);
        ws := ws + [PageWrite(page, p)];
        n := n + 1;
        if !write(page, p) {
          PlanRejected(s, write, ws);
          return false, ws, acc, n;
        }
        acc := [];
      }
    }
    ok := true;
  }

  /** The zero padding of a partial last page. */
  method GoPadPage(acc: seq<uint8>) returns (p: Page)
    requires 0 < |acc| < 4
    ensures p == acc + Zeros(4 - |acc|)
  {
    var buf := acc;
    while |buf| < 4
      invariant |acc| <= |buf| <= 4
      invariant buf == acc + Zeros(|buf| - |acc|)
      decreases 4 - |buf|
    {
      buf := buf + [0];
    }
    p := buf;
  }

  /** `WriteTags`: the stream of the records, written page by page inside a card transaction.
      The result of opening the transaction is ignored, so it has no parameter here; `endOk` is
      whether the reader reports closing it without error, which is asked only once every page
      has been accepted. The call succeeds when the whole plan went through and the transaction
      closed. */
  method GoWriteTags(tags: seq<Tag>, write: (uint8, Page) -> bool, endOk: bool) returns (ok: bool, ws: seq<PageWrite>)
    ensures endOk ==> PlanOutcome(Encode(tags), write, ok, ws)
    ensures !endOk ==> !ok && (PlanOutcome(Encode(tags), write, true, ws) || PlanOutcome(Encode(tags), write, false, ws))
  {
    var accepted;
    accepted, ws := GoWriteStream(Encode(tags), write);
    ok := accepted && endOk;
  }
}

=== FILE: json_text.dfy ===
/** The JSON object text the implementations build by hand: a brace, members separated by
    commas, a brace. Kotlin and C++ both append a comma after every member and then patch the
    last character, in two different ways. */
module JsonText {
  function Quote(s: string): (r: string)
    ensures |r| == |s| + 2
  {
    "\"" + s + "\""
  }

  /** `"key":value`. */
  function Member(key: string, value: string): (r: string)
    ensures |r| == |key| + 3 + |value|
  {
    Quote(key) + ":" + value
  }

  /** Members separated by commas. */
  function Join(ms: seq<string>): (r: string)
    ensures |ms| == 0 ==> r == ""
    ensures |ms| == 1 ==> r == ms[0]
    ensures |ms| > 0 ==> |r| >= |ms[0]|
  {
    if |ms| == 0 then "" else if |ms| == 1 then ms[0] else ms[0] + "," + Join(ms[1..])
  }

  /** The object with these members, in this order. */
  function JoinObject(ms: seq<string>): (r: string)
    ensures |r| >= 2 && r[0] == '{' && r[|r| - 1] == '}' && r[1..|r| - 1] == Join(ms)
  {
    "{" + Join(ms) + "}"
  }

  /** Every member followed by a comma: what the building loops accumulate. */
  function TrailingCommas(ms: seq<string>): (r: string)
    ensures |ms| == 0 <==> r == ""
    ensures |ms| > 0 ==> |r| > 0 && r[|r| - 1] == ','
  {
    if |ms| == 0 then "" else ms[0] + "," + TrailingCommas(ms[1..])
  }

  /** Dropping the last comma leaves the members separated by commas. */
  lemma {:induction false} TrailingCommasJoin(ms: seq<string>)
    requires |ms| > 0
    ensures TrailingCommas(ms) == Join(ms) + ","
    decreases |ms|
  {
    if |ms| > 1 {
      TrailingCommasJoin(ms[1..]);
    }
  }

  /** Appending members one at a time, each with its comma, builds the same text. */
  lemma {:induction false} TrailingCommasAppend(a: seq<string>, b: seq<string>)
    ensures TrailingCommas(a + b) == TrailingCommas(a) + TrailingCommas(b)
    decreases |a|
  {
    if |a| > 0 {
      assert (a + b)[1..] == a[1..] + b;
      TrailingCommasAppend(a[1..], b);
    } else {
      assert a + b == b;
    }
  }

  /** The Kotlin validators' ending: `dropLast(1)` and then "}". */
  function KtClose(body: string): (r: string)
    ensures |r| == if |body| > 0 then |body| else 1
    ensures r[..|r| - 1] <= body && r[|r| - 1] == '}'
  {
    (if |body| > 0 then body[..|body| - 1] else body) + "}"
  }

  /** With members the Kotlin ending gives the object; with none, `dropLast` removes the opening
      brace itself and the text is a lone "}". */
  lemma KtCloseObject(ms: seq<string>)
    ensures |ms| > 0 ==> KtClose("{" + TrailingCommas(ms)) == JoinObject(ms)
    ensures |ms| == 0 ==> KtClose("{" + TrailingCommas(ms)) == "}"
  {
    if |ms| > 0 {
      OpenedWithComma(ms);
    } else {
      assert "{" + TrailingCommas(ms) == "{";
    }
  }

  /** The text the loops leave is the opened object, then one comma. */
  lemma OpenedWithComma(ms: seq<string>)
    requires |ms| > 0
    ensures var j := "{" + Join(ms);
            "{" + TrailingCommas(ms) == j + "," && ("{" + TrailingCommas(ms))[..|j|] == j
  {
    TrailingCommasJoin(ms);
    var j := "{" + Join(ms);
    assert "{" + (Join(ms) + ",") == j + ",";
  }

  /** The ESP32 ending: the last comma becomes "}" when there is more than the opening brace,
      otherwise "}" is appended. */
  function CppClose(body: string): (r: string)
    ensures |r| == if |body| > 1 then |body| else |body| + 1
    ensures r[..|r| - 1] <= body && r[|r| - 1] == '}'
  {
    if |body| > 1 then body[..|body| - 1] + "}" else body + "}"
  }

  /** The ESP32 ending always gives the object, "{}" when there are no members. */
  lemma CppCloseObject(ms: seq<string>)
    ensures CppClose("{" + TrailingCommas(ms)) == JoinObject(ms)
  {
    if |ms| > 0 {
      OpenedWithComma(ms);
    } else {
      assert "{" + TrailingCommas(ms) == "{";
    }
  }

  // ---------------------------------------------------------------- building by appends

  /* Both builders walk a fixed list of candidate members, appending `member,` for those
     present: the ESP32 `toJSON` one `if` per field, the Kotlin validators one loop step per
     key, skipping the signature. */

  /** The members printed: those of the candidates that are present. */
  function Printed(fs: seq<(bool, string)>): (ms: seq<string>)
    ensures |ms| <= |fs|
  {
    if |fs| == 0 then [] else (if fs[0].0 then [fs[0].1] else []) + Printed(fs[1..])
  }

  /** Nothing is printed exactly when no candidate is present, and every member printed is one of the
      candidates' members. */
  lemma {:induction false} PrintedFields(fs: seq<(bool, string)>)
    ensures |Printed(fs)| == 0 <==> forall i :: 0 <= i < |fs| ==> !fs[i].0
    ensures forall j :: 0 <= j < |Printed(fs)| ==> exists i :: 0 <= i < |fs| && fs[i].1 == Printed(fs)[j]
    decreases |fs|
  {
    if |fs| > 0 {
      PrintedFields(fs[1..]);
      assert forall i :: 1 <= i < |fs| ==> fs[i] == fs[1..][i - 1];
      var ms := Printed(fs);
      var head: seq<string> := if fs[0].0 then [fs[0].1] else [];
      assert ms == head + Printed(fs[1..]);
      forall j | 0 <= j < |ms| ensures exists i :: 0 <= i < |fs| && fs[i].1 == ms[j] {
        if j < |head| {
          assert fs[0].1 == ms[j];
        } else {
          var i :| 0 <= i < |fs[1..]| && fs[1..][i].1 == Printed(fs[1..])[j - |head|];
          assert fs[i + 1].1 == ms[j];
        }
      }
    }
  }

  /** `"key":value,` appended to the buffer when the candidate is present. */
  function AppendIf(buffer: string, present: bool, member: string): (r: string)
    ensures |r| >= |buffer|
  {
    if present then buffer + member + "," else buffer
  }

  /** The buffer after the appends for the candidates. */
  function Buffer(buffer: string, fs: seq<(bool, string)>): (r: string)
    ensures |r| >= |buffer|
    decreases |fs|
  {
    if |fs| == 0 then buffer else Buffer(AppendIf(buffer, fs[0].0, fs[0].1), fs[1..])
  }

  /** The buffer after the steps is what it was, followed by the members printed, each with its
      comma. */
  lemma {:induction false} BufferPrinted(b: string, fs: seq<(bool, string)>)
    ensures Buffer(b, fs) == b + TrailingCommas(Printed(fs))
    decreases |fs|
  {
    if |fs| == 0 {
      assert b + "" == b;
    } else {
      var present, member := fs[0].0, fs[0].1;
      var rest := Printed(fs[1..]);
      BufferPrinted(AppendIf(b, present, member), fs[1..]);
      if present {
        var ms := [member] + rest;
        assert ms[0] == member && ms[1..] == rest;
        assert TrailingCommas(ms) == member + "," + TrailingCommas(rest);
        assert b + member + "," + TrailingCommas(rest) == b + (member + "," + TrailingCommas(rest));
      } else {
        assert [] + rest == rest;
      }
    }
  }

}

=== FILE: kotlin_tag_io.dfy ===
/** The Android readers: the validator's `NFC` class and the proxy's `NFCInterface`. Both keep
    a page cache and an `Int` byte cursor over the tag area; the proxy resets the cursor before
    a read and drops the cache when the card goes away. */
module KotlinTagIo {
  import opened Wrappers
  import opened Bytes
  import opened Tags
  import opened PageMemory
  import opened TagStream
  import opened ByteReaders

  /** The exceptions a read can end in. `ScanLimit` is not in the source: it is where the
      model stops a stream that never reaches a zero id. */
  datatype KtError =
    | TransportFailure   // `readPages` threw
    | ShortChunk         // `slice(i..i + 3)` past the end of a read that is not whole pages
    | PageMissing        // the page is still absent: a null dereference in the validator,
                         // "Failed to read page N" in the proxy
    | NegativeArraySize  // a length byte of 0x80 or more read as a negative `Int`
    | ScanLimit

  type Cache = map<int, Page>

  /** Reader state: the page cache (`tagMemory`) and the cursor (`bytePosition`). */
  datatype KtReader = KtReader(cache: Cache, pos: nat)

  const KT_FRESH := KtReader(map[], 0)

  /** The caching loop of `readPage`: chunk i of a read starting at `addr` is stored at
      `addr + i`; a read whose length is not a multiple of 4 fails at its last chunk. Here the
      whole read fails and the chunks before it are dropped, where `readPage` would already have
      cached them; the case does not arise, since every read returns 16 bytes. */
  function StoreChunks(cache: Cache, addr: int, d: seq<uint8>): (r: Option<Cache>)
    ensures r.Some? <==> |d| % 4 == 0
    ensures r.Some? ==> forall p :: p in r.value <==> p in cache || addr <= p < addr + |d| / 4
    ensures r.Some? ==> forall p :: p in cache && !(addr <= p < addr + |d| / 4) ==> r.value[p] == cache[p]
    decreases |d|
  {
    if |d| == 0 then Some(cache)
    else if |d| < 4 then None
    else StoreChunks(cache[addr := d[..4]], addr + 1, d[4..])
  }

  /** Chunk j of the read is what the cache holds at `addr + j` afterwards. */
  lemma {:induction false} StoreChunksAt(cache: Cache, addr: int, d: seq<uint8>, j: nat)
    requires |d| % 4 == 0 && j < |d| / 4
    ensures StoreChunks(cache, addr, d).value[addr + j] == d[4 * j..4 * j + 4]
    decreases |d|
  {
    if j > 0 {
      StoreChunksAt(cache[addr := d[..4]], addr + 1, d[4..], j - 1);
      assert d[4..][4 * (j - 1)..4 * (j - 1) + 4] == d[4 * j..4 * j + 4];
    }
  }

  /** `readPage`: a cached page is returned without touching the card; otherwise the card
      is read from this page on, every chunk is cached, and the page is returned. */
  function KtReadPage(src: PageSource, cache: Cache, addr: nat): (r: Result<(Page, Cache), KtError>)
    ensures addr in cache ==> r == Ok((cache[addr], cache))
    ensures addr !in cache && src(addr).None? ==> r == Err(TransportFailure)
    ensures r.Ok? ==> addr in r.value.1 && r.value.0 == r.value.1[addr]
    ensures r.Ok? ==> forall p :: p in cache ==> p in r.value.1
    ensures r.Ok? && addr !in cache ==>
              src(addr).Some? && |src(addr).value| >= 4 && r.value.0 == src(addr).value[..4]
  {
    if addr in cache then Ok((cache[addr], cache))
    else match src(addr)
      case None => Err(TransportFailure)
      case Some(d) =>
        match StoreChunks(cache, addr, d)
        case None => Err(ShortChunk)
        case Some(c) =>
          if addr in c then
            StoreChunksAt(cache, addr, d, 0);
            Ok((c[addr], c))
          else Err(PageMissing)
  }

  /** `readByte`: byte `pos mod 4` of page 0x10 + pos / 4, then the cursor moves on. */
  function KtReadByte(src: PageSource, st: KtReader): (r: Result<(uint8, KtReader), KtError>)
    ensures r.Ok? ==> r.value.1.pos == st.pos + 1
    ensures r.Ok? ==> var p := START_PAGE + st.pos / 4;
                      p in r.value.1.cache && r.value.0 == r.value.1.cache[p][st.pos % 4]
    ensures r.Ok? ==> forall p :: p in st.cache ==> p in r.value.1.cache
  {
    var (page, c) :- KtReadPage(src, st.cache, START_PAGE + st.pos / 4);
    Ok((page[st.pos % 4], KtReader(c, st.pos + 1)))
  }

  /** `readByte` as a byte reader over the reader state. */
  function KtByteReader(src: PageSource): (rb: ByteReader<KtReader, KtError>)
    ensures forall st :: rb(st) == KtReadByte(src, st)
  {
    (st: KtReader) => KtReadByte(src, st)
  }

  /** The `readTags` loop over a byte reader: id, length, payload (`readBytes`), until a zero id.
      The length byte is a signed Kotlin `Byte`, so 0x80 and above make `ByteArray(length)`
      throw. */
  function KtReadTagsWith(rb: ByteReader<KtReader, KtError>, st: KtReader, fuel: nat)
    : (r: Result<(seq<Tag>, KtReader), KtError>)
    ensures r.Ok? ==> forall i :: 0 <= i < |r.value.0| ==> r.value.0[i].id != 0 && |r.value.0[i].data| < 0x80
    ensures fuel == 0 ==> r == Err(ScanLimit)
    decreases fuel
  {
    if fuel == 0 then Err(ScanLimit)
    else
      var (id, st1) :- rb(st);
      if id == 0 then Ok(([], st1))
      else
        var (len, st2) :- rb(st1);
        if len >= 0x80 then Err(NegativeArraySize)
        else
          var (data, st3) :- ReadN(rb, st2, len);
          var (rest, st4) :- KtReadTagsWith(rb, st3, fuel - 1);
          Ok(([Tag(id, data)] + rest, st4))
  }

  /** The validator's `NFC.readTags`: it starts wherever the cursor is and never resets it. */
  function ValidatorReadTags(src: PageSource, st: KtReader, fuel: nat): (r: Result<(seq<Tag>, KtReader), KtError>)
  {
    KtReadTagsWith(KtByteReader(src), st, fuel)
  }

  /** The proxy's `NFCInterface.readTags`: the cursor goes back to 0 first, the cache stays. */
  function ProxyReadTags(src: PageSource, st: KtReader, fuel: nat): (r: Result<(seq<Tag>, KtReader), KtError>)
  {
    KtReadTagsWith(KtByteReader(src), st.(pos := 0), fuel)
  }

  // ---------------------------------------------------------------- proxy card state

  /** The proxy's per-reader state: cache and cursor, presence flag, cached GET_VERSION. */
  datatype ProxyState = ProxyState(reader: KtReader, present: bool, versionInfo: Option<seq<uint8>>)

  /** `setCardPresent`: losing the card drops the page cache and the cursor, not the version. */
  function SetCardPresent(st: ProxyState, present: bool): (r: ProxyState)
    ensures r.present == present && r.versionInfo == st.versionInfo
    ensures !present ==> r.reader == KT_FRESH
    ensures present ==> r.reader == st.reader
  {
    if present then st.(present := true)
    else ProxyState(KtReader(map[], 0), false, st.versionInfo)
  }

  // ---------------------------------------------------------------- reading a card

  /** Every cached page the card has is the card's page. A sixteen-byte read near the end of
      memory also caches rolled-over chunks under page numbers the card does not have; those are
      left free. */
  ghost predicate KtConsistent(cache: Cache, mem: Memory) {
    forall p :: p in cache && p >= 0 && p in mem ==> cache[p] == mem[p]
  }

  /** Caching a faithful read keeps the cache faithful to the card. */
  lemma StoreFaithfulConsistent(cache: Cache, mem: Memory, addr: nat, d: seq<uint8>)
    requires KtConsistent(cache, mem) && ChunksMatch(mem, addr, d)
    ensures StoreChunks(cache, addr, d).Some?
    ensures KtConsistent(StoreChunks(cache, addr, d).value, mem)
  {
    var c := StoreChunks(cache, addr, d).value;
    forall p | p in c && p >= 0 && p in mem ensures c[p] == mem[p] {
      if addr <= p < addr + |d| / 4 {
        var j: nat := p - addr;
        StoreChunksAt(cache, addr, d, j);
        assert PageAt(mem, addr, j) == Some(Chunk(d, j));
      }
    }
  }

  /** Reading one byte of a card through a faithful cache yields the card's byte. */
  lemma KtReadByteFromMemory(src: PageSource, mem: Memory, st: KtReader)
    requires Faithful(src, mem) && KtConsistent(st.cache, mem)
    requires ByteAt(mem, st.pos).Some?
    ensures var r := KtReadByte(src, st);
            r.Ok? && r.value.0 == ByteAt(mem, st.pos).value && r.value.1.pos == st.pos + 1 &&
            KtConsistent(r.value.1.cache, mem)
  {
    var addr := START_PAGE + st.pos / 4;
    if addr !in st.cache {
      StoreFaithfulConsistent(st.cache, mem, addr, src(addr).value);
    }
  }

  /** Reading a card through a faithful cache yields the bytes the tag area holds. */
  lemma {:induction false} KtReadsHeld(src: PageSource, mem: Memory, st: KtReader, s: seq<uint8>)
    requires Faithful(src, mem) && KtConsistent(st.cache, mem)
    requires Holds(mem, st.pos, s)
    ensures ReadN(KtByteReader(src), st, |s|).Ok?
    ensures Yields(KtByteReader(src), st, s, ReadN(KtByteReader(src), st, |s|).value.1)
    decreases |s|
  {
    if |s| > 0 {
      var rb := KtByteReader(src);
      assert ByteAt(mem, st.pos + 0) == Some(s[0]);
      KtReadByteFromMemory(src, mem, st);
      var st1 := rb(st).value.1;
      assert rb(st) == Ok((s[0], st1));
      var tail := s[1..];
      HoldsSuffix(mem, st.pos, s, 1);
      KtReadsHeld(src, mem, st1, tail);
      var last := ReadN(rb, st1, |tail|).value.1;
      YieldsCons(rb, st, s[0], st1, tail, last);
      assert [s[0]] + tail == s;
      assert ReadN(rb, st, |s|) == Ok((s, last));
    }
  }

  /** All payloads short enough for a signed length byte. */
  predicate KtReadable(tags: seq<Tag>) {
    forall i :: 0 <= i < |tags| ==> |tags[i].data| < 0x80
  }

  lemma KtReadableTail(tags: seq<Tag>)
    requires |tags| > 0 && Writable(tags)
    ensures Writable(tags[1..])
    ensures KtReadable(tags) <==> |tags[0].data| < 0x80 && KtReadable(tags[1..])
  {
    assert forall i :: 0 <= i < |tags[1..]| ==> tags[1..][i] == tags[i + 1];
  }

  /** A record in front of what the rest of the loop returns. */
  function PrependTag(t: Tag, r: Result<(seq<Tag>, KtReader), KtError>): (r': Result<(seq<Tag>, KtReader), KtError>)
    ensures r'.Ok? <==> r.Ok?
    ensures r.Ok? ==> r'.value == ([t] + r.value.0, r.value.1)
    ensures r.Err? ==> r' == r
  {
    match r
    case Ok(v) => Ok(([t] + v.0, v.1))
    case Err(e) => Err(e)
  }

  /** One pass of the loop over a reader that yields a record and then `tail`: a payload of
      128 bytes or more throws, anything else is read and the loop goes on at `tail`. */
  lemma KtReadRecord(rb: ByteReader<KtReader, KtError>, st: KtReader, t: Tag, tail: seq<uint8>,
                     st': KtReader, fuel: nat) returns (st3: KtReader)
    requires t.id != 0 && |t.data| <= 255 && fuel > 0
    requires Yields(rb, st, EncodeTag(t) + tail, st')
    ensures |t.data| >= 0x80 ==> KtReadTagsWith(rb, st, fuel) == Err(NegativeArraySize)
    ensures |t.data| < 0x80 ==>
              Yields(rb, st3, tail, st') &&
              KtReadTagsWith(rb, st, fuel) == PrependTag(t, KtReadTagsWith(rb, st3, fuel - 1))
  {
    var s := EncodeTag(t) + tail;
    YieldsUncons(rb, st, s, st');
    var st1 := rb(st).value.1;
    YieldsUncons(rb, st1, s[1..], st');
    var st2 := rb(st1).value.1;
    assert s[1..][1..] == t.data + tail;
    st3 := st2;
    if |t.data| < 0x80 {
      ReadNSplit(rb, st2, t.data + tail, st', |t.data|);
      assert (t.data + tail)[..|t.data|] == t.data && (t.data + tail)[|t.data|..] == tail;
      st3 := ReadN(rb, st2, |t.data|).value.1;
    }
  }

  /** The record loop over any byte reader that yields a stream of writable records and a zero
      byte returns exactly those records, and stops right after the zero byte, unless a payload
      is 128 bytes or longer, which makes it throw. */
  lemma {:induction false} KtReadTagsOfStream(rb: ByteReader<KtReader, KtError>, st: KtReader,
                                              tags: seq<Tag>, st': KtReader, fuel: nat)
    requires Writable(tags) && fuel > |tags|
    requires Yields(rb, st, Encode(tags) + [0], st')
    ensures KtReadable(tags) ==> KtReadTagsWith(rb, st, fuel) == Ok((tags, st'))
    ensures !KtReadable(tags) ==> KtReadTagsWith(rb, st, fuel) == Err(NegativeArraySize)
    decreases |tags|
  {
    var s := Encode(tags) + [0];
    if |tags| == 0 {
      assert s == [0];
      YieldsUncons(rb, st, s, st');
    } else {
      var tail := Encode(tags[1..]) + [0];
      assert s == EncodeTag(tags[0]) + tail;
      KtReadableTail(tags);
      var st3 := KtReadRecord(rb, st, tags[0], tail, st', fuel);
      if |tags[0].data| < 0x80 {
        KtReadTagsOfStream(rb, st3, tags[1..], st', fuel - 1);
        assert [tags[0]] + tags[1..] == tags;
      }
    }
  }

  /** A Kotlin reader positioned on the tag area of a card that holds a stream of writable
      records and a zero byte returns those records (or throws on a long payload), whichever
      pages are already cached, as long as the cache is faithful. */
  lemma KtReadTagsFromMemory(src: PageSource, mem: Memory, st: KtReader, tags: seq<Tag>, fuel: nat)
    requires Faithful(src, mem) && KtConsistent(st.cache, mem)
    requires Writable(tags) && fuel > |tags|
    requires Holds(mem, st.pos, Encode(tags) + [0])
    ensures var r := ValidatorReadTags(src, st, fuel);
            (KtReadable(tags) ==> r.Ok? && r.value.0 == tags) &&
            (!KtReadable(tags) ==> r == Err(NegativeArraySize))
  {
    KtReadsHeld(src, mem, st, Encode(tags) + [0]);
    var rb := KtByteReader(src);
    KtReadTagsOfStream(rb, st, tags, ReadN(rb, st, |Encode(tags) + [0]|).value.1, fuel);
  }

  /** The proxy reads from the start of the tag area whatever its cursor was. */
  lemma ProxyReadTagsFromMemory(src: PageSource, mem: Memory, st: KtReader, tags: seq<Tag>, fuel: nat)
    requires Faithful(src, mem) && KtConsistent(st.cache, mem)
    requires Writable(tags) && fuel > |tags|
    requires Holds(mem, 0, Encode(tags) + [0])
    ensures var r := ProxyReadTags(src, st, fuel);
            (KtReadable(tags) ==> r.Ok? && r.value.0 == tags) &&
            (!KtReadable(tags) ==> r == Err(NegativeArraySize))
  {
    KtReadTagsFromMemory(src, mem, st.(pos := 0), tags, fuel);
  }
}

=== FILE: kt_card_json.dfy ===
/** `TagArray.toJSON` of the Android validator (`NFC.kt`) and of the Android proxy
    (`NFCInterface.kt`): every record, in card order, is put into a `JSONObject` under the key of
    its id, so a later record overwrites an earlier one; a record whose payload has the wrong
    length throws the getter's exception. The two differ only in how the signature and the
    timestamp are put. */
module KotlinCardJson {
  import opened Wrappers
  import opened Bytes
  import opened Tags
  import opened Decimal
  import Base64

  /** The values the builders put: unsigned numbers, strings and the raw signature array. */
  datatype JsonValue = JNum(n: nat) | JText(s: string) | JBytes(b: seq<uint8>)

  /** The keys `toJSON` can put. */
  datatype Key = UserId | ConventionId | Signature | IssuanceCount | Timestamp | Expiration

  /** The text of each key. */
  function KeyName(k: Key): (s: string)
    ensures |s| > 0
  {
    match k
    case UserId => "userId"
    case ConventionId => "conventionId"
    case Signature => "signature"
    case IssuanceCount => "issuanceCount"
    case Timestamp => "timestamp"
    case Expiration => "expiration"
  }

  /** A `JSONObject` with the keys above. */
  type JsonObject = map<Key, JsonValue>

  /** How a variant puts the signature bytes and the timestamp. */
  datatype Rendering = Rendering(signature: seq<uint8> -> JsonValue, timestamp: nat -> JsonValue)

  /** The validator puts the byte array itself and the timestamp's decimal text. */
  const VALIDATOR := Rendering(b => JBytes(b), (n: nat) => JText(NatToString(n)))

  /** The proxy puts the Base64 text (`NO_WRAP`) of the signature and the timestamp as a number. */
  function ProxyRendering(codec: Base64.Codec): (rd: Rendering)
    ensures forall b :: rd.signature(b) == JText(codec.encode(b))
    ensures forall n :: rd.timestamp(n) == JNum(n)
  {
    Rendering(b => JText(codec.encode(b)), (n: nat) => JNum(n))
  }

  /** The record id whose value goes under each key. */
  function KeyId(k: Key): (id: uint8)
    ensures IsKnownId(id)
  {
    match k
    case UserId | ConventionId => ATTENDEE_CONVENTION_ID
    case Signature => SIGNATURE
    case IssuanceCount => ISSUANCE
    case Timestamp => TIMESTAMP
    case Expiration => EXPIRATION
  }

  /** A record `toJSON` puts without throwing: the attendee record has eight bytes and the
      numeric records four or eight; signatures and unknown ids take any length. */
  predicate KtFieldValid(t: Tag) {
    (t.id == ATTENDEE_CONVENTION_ID ==> |t.data| == 8) &&
    (t.id == ISSUANCE || t.id == TIMESTAMP || t.id == EXPIRATION ==> |t.data| == 4 || |t.data| == 8)
  }

  /** The exception message of a record `toJSON` refuses. */
  function KtFieldError(t: Tag): string {
    if t.id == ATTENDEE_CONVENTION_ID then "Tag data is not 8 bytes long" else "Tag data is not 4 or 8 bytes long"
  }

  /** The value under key `k` taken from record `t`, in the reference definition below. */
  function KeyValue(rd: Rendering, k: Key, t: Tag): JsonValue {
    match k
    case UserId => JNum(if |t.data| == 8 then BeValue(t.data[..4]) else 0)
    case ConventionId => JNum(if |t.data| == 8 then BeValue(t.data[4..]) else 0)
    case Signature => rd.signature(t.data)
    case Timestamp => rd.timestamp(BeValue(t.data))
    case IssuanceCount | Expiration => JNum(BeValue(t.data))
  }

  /** Reference: the value of the last record with the key's id, if there is one. */
  function Entry(rd: Rendering, tags: seq<Tag>, k: Key): Option<JsonValue> {
    match LastTag(tags, KeyId(k))
    case None => None
    case Some(t) => Some(KeyValue(rd, k, t))
  }

  /** `m` with `k` set when there is a value. */
  function PutEntry(m: JsonObject, k: Key, v: Option<JsonValue>): (r: JsonObject)
    ensures k in r <==> k in m || v.Some?
    ensures forall j :: j != k ==> (j in r <==> j in m)
  {
    if v.Some? then m[k := v.value] else m
  }

  /** Reference: each key holds the value of the last record with its id, and a key is present
      exactly when some record carries its id. */
  function LastWinsJson(rd: Rendering, tags: seq<Tag>): (json: JsonObject)
  {
    var m: JsonObject := map[];
    var m := PutEntry(m, UserId, Entry(rd, tags, UserId));
    var m := PutEntry(m, ConventionId, Entry(rd, tags, ConventionId));
    var m := PutEntry(m, Signature, Entry(rd, tags, Signature));
    var m := PutEntry(m, IssuanceCount, Entry(rd, tags, IssuanceCount));
    var m := PutEntry(m, Timestamp, Entry(rd, tags, Timestamp));
    PutEntry(m, Expiration, Entry(rd, tags, Expiration))
  }

  /** The reference object holds exactly the entries. */
  lemma LastWinsJsonAt(rd: Rendering, tags: seq<Tag>, k: Key)
    ensures k in LastWinsJson(rd, tags) <==> Entry(rd, tags, k).Some?
    ensures k in LastWinsJson(rd, tags) ==> LastWinsJson(rd, tags)[k] == Entry(rd, tags, k).value
  {
  }

  /** One step of the `for` loop: the `when` on the record's id. */
  function KtPut(rd: Rendering, json: JsonObject, t: Tag): (r: Result<JsonObject, string>)
    ensures r.Ok? <==> KtFieldValid(t)
    ensures r.Err? ==> r.error == KtFieldError(t)
    ensures !IsKnownId(t.id) ==> r == Ok(json)
  {
    if t.id == ATTENDEE_CONVENTION_ID then
      match KtTagValueDualUInt(t)
      case Err(m) => Err(m)
      case Ok(d) => Ok(json[UserId := JNum(d.first)][ConventionId := JNum(d.second)])
    else if t.id == SIGNATURE then Ok(json[Signature := rd.signature(t.data)])
    else if t.id == ISSUANCE || t.id == TIMESTAMP || t.id == EXPIRATION then
      match KtTagValueULong(t)
      case Err(m) => Err(m)
      case Ok(v) =>
        if t.id == ISSUANCE then Ok(json[IssuanceCount := JNum(v)])
        else if t.id == TIMESTAMP then Ok(json[Timestamp := rd.timestamp(v)])
        else Ok(json[Expiration := JNum(v)])
    else Ok(json)
  }

  /** The halves the attendee getter returns are the big-endian values of the two halves. */
  lemma DualUIntHalves(t: Tag)
    requires |t.data| == 8
    ensures KtTagValueDualUInt(t).Ok?
    ensures KtTagValueDualUInt(t).value.first == BeValue(t.data[..4])
    ensures KtTagValueDualUInt(t).value.second == BeValue(t.data[4..])
  {
    var d := KtTagValueDualUInt(t).value;
    var a, b := U32ToBe(d.first), U32ToBe(d.second);
    assert a + b == t.data;
    assert t.data[..4] == a && t.data[4..] == b;
    BeBytesOfValue(a);
    BeBytesOfValue(b);
  }

  /** The object after a step that does not throw: the keys of the record's id set to the
      record's values. */
  function KtWritten(rd: Rendering, json: JsonObject, t: Tag): JsonObject {
    if t.id == ATTENDEE_CONVENTION_ID then
      json[UserId := KeyValue(rd, UserId, t)][ConventionId := KeyValue(rd, ConventionId, t)]
    else if t.id == SIGNATURE then json[Signature := KeyValue(rd, Signature, t)]
    else if t.id == ISSUANCE then json[IssuanceCount := KeyValue(rd, IssuanceCount, t)]
    else if t.id == TIMESTAMP then json[Timestamp := KeyValue(rd, Timestamp, t)]
    else if t.id == EXPIRATION then json[Expiration := KeyValue(rd, Expiration, t)]
    else json
  }

  /** A step that does not throw puts the record's values under the keys of its id. */
  lemma KtPutWrites(rd: Rendering, json: JsonObject, t: Tag)
    requires KtFieldValid(t)
    ensures KtPut(rd, json, t) == Ok(KtWritten(rd, json, t))
  {
    if t.id == ATTENDEE_CONVENTION_ID {
      DualUIntHalves(t);
    }
  }

  /** A step writes the keys of the record's id, with the record's values, and leaves every
      other key as it was. */
  lemma KtPutKeys(rd: Rendering, json: JsonObject, t: Tag, k: Key)
    requires KtFieldValid(t)
    ensures KeyId(k) == t.id ==> k in KtPut(rd, json, t).value && KtPut(rd, json, t).value[k] == KeyValue(rd, k, t)
    ensures KeyId(k) != t.id ==>
              (k in KtPut(rd, json, t).value <==> k in json) &&
              (k in json ==> KtPut(rd, json, t).value[k] == json[k])
  {
    KtPutWrites(rd, json, t);
    KtWrittenKeys(rd, json, t, k);
  }

  lemma KtWrittenKeys(rd: Rendering, json: JsonObject, t: Tag, k: Key)
    ensures var w := KtWritten(rd, json, t);
            (KeyId(k) == t.id ==> k in w && w[k] == KeyValue(rd, k, t)) &&
            (KeyId(k) != t.id ==> (k in w <==> k in json) && (k in json ==> w[k] == json[k]))
  {
  }

  /** Putting the last record into the reference object of the others gives the reference
      object of the whole list. */
  lemma KtPutLastWins(rd: Rendering, tags: seq<Tag>)
    requires |tags| > 0 && KtFieldValid(tags[|tags| - 1])
    ensures KtPut(rd, LastWinsJson(rd, tags[..|tags| - 1]), tags[|tags| - 1]) == Ok(LastWinsJson(rd, tags))
  {
    var pre, t := tags[..|tags| - 1], tags[|tags| - 1];
    var before, after := LastWinsJson(rd, pre), LastWinsJson(rd, tags);
    var r := KtPut(rd, before, t).value;
    forall k: Key ensures (k in r <==> k in after) && (k in r ==> r[k] == after[k]) {
      KtPutLastWinsAt(rd, tags, k);
    }
    SameEntries(r, after);
  }

  /** Objects with the same entries are the same object. */
  lemma SameEntries(a: JsonObject, b: JsonObject)
    requires forall k: Key :: (k in a <==> k in b) && (k in a ==> a[k] == b[k])
    ensures a == b
  {
  }

  /** The same, one key at a time. */
  lemma KtPutLastWinsAt(rd: Rendering, tags: seq<Tag>, k: Key)
    requires |tags| > 0 && KtFieldValid(tags[|tags| - 1])
    ensures var r, after := KtPut(rd, LastWinsJson(rd, tags[..|tags| - 1]), tags[|tags| - 1]).value, LastWinsJson(rd, tags);
            (k in r <==> k in after) && (k in r ==> r[k] == after[k])
  {
    var pre, t := tags[..|tags| - 1], tags[|tags| - 1];
    LastTagStep(tags, KeyId(k));
    KtPutKeys(rd, LastWinsJson(rd, pre), t, k);
    LastWinsJsonAt(rd, pre, k);
    LastWinsJsonAt(rd, tags, k);
  }

  /** `toJSON` with a rendering: the first record of a wrong length throws its getter's
      exception; otherwise every key holds the value of the last record that carries it. */
  function KtToJsonWith(rd: Rendering, tags: seq<Tag>): (r: Result<JsonObject, string>)
    ensures r.Ok? <==> forall i :: 0 <= i < |tags| ==> KtFieldValid(tags[i])
    ensures r.Ok? ==> r.value == LastWinsJson(rd, tags)
    decreases |tags|
  {
    if |tags| == 0 then Ok(map[])
    else
      var pre, t := tags[..|tags| - 1], tags[|tags| - 1];
      assert forall i :: 0 <= i < |pre| ==> tags[i] == pre[i];
      match KtToJsonWith(rd, pre)
      case Err(e) =>
        assert !forall i :: 0 <= i < |tags| ==> KtFieldValid(tags[i]) by {
          var k :| 0 <= k < |pre| && !KtFieldValid(pre[k]);
          assert !KtFieldValid(tags[k]);
        }
        Err(e)
      case Ok(json) =>
        var r := KtPut(rd, json, t);
        AllKtValidStep(tags);
        assert r.Ok? ==> r.value == LastWinsJson(rd, tags) by {
          if r.Ok? {
            KtPutLastWins(rd, tags);
          }
        }
        r
  }

  /** A rejected list fails with the message of its first record of a wrong length. */
  lemma {:induction false} KtToJsonFirstError(rd: Rendering, tags: seq<Tag>)
    ensures var r := KtToJsonWith(rd, tags);
            r.Err? ==> exists i :: 0 <= i < |tags| && !KtFieldValid(tags[i]) && r.error == KtFieldError(tags[i]) &&
                                   forall j :: 0 <= j < i ==> KtFieldValid(tags[j])
    decreases |tags|
  {
    if |tags| > 0 {
      var pre, t := tags[..|tags| - 1], tags[|tags| - 1];
      assert forall i :: 0 <= i < |pre| ==> tags[i] == pre[i];
      var rp := KtToJsonWith(rd, pre);
      if rp.Err? {
        KtToJsonFirstError(rd, pre);
        var k :| 0 <= k < |pre| && !KtFieldValid(pre[k]) && rp.error == KtFieldError(pre[k]) &&
                 forall j :: 0 <= j < k ==> KtFieldValid(pre[j]);
        assert KtToJsonWith(rd, tags) == rp;
        assert !KtFieldValid(tags[k]) && forall j :: 0 <= j < k ==> KtFieldValid(tags[j]);
      } else {
        assert KtToJsonWith(rd, tags) == KtPut(rd, rp.value, t);
        assert forall j :: 0 <= j < |tags| - 1 ==> KtFieldValid(tags[j]);
      }
    }
  }

  /** A list is accepted exactly when all but its last record are and the last one is. */
  lemma AllKtValidStep(tags: seq<Tag>)
    requires |tags| > 0
    ensures (forall i :: 0 <= i < |tags| ==> KtFieldValid(tags[i])) <==>
            (forall i :: 0 <= i < |tags| - 1 ==> KtFieldValid(tags[i])) && KtFieldValid(tags[|tags| - 1])
  {
  }

  /** The validator's `TagArray.toJSON`. */
  function ValidatorToJson(tags: seq<Tag>): (r: Result<JsonObject, string>)
    ensures r.Ok? <==> forall i :: 0 <= i < |tags| ==> KtFieldValid(tags[i])
    ensures r.Ok? ==> r.value == LastWinsJson(VALIDATOR, tags)
  {
    KtToJsonWith(VALIDATOR, tags)
  }

  /** The proxy's `TagArray.toJSON`. */
  function ProxyToJson(codec: Base64.Codec, tags: seq<Tag>): (r: Result<JsonObject, string>)
    ensures r.Ok? <==> forall i :: 0 <= i < |tags| ==> KtFieldValid(tags[i])
    ensures r.Ok? ==> r.value == LastWinsJson(ProxyRendering(codec), tags)
  {
    KtToJsonWith(ProxyRendering(codec), tags)
  }

  /** A key is in the object exactly when some record carries its id; no other key is. */
  lemma KtJsonKeys(rd: Rendering, tags: seq<Tag>, k: Key)
    requires KtToJsonWith(rd, tags).Ok?
    ensures k in KtToJsonWith(rd, tags).value <==>
              exists i :: 0 <= i < |tags| && tags[i].id == KeyId(k)
  {
    LastTagSpec(tags, KeyId(k));
    LastWinsJsonAt(rd, tags, k);
  }

  /** `toJSON` accepts every record of a freshly issued badge. */
  lemma CardTagsKtValid(user: uint32, convention: uint32, count: uint32, issued: uint64, expiration: uint64,
                        signature: seq<uint8>)
    ensures var tags := CardTags(user, convention, count, issued, expiration, signature);
            forall i :: 0 <= i < |tags| ==> KtFieldValid(tags[i])
  {
  }

  /** The object a badge issued with these values should give. */
  function CardJson(rd: Rendering, user: uint32, convention: uint32, count: uint32, issued: uint64,
                    expiration: uint64, signature: seq<uint8>): JsonObject
  {
    var base := map[UserId := JNum(user), ConventionId := JNum(convention), Signature := rd.signature(signature),
                     IssuanceCount := JNum(count), Timestamp := rd.timestamp(issued)];
    if expiration != 0 then base[Expiration := JNum(expiration)] else base
  }

  /** The object of a freshly issued badge holds the numbers it was issued with, the signature,
      and the expiration only when it was set. */
  lemma KtJsonOfCard(rd: Rendering, user: uint32, convention: uint32, count: uint32, issued: uint64,
                     expiration: uint64, signature: seq<uint8>)
    ensures KtToJsonWith(rd, CardTags(user, convention, count, issued, expiration, signature)) ==
            Ok(CardJson(rd, user, convention, count, issued, expiration, signature))
  {
    var tags := CardTags(user, convention, count, issued, expiration, signature);
    CardTagsKtValid(user, convention, count, issued, expiration, signature);
    var json, want := LastWinsJson(rd, tags), CardJson(rd, user, convention, count, issued, expiration, signature);
    forall k: Key ensures (k in json <==> k in want) && (k in json ==> json[k] == want[k]) {
      KtJsonOfCardAt(rd, user, convention, count, issued, expiration, signature, k);
    }
    SameEntries(json, want);
  }

  /** The same, one key at a time. */
  lemma KtJsonOfCardAt(rd: Rendering, user: uint32, convention: uint32, count: uint32, issued: uint64,
                       expiration: uint64, signature: seq<uint8>, k: Key)
    ensures var json := LastWinsJson(rd, CardTags(user, convention, count, issued, expiration, signature));
            var want := CardJson(rd, user, convention, count, issued, expiration, signature);
            (k in json <==> k in want) && (k in json ==> json[k] == want[k])
  {
    var tags := CardTags(user, convention, count, issued, expiration, signature);
    CardTagsLast(user, convention, count, issued, expiration, signature);
    LastWinsJsonAt(rd, tags, k);
    match k
    case UserId =>
      DualUIntHalves(tags[0]);
      assert Entry(rd, tags, k) == Some(JNum(user));
    case ConventionId =>
      DualUIntHalves(tags[0]);
      assert Entry(rd, tags, k) == Some(JNum(convention));
    case Signature =>
      assert Entry(rd, tags, k) == Some(rd.signature(signature));
    case IssuanceCount =>
      assert Entry(rd, tags, k) == Some(JNum(count));
    case Timestamp =>
      assert Entry(rd, tags, k) == Some(rd.timestamp(issued));
    case Expiration =>
      assert Entry(rd, tags, k) == if expiration != 0 then Some(JNum(expiration)) else None;
  }
}

=== FILE: kt_proxy_commands.dfy ===
/** The Android proxy's card commands (`NFCInterface`): the InCommunicateThru tunnel
    through the USB reader, the cached GET_VERSION, `getCardInfo` and PWD_AUTH. The reader's
    own `transmitAndValidate` belongs to a subclass and is a parameter here: it answers a
    command given the commands sent before it, or throws. */
module KtProxyCommands {
  import opened Wrappers
  import opened Bytes
  import opened Ntag
  import opened KotlinTagIo
  import GoCommands

  /** `transmitAndValidate` of the concrete reader (None: it threw). */
  type Transmit = (seq<seq<uint8>>, seq<uint8>) -> Option<seq<uint8>>

  /** The proxy's state and every command sent through it so far. */
  datatype Proxy = Proxy(state: ProxyState, sent: seq<seq<uint8>>)

  /** The exceptions the commands throw. */
  datatype ProxyError =
    | TransmitThrew                  // whatever `transmitAndValidate` threw
    | TooShort                       // "response too short"
    | Unexpected(got: seq<uint8>)    // "Unexpected response from Vendor command"
    | VendorFailed(status: uint8)    // "Vendor command failed with error"
    | Unsupported                    // "Unsupported card"
    | NullProduct                    // the exception `ProductName!!` throws on null
    | AuthFailed                     // "Authentication failed"

  datatype Step<T> = Step(result: Result<T, ProxyError>, proxy: Proxy)

  /** The pseudo-APDU of `transmitVendorCommand`: `bytes` turns each `Int` into a `Byte`, so
      the length byte is 2 + n modulo 256 and nothing checks it. */
  function KtVendorApdu(cmd: seq<uint8>): (apdu: seq<uint8>)
    ensures |apdu| == 7 + |cmd| && apdu[7..] == cmd && apdu[4] == (2 + |cmd|) % 256
  {
    [0xFF, 0x00, 0x00, 0x00, Trunc8(2 + |cmd|), 0xD4, 0x42] + cmd
  }

  /** Up to 253 payload bytes Kotlin sends what Go sends, and the reader recovers the
      payload; from 254 bytes on the length byte wraps and the reader cannot. */
  lemma KtVendorApduAgreesWithGo(cmd: seq<uint8>)
    ensures 2 + |cmd| <= 0xFF ==> KtVendorApdu(cmd) == GoCommands.VendorApdu(cmd)
    ensures GoCommands.VendorPayload(KtVendorApdu(cmd)) == (if 2 + |cmd| <= 0xFF then Some(cmd) else None)
  {
    if 2 + |cmd| <= 0xFF {
      GoCommands.VendorApduRoundTrip(cmd);
    }
  }

  /** `transmitVendorCommand`: the reply must be at least three bytes and start D5 43; the
      rest of it is returned. The proxy state is not touched. */
  function TransmitVendorCommand(transmit: Transmit, px: Proxy, cmd: seq<uint8>): (r: Step<seq<uint8>>)
    ensures r.proxy == px.(sent := px.sent + [KtVendorApdu(cmd)])
    ensures r.result.Ok? <==>
              (transmit(px.sent, KtVendorApdu(cmd)).Some? && |transmit(px.sent, KtVendorApdu(cmd)).value| >= 3 &&
               transmit(px.sent, KtVendorApdu(cmd)).value[..2] == [0xD5, 0x43])
    ensures r.result.Ok? ==> transmit(px.sent, KtVendorApdu(cmd)) == Some([0xD5, 0x43] + r.result.value)
  {
    var px' := px.(sent := px.sent + [KtVendorApdu(cmd)]);
    match transmit(px.sent, KtVendorApdu(cmd))
    case None => Step(Err(TransmitThrew), px')
    case Some(resp) =>
      if |resp| < 3 then Step(Err(TooShort), px')
      else if resp[0] != 0xD5 || resp[1] != 0x43 then Step(Err(Unexpected(resp[..2])), px')
      else
        assert resp[..2] == [resp[0], resp[1]];
        assert resp == [0xD5, 0x43] + resp[2..];
        Step(Ok(resp[2..]), px')
  }

  /** NTAG GET_VERSION. */
  const GET_VERSION: seq<uint8> := [0x60]

  /** `GetVersion`: the cached bytes if there are any, with nothing sent; otherwise
      GET_VERSION through the tunnel, whose first byte is the PN533 status and must be 00, and
      the bytes after it are cached and returned. */
  function GetVersion(transmit: Transmit, px: Proxy): (r: Step<seq<uint8>>)
    ensures px.state.versionInfo.Some? ==> r == Step(Ok(px.state.versionInfo.value), px)
    ensures px.state.versionInfo.None? ==> r.proxy.sent == px.sent + [KtVendorApdu(GET_VERSION)]
    ensures r.proxy.state.reader == px.state.reader && r.proxy.state.present == px.state.present
    ensures r.result.Ok? ==> r.proxy.state.versionInfo == Some(r.result.value)
    ensures r.result.Err? ==> r.proxy.state == px.state
  {
    match px.state.versionInfo
    case Some(v) => Step(Ok(v), px)
    case None =>
      var t := TransmitVendorCommand(transmit, px, GET_VERSION);
      match t.result
      case Err(e) => Step(Err(e), t.proxy)
      case Ok(response) =>
        if response[0] != 0x00 then Step(Err(VendorFailed(response[0])), t.proxy)
        else
          var v := response[1..];
          Step(Ok(v), t.proxy.(state := t.proxy.state.(versionInfo := Some(v))))
  }

  /** A card that answers GET_VERSION with status 00 and its version bytes has them cached. */
  lemma GetVersionOfReply(transmit: Transmit, px: Proxy, version: seq<uint8>)
    requires px.state.versionInfo.None?
    requires transmit(px.sent, KtVendorApdu(GET_VERSION)) == Some([0xD5, 0x43, 0x00] + version)
    ensures GetVersion(transmit, px).result == Ok(version)
    ensures GetVersion(transmit, px).proxy.state.versionInfo == Some(version)
  {
    assert [0xD5, 0x43, 0x00] + version == [0xD5, 0x43] + ([0x00] + version);
    assert ([0x00] + version)[1..] == version;
  }

  /** The version survives the card leaving: once cached, the next card's GET_VERSION is never
      sent and the first card's version is reported for it. */
  lemma VersionOutlivesCard(transmit: Transmit, px: Proxy, next: Transmit)
    requires GetVersion(transmit, px).result.Ok?
    ensures var after := GetVersion(transmit, px).proxy;
            var gone := after.(state := SetCardPresent(SetCardPresent(after.state, false), true));
            GetVersion(next, gone) == Step(GetVersion(transmit, px).result, gone)
  {
  }

  /** `getCardInfo`: the lenient Kotlin reading of the (possibly cached) version bytes. */
  function GetCardInfo(transmit: Transmit, px: Proxy): (r: Step<KtCardInfo>)
    ensures r.proxy == GetVersion(transmit, px).proxy
    ensures r.result.Ok? <==>
              GetVersion(transmit, px).result.Ok? && KtGetCardInfo(GetVersion(transmit, px).result.value).Some?
    ensures r.result.Ok? ==> Some(r.result.value) == KtGetCardInfo(GetVersion(transmit, px).result.value)
  {
    var v := GetVersion(transmit, px);
    match v.result
    case Err(e) => Step(Err(e), v.proxy)
    case Ok(version) =>
      match KtGetCardInfo(version)
      case None => Step(Err(Unsupported), v.proxy)
      case Some(ci) => Step(Ok(ci), v.proxy)
  }

  /** `NTAG21xAuth`: the card must be a known NTAG21x (a card without a product name throws
      the exception `!!` throws on null); PWD_AUTH goes through the tunnel and the card's first answer
      byte must be 00. */
  function Auth(transmit: Transmit, px: Proxy, password: uint32): (r: Step<()>)
    ensures r.result.Ok? ==>
              GetCardInfo(transmit, px).result.Ok? && GetCardInfo(transmit, px).result.value.product.Some? &&
              r.proxy.sent == GetCardInfo(transmit, px).proxy.sent + [KtVendorApdu(PwdAuth(password))]
    ensures GetCardInfo(transmit, px).result == Ok(KtCardInfo(None)) ==>
              r == Step(Err(NullProduct), GetCardInfo(transmit, px).proxy)
  {
    var ci := GetCardInfo(transmit, px);
    match ci.result
    case Err(e) => Step(Err(e), ci.proxy)
    case Ok(info) =>
      if info.product.None? then Step(Err(NullProduct), ci.proxy)
      else
        var t := TransmitVendorCommand(transmit, ci.proxy, PwdAuth(password));
        match t.result
        case Err(e) => Step(Err(e), t.proxy)
        case Ok(response) =>
          if |response| < 1 then Step(Err(TooShort), t.proxy)
          else if response[0] != 0x00 then Step(Err(AuthFailed), t.proxy)
          else Step(Ok(()), t.proxy)
  }

  /** An NTAG with a non-zero minor version gets past `getCardInfo` and then crashes PWD_AUTH
      before the command is sent, where the Go reader says "Unsupported card". */
  lemma MinorVersionCrashesAuth(transmit: Transmit, px: Proxy, password: uint32)
    requires px.state.versionInfo.Some? && NxpNtagHeader(px.state.versionInfo.value)
    requires px.state.versionInfo.value[5] != 0x00
    ensures Auth(transmit, px, password) == Step(Err(NullProduct), px)
    ensures GoCardInfo(px.state.versionInfo.value).None?
  {
    KtAgreesWithGo(px.state.versionInfo.value);
  }

  /** A recognised card that acknowledges PWD_AUTH authenticates. */
  lemma AuthAcknowledged(transmit: Transmit, px: Proxy, password: uint32, p: Product, rest: seq<uint8>)
    requires px.state.versionInfo.Some? && GoCardInfo(px.state.versionInfo.value) == Some(p)
    requires transmit(px.sent, KtVendorApdu(PwdAuth(password))) == Some([0xD5, 0x43, 0x00] + rest)
    ensures Auth(transmit, px, password).result.Ok?
  {
    KtAgreesWithGo(px.state.versionInfo.value);
    assert [0xD5, 0x43, 0x00] + rest == [0xD5, 0x43] + ([0x00] + rest);
  }
}

=== FILE: ntag.dfy ===
/** The NTAG213/215/216 rules every implementation relies on: the GET_VERSION reply that
    identifies a product (section 10.1 of the NXP NTAG213/215/216 data sheet), the capability
    container byte the ESP32 reader uses instead, where each product keeps its password and
    configuration pages, the PWD_AUTH command (section 10.7), and the AUTH0/PROT edits of the
    configuration pages that switch password protection on and off (section 8.5.7). */
module Ntag {
  import opened Wrappers
  import opened Bytes

  datatype Product = NTAG213 | NTAG215 | NTAG216

  /** Byte 6 of GET_VERSION, the storage size code. */
  function StorageSize(p: Product): uint8 {
    match p
    case NTAG213 => 0x0F
    case NTAG215 => 0x11
    case NTAG216 => 0x13
  }

  /** `CardInfo.Memory`: user memory in bytes. */
  function UserMemory(p: Product): nat {
    match p
    case NTAG213 => 144
    case NTAG215 => 504
    case NTAG216 => 888
  }

  /** Byte 2 of the capability container (page 3), the data area size divided by 8. */
  function CcSize(p: Product): uint8 {
    match p
    case NTAG213 => 0x12
    case NTAG215 => 0x3E
    case NTAG216 => 0x6D
  }

  /** Number of pages: 0x2D, 0x87 and 0xE7. */
  function PageCount(p: Product): nat {
    match p
    case NTAG213 => 45
    case NTAG215 => 135
    case NTAG216 => 231
  }

  /** The PWD page. */
  function PasswordPage(p: Product): uint8 {
    match p
    case NTAG213 => 0x2B
    case NTAG215 => 0x85
    case NTAG216 => 0xE5
  }

  /** CFG0, whose byte 3 is AUTH0; the following page, CFG1, starts with the ACCESS byte. */
  function ConfigPage(p: Product): uint8 {
    match p
    case NTAG213 => 0x29
    case NTAG215 => 0x83
    case NTAG216 => 0xE3
  }

  /** CFG1, the page after CFG0. */
  function AccessPage(p: Product): uint8 {
    match p
    case NTAG213 => 0x2A
    case NTAG215 => 0x84
    case NTAG216 => 0xE4
  }

  /** The password and configuration pages are the last pages but one, three and four. */
  lemma PagesNearTheEnd(p: Product)
    ensures PasswordPage(p) as int == PageCount(p) - 2
    ensures ConfigPage(p) as int == PageCount(p) - 4 && AccessPage(p) as int == ConfigPage(p) as int + 1
    ensures 4 * PageCount(p) == UserMemory(p) + 4 * 9 || p == NTAG215
  {
  }

  // ---------------------------------------------------------------- identification

  /** The whole GET_VERSION reply of a genuine product: fixed header, NXP, NTAG, subtype 02,
      major version 01, minor version 00, storage size, ISO/IEC 14443-3 protocol. */
  function GenuineVersion(p: Product): (v: seq<uint8>)
    ensures |v| == 8
  {
    [0x00, 0x04, 0x04, 0x02, 0x01, 0x00, StorageSize(p), 0x03]
  }

  /** `parseNtagVersion` (Go and Kotlin alike): the product whose storage size code this is. */
  function ProductOfStorageSize(b: uint8): (r: Option<Product>)
    ensures forall p :: r == Some(p) <==> b == StorageSize(p)
  {
    if b == 0x0F then Some(NTAG213)
    else if b == 0x11 then Some(NTAG215)
    else if b == 0x13 then Some(NTAG216)
    else None
  }

  /** Vendor, type, subtype and major version: bytes 1 to 4 of the reply. */
  predicate NxpNtagHeader(version: seq<uint8>) {
    |version| >= 8 && version[1] == 0x04 && version[2] == 0x04 && version[3] == 0x02 && version[4] == 0x01
  }

  /** Go `getCardInfo`: at least eight bytes, NXP, NTAG 02 01, minor version 00 and a known
      storage size; anything else is "Unsupported card". */
  function GoCardInfo(version: seq<uint8>): (r: Option<Product>)
    ensures forall p :: r == Some(p) <==> |version| >= 8 && version[1..7] == GenuineVersion(p)[1..7]
  {
    VersionWindow(version);
    if !NxpNtagHeader(version) || version[5] != 0x00 then None
    else ProductOfStorageSize(version[6])
  }

  /** Bytes 1 to 6 of a reply, one by one. */
  lemma VersionWindow(version: seq<uint8>)
    ensures |version| >= 8 ==> forall p :: version[1..7] == GenuineVersion(p)[1..7] <==>
              version[1] == 0x04 && version[2] == 0x04 && version[3] == 0x02 && version[4] == 0x01 &&
              version[5] == 0x00 && version[6] == StorageSize(p)
  {
    if |version| < 8 {
      return;
    }
    var w := version[1..7];
    forall p
      ensures w == GenuineVersion(p)[1..7] <==>
              version[1] == 0x04 && version[2] == 0x04 && version[3] == 0x02 && version[4] == 0x01 &&
              version[5] == 0x00 && version[6] == StorageSize(p)
    {
      var g := GenuineVersion(p)[1..7];
      SixBytes(w, g);
      assert g[0] == 0x04 && g[1] == 0x04 && g[2] == 0x02 && g[3] == 0x01 && g[4] == 0x00 && g[5] == StorageSize(p);
    }
  }

  /** Two six-byte windows are equal exactly when they agree byte by byte. */
  lemma SixBytes(a: seq<uint8>, b: seq<uint8>)
    requires |a| == 6 && |b| == 6
    ensures a == b <==> a[0] == b[0] && a[1] == b[1] && a[2] == b[2] && a[3] == b[3] && a[4] == b[4] && a[5] == b[5]
  {
    if a[0] == b[0] && a[1] == b[1] && a[2] == b[2] && a[3] == b[3] && a[4] == b[4] && a[5] == b[5] {
      assert forall i | 0 <= i < 6 :: a[i] == b[i];
    }
  }

  /** What the Kotlin `getCardInfo` returns when it does not throw: the product, or none when
      the minor version is not 00 (`ProductName` stays null and nobody complains). */
  datatype KtCardInfo = KtCardInfo(product: Option<Product>)

  /** Kotlin `getCardInfo` over the cached version bytes: the same checks as Go except that a
      minor version other than 00 skips the product lookup instead of failing. */
  function KtGetCardInfo(version: seq<uint8>): (r: Option<KtCardInfo>)
    ensures r.None? <==> !NxpNtagHeader(version) || (version[5] == 0x00 && ProductOfStorageSize(version[6]).None?)
    ensures r == Some(KtCardInfo(None)) <==> NxpNtagHeader(version) && version[5] != 0x00
  {
    if !NxpNtagHeader(version) then None
    else if version[5] == 0x00 then
      match ProductOfStorageSize(version[6])
      case None => None
      case Some(p) => Some(KtCardInfo(Some(p)))
    else Some(KtCardInfo(None))
  }

  /** Whenever Go recognises a card, Kotlin recognises the same product; the only card Kotlin
      accepts and Go refuses is one with a non-zero minor version, which Kotlin accepts with
      no product at all. */
  lemma KtAgreesWithGo(version: seq<uint8>)
    ensures GoCardInfo(version).Some? ==> KtGetCardInfo(version) == Some(KtCardInfo(GoCardInfo(version)))
    ensures GoCardInfo(version).None? && KtGetCardInfo(version).Some? ==> KtGetCardInfo(version) == Some(KtCardInfo(None))
  {
    VersionWindow(version);
  }

  /** A genuine reply identifies its product in both readers. */
  lemma GenuineVersionIdentifies(p: Product)
    ensures GoCardInfo(GenuineVersion(p)) == Some(p)
    ensures KtGetCardInfo(GenuineVersion(p)) == Some(KtCardInfo(Some(p)))
  {
    KtAgreesWithGo(GenuineVersion(p));
  }

  /** ESP32 `ntag2xx_get_model`: the product whose capability container size byte this is
      (byte 14 of a 16-byte read from page 0); anything else is UNKNOWN. */
  function ModelOfCc(cc: uint8): (r: Option<Product>)
    ensures forall p :: r == Some(p) <==> cc == CcSize(p)
  {
    if cc == 0x12 then Some(NTAG213)
    else if cc == 0x3E then Some(NTAG215)
    else if cc == 0x6D then Some(NTAG216)
    else None
  }

  // ---------------------------------------------------------------- authentication

  /** PWD_AUTH: 0x1B and the password, big-endian. */
  function PwdAuth(password: uint32): (c: seq<uint8>)
    ensures |c| == 5 && c[0] == 0x1B && BeValue(c[1..]) == password
  {
    var b := U32ToBe(password);
    assert ([0x1B] + b)[1..] == b;
    [0x1B] + b
  }

  /** Different passwords give different commands. */
  lemma PwdAuthInjective(a: uint32, b: uint32)
    ensures PwdAuth(a) == PwdAuth(b) ==> a == b
  {
    if PwdAuth(a) == PwdAuth(b) {
      assert PwdAuth(a)[1..] == PwdAuth(b)[1..];
    }
  }

  // ---------------------------------------------------------------- protection

  /** AUTH0 written when a password is set: everything from the record area (page 0x10) on. */
  const PROTECT_FROM: uint8 := 0x10
  /** AUTH0 written when the password is cleared: a page no product has. */
  const PROTECT_NOTHING: uint8 := 0xFF

  /** AUTH0: the first page that needs the password. */
  function Auth0(cfg: seq<uint8>): uint8
    requires |cfg| >= 5
  {
    cfg[3]
  }

  /** PROT, bit 7 of ACCESS: reads need the password too, not only writes. */
  predicate Prot(cfg: seq<uint8>)
    requires |cfg| >= 5
  {
    cfg[4] >= 0x80
  }

  /** The other seven bits of ACCESS (CFGLCK, NFC_CNT_EN, NFC_CNT_PWD_PROT, AUTHLIM). */
  function AccessRest(cfg: seq<uint8>): uint8
    requires |cfg| >= 5
  {
    cfg[4] % 0x80
  }

  /** Whether reading a page needs the password under this configuration. */
  predicate ReadGuarded(cfg: seq<uint8>, page: nat)
    requires |cfg| >= 5
  {
    Prot(cfg) && page >= Auth0(cfg) as nat
  }

  /** Whether writing a page needs the password under this configuration. */
  predicate WriteGuarded(cfg: seq<uint8>, page: nat)
    requires |cfg| >= 5
  {
    page >= Auth0(cfg) as nat
  }

  /** `b | 0x80`, written on the byte's value: bit 7 set, the low seven bits kept. */
  function SetBit7(b: uint8): (r: uint8)
    ensures r >= 0x80 && r % 0x80 == b % 0x80
  {
    if b >= 0x80 then b else b + 0x80
  }

  /** `b & 0x7F`, written on the byte's value: bit 7 cleared, the low seven bits kept. */
  function ClearBit7(b: uint8): (r: uint8)
    ensures r < 0x80 && r % 0x80 == b % 0x80
  {
    if b >= 0x80 then b - 0x80 else b
  }

  /** The edit the password setters make to the bytes read from CFG0 on: AUTH0 becomes 0x10
      and PROT is set; every other byte is written back as read. */
  function Protect(cfg: seq<uint8>): (r: seq<uint8>)
    requires |cfg| >= 5
    ensures |r| == |cfg|
    ensures Auth0(r) == PROTECT_FROM && Prot(r) && AccessRest(r) == AccessRest(cfg)
    ensures forall i :: 0 <= i < |cfg| && i != 3 && i != 4 ==> r[i] == cfg[i]
  {
    cfg[3 := PROTECT_FROM][4 := SetBit7(cfg[4])]
  }

  /** The edit the password clearers make: AUTH0 becomes 0xFF and PROT is cleared; every
      other byte is written back as read. */
  function Unprotect(cfg: seq<uint8>): (r: seq<uint8>)
    requires |cfg| >= 5
    ensures |r| == |cfg|
    ensures Auth0(r) == PROTECT_NOTHING && !Prot(r) && AccessRest(r) == AccessRest(cfg)
    ensures forall i :: 0 <= i < |cfg| && i != 3 && i != 4 ==> r[i] == cfg[i]
  {
    cfg[3 := PROTECT_NOTHING][4 := ClearBit7(cfg[4])]
  }

  /** After `Protect` the record area and nothing before it needs the password, for reading
      and for writing. */
  lemma ProtectGuardsRecords(cfg: seq<uint8>, page: nat)
    requires |cfg| >= 5
    ensures ReadGuarded(Protect(cfg), page) <==> page >= 0x10
    ensures WriteGuarded(Protect(cfg), page) <==> page >= 0x10
  {
  }

  /** After `Unprotect` no page of any product needs the password. */
  lemma UnprotectGuardsNothing(cfg: seq<uint8>, p: Product, page: nat)
    requires |cfg| >= 5 && page < PageCount(p)
    ensures !ReadGuarded(Unprotect(cfg), page) && !WriteGuarded(Unprotect(cfg), page)
  {
  }

  /** Two edits in a row leave what the second alone leaves: setting after clearing is
      setting, clearing after setting is clearing, and each is idempotent. */
  lemma LastEditWins(cfg: seq<uint8>)
    requires |cfg| >= 5
    ensures Protect(Unprotect(cfg)) == Protect(cfg)
    ensures Unprotect(Protect(cfg)) == Unprotect(cfg)
    ensures Protect(Protect(cfg)) == Protect(cfg)
    ensures Unprotect(Unprotect(cfg)) == Unprotect(cfg)
  {
    Bit7Edits(cfg[4]);
  }

  /** The bit edits on one byte: the last one decides bit 7 and neither touches the rest. */
  lemma Bit7Edits(b: uint8)
    ensures SetBit7(ClearBit7(b)) == SetBit7(b)
    ensures ClearBit7(SetBit7(b)) == ClearBit7(b)
    ensures SetBit7(SetBit7(b)) == SetBit7(b)
    ensures ClearBit7(ClearBit7(b)) == ClearBit7(b)
  {
    SameBits(SetBit7(ClearBit7(b)), SetBit7(b));
    SameBits(ClearBit7(SetBit7(b)), ClearBit7(b));
  }

  /** A byte is fixed by bit 7 and the seven bits below it. */
  lemma SameBits(x: uint8, y: uint8)
    requires (x >= 0x80) == (y >= 0x80) && x % 0x80 == y % 0x80
    ensures x == y
  {
  }

  /** A byte's bit pattern read as a number and back is the same pattern. */
  lemma BvIntBv(x: bv8)
    ensures (x as int) as bv8 == x
  {
  }
}

=== FILE: page_memory.dfy ===
/** NTAG user memory as 4-byte pages, the byte stream the tag area holds from page 0x10 on,
    and the page writes that put a byte stream there. */
module PageMemory {
  import opened Wrappers
  import opened Bytes

  /** One NTAG page. */
  type Page = s: seq<uint8> | |s| == 4 witness [0, 0, 0, 0]

  /** The pages a card has, by page number. */
  type Memory = map<nat, Page>

  /** What a transport returns for a read starting at a page: the bytes, or a failure. */
  type PageSource = nat -> Option<seq<uint8>>

  /** The tag area starts at page 0x10 in every implementation. */
  const START_PAGE: nat := 0x10
  const PAGE_SIZE: nat := 4

  /** Byte `pos` of the tag area, if its page exists. */
  function ByteAt(mem: Memory, pos: nat): Option<uint8> {
    var p := START_PAGE + pos / PAGE_SIZE;
    if p in mem then Some(mem[p][pos % PAGE_SIZE]) else None
  }

  /** The tag area holds `s` starting at byte offset `at`. */
  ghost predicate Holds(mem: Memory, at: nat, s: seq<uint8>) {
    forall k :: 0 <= k < |s| ==> ByteAt(mem, at + k) == Some(s[k])
  }

  lemma HoldsSuffix(mem: Memory, at: nat, s: seq<uint8>, n: nat)
    requires Holds(mem, at, s) && n <= |s|
    ensures Holds(mem, at + n, s[n..])
  {
    forall k | 0 <= k < |s[n..]|
      ensures ByteAt(mem, at + n + k) == Some(s[n..][k])
    {
      assert ByteAt(mem, at + (n + k)) == Some(s[n + k]);
    }
  }

  /** A stream held at `at` splits into its two halves, the second held right after the first. */
  lemma HoldsSplit(mem: Memory, at: nat, a: seq<uint8>, b: seq<uint8>)
    requires Holds(mem, at, a + b)
    ensures Holds(mem, at, a) && Holds(mem, at + |a|, b)
  {
    forall k | 0 <= k < |b| ensures ByteAt(mem, at + |a| + k) == Some(b[k]) {
      assert (a + b)[|a| + k] == b[k];
      assert ByteAt(mem, at + (|a| + k)) == Some((a + b)[|a| + k]);
    }
    forall k | 0 <= k < |a| ensures ByteAt(mem, at + k) == Some(a[k]) {
      assert (a + b)[k] == a[k];
    }
  }

  /** A held stream goes on to hold one more byte exactly when the byte after it is that byte. */
  lemma HoldsSnoc(mem: Memory, at: nat, s: seq<uint8>, b: uint8)
    requires Holds(mem, at, s)
    ensures Holds(mem, at, s + [b]) <==> ByteAt(mem, at + |s|) == Some(b)
  {
    if ByteAt(mem, at + |s|) == Some(b) {
      forall k | 0 <= k < |s + [b]| ensures ByteAt(mem, at + k) == Some((s + [b])[k]) {
        if k < |s| {
          assert (s + [b])[k] == s[k];
        }
      }
    } else {
      assert (s + [b])[|s|] == b;
    }
  }

  lemma HoldsPrefix(mem: Memory, at: nat, s: seq<uint8>, n: nat)
    requires Holds(mem, at, s) && n <= |s|
    ensures Holds(mem, at, s[..n])
  {
  }

  // ---------------------------------------------------------------- a card as a page source

  /** Up to n consecutive pages from `addr`, stopping at the first page the card lacks. */
  function Run(mem: Memory, addr: nat, n: nat): (r: seq<uint8>)
    ensures |r| % 4 == 0 && |r| <= 4 * n
    ensures n >= 1 && addr in mem ==> |r| >= 4 && r[..4] == mem[addr]
    decreases n
  {
    if n == 0 || addr !in mem then []
    else mem[addr] + Run(mem, addr + 1, n - 1)
  }

  /** Chunk j of a run is page addr + j of the card. */
  lemma {:induction false} RunChunk(mem: Memory, addr: nat, n: nat, j: nat)
    requires j < |Run(mem, addr, n)| / 4
    ensures addr + j in mem
    ensures Run(mem, addr, n)[4 * j..4 * j + 4] == mem[addr + j]
    decreases n
  {
    var r := Run(mem, addr, n);
    if j > 0 {
      var rest := Run(mem, addr + 1, n - 1);
      assert r == mem[addr] + rest;
      RunChunk(mem, addr + 1, n - 1, j - 1);
      assert r[4 * j..4 * j + 4] == rest[4 * (j - 1)..4 * (j - 1) + 4];
    }
  }

  /** A card read by a transport that returns `burst` pages per read, the way the NTAG READ
      command returns four: a read fails only when its first page does not exist. */
  function MemoryReader(mem: Memory, burst: nat): (src: PageSource)
    requires burst >= 1
    ensures forall a :: src(a).Some? <==> a in mem
    ensures forall a :: a in mem ==> |src(a).value| >= 4 && src(a).value[..4] == mem[a]
  {
    (addr: nat) => if addr in mem then Some(Run(mem, addr, burst)) else None
  }

  /** Chunk j (bytes 4j .. 4j+3) of a read. */
  function Chunk(d: seq<uint8>, j: nat): (c: seq<uint8>)
    requires 4 * j + 4 <= |d|
    ensures |c| == 4
  {
    d[4 * j..4 * j + 4]
  }

  /** Page a + j of the card, if it has one. */
  function PageAt(mem: Memory, a: nat, j: nat): (p: Option<Page>)
    ensures p.Some? <==> a + j in mem
  {
    if a + j in mem then Some(mem[a + j]) else None
  }

  /** A read starting at page `a` is whole pages, and chunk j is the card's page a + j wherever
      the card has that page. Chunks past the card's pages are left free: an NTAG READ at the
      end of memory rolls over to page 0, and a transport may answer anything there. */
  ghost predicate ChunksMatch(mem: Memory, a: nat, d: seq<uint8>) {
    |d| % 4 == 0 && forall j: nat :: j < |d| / 4 && PageAt(mem, a, j).Some? ==> PageAt(mem, a, j) == Some(Chunk(d, j))
  }

  /** A transport that reads this card faithfully: a read of an existing page succeeds and returns
      whole pages, starting with the page asked for and agreeing with every page of the card it
      covers. */
  ghost predicate Faithful(src: PageSource, mem: Memory) {
    forall a: nat {:trigger src(a)} :: a in mem ==> src(a).Some? && |src(a).value| >= 4 && ChunksMatch(mem, a, src(a).value)
  }

  lemma MemoryReaderFaithful(mem: Memory, burst: nat)
    requires burst >= 1
    ensures Faithful(MemoryReader(mem, burst), mem)
  {
    var src := MemoryReader(mem, burst);
    forall a: nat | a in mem ensures src(a).Some? && |src(a).value| >= 4 && ChunksMatch(mem, a, src(a).value) {
      var d := Run(mem, a, burst);
      assert src(a).value == d;
      forall j: nat | j < |d| / 4 ensures PageAt(mem, a, j) == Some(Chunk(d, j)) {
        RunChunk(mem, a, burst, j);
      }
    }
  }

  /** `n` consecutive pages of a card of `size` pages from `addr`, wrapping round to page 0 after
      the last page. */
  function Rollover(mem: Memory, size: nat, addr: nat, n: nat): (r: seq<uint8>)
    requires size > 0 && forall p: nat :: p < size ==> p in mem
    ensures |r| == 4 * n
    decreases n
  {
    if n == 0 then [] else mem[addr % size] + Rollover(mem, size, addr + 1, n - 1)
  }

  /** Chunk j of a rolled-over run is page (addr + j) mod size. */
  lemma {:induction false} RolloverChunk(mem: Memory, size: nat, addr: nat, n: nat, j: nat)
    requires size > 0 && forall p: nat :: p < size ==> p in mem
    requires j < n
    ensures Rollover(mem, size, addr, n)[4 * j..4 * j + 4] == mem[(addr + j) % size]
    decreases n
  {
    var r := Rollover(mem, size, addr, n);
    if j > 0 {
      var rest := Rollover(mem, size, addr + 1, n - 1);
      assert r == mem[addr % size] + rest;
      RolloverChunk(mem, size, addr + 1, n - 1, j - 1);
      assert r[4 * j..4 * j + 4] == rest[4 * (j - 1)..4 * (j - 1) + 4];
      assert addr + 1 + (j - 1) == addr + j;
    }
  }

  /** The NTAG READ command over a card whose pages are 0 to size - 1, as
      `MifareUltralight.readPages` and the raw READ 0x30 deliver it: a read of an existing page
      answers four pages, sixteen bytes, rolling over past the last page; any other page is
      refused. */
  function ReadPagesReader(mem: Memory, size: nat): (src: PageSource)
    requires size > 0 && forall p: nat :: p in mem <==> p < size
    ensures forall a :: src(a).Some? <==> a in mem
    ensures forall a :: a in mem ==> src(a) == Some(Rollover(mem, size, a, 4))
  {
    (addr: nat) => if addr < size then Some(Rollover(mem, size, addr, 4)) else None
  }

  lemma SmallMod(k: nat, m: nat)
    requires k < m
    ensures k % m == k
  {
  }

  /** Four rolled-over pages from an existing page agree with the card wherever it has a page. */
  lemma RolloverMatches(mem: Memory, size: nat, a: nat)
    requires size > 0 && forall p: nat :: p in mem <==> p < size
    requires a in mem
    ensures ChunksMatch(mem, a, Rollover(mem, size, a, 4))
  {
    var d := Rollover(mem, size, a, 4);
    assert |d| / 4 == 4;
    forall j: nat | j < 4 && PageAt(mem, a, j).Some? ensures PageAt(mem, a, j) == Some(Chunk(d, j)) {
      RolloverChunk(mem, size, a, 4, j);
      var k := a + j;
      assert k < size;
      SmallMod(k, size);
    }
  }

  /** The sixteen-byte READ is a faithful transport for every card of that shape, empty or not. */
  lemma ReadPagesReaderFaithful(mem: Memory, size: nat)
    requires size > 0 && forall p: nat :: p in mem <==> p < size
    ensures Faithful(ReadPagesReader(mem, size), mem)
  {
    var src := ReadPagesReader(mem, size);
    forall a: nat | a in mem ensures src(a).Some? && |src(a).value| >= 4 && ChunksMatch(mem, a, src(a).value) {
      RolloverMatches(mem, size, a);
    }
  }

  // ---------------------------------------------------------------- chunking a stream into pages

  function Zeros(n: nat): (r: seq<uint8>)
    ensures |r| == n && forall i :: 0 <= i < n ==> r[i] == 0
  {
    seq(n, i => 0)
  }

  function Flatten(ps: seq<Page>): (r: seq<uint8>)
    ensures |r| == 4 * |ps|
  {
    if |ps| == 0 then [] else ps[0] + Flatten(ps[1..])
  }

  lemma {:induction false} FlattenIndex(ps: seq<Page>, k: nat)
    requires k < 4 * |ps|
    ensures Flatten(ps)[k] == ps[k / 4][k % 4]
  {
    if k >= 4 {
      FlattenIndex(ps[1..], k - 4);
    }
  }

  /** Split a byte stream into 4-byte pages, zero-padding the last one: the chunking both
      writers perform. An empty stream gives no page, and a stream whose length is a multiple
      of 4 gives no extra page. */
  function Pages(s: seq<uint8>): (r: seq<Page>)
    ensures |r| == (|s| + 3) / 4
    decreases |s|
  {
    if |s| == 0 then []
    else if |s| <= 4 then [s + Zeros(4 - |s|)]
    else [s[..4]] + Pages(s[4..])
  }

  /** Laid end to end, the pages are the stream followed by the zero padding of the last one. */
  lemma {:induction false} PagesFlatten(s: seq<uint8>)
    ensures Flatten(Pages(s)) == s + Zeros(4 * |Pages(s)| - |s|)
    decreases |s|
  {
    if |s| == 0 {
    } else if |s| <= 4 {
      var p := s + Zeros(4 - |s|);
      assert Flatten([p]) == p + Flatten([]);
    } else {
      var rest := Pages(s[4..]);
      PagesFlatten(s[4..]);
      assert ([s[..4]] + rest)[1..] == rest;
      assert Flatten([s[..4]] + rest) == s[..4] + Flatten(rest);
      assert s == s[..4] + s[4..];
    }
  }

  /** Every whole page of the chunking is the corresponding 4 bytes of the stream, and a last
      partial page is the rest of the stream padded with zeros. */
  lemma {:induction false} PagesChunk(s: seq<uint8>, i: nat)
    requires i < |Pages(s)|
    ensures 4 * i + 4 <= |s| ==> Pages(s)[i] == Chunk(s, i)
    ensures 4 * i + 4 > |s| ==> Pages(s)[i] == s[4 * i..] + Zeros(4 * i + 4 - |s|)
    decreases |s|
  {
    if |s| <= 4 {
      assert s[4 * i..] == s;
      if |s| == 4 {
        assert Zeros(0) == [];
        assert s[..] == s;
      }
    } else if i > 0 {
      var t := s[4..];
      PagesChunk(t, i - 1);
      assert Pages(s)[i] == Pages(t)[i - 1];
      assert t[4 * (i - 1)..] == s[4 * i..];
      if 4 * i + 4 <= |s| {
        assert Chunk(t, i - 1) == Chunk(s, i);
      }
    }
  }

  /** A page write command as the writers issue it: the page number is a byte, so it wraps. */
  datatype PageWrite = PageWrite(page: uint8, data: Page)

  /** The writes that put stream `s` on the card: page i of the chunking goes to page 0x10 + i. */
  function PagePlan(s: seq<uint8>): (ws: seq<PageWrite>)
    ensures |ws| == (|s| + 3) / 4
    ensures forall i :: 0 <= i < |ws| ==> ws[i] == PageWrite((START_PAGE + i) % 256, Pages(s)[i])
  {
    var ps := Pages(s);
    seq(|ps|, i requires 0 <= i < |ps| => PageWrite((START_PAGE + i) % 256, ps[i]))
  }

  /** The plan grows one whole page at a time. */
  lemma PlanExtend(s: seq<uint8>, n: nat)
    requires 4 * n + 4 <= |s|
    ensures n < |PagePlan(s)|
    ensures PagePlan(s)[..n + 1] == PagePlan(s)[..n] + [PageWrite((START_PAGE + n) % 256, Chunk(s, n))]
  {
    var ws := PagePlan(s);
    PagesChunk(s, n);
    assert ws[n] == PageWrite((START_PAGE + n) % 256, Chunk(s, n));
    assert ws[..n + 1] == ws[..n] + [ws[n]];
  }

  /** The plan ends with its last page, padded when partial. */
  lemma PlanLast(s: seq<uint8>, n: nat)
    requires 4 * n < |s| <= 4 * n + 4
    ensures |PagePlan(s)| == n + 1
    ensures PagePlan(s) == PagePlan(s)[..n] + [PageWrite((START_PAGE + n) % 256, Pages(s)[n])]
    ensures Pages(s)[n] == s[4 * n..] + Zeros(4 * n + 4 - |s|)
  {
    var ws := PagePlan(s);
    PagesChunk(s, n);
    if |s| == 4 * n + 4 {
      assert s[4 * n..] == Chunk(s, n);
      assert Zeros(0) == [];
    }
    assert ws == ws[..n] + [ws[n]];
  }

  /** What a writer that issues the page plan of `s` in order, and stops at the first write the
      card rejects, has done: the writes issued are a prefix of the plan, all but the last were
      accepted, success means the whole plan went through, and failure means the last write
      issued was rejected. */
  predicate PlanOutcome(s: seq<uint8>, write: (uint8, Page) -> bool, ok: bool, ws: seq<PageWrite>) {
    |ws| <= |PagePlan(s)| && ws == PagePlan(s)[..|ws|] &&
    (forall k :: 0 <= k < |ws| - 1 ==> write(ws[k].page, ws[k].data)) &&
    (ok ==> ws == PagePlan(s) && forall k :: 0 <= k < |ws| ==> write(ws[k].page, ws[k].data)) &&
    (!ok ==> |ws| > 0 && !write(ws[|ws| - 1].page, ws[|ws| - 1].data))
  }

  /** A writer that stops at a rejected write of the plan has the outcome of a failed write. */
  lemma PlanRejected(s: seq<uint8>, write: (uint8, Page) -> bool, ws: seq<PageWrite>)
    requires 0 < |ws| <= |PagePlan(s)| && ws == PagePlan(s)[..|ws|]
    requires forall k :: 0 <= k < |ws| - 1 ==> write(ws[k].page, ws[k].data)
    requires !write(ws[|ws| - 1].page, ws[|ws| - 1].data)
    ensures PlanOutcome(s, write, false, ws)
  {
  }

  /** A writer whose every write of the whole plan was accepted has the outcome of success. */
  lemma PlanAccepted(s: seq<uint8>, write: (uint8, Page) -> bool, ws: seq<PageWrite>)
    requires ws == PagePlan(s)
    requires forall k :: 0 <= k < |ws| ==> write(ws[k].page, ws[k].data)
    ensures PlanOutcome(s, write, true, ws)
  {
    assert ws == PagePlan(s)[..|ws|];
  }

  /** Writing the padded last page after the whole pages completes the plan, with the outcome of
      that last write. */
  lemma PlanLastOutcome(s: seq<uint8>, write: (uint8, Page) -> bool, ws: seq<PageWrite>, p: Page)
    requires 4 * |ws| < |s| <= 4 * |ws| + 4 && ws == PagePlan(s)[..|ws|]
    requires p == s[4 * |ws|..] + Zeros(4 * |ws| + 4 - |s|)
    requires forall k :: 0 <= k < |ws| ==> write(ws[k].page, ws[k].data)
    ensures var page: uint8 := (START_PAGE + |ws|) % 256;
            PlanOutcome(s, write, write(page, p), ws + [PageWrite(page, p)])
  {
    var n := |ws|;
    var page: uint8 := (START_PAGE + n) % 256;
    PlanLast(s, n);
    var ws' := ws + [PageWrite(page, p)];
    assert ws' == PagePlan(s);
    if write(page, p) {
      PlanAccepted(s, write, ws');
    } else {
      PlanRejected(s, write, ws');
    }
  }

  /** The card after the writes, applied in order. */
  function ApplyWrites(mem: Memory, ws: seq<PageWrite>): (r: Memory)
    ensures mem.Keys <= r.Keys
    ensures forall i :: 0 <= i < |ws| ==> ws[i].page as nat in r
    decreases |ws|
  {
    if |ws| == 0 then mem
    else
      var r := ApplyWrites(mem[ws[0].page as nat := ws[0].data], ws[1..]);
      assert forall i :: 1 <= i < |ws| ==> ws[i] == ws[1..][i - 1];
      r
  }

  /** A page no write touches is left as it was. */
  lemma {:induction false} ApplyWritesUntouched(mem: Memory, ws: seq<PageWrite>, p: nat)
    requires forall i :: 0 <= i < |ws| ==> ws[i].page as nat != p
    ensures p in ApplyWrites(mem, ws) <==> p in mem
    ensures p in mem ==> ApplyWrites(mem, ws)[p] == mem[p]
    decreases |ws|
  {
    if |ws| > 0 {
      assert forall i :: 0 <= i < |ws[1..]| ==> ws[1..][i] == ws[i + 1];
      ApplyWritesUntouched(mem[ws[0].page as nat := ws[0].data], ws[1..], p);
    }
  }

  /** A page holds the data of the last write to it. */
  lemma {:induction false} ApplyWritesLast(mem: Memory, ws: seq<PageWrite>, p: nat, i: nat)
    requires i < |ws| && ws[i].page as nat == p
    requires forall j :: i < j < |ws| ==> ws[j].page as nat != p
    ensures p in ApplyWrites(mem, ws) && ApplyWrites(mem, ws)[p] == ws[i].data
    decreases |ws|
  {
    var m' := mem[ws[0].page as nat := ws[0].data];
    assert forall j :: 0 <= j < |ws[1..]| ==> ws[1..][j] == ws[j + 1];
    if i == 0 {
      ApplyWritesUntouched(m', ws[1..], p);
    } else {
      ApplyWritesLast(m', ws[1..], p, i - 1);
    }
  }

  /** The plan writes page i of the chunking to page 0x10 + i and nothing else there. */
  lemma PlanPage(mem: Memory, s: seq<uint8>, i: nat)
    requires START_PAGE + (|s| + 3) / 4 <= 256 && i < |Pages(s)|
    ensures START_PAGE + i in ApplyWrites(mem, PagePlan(s))
    ensures ApplyWrites(mem, PagePlan(s))[START_PAGE + i] == Pages(s)[i]
  {
    var ws := PagePlan(s);
    assert ws[i].page as nat == START_PAGE + i;
    forall j | i < j < |ws| ensures ws[j].page as nat != START_PAGE + i {
      assert ws[j].page as nat == START_PAGE + j;
    }
    ApplyWritesLast(mem, ws, START_PAGE + i, i);
  }

  /** The plan leaves every page outside its range as it was. */
  lemma PlanOutside(mem: Memory, s: seq<uint8>, p: nat)
    requires START_PAGE + (|s| + 3) / 4 <= 256
    requires p < START_PAGE || p >= START_PAGE + (|s| + 3) / 4
    ensures p in ApplyWrites(mem, PagePlan(s)) <==> p in mem
    ensures p in mem ==> ApplyWrites(mem, PagePlan(s))[p] == mem[p]
  {
    var ws := PagePlan(s);
    forall i | 0 <= i < |ws| ensures ws[i].page as nat != p {
      assert ws[i].page as nat == START_PAGE + i;
    }
    ApplyWritesUntouched(mem, ws, p);
  }

  /** After the page plan of `s` (with no page-number wrap), the tag area holds `s` followed by
      the zero padding of its last page, and every page outside the plan is as it was. */
  lemma PlanHolds(mem: Memory, s: seq<uint8>)
    requires START_PAGE + (|s| + 3) / 4 <= 256
    ensures Holds(ApplyWrites(mem, PagePlan(s)), 0, Flatten(Pages(s)))
    ensures forall p :: (p < START_PAGE || p >= START_PAGE + (|s| + 3) / 4) ==>
              (p in ApplyWrites(mem, PagePlan(s)) <==> p in mem) &&
              (p in mem ==> ApplyWrites(mem, PagePlan(s))[p] == mem[p])
  {
    var ps := Pages(s);
    var m' := ApplyWrites(mem, PagePlan(s));
    forall k | 0 <= k < |Flatten(ps)|
      ensures ByteAt(m', 0 + k) == Some(Flatten(ps)[k])
    {
      PlanPage(mem, s, k / 4);
      FlattenIndex(ps, k);
    }
    forall p: nat | p < START_PAGE || p >= START_PAGE + (|s| + 3) / 4
      ensures (p in m' <==> p in mem) && (p in mem ==> m'[p] == mem[p])
    {
      PlanOutside(mem, s, p);
    }
  }
}

=== FILE: pn532.dfy ===
/** The ESP32 PN532 driver (`PN532`): every operation builds its command in the 64-byte packet
    buffer, hands it to the interface (write, ACK, read over the HSU link) and parses the
    answer. The PN532 and the card in its field are an oracle that answers each command given
    everything sent before it. */
module Pn532 {
  import opened Wrappers
  import opened Bytes
  import opened Ntag
  import opened Pn532Frames

  // ---------------------------------------------------------------- the device and the session

  /** What the link does with one command: what `pn532_write` reports, the bytes that arrive
      where the ACK is expected, and the bytes that arrive where the answer is expected. */
  datatype Answer = Answer(written: Result<(), EspError>, ack: Uart, reply: Uart)

  /** The PN532 and the card in its field: the answer to the last of the commands sent so far. */
  type Device = seq<seq<uint8>> -> Answer

  /** `PN532_COMMAND_BUFFER_LEN`: the size of `pn532_packetbuffer`. */
  const PACKET_BUFFER_LEN: nat := 64

  /** `pn532_packetbuffer`: commands are built in it and most answers are read into it; bytes
      an answer does not cover keep what was there before. */
  type PacketBuffer = b: seq<uint8> | |b| == PACKET_BUFFER_LEN witness seq(64, _ => 0)

  /** The driver's state: the commands handed to the interface so far, the packet buffer, whether
      SAMConfiguration has been done (the HSU writer then stops sending the wake-up bytes), and
      the target number `pn532_in_list_passive_target` recorded. */
  datatype Session = Session(sent: seq<seq<uint8>>, buffer: PacketBuffer, samConfigDone: bool, inListedTag: uint8)

  /** The result of an operation and the session after it. */
  datatype Step<T> = Step(result: Result<T, EspError>, session: Session)

  /** `data` copied to the start of the buffer. */
  function Overlay(b: PacketBuffer, data: seq<uint8>): (r: PacketBuffer)
    requires |data| <= PACKET_BUFFER_LEN
    ensures forall i :: 0 <= i < |data| ==> r[i] == data[i]
    ensures forall i :: |data| <= i < PACKET_BUFFER_LEN ==> r[i] == b[i]
  {
    data + b[|data|..]
  }

  /** `pn532_send_command_wait_ack` of a command built in the packet buffer, then
      `pn532_read_data` of `n` bytes. The HSU interface has no IRQ line, so every ready wait
      succeeds at once; what can fail is the write, the ACK and the read. The command counts as
      sent whatever happens. The bytes read are the result: whether they land in the packet
      buffer is up to the caller. */
  function Exchange(dev: Device, s: Session, cmd: seq<uint8>, n: uint8): (r: Step<seq<uint8>>)
    requires 0 < |cmd| <= PACKET_BUFFER_LEN
    ensures r.session == s.(sent := s.sent + [cmd], buffer := Overlay(s.buffer, cmd))
    ensures var a := dev(s.sent + [cmd]);
            r.result.Ok? <==> a.written.Ok? && ReadAck(a.ack).Ok? && HsuRead(n, a.reply).Ok?
    ensures r.result.Ok? ==> |r.result.value| == n
  {
    var a := dev(s.sent + [cmd]);
    var s' := s.(sent := s.sent + [cmd], buffer := Overlay(s.buffer, cmd));
    var sent := SendCommandWaitAck(cmd, s.samConfigDone, a.written, Ok(()), a.ack);
    if sent.status.Err? then Step(Err(sent.status.error), s')
    else Step(ReadData(n, a.reply), s')
  }

  /** A PN532 that ACKs a command and answers it with a normal information frame: the bytes
      read are as much of the frame as was asked for, zero-padded. */
  lemma ExchangeOfFrame(dev: Device, s: Session, cmd: seq<uint8>, n: uint8, tfi: uint8, data: seq<uint8>,
                        rest: seq<uint8>, rest': seq<uint8>)
    requires 0 < |cmd| <= PACKET_BUFFER_LEN && n >= 6 && |data| < 255
    requires dev(s.sent + [cmd]) == Answer(Ok(()), Line(ACK_FRAME + rest), Line(WireFrame(tfi, data) + rest'))
    ensures var f := WireFrame(tfi, data);
            var got := if |f| <= n then |f| else n as int;
            var r := Exchange(dev, s, cmd, n);
            r.result.Ok? && |r.result.value| == n &&
            (forall i :: 0 <= i < got ==> r.result.value[i] == f[i]) &&
            (forall i :: got <= i < n ==> r.result.value[i] == 0)
  {
    assert (ACK_FRAME + rest)[..6] == ACK_FRAME;
    HsuReadsWireFrame(n, tfi, data, rest');
  }

  /** Bytes that begin with the first `k` bytes of a frame show its header, and as much of
      its data as they hold. */
  lemma FrameBytes(b: seq<uint8>, tfi: uint8, data: seq<uint8>, k: nat)
    requires |data| < 255 && 6 <= k <= |b| && k <= |data| + 8
    requires forall i :: 0 <= i < k ==> b[i] == WireFrame(tfi, data)[i]
    ensures b[..3] == [0x00, 0x00, 0xFF] && b[3] == |data| + 1 && b[4] == 255 - |data| && b[5] == tfi
    ensures var m := if |data| <= k - 6 then |data| else k - 6;
            b[6..6 + m] == data[..m]
  {
    var f := WireFrame(tfi, data);
    var m := if |data| <= k - 6 then |data| else k - 6;
    assert b[..3] == f[..3];
    assert f[6..6 + m] == data[..m] by {
      assert f[6..6 + m] == f[6..6 + |data|][..m];
    }
    assert b[6..6 + m] == f[6..6 + m];
  }

  /** The answer of `ExchangeOfFrame` landed in the packet buffer: the buffer begins with as
      much of the frame as was read. */
  lemma LandedFrame(dev: Device, s: Session, cmd: seq<uint8>, n: uint8, tfi: uint8, data: seq<uint8>,
                    rest: seq<uint8>, rest': seq<uint8>)
    requires 0 < |cmd| <= PACKET_BUFFER_LEN && 6 <= n <= PACKET_BUFFER_LEN && |data| < 255
    requires dev(s.sent + [cmd]) == Answer(Ok(()), Line(ACK_FRAME + rest), Line(WireFrame(tfi, data) + rest'))
    ensures var f := WireFrame(tfi, data);
            var got := if |f| <= n then |f| else n as int;
            var x := Exchange(dev, s, cmd, n);
            x.result.Ok? &&
            forall i :: 0 <= i < got ==> Land(x.session, x.result.value).buffer[i] == f[i]
  {
    ExchangeOfFrame(dev, s, cmd, n, tfi, data, rest, rest');
  }

  /** Appending three commands one at a time appends them together. */
  lemma AppendEach<T>(a: seq<T>, c: seq<T>)
    requires |c| == 3
    ensures a + [c[0]] + [c[1]] + [c[2]] == a + c
  {
    assert c == [c[0], c[1], c[2]];
  }

  /** A reply landed in the packet buffer. */
  function Land(s: Session, got: seq<uint8>): (s': Session)
    requires |got| <= PACKET_BUFFER_LEN
    ensures s'.sent == s.sent && s'.inListedTag == s.inListedTag && s'.samConfigDone == s.samConfigDone
  {
    s.(buffer := Overlay(s.buffer, got))
  }

  // ---------------------------------------------------------------- answers

  /** The checks `pn532_in_data_exchange` and `pn532_in_list_passive_target` make before reading
      an answer: preamble and start code 00 00 FF, LEN and LCS adding up to zero, the
      PN532-to-host TFI and the response code of the command. */
  predicate ResponseHeader(b: seq<uint8>, code: uint8)
    requires |b| >= 7
  {
    b[..3] == [0x00, 0x00, 0xFF] && (b[3] as int + b[4]) % 256 == 0 && b[5] == PN532_TO_HOST && b[6] == code
  }

  /** The error bits of a status byte (the low six) are clear. */
  predicate StatusOk(status: uint8) {
    (status as bv8) & 0x3F == 0
  }

  /** Command codes, and the response codes the PN532 answers them with (the command code plus
      one). */
  const GET_FIRMWARE_VERSION: uint8 := 0x02
  const IN_DATA_EXCHANGE: uint8 := 0x40
  const IN_COMMUNICATE_THRU: uint8 := 0x42
  const IN_LIST_PASSIVE_TARGET: uint8 := 0x4A
  const IN_ATR: uint8 := 0x50

  /** The NTAG READ (four pages) and WRITE (one page) commands. */
  const NTAG_READ: uint8 := 0x30
  const NTAG_WRITE: uint8 := 0xA2

  /** The frame the PN532 sends back for a command it cannot parse (section 6.2.1.5 of the
      PN532 user manual UM0701-02). */
  const ERROR_FRAME: seq<uint8> := [0x00, 0x00, 0xFF, 0x01, 0xFF, 0x7F, 0x81, 0x00]

  lemma ErrorFrameIsFrame()
    ensures ERROR_FRAME == WireFrame(0x7F, [])
  {
  }

  // ---------------------------------------------------------------- firmware version

  /** What `pn532_get_firmware_version` expects in bytes 1 to 6 of the answer: the rest of the
      start code, LEN 6, its LCS, the TFI and the GetFirmwareVersion response code. */
  const FIRMWARE_HEADER: seq<uint8> := [0x00, 0xFF, 0x06, 0xFA, 0xD5, 0x03]

  /** `pn532_get_firmware_version`: twelve bytes are read into the packet buffer; after the
      header check the version is bytes 7 to 10 read big-endian (IC, Ver, Rev, Support). */
  function GetFirmwareVersion(dev: Device, s: Session): (r: Step<uint32>)
    ensures r.session.sent == s.sent + [[GET_FIRMWARE_VERSION]]
    ensures r.result.Ok? ==>
              r.session.buffer[1..7] == FIRMWARE_HEADER && r.result.value == BeValue(r.session.buffer[7..11])
  {
    var x := Exchange(dev, s, [GET_FIRMWARE_VERSION], 12);
    if x.result.Err? then Step(Err(x.result.error), x.session)
    else
      var s' := Land(x.session, x.result.value);
      var b := s'.buffer;
      if b[1..7] != FIRMWARE_HEADER then Step(Err(Fail), s')
      else
        Pow256Values();
        Step(Ok(BeValue(b[7..11])), s')
  }

  /** A PN532 that answers with its four version bytes is read correctly. */
  lemma FirmwareOfReply(dev: Device, s: Session, version: seq<uint8>, rest: seq<uint8>, rest': seq<uint8>)
    requires |version| == 4
    requires dev(s.sent + [[GET_FIRMWARE_VERSION]]) ==
             Answer(Ok(()), Line(ACK_FRAME + rest), Line(WireFrame(PN532_TO_HOST, [0x03] + version) + rest'))
    ensures GetFirmwareVersion(dev, s).result == Ok(BeValue(version))
  {
    var data := [0x03] + version;
    LandedFrame(dev, s, [GET_FIRMWARE_VERSION], 12, PN532_TO_HOST, data, rest, rest');
    var x := Exchange(dev, s, [GET_FIRMWARE_VERSION], 12);
    var s' := Land(x.session, x.result.value);
    FirmwareInBuffer(s'.buffer, version);
    FirmwareOfLanded(dev, s, version);
  }

  lemma FirmwareOfLanded(dev: Device, s: Session, version: seq<uint8>)
    requires |version| == 4
    requires var x := Exchange(dev, s, [GET_FIRMWARE_VERSION], 12);
             x.result.Ok? &&
             var b := Land(x.session, x.result.value).buffer; b[1..7] == FIRMWARE_HEADER && b[7..11] == version
    ensures GetFirmwareVersion(dev, s).result == Ok(BeValue(version))
  {
  }

  lemma FirmwareInBuffer(b: PacketBuffer, version: seq<uint8>)
    requires |version| == 4
    requires var f := WireFrame(PN532_TO_HOST, [0x03] + version);
             forall i :: 0 <= i < 12 ==> b[i] == f[i]
    ensures b[1..7] == FIRMWARE_HEADER && b[7..11] == version
  {
    var f := WireFrame(PN532_TO_HOST, [0x03] + version);
    assert f[6..11] == [0x03] + version;
    assert b[1..7] == f[1..7];
    assert b[7..11] == f[7..11];
  }

  // ---------------------------------------------------------------- targets

  /** InListPassiveTarget for one target at the given baud rate and modulation. */
  function TargetCommand(brty: uint8): (c: seq<uint8>)
    ensures |c| == 3 && c[0] == IN_LIST_PASSIVE_TARGET && c[1] == 1 && c[2] == brty
  {
    [IN_LIST_PASSIVE_TARGET, 0x01, brty]
  }

  /** `pn532_read_passive_target_id`: 32 bytes are read into the packet buffer, with no frame
      check. Exactly one target must have been found (byte 7); the UID is the byte-12 count of
      bytes from byte 13 on, which may run past the 32 bytes read into what the buffer held
      before, and past the buffer itself (an overrun). */
  function ReadPassiveTargetId(dev: Device, s: Session, brty: uint8): (r: Step<seq<uint8>>)
    ensures r.session.sent == s.sent + [TargetCommand(brty)] && r.session.inListedTag == s.inListedTag
    ensures r.result.Ok? ==>
              var b := r.session.buffer;
              b[7] == 1 && 13 + b[12] <= PACKET_BUFFER_LEN && r.result.value == b[13..13 + b[12]]
  {
    var x := Exchange(dev, s, TargetCommand(brty), 32);
    if x.result.Err? then Step(Err(x.result.error), x.session)
    else
      var s' := Land(x.session, x.result.value);
      var b := s'.buffer;
      if b[7] != 1 then Step(Err(Fail), s')
      else if 13 + b[12] > PACKET_BUFFER_LEN then Step(Err(Overrun), s')
      else Step(Ok(b[13..13 + b[12]]), s')
  }

  /** An ISO/IEC 14443 type A target answering with its target number, SENS_RES, SEL_RES and
      UID is read as that UID; an answer reporting any other number of targets is refused. */
  lemma TargetIdOfReply(dev: Device, s: Session, brty: uint8, found: uint8, tg: uint8, sens: seq<uint8>,
                        sel: uint8, uid: seq<uint8>, rest: seq<uint8>, rest': seq<uint8>)
    requires |sens| == 2 && |uid| <= 10
    requires var data := [0x4B, found, tg] + sens + [sel, |uid|] + uid;
             dev(s.sent + [TargetCommand(brty)]) ==
             Answer(Ok(()), Line(ACK_FRAME + rest), Line(WireFrame(PN532_TO_HOST, data) + rest'))
    ensures found == 1 ==> ReadPassiveTargetId(dev, s, brty).result == Ok(uid)
    ensures found != 1 ==> ReadPassiveTargetId(dev, s, brty).result == Err(Fail)
  {
    var data := [0x4B, found, tg] + sens + [sel, |uid|] + uid;
    LandedFrame(dev, s, TargetCommand(brty), 32, PN532_TO_HOST, data, rest, rest');
    var x := Exchange(dev, s, TargetCommand(brty), 32);
    var s' := Land(x.session, x.result.value);
    TargetIdInBuffer(s'.buffer, found, tg, sens, sel, uid);
    if found == 1 {
      assert ReadPassiveTargetId(dev, s, brty) == Step(Ok(uid), s');
    } else {
      assert ReadPassiveTargetId(dev, s, brty) == Step(Err(Fail), s');
    }
  }

  /** The target list answer in the buffer shows the count at byte 7, the UID length at byte
      12 and the UID after it. */
  lemma TargetIdInBuffer(b: seq<uint8>, found: uint8, tg: uint8, sens: seq<uint8>, sel: uint8, uid: seq<uint8>)
    requires |sens| == 2 && |uid| <= 10
    requires var data := [0x4B, found, tg] + sens + [sel, |uid|] + uid;
             |data| + 8 <= |b| && forall i :: 0 <= i < |data| + 8 ==> b[i] == WireFrame(PN532_TO_HOST, data)[i]
    ensures b[7] == found && b[12] == |uid| && b[13..13 + |uid|] == uid
  {
    var data := [0x4B, found, tg] + sens + [sel, |uid|] + uid;
    FrameBytes(b, PN532_TO_HOST, data, |data| + 8);
    assert b[6..6 + |data|] == data;
    assert data[7..] == uid;
  }

  /** `pn532_in_list_passive_target`: InListPassiveTarget for one type A target at 106 kbps;
      the whole buffer is read, the answer must pass the header check, report exactly one
      target, and its target number (byte 8) is recorded for `pn532_in_data_exchange`. */
  function InListPassiveTarget(dev: Device, s: Session): (r: Step<()>)
    ensures r.session.sent == s.sent + [TargetCommand(0)]
    ensures r.result.Ok? ==>
              ResponseHeader(r.session.buffer, 0x4B) && r.session.buffer[7] == 1 &&
              r.session.inListedTag == r.session.buffer[8]
    ensures r.result.Err? ==> r.session.inListedTag == s.inListedTag
  {
    var x := Exchange(dev, s, TargetCommand(0), PACKET_BUFFER_LEN as uint8);
    if x.result.Err? then Step(Err(x.result.error), x.session)
    else
      var s' := Land(x.session, x.result.value);
      var b := s'.buffer;
      if !ResponseHeader(b, 0x4B) then Step(Err(Fail), s')
      else if b[7] != 1 then Step(Err(Fail), s')
      else Step(Ok(()), s'.(inListedTag := b[8]))
  }

  /** An answer listing exactly one target records its number; any other count is refused and
      keeps the number recorded before. */
  lemma InListOfReply(dev: Device, s: Session, found: uint8, tg: uint8, more: seq<uint8>,
                      rest: seq<uint8>, rest': seq<uint8>)
    requires |more| <= 50
    requires dev(s.sent + [TargetCommand(0)]) ==
             Answer(Ok(()), Line(ACK_FRAME + rest), Line(WireFrame(PN532_TO_HOST, [0x4B, found, tg] + more) + rest'))
    ensures var r := InListPassiveTarget(dev, s);
            (r.result.Ok? <==> found == 1) &&
            r.session.inListedTag == (if found == 1 then tg else s.inListedTag)
  {
    var data := [0x4B, found, tg] + more;
    LandedFrame(dev, s, TargetCommand(0), 64, PN532_TO_HOST, data, rest, rest');
    var x := Exchange(dev, s, TargetCommand(0), 64);
    InListInBuffer(Land(x.session, x.result.value).buffer, found, tg, more);
  }

  /** The target list answer in the buffer passes the header check and shows the count and the
      target number. */
  lemma InListInBuffer(b: seq<uint8>, found: uint8, tg: uint8, more: seq<uint8>)
    requires |more| <= 50
    requires var data := [0x4B, found, tg] + more;
             |data| + 8 <= |b| && forall i :: 0 <= i < |data| + 8 ==> b[i] == WireFrame(PN532_TO_HOST, data)[i]
    ensures |b| >= 9 && ResponseHeader(b, 0x4B) && b[7] == found && b[8] == tg
  {
    var data := [0x4B, found, tg] + more;
    FrameBytes(b, PN532_TO_HOST, data, |data| + 8);
    assert b[6..6 + |data|] == data;
  }

  // ---------------------------------------------------------------- data exchange

  /** `pn532_in_data_exchange` sends at most this many bytes (two of the buffer's 64 hold the
      command code and the target number). */
  const MAX_EXCHANGE: nat := PACKET_BUFFER_LEN - 2

  /** InDataExchange with the recorded target. */
  function ExchangeCommand(tg: uint8, data: seq<uint8>): (c: seq<uint8>)
    requires |data| <= MAX_EXCHANGE
    ensures |c| == |data| + 2 && c[0] == IN_DATA_EXCHANGE && c[1] == tg && c[2..] == data
  {
    [IN_DATA_EXCHANGE, tg] + data
  }

  /** `pn532_in_data_exchange`: a payload longer than 62 bytes is refused before anything is
      sent. The whole buffer is read; the answer must pass the header check for the
      InDataExchange response code (41) and its status byte must report no error. The data is
      LEN - 3 bytes (LEN counts TFI, response code and status), computed in a byte, silently
      cut to the caller's `capacity`; copying past the packet buffer is an overrun. */
  function InDataExchange(dev: Device, s: Session, data: seq<uint8>, capacity: uint8): (r: Step<seq<uint8>>)
    ensures |data| > MAX_EXCHANGE ==> r == Step(Err(InvalidArg), s)
    ensures |data| <= MAX_EXCHANGE ==> r.session.sent == s.sent + [ExchangeCommand(s.inListedTag, data)]
    ensures r.session.inListedTag == s.inListedTag
    ensures r.result.Ok? ==>
              var b := r.session.buffer;
              var length := Trunc8(b[3] as int - 3);
              ResponseHeader(b, 0x41) && StatusOk(b[7]) &&
              |r.result.value| == (if length > capacity then capacity else length) &&
              8 + |r.result.value| <= PACKET_BUFFER_LEN && r.result.value == b[8..8 + |r.result.value|]
  {
    if |data| > MAX_EXCHANGE then Step(Err(InvalidArg), s)
    else
      var x := Exchange(dev, s, ExchangeCommand(s.inListedTag, data), PACKET_BUFFER_LEN as uint8);
      if x.result.Err? then Step(Err(x.result.error), x.session)
      else
        var s' := Land(x.session, x.result.value);
        Step(ExchangeAnswer(s'.buffer, capacity), s')
  }

  /** The answer of InDataExchange as `pn532_in_data_exchange` takes it from the buffer. */
  function ExchangeAnswer(b: PacketBuffer, capacity: uint8): (r: Result<seq<uint8>, EspError>)
    ensures !ResponseHeader(b, 0x41) || !StatusOk(b[7]) ==> r == Err(Fail)
    ensures r.Ok? ==>
              var length := Trunc8(b[3] as int - 3);
              ResponseHeader(b, 0x41) && StatusOk(b[7]) &&
              |r.value| == (if length > capacity then capacity else length) &&
              8 + |r.value| <= PACKET_BUFFER_LEN && r.value == b[8..8 + |r.value|]
  {
    if !ResponseHeader(b, 0x41) then Err(Fail)
    else if !StatusOk(b[7]) then Err(Fail)
    else
      var length := Trunc8(b[3] as int - 3);
      var length := if length > capacity then capacity else length;
      if 8 + length > PACKET_BUFFER_LEN then Err(Overrun)
      else Ok(b[8..8 + length])
  }

  /** A target answering with a status that reports no error and up to 54 bytes of data: the
      data comes back, cut to the caller's capacity. */
  lemma InDataExchangeOfReply(dev: Device, s: Session, data: seq<uint8>, capacity: uint8, status: uint8,
                              answer: seq<uint8>, rest: seq<uint8>, rest': seq<uint8>)
    requires |data| <= MAX_EXCHANGE && |answer| <= 54 && StatusOk(status)
    requires dev(s.sent + [ExchangeCommand(s.inListedTag, data)]) ==
             Answer(Ok(()), Line(ACK_FRAME + rest), Line(WireFrame(PN532_TO_HOST, [0x41, status] + answer) + rest'))
    ensures InDataExchange(dev, s, data, capacity).result ==
            Ok(if |answer| <= capacity then answer else answer[..capacity])
  {
    var payload := [0x41, status] + answer;
    var cmd := ExchangeCommand(s.inListedTag, data);
    LandedFrame(dev, s, cmd, 64, PN532_TO_HOST, payload, rest, rest');
    var x := Exchange(dev, s, cmd, 64);
    ExchangeAnswerInBuffer(Land(x.session, x.result.value).buffer, status, answer, capacity);
  }

  /** The InDataExchange answer in the buffer passes the header check, shows the status, and
      its length field gives back the answer, cut to the capacity. */
  lemma ExchangeAnswerInBuffer(b: PacketBuffer, status: uint8, answer: seq<uint8>, capacity: uint8)
    requires |answer| <= 54
    requires var payload := [0x41, status] + answer;
             forall i :: 0 <= i < |payload| + 8 ==> b[i] == WireFrame(PN532_TO_HOST, payload)[i]
    ensures ExchangeAnswer(b, capacity) ==
            if !StatusOk(status) then Err(Fail)
            else Ok(if |answer| <= capacity then answer else answer[..capacity])
  {
    var payload := [0x41, status] + answer;
    FrameBytes(b, PN532_TO_HOST, payload, |payload| + 8);
    assert b[6..6 + |payload|] == payload;
    assert b[8..8 + |answer|] == answer by {
      assert payload[2..] == answer;
    }
    var m := if |answer| <= capacity then |answer| else capacity as int;
    assert b[8..8 + m] == answer[..m];
    assert answer[..|answer|] == answer;
  }

  /** A status with error bits set is refused, whatever the data. */
  lemma InDataExchangeRefusesStatus(dev: Device, s: Session, data: seq<uint8>, capacity: uint8, status: uint8,
                                    answer: seq<uint8>, rest: seq<uint8>, rest': seq<uint8>)
    requires |data| <= MAX_EXCHANGE && |answer| <= 54 && !StatusOk(status)
    requires dev(s.sent + [ExchangeCommand(s.inListedTag, data)]) ==
             Answer(Ok(()), Line(ACK_FRAME + rest), Line(WireFrame(PN532_TO_HOST, [0x41, status] + answer) + rest'))
    ensures InDataExchange(dev, s, data, capacity).result == Err(Fail)
  {
    var payload := [0x41, status] + answer;
    var cmd := ExchangeCommand(s.inListedTag, data);
    LandedFrame(dev, s, cmd, 64, PN532_TO_HOST, payload, rest, rest');
    var x := Exchange(dev, s, cmd, 64);
    ExchangeAnswerInBuffer(Land(x.session, x.result.value).buffer, status, answer, capacity);
  }

  // ---------------------------------------------------------------- pages

  /** NTAG READ of four pages from `page`, to target 1. */
  function ReadCommand(page: uint8): (c: seq<uint8>)
    ensures |c| == 4 && c[..3] == [IN_DATA_EXCHANGE, 0x01, NTAG_READ] && c[3] == page
  {
    [IN_DATA_EXCHANGE, 0x01, NTAG_READ, page]
  }

  /** NTAG WRITE of one page, to target 1. */
  function WriteCommand(page: uint8, data: seq<uint8>): (c: seq<uint8>)
    requires |data| == 4
    ensures |c| == 8 && c[..3] == [IN_DATA_EXCHANGE, 0x01, NTAG_WRITE] && c[3] == page && c[4..] == data
  {
    [IN_DATA_EXCHANGE, 0x01, NTAG_WRITE, page] + data
  }

  /** The page `ntag2xx_read_page` refuses from on: NTAG216 has 231 pages. */
  const READ_PAGE_LIMIT: nat := 231

  /** How many bytes a page read hands back: the length asked for, at most the 16 bytes of one
      NTAG READ. */
  function ReadLength(len: nat): (n: nat)
    ensures n <= 16 && n <= len && (len <= 16 ==> n == len)
  {
    if len > 16 then 16 else len
  }

  /** `ntag2xx_read_page` as written: 26 bytes (the whole answer to a READ) go to the packet
      buffer and only the status byte is looked at; the frame itself is never checked. */
  function ReadPageAsWritten(dev: Device, s: Session, page: uint8, len: nat): (r: Step<seq<uint8>>)
    ensures page as nat >= READ_PAGE_LIMIT || len == 0 ==> r == Step(Err(InvalidArg), s)
    ensures page as nat < READ_PAGE_LIMIT && len > 0 ==> r.session.sent == s.sent + [ReadCommand(page)]
    ensures r.session.inListedTag == s.inListedTag && r.session.samConfigDone == s.samConfigDone
    ensures r.result.Ok? ==>
              StatusOk(r.session.buffer[7]) &&
              |r.result.value| == ReadLength(len) && r.result.value == r.session.buffer[8..8 + ReadLength(len)]
  {
    if page as nat >= READ_PAGE_LIMIT || len == 0 then Step(Err(InvalidArg), s)
    else
      var x := Exchange(dev, s, ReadCommand(page), 26);
      if x.result.Err? then Step(Err(x.result.error), x.session)
      else
        var s' := Land(x.session, x.result.value);
        var b := s'.buffer;
        if !StatusOk(b[7]) then Step(Err(Fail), s')
        else Step(Ok(b[8..8 + ReadLength(len)]), s')
  }

  /** The PN532's error frame is taken for a successful read of zeros: `pn532_read` accepts it,
      the rest of the 26 bytes is zero padding, so the "status" byte is 0. */
  lemma ErrorFrameReadsAsZeros(dev: Device, s: Session, page: uint8, rest: seq<uint8>, rest': seq<uint8>)
    requires page as nat < READ_PAGE_LIMIT
    requires dev(s.sent + [ReadCommand(page)]) == Answer(Ok(()), Line(ACK_FRAME + rest), Line(ERROR_FRAME + rest'))
    ensures ReadPageAsWritten(dev, s, page, 4).result == Ok([0, 0, 0, 0])
  {
    ErrorFrameIsFrame();
    ExchangeOfFrame(dev, s, ReadCommand(page), 26, 0x7F, [], rest, rest');
    var x := Exchange(dev, s, ReadCommand(page), 26);
    var b := Land(x.session, x.result.value).buffer;
    assert b[7] == 0 && b[8..12] == [0, 0, 0, 0] by {
      assert forall i :: 8 <= i < 26 ==> x.result.value[i] == 0;
    }
    assert StatusOk(0);
  }

  /** `ntag2xx_read_page` with the frame checked as `pn532_in_data_exchange` checks it: the
      answer must be an InDataExchange response (41) before its status and data are used. */
  function ReadPage(dev: Device, s: Session, page: uint8, len: nat): (r: Step<seq<uint8>>)
    ensures page as nat >= READ_PAGE_LIMIT || len == 0 ==> r == Step(Err(InvalidArg), s)
    ensures page as nat < READ_PAGE_LIMIT && len > 0 ==> r.session.sent == s.sent + [ReadCommand(page)]
    ensures r.session.inListedTag == s.inListedTag && r.session.samConfigDone == s.samConfigDone
    ensures r.result.Ok? ==>
              ResponseHeader(r.session.buffer, 0x41) && StatusOk(r.session.buffer[7]) &&
              |r.result.value| == ReadLength(len) && r.result.value == r.session.buffer[8..8 + ReadLength(len)]
  {
    if page as nat >= READ_PAGE_LIMIT || len == 0 then Step(Err(InvalidArg), s)
    else
      var x := Exchange(dev, s, ReadCommand(page), 26);
      if x.result.Err? then Step(Err(x.result.error), x.session)
      else
        var s' := Land(x.session, x.result.value);
        Step(PageAnswer(s'.buffer, len), s')
  }

  /** The answer of READ as the checked `ntag2xx_read_page` takes it from the buffer. */
  function PageAnswer(b: PacketBuffer, len: nat): (r: Result<seq<uint8>, EspError>)
    requires len > 0
    ensures r.Ok? <==> ResponseHeader(b, 0x41) && StatusOk(b[7])
    ensures r.Err? ==> r.error == Fail
    ensures r.Ok? ==> |r.value| == ReadLength(len) && r.value == b[8..8 + ReadLength(len)]
  {
    if !ResponseHeader(b, 0x41) then Err(Fail)
    else if !StatusOk(b[7]) then Err(Fail)
    else Ok(b[8..8 + ReadLength(len)])
  }

  /** The checked read refuses the error frame. */
  lemma ReadPageRefusesErrorFrame(dev: Device, s: Session, page: uint8, len: nat, rest: seq<uint8>, rest': seq<uint8>)
    requires page as nat < READ_PAGE_LIMIT && len > 0
    requires dev(s.sent + [ReadCommand(page)]) == Answer(Ok(()), Line(ACK_FRAME + rest), Line(ERROR_FRAME + rest'))
    ensures ReadPage(dev, s, page, len).result == Err(Fail)
  {
    ErrorFrameIsFrame();
    ExchangeOfFrame(dev, s, ReadCommand(page), 26, 0x7F, [], rest, rest');
    var x := Exchange(dev, s, ReadCommand(page), 26);
    var b := Land(x.session, x.result.value).buffer;
    FrameBytes(b, 0x7F, [], 8);
  }

  /** The checked read only refuses more: whatever it accepts, the read as written accepts too,
      with the same bytes and the same session. */
  lemma CheckedReadAgrees(dev: Device, s: Session, page: uint8, len: nat)
    ensures ReadPage(dev, s, page, len).result.Ok? ==> ReadPageAsWritten(dev, s, page, len) == ReadPage(dev, s, page, len)
  {
  }

  /** A card answering a READ with its sixteen bytes: the bytes asked for come back when the
      status reports no error, and the read fails otherwise. */
  lemma ReadPageOfReply(dev: Device, s: Session, page: uint8, len: nat, status: uint8, pages: seq<uint8>,
                        rest: seq<uint8>, rest': seq<uint8>)
    requires page as nat < READ_PAGE_LIMIT && len > 0 && |pages| == 16
    requires dev(s.sent + [ReadCommand(page)]) ==
             Answer(Ok(()), Line(ACK_FRAME + rest), Line(WireFrame(PN532_TO_HOST, [0x41, status] + pages) + rest'))
    ensures StatusOk(status) ==> ReadPage(dev, s, page, len).result == Ok(pages[..ReadLength(len)])
    ensures !StatusOk(status) ==> ReadPage(dev, s, page, len).result == Err(Fail)
  {
    var payload := [0x41, status] + pages;
    LandedFrame(dev, s, ReadCommand(page), 26, PN532_TO_HOST, payload, rest, rest');
    var x := Exchange(dev, s, ReadCommand(page), 26);
    var s' := Land(x.session, x.result.value);
    PagesInBuffer(s'.buffer, status, pages, len);
    assert ReadPage(dev, s, page, len) == Step(PageAnswer(s'.buffer, len), s');
  }

  /** The READ answer in the buffer passes the header check, shows the status, and holds the
      pages from byte 8 on. */
  lemma PagesInBuffer(b: PacketBuffer, status: uint8, pages: seq<uint8>, len: nat)
    requires |pages| == 16 && len > 0
    requires forall i :: 0 <= i < 26 ==> b[i] == WireFrame(PN532_TO_HOST, [0x41, status] + pages)[i]
    ensures PageAnswer(b, len) == if StatusOk(status) then Ok(pages[..ReadLength(len)]) else Err(Fail)
  {
    var payload := [0x41, status] + pages;
    FrameBytes(b, PN532_TO_HOST, payload, 26);
    assert b[6..24] == payload;
    assert b[8..24] == pages;
    assert b[8..8 + ReadLength(len)] == b[8..24][..ReadLength(len)];
  }

  /** `ntag2xx_write_page` as written: it refuses pages below 4 and above 231, so page 231,
      which no NTAG21x has, is sent to the card. */
  function WritePageAsWritten(dev: Device, s: Session, page: uint8, data: seq<uint8>): (r: Step<()>)
    requires |data| == 4
    ensures r.session.sent != s.sent <==> 4 <= page <= 231
    ensures r.session.sent != s.sent ==> r.session.sent == s.sent + [WriteCommand(page, data)]
  {
    if page < 4 || page > 231 then Step(Err(InvalidArg), s)
    else
      var x := Exchange(dev, s, WriteCommand(page, data), 26);
      if x.result.Err? then Step(Err(x.result.error), x.session)
      else Step(Ok(()), Land(x.session, x.result.value))
  }

  /** Page 231 is past the last page of every product, yet a write to it goes out. */
  lemma WritePastTheEnd(dev: Device, s: Session, data: seq<uint8>, p: Product)
    requires |data| == 4
    ensures 231 >= PageCount(p)
    ensures WritePageAsWritten(dev, s, 231, data).session.sent == s.sent + [WriteCommand(231, data)]
  {
  }

  /** `ntag2xx_write_page` with the upper bound `ntag2xx_read_page` uses: a page from 4 up to
      the last page of the largest product is written (the answer is read into the packet
      buffer but not looked at); anything else is refused before anything is sent. */
  function WritePage(dev: Device, s: Session, page: uint8, data: seq<uint8>): (r: Step<()>)
    requires |data| == 4
    ensures 4 <= page as nat < PageCount(NTAG216) ==> r.session.sent == s.sent + [WriteCommand(page, data)]
    ensures !(4 <= page as nat < PageCount(NTAG216)) ==> r == Step(Err(InvalidArg), s)
    ensures r.session.inListedTag == s.inListedTag && r.session.samConfigDone == s.samConfigDone
  {
    if page < 4 || page as nat >= READ_PAGE_LIMIT then Step(Err(InvalidArg), s)
    else
      var x := Exchange(dev, s, WriteCommand(page, data), 26);
      if x.result.Err? then Step(Err(x.result.error), x.session)
      else Step(Ok(()), Land(x.session, x.result.value))
  }

  /** Below page 231 the corrected writer is the writer as written, so the configuration and
      password pages, which all lie below it, are written as the firmware writes them. */
  lemma WritePageAgrees(dev: Device, s: Session, page: uint8, data: seq<uint8>)
    requires |data| == 4 && page as nat < READ_PAGE_LIMIT
    ensures WritePage(dev, s, page, data) == WritePageAsWritten(dev, s, page, data)
  {
  }

  /** A write to a page the writer accepts succeeds exactly when the command was written, the
      PN532 ACKed it and a 26-byte answer was read. */
  lemma WritePageOutcome(dev: Device, s: Session, page: uint8, data: seq<uint8>)
    requires |data| == 4 && 4 <= page as nat < PageCount(NTAG216)
    ensures var a := dev(s.sent + [WriteCommand(page, data)]);
            WritePage(dev, s, page, data).result.Ok? <==>
              a.written.Ok? && ReadAck(a.ack).Ok? && HsuRead(26, a.reply).Ok?
  {
  }

  // ---------------------------------------------------------------- model, password

  /** `ntag2xx_get_model`: sixteen bytes are read from page 0; byte 14, the size byte of the
      capability container, names the product. An unknown size is not an error. */
  function GetModel(dev: Device, s: Session): (r: Step<Option<Product>>)
    ensures r.session.sent == s.sent + [ReadCommand(0)]
    ensures r.session.inListedTag == s.inListedTag && r.session.samConfigDone == s.samConfigDone
    ensures r.result.Ok? <==> ReadPageAsWritten(dev, s, 0, 16).result.Ok?
    ensures r.result.Ok? ==> forall p :: r.result.value == Some(p) <==> r.session.buffer[8 + 14] == CcSize(p)
  {
    var rp := ReadPageAsWritten(dev, s, 0, 16);
    if rp.result.Err? then Step(Err(rp.result.error), rp.session)
    else Step(Ok(ModelOfCc(rp.result.value[14])), rp.session)
  }

  /** A card whose page 3 holds the capability container of a product is that product. */
  lemma GetModelOfCard(dev: Device, s: Session, p: Product, pages: seq<uint8>, rest: seq<uint8>, rest': seq<uint8>)
    requires |pages| == 16 && pages[14] == CcSize(p)
    requires dev(s.sent + [ReadCommand(0)]) ==
             Answer(Ok(()), Line(ACK_FRAME + rest), Line(WireFrame(PN532_TO_HOST, [0x41, 0x00] + pages) + rest'))
    ensures GetModel(dev, s).result == Ok(Some(p))
  {
    ReadAsWrittenOfGoodReply(dev, s, 0, 16, pages, rest, rest');
    var rp := ReadPageAsWritten(dev, s, 0, 16);
    assert rp.result.value[14] == CcSize(p);
  }

  /** A card answering a READ with status 0 and its sixteen bytes: the status-only read returns
      the bytes asked for, as the checked one does. */
  lemma ReadAsWrittenOfGoodReply(dev: Device, s: Session, page: uint8, len: nat, pages: seq<uint8>,
                                 rest: seq<uint8>, rest': seq<uint8>)
    requires page as nat < READ_PAGE_LIMIT && len > 0 && |pages| == 16
    requires dev(s.sent + [ReadCommand(page)]) ==
             Answer(Ok(()), Line(ACK_FRAME + rest), Line(WireFrame(PN532_TO_HOST, [0x41, 0x00] + pages) + rest'))
    ensures ReadPageAsWritten(dev, s, page, len).result == Ok(pages[..ReadLength(len)])
  {
    ReadPageOfReply(dev, s, page, len, 0x00, pages, rest, rest');
    assert StatusOk(0x00);
    CheckedReadAgrees(dev, s, page, len);
  }

  /** A PN532 that answers the READ of page 0 with its error frame is taken for a card of no
      known model: the zero padding reads as a capability container of size 0. */
  lemma GetModelOfErrorFrame(dev: Device, s: Session, rest: seq<uint8>, rest': seq<uint8>)
    requires dev(s.sent + [ReadCommand(0)]) == Answer(Ok(()), Line(ACK_FRAME + rest), Line(ERROR_FRAME + rest'))
    ensures GetModel(dev, s).result == Ok(None)
  {
    ErrorFrameReadsAsZerosAt(dev, s, 0, 16, rest, rest');
    var z := ReadPageAsWritten(dev, s, 0, 16).result.value;
    assert z[14] == 0;
    assert ModelOfCc(0) == None;
  }

  /** The error frame reads as zeros whatever page and length are asked for. */
  lemma ErrorFrameReadsAsZerosAt(dev: Device, s: Session, page: uint8, len: nat, rest: seq<uint8>, rest': seq<uint8>)
    requires page as nat < READ_PAGE_LIMIT && len > 0
    requires dev(s.sent + [ReadCommand(page)]) == Answer(Ok(()), Line(ACK_FRAME + rest), Line(ERROR_FRAME + rest'))
    ensures ReadPageAsWritten(dev, s, page, len).result == Ok(seq(ReadLength(len), _ => 0))
  {
    ErrorFrameIsFrame();
    ExchangeOfFrame(dev, s, ReadCommand(page), 26, 0x7F, [], rest, rest');
    var x := Exchange(dev, s, ReadCommand(page), 26);
    var s' := Land(x.session, x.result.value);
    ErrorFrameInBuffer(x.result.value, s'.buffer, len);
    assert ReadPageAsWritten(dev, s, page, len) == Step(Ok(s'.buffer[8..8 + ReadLength(len)]), s');
  }

  lemma ErrorFrameInBuffer(got: seq<uint8>, b: PacketBuffer, len: nat)
    requires |got| == 26
    requires forall i :: 0 <= i < 8 ==> got[i] == ERROR_FRAME[i]
    requires forall i :: 8 <= i < 26 ==> got[i] == 0
    requires forall i :: 0 <= i < |got| ==> b[i] == got[i]
    ensures StatusOk(b[7]) && b[8..8 + ReadLength(len)] == seq(ReadLength(len), _ => 0)
  {
    assert b[7] == ERROR_FRAME[7] == 0;
    assert StatusOk(0);
  }

  /** So setting a password on such an answer stops with NOT_SUPPORTED after the model read. */
  lemma SetPasswordOfErrorFrame(dev: Device, s: Session, password: uint32, rest: seq<uint8>, rest': seq<uint8>)
    requires dev(s.sent + [ReadCommand(0)]) == Answer(Ok(()), Line(ACK_FRAME + rest), Line(ERROR_FRAME + rest'))
    ensures SetPassword(dev, s, password).result == Err(NotSupported)
    ensures SetPassword(dev, s, password).session.sent == s.sent + [ReadCommand(0)]
  {
    GetModelOfErrorFrame(dev, s, rest, rest');
  }

  /** PWD_AUTH passed through with InCommunicateThru. */
  function AuthCommand(password: uint32): (c: seq<uint8>)
    ensures |c| == 6 && c[0] == IN_COMMUNICATE_THRU && c[1..] == PwdAuth(password)
  {
    [IN_COMMUNICATE_THRU] + PwdAuth(password)
  }

  /** `ntag2xx_authenticate`: eleven bytes are read into a buffer of its own; bytes 5 and 6 must
      be the TFI and the InCommunicateThru response code (43) and the status byte 7 must be
      zero. The frame is not checked otherwise. */
  function Authenticate(dev: Device, s: Session, password: uint32): (r: Step<()>)
    ensures r.session == s.(sent := s.sent + [AuthCommand(password)], buffer := Overlay(s.buffer, AuthCommand(password)))
    ensures var a := dev(s.sent + [AuthCommand(password)]);
            r.result.Ok? <==>
              a.written.Ok? && ReadAck(a.ack).Ok? && HsuRead(11, a.reply).Ok? &&
              var got := Padded(HsuRead(11, a.reply).value, 11);
              got[5] == PN532_TO_HOST && got[6] == 0x43 && got[7] == 0x00
  {
    var x := Exchange(dev, s, AuthCommand(password), 11);
    if x.result.Err? then Step(Err(x.result.error), x.session)
    else
      var got := x.result.value;
      if got[5] != PN532_TO_HOST || got[6] != 0x43 then Step(Err(Fail), x.session)
      else if got[7] != 0x00 then Step(Err(Fail), x.session)
      else Step(Ok(()), x.session)
  }

  /** A card that answers PWD_AUTH through the PN532: authentication succeeds exactly when the
      PN532 reports status 0. */
  lemma AuthenticateOfReply(dev: Device, s: Session, password: uint32, status: uint8, pack: seq<uint8>,
                            rest: seq<uint8>, rest': seq<uint8>)
    requires |pack| <= 40
    requires dev(s.sent + [AuthCommand(password)]) ==
             Answer(Ok(()), Line(ACK_FRAME + rest), Line(WireFrame(PN532_TO_HOST, [0x43, status] + pack) + rest'))
    ensures Authenticate(dev, s, password).result.Ok? <==> status == 0
  {
    var payload := [0x43, status] + pack;
    ExchangeOfFrame(dev, s, AuthCommand(password), 11, PN532_TO_HOST, payload, rest, rest');
    var got := Exchange(dev, s, AuthCommand(password), 11).result.value;
    FrameBytes(got, PN532_TO_HOST, payload, 10);
    assert got[5] == PN532_TO_HOST && got[6] == 0x43 && got[7] == status by {
      assert got[6..8] == payload[..2];
    }
  }

  /** `pn532_reset_card`: InATR for target 0; 32 bytes of answer go to the packet buffer and are
      not looked at. */
  const RESET_COMMAND: seq<uint8> := [IN_ATR, 0x00]

  function ResetCard(dev: Device, s: Session): (r: Step<()>)
    ensures r.session.sent == s.sent + [RESET_COMMAND]
    ensures r.session.inListedTag == s.inListedTag && r.session.samConfigDone == s.samConfigDone
    ensures var a := dev(s.sent + [RESET_COMMAND]);
            r.result.Ok? <==> a.written.Ok? && ReadAck(a.ack).Ok? && HsuRead(32, a.reply).Ok?
  {
    var x := Exchange(dev, s, RESET_COMMAND, 32);
    if x.result.Err? then Step(Err(x.result.error), x.session)
    else Step(Ok(()), Land(x.session, x.result.value))
  }

  /** What a successful password operation found: the product, and the configuration bytes read
      from CFG0 on. */
  datatype ConfigEdit = ConfigEdit(product: Product, config: seq<uint8>)

  /** The edit a password operation makes to the configuration bytes it read. */
  function Edit(protect: bool, cfg: seq<uint8>): (r: seq<uint8>)
    requires |cfg| >= 8
    ensures |r| == |cfg|
  {
    if protect then Protect(cfg) else Unprotect(cfg)
  }

  /** The commands that rewrite the configuration: the read of CFG0 on, then CFG0 and CFG1
      written back edited. */
  function ConfigCommands(p: Product, protect: bool, cfg: seq<uint8>): (cs: seq<seq<uint8>>)
    requires |cfg| >= 8
    ensures |cs| == 3
  {
    PagesNearTheEnd(p);
    var edited := Edit(protect, cfg);
    [ReadCommand(ConfigPage(p)), WriteCommand(ConfigPage(p), edited[..4]), WriteCommand(AccessPage(p), edited[4..8])]
  }

  /** CFG0 and CFG1 are pages the page writer accepts. */
  lemma ConfigPagesWritable(p: Product)
    ensures 4 <= ConfigPage(p) as nat < PageCount(NTAG216) && 4 <= AccessPage(p) as nat < PageCount(NTAG216)
  {
  }

  /** The two configuration writes: the first eight bytes of `edited` to CFG0 and CFG1. */
  function WriteConfig(dev: Device, s: Session, p: Product, edited: seq<uint8>): (r: Step<()>)
    requires |edited| >= 8
    ensures r.session.inListedTag == s.inListedTag && r.session.samConfigDone == s.samConfigDone
    ensures r.result.Ok? ==>
              r.session.sent == s.sent + [WriteCommand(ConfigPage(p), edited[..4])] + [WriteCommand(AccessPage(p), edited[4..8])]
  {
    ConfigPagesWritable(p);
    var c0 := ConfigPage(p);
    var w0 := WritePage(dev, s, c0, edited[..4]);
    if w0.result.Err? then w0
    else
      WritePage(dev, w0.session, AccessPage(p), edited[4..8])
  }

  /** The tail both password operations share: `len` bytes are read from CFG0 on, edited, and
      the first eight written back to CFG0 and CFG1. The result is the bytes read. */
  function EditConfig(dev: Device, s: Session, p: Product, len: nat, protect: bool): (r: Step<seq<uint8>>)
    requires 8 <= len <= 16
    ensures r.session.inListedTag == s.inListedTag && r.session.samConfigDone == s.samConfigDone
    ensures r.result.Ok? ==> |r.result.value| == len && r.session.sent == s.sent + ConfigCommands(p, protect, r.result.value)
  {
    PagesNearTheEnd(p);
    var rd := ReadPageAsWritten(dev, s, ConfigPage(p), len);
    if rd.result.Err? then Step(Err(rd.result.error), rd.session)
    else
      var w := WriteConfig(dev, rd.session, p, Edit(protect, rd.result.value));
      if w.result.Err? then Step(Err(w.result.error), w.session)
      else
        AppendEach(s.sent, ConfigCommands(p, protect, rd.result.value));
        Step(Ok(rd.result.value), w.session)
  }

  /** The commands a successful `ntag2xx_set_password` sends, in order: the model read, the
      password (big-endian) to PWD, the card reset, PWD_AUTH with the new password, the read of
      CFG0 on, and CFG0 and CFG1 written back `Protect`ed. */
  function SetPasswordCommands(password: uint32, e: ConfigEdit): (cs: seq<seq<uint8>>)
    requires |e.config| == 8
    ensures |cs| == 7
  {
    PagesNearTheEnd(e.product);
    [ReadCommand(0), WriteCommand(PasswordPage(e.product), U32ToBe(password)), RESET_COMMAND, AuthCommand(password)] +
    ConfigCommands(e.product, true, e.config)
  }

  /** The part of `ntag2xx_set_password` after the model is known: the password write, the
      reset, the authentication and the configuration edit. The result is the bytes read. */
  function ProtectCard(dev: Device, s: Session, p: Product, password: uint32): (r: Step<seq<uint8>>)
    ensures r.result.Ok? ==>
              |r.result.value| == 8 &&
              r.session.sent == s.sent + SetPasswordCommands(password, ConfigEdit(p, r.result.value))[1..]
  {
    PagesNearTheEnd(p);
    var w := WritePage(dev, s, PasswordPage(p), U32ToBe(password));
    if w.result.Err? then Step(Err(w.result.error), w.session)
    else
      var rc := ResetCard(dev, w.session);
      if rc.result.Err? then Step(Err(rc.result.error), rc.session)
      else
        var a := Authenticate(dev, rc.session, password);
        if a.result.Err? then Step(Err(a.result.error), a.session)
        else
          var ec := EditConfig(dev, a.session, p, 8, true);
          if ec.result.Err? then ec
          else
            AppendSteps(s.sent, ReadCommand(0), WriteCommand(PasswordPage(p), U32ToBe(password)), RESET_COMMAND,
                        AuthCommand(password), ConfigCommands(p, true, ec.result.value));
            ec
  }

  /** Appending one command, then a tail, appends the tail of a list that starts with an
      arbitrary command and continues with both. */
  lemma TailOfPrefixed<T>(a: seq<T>, x: T, y: T, tail: seq<T>)
    ensures a + [y] + tail == a + ([x, y] + tail)[1..]
  {
    assert ([x, y] + tail)[1..] == [y] + tail;
  }

  /** Appending commands one at a time, then a tail, appends them all. */
  lemma AppendSteps<T>(a: seq<T>, v: T, x: T, y: T, z: T, tail: seq<T>)
    ensures a + [x] + [y] + [z] + tail == a + ([v, x, y, z] + tail)[1..]
  {
    assert ([v, x, y, z] + tail)[1..] == [x, y, z] + tail;
  }

  /** Appending the head of a non-empty list, then its tail, appends the list. */
  lemma HeadThenTail<T>(a: seq<T>, c: seq<T>)
    requires |c| > 0
    ensures a + [c[0]] + c[1..] == a + c
  {
    assert [c[0]] + c[1..] == c;
  }

  /** `ntag2xx_set_password`: an unknown model is refused with NOT_SUPPORTED after the model
      read and before anything is written; otherwise each step must succeed, and the first
      failure is the result. Eight bytes are read from CFG0 on. */
  function SetPassword(dev: Device, s: Session, password: uint32): (r: Step<ConfigEdit>)
    ensures GetModel(dev, s).result.Err? ==> r == Step(Err(GetModel(dev, s).result.error), GetModel(dev, s).session)
    ensures GetModel(dev, s).result == Ok(None) ==> r == Step(Err(NotSupported), GetModel(dev, s).session)
    ensures r.result.Ok? ==>
              |r.result.value.config| == 8 && GetModel(dev, s).result == Ok(Some(r.result.value.product)) &&
              r.session.sent == s.sent + SetPasswordCommands(password, r.result.value)
  {
    var m := GetModel(dev, s);
    if m.result.Err? then Step(Err(m.result.error), m.session)
    else match m.result.value
      case None => Step(Err(NotSupported), m.session)
      case Some(p) =>
        var k := ProtectCard(dev, m.session, p, password);
        if k.result.Err? then Step(Err(k.result.error), k.session)
        else
          var e := ConfigEdit(p, k.result.value);
          HeadThenTail(s.sent, SetPasswordCommands(password, e));
          Step(Ok(e), k.session)
  }

  /** The password `ntag2xx_clear_password` writes. */
  const BLANK_PASSWORD: seq<uint8> := [0xFF, 0xFF, 0xFF, 0xFF]

  /** The commands a successful `ntag2xx_clear_password` sends: the model read, FF FF FF FF to
      PWD, the read of CFG0 on, and CFG0 and CFG1 written back `Unprotect`ed. */
  function ClearPasswordCommands(e: ConfigEdit): (cs: seq<seq<uint8>>)
    requires |e.config| == 16
    ensures |cs| == 5
  {
    PagesNearTheEnd(e.product);
    [ReadCommand(0), WriteCommand(PasswordPage(e.product), BLANK_PASSWORD)] + ConfigCommands(e.product, false, e.config)
  }

  /** The part of `ntag2xx_clear_password` after the model is known: the blank password
      write and the configuration edit. The result is the bytes read. */
  function UnprotectCard(dev: Device, s: Session, p: Product): (r: Step<seq<uint8>>)
    ensures r.result.Ok? ==>
              |r.result.value| == 16 &&
              r.session.sent == s.sent + ClearPasswordCommands(ConfigEdit(p, r.result.value))[1..]
  {
    PagesNearTheEnd(p);
    var w := WritePage(dev, s, PasswordPage(p), BLANK_PASSWORD);
    if w.result.Err? then Step(Err(w.result.error), w.session)
    else
      var ec := EditConfig(dev, w.session, p, 16, false);
      if ec.result.Err? then ec
      else
        TailOfPrefixed(s.sent, ReadCommand(0), WriteCommand(PasswordPage(p), BLANK_PASSWORD),
                       ConfigCommands(p, false, ec.result.value));
        ec
  }

  /** `ntag2xx_clear_password`: like setting, without the reset and the authentication;
      sixteen bytes are read from CFG0 on. */
  function ClearPassword(dev: Device, s: Session): (r: Step<ConfigEdit>)
    ensures GetModel(dev, s).result.Err? ==> r == Step(Err(GetModel(dev, s).result.error), GetModel(dev, s).session)
    ensures GetModel(dev, s).result == Ok(None) ==> r == Step(Err(NotSupported), GetModel(dev, s).session)
    ensures r.result.Ok? ==>
              |r.result.value.config| == 16 && GetModel(dev, s).result == Ok(Some(r.result.value.product)) &&
              r.session.sent == s.sent + ClearPasswordCommands(r.result.value)
  {
    var m := GetModel(dev, s);
    if m.result.Err? then Step(Err(m.result.error), m.session)
    else match m.result.value
      case None => Step(Err(NotSupported), m.session)
      case Some(p) =>
        var k := UnprotectCard(dev, m.session, p);
        if k.result.Err? then Step(Err(k.result.error), k.session)
        else
          var e := ConfigEdit(p, k.result.value);
          HeadThenTail(s.sent, ClearPasswordCommands(e));
          Step(Ok(e), k.session)
  }

  /** What the command list of setting a password writes: the password to PWD, the same
      password in the authentication, and a configuration that guards the record area. */
  lemma SetPasswordCommandsProtect(password: uint32, e: ConfigEdit)
    requires |e.config| == 8
    ensures var cs := SetPasswordCommands(password, e);
            var written := cs[5][4..] + cs[6][4..];
            cs[1][4..] == U32ToBe(password) && cs[3][1..] == PwdAuth(password) &&
            written == Protect(e.config) && Auth0(written) == PROTECT_FROM && Prot(written) &&
            AccessRest(written) == AccessRest(e.config)
  {
    var cs := SetPasswordCommands(password, e);
    var cfg := Protect(e.config);
    assert cs[5][4..] == cfg[..4] && cs[6][4..] == cfg[4..8];
    assert cfg[..4] + cfg[4..8] == cfg;
  }

  /** The configuration a successful password setting leaves in CFG0 and CFG1 guards the
      record area and nothing before it and keeps the other ACCESS bits, and the card was
      authenticated with the password that was written: seven commands follow `s`, the second
      writes the password, the fourth authenticates with it and the last two write the
      configuration. */
  predicate ProtectedBy(s: Session, password: uint32, r: Step<ConfigEdit>)
  {
    r.result.Ok? &&
    var e := r.result.value;
    var n := |s.sent|;
    |e.config| == 8 && |r.session.sent| == n + 7 && r.session.sent[..n] == s.sent &&
    |r.session.sent[n + 1]| >= 4 && |r.session.sent[n + 3]| >= 1 &&
    |r.session.sent[n + 5]| >= 4 && |r.session.sent[n + 6]| >= 4 &&
    var written := r.session.sent[n + 5][4..] + r.session.sent[n + 6][4..];
    r.session.sent[n + 1][4..] == U32ToBe(password) && r.session.sent[n + 3][1..] == PwdAuth(password) &&
    written == Protect(e.config) && Auth0(written) == PROTECT_FROM && Prot(written) &&
    AccessRest(written) == AccessRest(e.config)
  }

  /** Setting a password that succeeds protects the card with that password. */
  lemma SetPasswordProtects(dev: Device, s: Session, password: uint32)
    requires SetPassword(dev, s, password).result.Ok?
    ensures ProtectedBy(s, password, SetPassword(dev, s, password))
  {
    var r := SetPassword(dev, s, password);
    var e := r.result.value;
    var n := |s.sent|;
    var cs := SetPasswordCommands(password, e);
    SetPasswordCommandsProtect(password, e);
    assert r.session.sent == s.sent + cs;
    assert r.session.sent[..n] == s.sent;
    assert r.session.sent[n + 1] == cs[1] && r.session.sent[n + 3] == cs[3];
    assert r.session.sent[n + 5] == cs[5] && r.session.sent[n + 6] == cs[6];
  }

  /** What the command list of clearing the password writes: FF FF FF FF to PWD and a
      configuration that guards no page of the product. */
  lemma ClearPasswordCommandsUnprotect(e: ConfigEdit, page: nat)
    requires |e.config| == 16
    ensures var cs := ClearPasswordCommands(e);
            var written := cs[3][4..] + cs[4][4..];
            cs[1][4..] == BLANK_PASSWORD &&
            written == Unprotect(e.config)[..8] && Auth0(written) == PROTECT_NOTHING && !Prot(written) &&
            AccessRest(written) == AccessRest(e.config) &&
            (page < PageCount(e.product) ==> !ReadGuarded(written, page) && !WriteGuarded(written, page))
  {
    var cs := ClearPasswordCommands(e);
    var cfg := Unprotect(e.config);
    assert cs[3][4..] == cfg[..4] && cs[4][4..] == cfg[4..8];
    assert cfg[..4] + cfg[4..8] == cfg[..8];
  }

  /** The configuration a successful password clearing leaves guards no page of the product
      and keeps the other ACCESS bits, and PWD holds FF FF FF FF: five commands follow `s`, the
      second writes the blank password and the last two write the configuration. */
  predicate UnprotectedBy(s: Session, r: Step<ConfigEdit>)
  {
    r.result.Ok? &&
    var e := r.result.value;
    var n := |s.sent|;
    |e.config| == 16 && |r.session.sent| == n + 5 && r.session.sent[..n] == s.sent &&
    |r.session.sent[n + 1]| >= 4 && |r.session.sent[n + 3]| >= 4 && |r.session.sent[n + 4]| >= 4 &&
    var written := r.session.sent[n + 3][4..] + r.session.sent[n + 4][4..];
    r.session.sent[n + 1][4..] == BLANK_PASSWORD &&
    written == Unprotect(e.config)[..8] && Auth0(written) == PROTECT_NOTHING && !Prot(written) &&
    AccessRest(written) == AccessRest(e.config) &&
    forall page: nat :: page < PageCount(e.product) ==> !ReadGuarded(written, page) && !WriteGuarded(written, page)
  }

  /** Clearing the password that succeeds leaves the card unprotected. */
  lemma ClearPasswordUnprotects(dev: Device, s: Session)
    requires ClearPassword(dev, s).result.Ok?
    ensures UnprotectedBy(s, ClearPassword(dev, s))
  {
    var r := ClearPassword(dev, s);
    var e := r.result.value;
    var n := |s.sent|;
    var cs := ClearPasswordCommands(e);
    ClearPasswordCommandsUnprotect(e, 0);
    assert r.session.sent == s.sent + cs;
    assert r.session.sent[..n] == s.sent;
    assert r.session.sent[n + 1] == cs[1];
    assert r.session.sent[n + 3] == cs[3] && r.session.sent[n + 4] == cs[4];
    var written := cs[3][4..] + cs[4][4..];
    forall page: nat | page < PageCount(e.product)
      ensures !ReadGuarded(written, page) && !WriteGuarded(written, page)
    {
      ClearPasswordCommandsUnprotect(e, page);
    }
  }

  // ---------------------------------------------------------------- ConCatTag's wrappers

  /** What a yes/no probe of the card answered, and the session after it. */
  datatype Probe = Probe(yes: bool, session: Session)

  /** `ConCatTag::IsTagModelValid`: the model could be read and is an NTAG213, 215 or 216. */
  function IsTagModelValid(dev: Device, s: Session): (r: Probe)
    ensures r.session.sent == s.sent + [ReadCommand(0)]
    ensures r.yes <==> exists p :: GetModel(dev, s).result == Ok(Some(p))
  {
    var m := GetModel(dev, s);
    match m.result
    case Ok(Some(p)) => Probe(true, m.session)
    case _ => Probe(false, m.session)
  }

  /** `ConCatTag::unlockTag`: PWD_AUTH with the password, big-endian. */
  function UnlockTag(dev: Device, s: Session, password: uint32): (r: Probe)
    ensures r.session.sent == s.sent + [AuthCommand(password)]
    ensures r.yes <==> Authenticate(dev, s, password).result.Ok?
  {
    var a := Authenticate(dev, s, password);
    Probe(a.result.Ok?, a.session)
  }
}

=== FILE: pn532_frames.dfy ===
/** The PN532 link of the ESP32 reader (`PN532Interface.cpp`, `PN532InterfaceHSU.cpp`): the
    normal information frame of section 6.2.1.1 of the PN532 User Manual (UM0701-02) with its
    LEN/LCS and DCS checksums, the ACK and NACK frames of section 6.2.1.3, how the host builds
    a command frame and puts it on the UART, how `pn532_read` validates what arrives, the
    ACK check, the command sequencing, the baud-rate table and the SetSerialBaudRate
    handshake. The UART is a parameter: the bytes that arrive within the timeout, and whether
    the driver reports an error. */
module Pn532Frames {
  import opened Wrappers
  import opened Bytes

  /** The `esp_err_t` values the link and the driver return (ESP_OK is `Ok`). `Overrun` is not
      an `esp_err_t`: it marks where the C code would read or write past a buffer. */
  datatype EspError = InvalidArg | Fail | Timeout | NotSupported | Overrun

  /** Frame identifiers: host to PN532 and PN532 to host. */
  const HOST_TO_PN532: uint8 := 0xD4
  const PN532_TO_HOST: uint8 := 0xD5

  const ACK_FRAME: seq<uint8> := [0x00, 0x00, 0xFF, 0x00, 0xFF, 0x00]
  const NACK_FRAME: seq<uint8> := [0x00, 0x00, 0xFF, 0xFF, 0x00, 0x00]

  // ---------------------------------------------------------------- checksums

  /** The plain sum of some bytes. */
  function Sum(s: seq<uint8>): nat {
    if |s| == 0 then 0 else s[0] + Sum(s[1..])
  }

  lemma {:induction false} SumAppend(a: seq<uint8>, b: seq<uint8>)
    ensures Sum(a + b) == Sum(a) + Sum(b)
  {
    if |a| == 0 {
      assert a + b == b;
    } else {
      assert (a + b)[1..] == a[1..] + b;
      SumAppend(a[1..], b);
    }
  }

  /** The byte that brings a sum to zero modulo 256, as `~x + 1` and `0x100 - x` compute it. */
  function Checksum(x: int): (c: uint8)
    ensures (x + c) % 256 == 0
  {
    (-x) % 256
  }

  /** Only that byte does. */
  lemma ChecksumUnique(x: int, c: uint8)
    requires (x + c) % 256 == 0
    ensures c == Checksum(x)
  {
  }

  // ---------------------------------------------------------------- frames

  /** A normal information frame as it travels: preamble 00, start code 00 FF, LEN (TFI and
      data), LCS, TFI, the data, DCS, postamble 00. */
  function WireFrame(tfi: uint8, data: seq<uint8>): (f: seq<uint8>)
    requires |data| < 255
    ensures |f| == |data| + 8 && f[3] == |data| + 1 && f[5] == tfi
    ensures (f[3] as int + f[4]) % 256 == 0 && (Sum(f[5..6 + |data|]) + f[6 + |data|]) % 256 == 0
    ensures f[..3] == [0x00, 0x00, 0xFF] && f[4] == 255 - |data| && f[6..6 + |data|] == data && f[|f| - 1] == 0x00
  {
    var f := [0x00, 0x00, 0xFF, |data| + 1, Checksum(|data| + 1), tfi] + data +
             [Checksum(tfi + Sum(data)), 0x00];
    assert f[5..6 + |data|] == [tfi] + data;
    SumAppend([tfi], data);
    f
  }

  /** Taking a normal information frame apart: the start code, a LEN that LCS confirms and
      that matches the length, the data checksum, the postamble; the TFI and the data. */
  function DecodeWire(f: seq<uint8>): (r: Option<(uint8, seq<uint8>)>)
    ensures r.Some? ==> |r.value.1| < 255 && WireFrame(r.value.0, r.value.1) == f
  {
    if |f| < 8 || f[..3] != [0x00, 0x00, 0xFF] then None
    else
      var len := f[3];
      if len == 0 || |f| != len as int + 7 || (len as int + f[4]) % 256 != 0 || f[|f| - 1] != 0x00 then None
      else if (Sum(f[5..5 + len]) + f[5 + len]) % 256 != 0 then None
      else
        var tfi := f[5];
        var data := f[6..5 + len];
        DecodedFrame(f, tfi, data);
        Some((tfi, data))
  }

  lemma DecodedFrame(f: seq<uint8>, tfi: uint8, data: seq<uint8>)
    requires |f| >= 8 && f[..3] == [0x00, 0x00, 0xFF] && f[3] > 0 && |f| == f[3] as int + 7
    requires (f[3] as int + f[4]) % 256 == 0 && f[|f| - 1] == 0x00
    requires (Sum(f[5..5 + f[3]]) + f[5 + f[3]]) % 256 == 0
    requires tfi == f[5] && data == f[6..5 + f[3]]
    ensures |data| < 255 && WireFrame(tfi, data) == f
  {
    var len := f[3];
    assert f[5..5 + len] == [tfi] + data;
    SumAppend([tfi], data);
    ChecksumUnique(len, f[4]);
    ChecksumUnique(tfi + Sum(data), f[5 + len]);
    assert f == [0x00, 0x00, 0xFF, len, f[4], tfi] + data + [f[5 + len], 0x00];
  }

  /** A frame decodes to what it was built from. */
  lemma WireFrameDecodes(tfi: uint8, data: seq<uint8>)
    requires |data| < 255
    ensures DecodeWire(WireFrame(tfi, data)) == Some((tfi, data))
  {
    var f := WireFrame(tfi, data);
    assert f[..3] == [0x00, 0x00, 0xFF];
    assert f[6..5 + f[3]] == data;
  }

  /** A normal frame is never mistaken for an ACK or a NACK: its LEN is neither 00 nor FF with
      LCS 00. */
  lemma WireFrameIsNotAck(tfi: uint8, data: seq<uint8>)
    requires |data| < 255
    ensures WireFrame(tfi, data)[..6] != ACK_FRAME && WireFrame(tfi, data)[..6] != NACK_FRAME
  {
    var f := WireFrame(tfi, data);
    assert f[..6][3] == f[3] && f[..6][4] == f[4];
  }

  /** `pn532_write_command`: 00 FF, LEN = n + 1, LCS = 0x100 - LEN, D4, the command, and DCS,
      where the checksum is accumulated in a byte starting from D4. The frame lives in a static
      256-byte buffer, which holds commands of up to 250 bytes. */
  function CommandFrame(cmd: seq<uint8>): (frame: seq<uint8>)
    requires |cmd| <= 250
    ensures |frame| == |cmd| + 6
    ensures [0x00] + frame + [0x00] == WireFrame(HOST_TO_PN532, cmd)
  {
    var checksum := (HOST_TO_PN532 + Sum(cmd)) % 256;
    var frame := [0x00, 0xFF, |cmd| + 1, 0x100 - (|cmd| + 1), HOST_TO_PN532] + cmd + [Trunc8(-checksum)];
    ChecksumUnique(|cmd| + 1, 0x100 - (|cmd| + 1));
    ChecksumUnique(HOST_TO_PN532 + Sum(cmd), Trunc8(-checksum));
    assert [0x00] + frame + [0x00] ==
           [0x00, 0x00, 0xFF, |cmd| + 1, Checksum(|cmd| + 1), HOST_TO_PN532] + cmd +
           [Checksum(HOST_TO_PN532 + Sum(cmd)), 0x00];
    frame
  }

  /** The command a host frame carries is recovered exactly, so different commands give
      different frames. */
  lemma CommandFrameDecodes(cmd: seq<uint8>)
    requires |cmd| <= 250
    ensures DecodeWire([0x00] + CommandFrame(cmd) + [0x00]) == Some((HOST_TO_PN532, cmd))
  {
    WireFrameDecodes(HOST_TO_PN532, cmd);
  }

  /** The frame `pn532_init_io` sends to probe the line: GetFirmwareVersion (02). */
  const GET_FIRMWARE_FRAME: seq<uint8> := [0x00, 0xFF, 0x02, 0xFE, 0xD4, 0x02, 0x2A]

  lemma GetFirmwareFrameIsCommand()
    ensures GET_FIRMWARE_FRAME == CommandFrame([0x02])
  {
    assert Sum([0x02]) == 2;
  }

  // ---------------------------------------------------------------- writing to the UART

  /** The bytes `pn532_wakeup` sends: 55 55 55 and seven zeros. */
  const WAKEUP: seq<uint8> := [0x55, 0x55, 0x55, 0x00, 0x00, 0x00, 0x00, 0x00, 0x00, 0x00]

  /** What `pn532_write` puts on the line: the wakeup first while SAM configuration has not
      been done, then a 00 preamble, the frame, and a 00 postamble. */
  function HsuWrite(samConfigDone: bool, frame: seq<uint8>): (wire: seq<uint8>)
    ensures |wire| == |frame| + 2 + (if samConfigDone then 0 else |WAKEUP|)
    ensures wire[|wire| - |frame| - 2..] == [0x00] + frame + [0x00]
    ensures wire[0] == 0x55 <==> !samConfigDone
  {
    var wire := (if samConfigDone then [] else WAKEUP) + ([0x00] + frame + [0x00]);
    assert wire[|wire| - |frame| - 2..] == [0x00] + frame + [0x00];
    wire
  }

  /** A command reaches the PN532 as a complete normal information frame, after the wakeup
      when one is sent. */
  lemma CommandOnTheWire(samConfigDone: bool, cmd: seq<uint8>)
    requires |cmd| <= 250
    ensures var wire := HsuWrite(samConfigDone, CommandFrame(cmd));
            var skip := if samConfigDone then 0 else |WAKEUP|;
            wire[skip..] == WireFrame(HOST_TO_PN532, cmd) &&
            DecodeWire(wire[skip..]) == Some((HOST_TO_PN532, cmd))
  {
    CommandFrameDecodes(cmd);
  }

  /** The four bytes `pn532_init_extra` writes after the handshake, 00 FF 00 FF, go out as a
      complete ACK frame once `pn532_write` has wrapped them. */
  lemma HostAckIsAckFrame()
    ensures HsuWrite(true, ACK_FRAME[1..5]) == ACK_FRAME
  {
  }

  // ---------------------------------------------------------------- reading from the UART

  /** The UART as `pn532_read` sees it: the bytes that arrive before the timeout, and whether
      `uart_read_bytes` reports an error for the six header bytes or for the rest. */
  datatype Uart = Uart(arrived: seq<uint8>, headerFails: bool, bodyFails: bool)

  /** A line that carries `bytes` and works. */
  function Line(bytes: seq<uint8>): (u: Uart)
    ensures u.arrived == bytes && !u.headerFails && !u.bodyFails
  {
    Uart(bytes, false, false)
  }

  /** `pn532_read`: the buffer must hold six bytes. Six header bytes are read; an ACK or a NACK
      is returned at once. Otherwise LEN and LCS must add up to zero, LEN + 1 more bytes are
      read (TFI and data after the first one, DCS, postamble) but no more than the buffer has
      room for, and when nothing was cut off the data checksum must hold. The start code is
      not checked. The result is what was stored at the start of the buffer. */
  function HsuRead(readSize: nat, u: Uart): (r: Result<seq<uint8>, EspError>)
    ensures readSize < 6 ==> r == Err(InvalidArg)
    ensures readSize >= 6 && u.headerFails ==> r == Err(Fail)
    ensures r.Ok? ==> 6 <= |r.value| <= readSize && |r.value| <= |u.arrived| &&
                      r.value == u.arrived[..|r.value|]
    ensures r.Ok? && r.value != ACK_FRAME && r.value != NACK_FRAME ==>
              (r.value[3] as int + r.value[4]) % 256 == 0 &&
              |r.value| == (if r.value[3] as int + 7 <= readSize then r.value[3] as int + 7 else readSize)
    ensures r.Ok? && r.value != ACK_FRAME && r.value != NACK_FRAME && |r.value| == r.value[3] as int + 7 ==>
              (Sum(r.value[5..5 + r.value[3]]) + r.value[5 + r.value[3]]) % 256 == 0
  {
    if readSize < 6 then Err(InvalidArg)
    else if u.headerFails then Err(Fail)
    else if |u.arrived| < 6 then Err(Timeout)
    else
      var header := u.arrived[..6];
      if header == ACK_FRAME || header == NACK_FRAME then Ok(header)
      else
        var len := header[3];
        if (len as int + header[4]) % 256 != 0 then Err(Fail)
        else
          var truncated := len as int + 1 > readSize - 6;
          var toRead: nat := if truncated then readSize - 6 else len as int + 1;
          if u.bodyFails then Err(Fail)
          else if |u.arrived| < 6 + toRead then Err(Timeout)
          else
            var b := u.arrived[..6 + toRead];
            assert b[..6] == header;
            if !truncated && (Sum(b[5..5 + len]) + b[5 + len]) % 256 != 0 then Err(Fail)
            else Ok(b)
  }

  /** A frame the PN532 sends is accepted: whole when the buffer has room for it, otherwise as
      much of it as fits, unchecked. */
  lemma HsuReadsWireFrame(readSize: nat, tfi: uint8, data: seq<uint8>, rest: seq<uint8>)
    requires |data| < 255 && readSize >= 6
    ensures var f := WireFrame(tfi, data);
            HsuRead(readSize, Line(f + rest)) == Ok(f[..if |f| <= readSize then |f| else readSize])
  {
    var f := WireFrame(tfi, data);
    var u := Line(f + rest);
    WireFrameIsNotAck(tfi, data);
    assert u.arrived[..6] == f[..6];
    assert f[..6][3] == f[3] && f[..6][4] == f[4];
    if |f| <= readSize {
      var len := f[3];
      assert !(len as int + 1 > readSize - 6);
      assert 6 + (len as int + 1) == |f|;
      var b := u.arrived[..6 + (len as int + 1)];
      assert b == f;
      assert b[5..5 + len] == f[5..6 + |data|];
      assert b[5 + len] == f[6 + |data|];
      assert (Sum(b[5..5 + len]) + b[5 + len]) % 256 == 0;
      assert f[..|f|] == f;
      assert HsuRead(readSize, u) == Ok(b);
    } else {
      assert u.arrived[..readSize] == f[..readSize];
    }
  }

  /** An ACK or a NACK is accepted as it is, whatever buffer it is read into. */
  lemma HsuReadsAckOrNack(readSize: nat, ack: seq<uint8>, rest: seq<uint8>)
    requires readSize >= 6 && (ack == ACK_FRAME || ack == NACK_FRAME)
    ensures HsuRead(readSize, Line(ack + rest)) == Ok(ack)
  {
    assert (ack + rest)[..6] == ack;
  }

  /** What `pn532_read` accepts whole is a normal information frame as soon as its start code
      and postamble are right: those are the only checks it leaves out. */
  lemma HsuReadSound(readSize: nat, u: Uart)
    requires HsuRead(readSize, u).Ok?
    requires var b := HsuRead(readSize, u).value;
             b != ACK_FRAME && b != NACK_FRAME && |b| == b[3] as int + 7 && b[3] > 0
    requires var b := HsuRead(readSize, u).value;
             b[..3] == [0x00, 0x00, 0xFF] && b[|b| - 1] == 0x00
    ensures DecodeWire(HsuRead(readSize, u).value).Some?
  {
  }

  /** The start code is not checked: eight bytes that begin 12 34 56 are accepted as a frame,
      which `DecodeWire` refuses. */
  lemma StartCodeUnchecked()
    ensures var b := [0x12, 0x34, 0x56, 0x01, 0xFF, 0x7F, 0x81, 0x00];
            HsuRead(8, Line(b)) == Ok(b) && DecodeWire(b).None?
  {
    var b: seq<uint8> := [0x12, 0x34, 0x56, 0x01, 0xFF, 0x7F, 0x81, 0x00];
    assert b[..6] != ACK_FRAME && b[..6] != NACK_FRAME by {
      assert b[..6][0] == 0x12;
    }
    assert b[5..6] == [0x7F];
    assert Sum([0x7F]) == 0x7F;
    assert b[..8] == b;
  }

  /** `length` bytes from a buffer that was zeroed before the shorter `got` was stored in it. */
  function Padded(got: seq<uint8>, length: nat): (buf: seq<uint8>)
    requires |got| <= length
    ensures |buf| == length && buf[..|got|] == got
    ensures forall i :: |got| <= i < length ==> buf[i] == 0
  {
    got + seq(length - |got|, _ => 0)
  }

  /** `pn532_read_data`: `pn532_read` into a zeroed 256-byte buffer, of which the first
      `length` bytes are handed back. */
  function ReadData(length: uint8, u: Uart): (r: Result<seq<uint8>, EspError>)
    ensures r.Ok? <==> HsuRead(length, u).Ok?
    ensures r.Err? ==> r == Err(HsuRead(length, u).error)
    ensures r.Ok? ==> r.value == Padded(HsuRead(length, u).value, length)
  {
    match HsuRead(length, u)
    case Err(e) => Err(e)
    case Ok(got) => Ok(Padded(got, length))
  }

  /** `pn532_read_ack`: six bytes are read and must be the ACK frame; a NACK, although
      `pn532_read` accepts it, is a failure. */
  function ReadAck(u: Uart): (r: Result<(), EspError>)
    ensures r.Ok? <==> !u.headerFails && |u.arrived| >= 6 && u.arrived[..6] == ACK_FRAME
  {
    match ReadData(6, u)
    case Err(e) => Err(e)
    case Ok(buf) =>
      assert buf == HsuRead(6, u).value;
      if buf != ACK_FRAME then Err(Fail) else Ok(())
  }

  /** A NACK is refused. */
  lemma NackRefused(rest: seq<uint8>)
    ensures ReadAck(Line(NACK_FRAME + rest)) == Err(Fail)
  {
    HsuReadsAckOrNack(6, NACK_FRAME, rest);
  }

  // ---------------------------------------------------------------- sending a command

  /** What `pn532_send_command_wait_ack` did: its result and the bytes it put on the line. */
  datatype Sent = Sent(status: Result<(), EspError>, wire: seq<uint8>)

  /** `pn532_send_command_wait_ack`: an empty command is refused before anything is written;
      otherwise the command frame is written (`written` is what `pn532_write` reports), the
      link waits until the PN532 is ready (`ready`), and the ACK is read from `ack`. The first
      failure is the result. */
  function SendCommandWaitAck(cmd: seq<uint8>, samConfigDone: bool, written: Result<(), EspError>,
                              ready: Result<(), EspError>, ack: Uart): (r: Sent)
    requires |cmd| <= 250
    ensures |cmd| == 0 ==> r == Sent(Err(InvalidArg), [])
    ensures |cmd| > 0 ==> r.wire == HsuWrite(samConfigDone, CommandFrame(cmd))
    ensures r.status.Ok? <==> |cmd| > 0 && written.Ok? && ready.Ok? && ReadAck(ack).Ok?
    ensures |cmd| > 0 && written.Err? ==> r.status == written
    ensures |cmd| > 0 && written.Ok? && ready.Err? ==> r.status == ready
  {
    if |cmd| == 0 then Sent(Err(InvalidArg), [])
    else
      var wire := HsuWrite(samConfigDone, CommandFrame(cmd));
      if written.Err? then Sent(written, wire)
      else if ready.Err? then Sent(ready, wire)
      else Sent(ReadAck(ack), wire)
  }

  // ---------------------------------------------------------------- baud rate

  /** The rates the PN532 HSU supports, indexed by the SetSerialBaudRate code. */
  const BAUD_RATES: seq<int> := [9600, 19200, 38400, 57600, 115200, 230400, 460800, 921600, 1288000]

  /** The index of 115200 baud, the PN532's power-on rate. */
  const DEFAULT_BAUD_INDEX: nat := 4

  /** The first index from `n` on whose rate is `rate`, if any. */
  function FindRate(rate: int, n: nat): (r: Option<nat>)
    requires n <= |BAUD_RATES|
    ensures r.Some? ==> n <= r.value < |BAUD_RATES| && BAUD_RATES[r.value] == rate
    ensures r.Some? ==> forall j :: n <= j < r.value ==> BAUD_RATES[j] != rate
    ensures r.None? ==> forall j :: n <= j < |BAUD_RATES| ==> BAUD_RATES[j] != rate
    decreases |BAUD_RATES| - n
  {
    if n == |BAUD_RATES| then None
    else if BAUD_RATES[n] == rate then Some(n)
    else FindRate(rate, n + 1)
  }

  /** The constructor's choice of `m_uart_baud_wanted`: the first index of the requested rate
      in the table, or 115200 baud when the rate is not there. */
  function BaudIndex(rate: int): (i: nat)
    ensures i < |BAUD_RATES|
    ensures rate in BAUD_RATES <==> BAUD_RATES[i] == rate
    ensures rate in BAUD_RATES ==> forall j :: 0 <= j < i ==> BAUD_RATES[j] != rate
    ensures rate !in BAUD_RATES ==> i == DEFAULT_BAUD_INDEX && BAUD_RATES[i] == 115200
  {
    match FindRate(rate, 0)
    case Some(i) => i
    case None => DEFAULT_BAUD_INDEX
  }

  /** The SetSerialBaudRate (10) frame of `pn532_init_extra`, spelt out byte by byte. */
  function SetSerialBaudRateFrame(br: uint8): (frame: seq<uint8>)
    ensures frame == CommandFrame([0x10, br])
  {
    var frame := [0x00, 0xFF, 0x03, 0xFD, 0xD4, 0x10, br, Trunc8(-(0xD4 + 0x10 + br))];
    var cmd: seq<uint8> := [0x10, br];
    assert cmd[1..] == [br] && cmd[1..][1..] == [];
    assert Sum(cmd[1..][1..]) == 0;
    assert Sum(cmd[1..]) == br;
    assert Sum(cmd) == 0x10 + br;
    ChecksumUnique(HOST_TO_PN532 + Sum(cmd), Trunc8(-(0xD4 + 0x10 + br)));
    frame
  }

  /** The answer the handshake insists on, byte for byte. */
  const SET_BAUD_RESPONSE: seq<uint8> := [0x00, 0x00, 0xFF, 0x02, 0xFE, 0xD5, 0x11, 0x1A, 0x00]

  /** It is the PN532's SetSerialBaudRate answer (11) with no data. */
  lemma SetBaudResponseIsFrame()
    ensures SET_BAUD_RESPONSE == WireFrame(PN532_TO_HOST, [0x11])
  {
    assert Sum([0x11]) == 0x11;
  }

  /** What `pn532_init_extra` did: its result, the index now in use, and what it wrote. */
  datatype BaudChange = BaudChange(status: Result<(), EspError>, used: nat, wire: seq<uint8>)

  /** `pn532_init_extra`: nothing to do when the wanted rate is already in use. Otherwise the
      SetSerialBaudRate frame is written, an ACK is read, then the nine-byte answer, which must
      be exactly `SET_BAUD_RESPONSE`; the host ACKs and switches its own UART. `uart` is what
      each UART driver call (the writes and the rate change) reports; the first failure is
      the result. One report stands for all of them, so a failure of only the final ACK write
      or of only `uart_set_baudrate`, after a good handshake, is not expressible here. */
  function InitExtra(used: nat, wanted: uint8, samConfigDone: bool, uart: Result<(), EspError>,
                     ack: Uart, response: Uart): (r: BaudChange)
    ensures used == wanted ==> r == BaudChange(Ok(()), used, [])
    ensures used != wanted && uart.Ok? ==> HsuWrite(samConfigDone, SetSerialBaudRateFrame(wanted)) <= r.wire
    ensures r.status.Ok? <==>
              used == wanted ||
              (uart.Ok? && HsuRead(6, ack) == Ok(ACK_FRAME) && HsuRead(9, response) == Ok(SET_BAUD_RESPONSE))
    ensures r.status.Ok? ==> r.used == wanted
    ensures r.status.Err? ==> r.used == used
  {
    if used == wanted then BaudChange(Ok(()), used, [])
    else
      var setFrame := HsuWrite(samConfigDone, SetSerialBaudRateFrame(wanted));
      if uart.Err? then BaudChange(uart, used, [])
      else match HsuRead(6, ack)
        case Err(e) => BaudChange(Err(e), used, setFrame)
        case Ok(got) =>
          if got != ACK_FRAME then BaudChange(Err(Fail), used, setFrame)
          else match HsuRead(9, response)
            case Err(e) => BaudChange(Err(e), used, setFrame)
            case Ok(answer) =>
              // A six-byte ACK or NACK already differs from the answer in its header.
              if answer != SET_BAUD_RESPONSE then BaudChange(Err(Fail), used, setFrame)
              else BaudChange(Ok(()), wanted, setFrame + HsuWrite(samConfigDone, ACK_FRAME[1..5]))
  }

  /** A PN532 that ACKs and answers as the manual says switches the link to the wanted rate,
      and the host has written the SetSerialBaudRate command and then an ACK frame. */
  lemma BaudHandshake(used: nat, wanted: uint8, rest: seq<uint8>, rest': seq<uint8>)
    requires used != wanted
    ensures var r := InitExtra(used, wanted, true, Ok(()), Line(ACK_FRAME + rest), Line(SET_BAUD_RESPONSE + rest'));
            r.status.Ok? && r.used == wanted &&
            r.wire == [0x00] + CommandFrame([0x10, wanted]) + [0x00] + ACK_FRAME
  {
    HsuReadsAckOrNack(6, ACK_FRAME, rest);
    SetBaudResponseIsFrame();
    HsuReadsWireFrame(9, PN532_TO_HOST, [0x11], rest');
    assert HsuRead(9, Line(SET_BAUD_RESPONSE + rest')) == Ok(SET_BAUD_RESPONSE);
    HostAckIsAckFrame();
    var setFrame := HsuWrite(true, SetSerialBaudRateFrame(wanted));
    assert setFrame == [0x00] + CommandFrame([0x10, wanted]) + [0x00];
    assert InitExtra(used, wanted, true, Ok(()), Line(ACK_FRAME + rest), Line(SET_BAUD_RESPONSE + rest')) ==
           BaudChange(Ok(()), wanted, setFrame + ACK_FRAME);
  }
}

=== FILE: round_trip.dfy ===
/** Writing records with one implementation and reading them back with another: the Go and
    ESP32 writers put the same pages on the card, and the Android, Go and ESP32 readers get the
    records back, provided the stream ends with a zero byte on the card. The writers do not
    write that zero byte themselves. */
module RoundTrip {
  import opened Wrappers
  import opened Bytes
  import opened Tags
  import opened PageMemory
  import opened TagStream
  import opened ByteReaders
  import opened KotlinTagIo
  import opened GoTagIo
  import opened CppTagIo

  /** The card after the writers' page plan for stream `s`. */
  function Written(mem: Memory, s: seq<uint8>): (r: Memory)
    ensures forall p :: p in mem ==> p in r
  {
    ApplyWrites(mem, PagePlan(s))
  }

  /** The card ends the stream with a zero byte after the writes: either the last written page
      is padded with zeros, or the stream fills its last page exactly and the page after it
      already starts with zero. */
  ghost predicate Terminated(mem: Memory, s: seq<uint8>) {
    |s| % 4 != 0 || (START_PAGE + |s| / 4 in mem && mem[START_PAGE + |s| / 4][0] == 0)
  }

  /** The tag area after the writes holds the stream followed by a zero byte exactly when the
      card terminates it. */
  lemma WrittenHolds(mem: Memory, s: seq<uint8>)
    requires START_PAGE + |s| / 4 < 256
    ensures Holds(Written(mem, s), 0, s + [0]) <==> Terminated(mem, s)
  {
    var m' := Written(mem, s);
    PlanHolds(mem, s);
    var f := Flatten(Pages(s));
    PagesFlatten(s);
    HoldsPrefix(m', 0, f, |s|);
    assert f[..|s|] == s;
    HoldsSnoc(m', 0, s, 0);
    if |s| % 4 != 0 {
      assert ByteAt(m', 0 + |s|) == Some(f[|s|]);
    } else {
      var p := START_PAGE + |s| / 4;
      assert p >= START_PAGE + (|s| + 3) / 4;
      assert ByteAt(m', |s|) == if p in mem then Some(mem[p][0]) else None;
    }
  }

  /** The Android validator reads back what the Go or ESP32 writer wrote, on a card that
      terminates the stream, unless a payload is 128 bytes or longer. */
  lemma KotlinReadsWritten(src: PageSource, mem: Memory, tags: seq<Tag>, fuel: nat)
    requires Writable(tags) && fuel > |tags|
    requires START_PAGE + |Encode(tags)| / 4 < 256
    requires Terminated(mem, Encode(tags)) && Faithful(src, Written(mem, Encode(tags)))
    ensures var r := ValidatorReadTags(src, KT_FRESH, fuel);
            (KtReadable(tags) ==> r.Ok? && r.value.0 == tags) &&
            (!KtReadable(tags) ==> r == Err(NegativeArraySize))
  {
    WrittenHolds(mem, Encode(tags));
    KtReadTagsFromMemory(src, Written(mem, Encode(tags)), KT_FRESH, tags, fuel);
  }

  /** Go reads back what was written, up to the first empty payload. */
  lemma GoReadsWritten(src: PageSource, mem: Memory, tags: seq<Tag>, fuel: nat)
    requires Writable(tags) && fuel > |tags|
    requires START_PAGE + |Encode(tags)| / 4 < 256
    requires Terminated(mem, Encode(tags)) && Faithful(src, Written(mem, Encode(tags)))
    ensures var k := FirstEmpty(tags);
            GoReadTags(src, fuel) == (tags[..k], if k == |tags| then None else Some(ZeroLength))
  {
    WrittenHolds(mem, Encode(tags));
    GoReadTagsFromMemory(src, Written(mem, Encode(tags)), tags, fuel);
  }

  /** The ESP32 reader, with any faithful cache, reads back what was written when the stream fits
      the reach of its 8-bit cursor. */
  lemma CppReadsWritten(src: PageSource, mem: Memory, st: CppReader, tags: seq<Tag>, fuel: nat)
    requires Writable(tags) && fuel > |tags| && |Encode(tags)| < 256
    requires Terminated(mem, Encode(tags)) && Faithful(src, Written(mem, Encode(tags)))
    requires CppConsistent(st.cache, Written(mem, Encode(tags)))
    ensures var r := CppReadTags(src, st, fuel);
            r.Some? && r.value.tags == tags && r.value.status == 0
  {
    WrittenHolds(mem, Encode(tags));
    CppReadTagsFromMemory(src, Written(mem, Encode(tags)), st, tags, fuel);
  }

  // ---------------------------------------------------------------- sixteen-byte transports

  /** A card whose pages are 0 to size - 1 keeps that shape after the writes, when the plan fits
      on it. */
  lemma WrittenPages(mem: Memory, size: nat, s: seq<uint8>)
    requires forall p: nat :: p in mem <==> p < size
    requires START_PAGE + (|s| + 3) / 4 <= size <= 256
    ensures forall p: nat :: p in Written(mem, s) <==> p < size
  {
    var m' := Written(mem, s);
    PlanHolds(mem, s);
    forall p: nat ensures p in m' <==> p < size {
      if START_PAGE <= p < START_PAGE + (|s| + 3) / 4 {
        PlanPage(mem, s, p - START_PAGE);
      }
    }
  }

  /** The Android reader gets the records back through the sixteen-byte, rolling-over READ of a
      card whose pages are 0 to size - 1, however many pages that is. */
  lemma KotlinReadsWrittenThroughReadPages(mem: Memory, size: nat, tags: seq<Tag>, fuel: nat)
    requires Writable(tags) && fuel > |tags|
    requires forall p: nat :: p in mem <==> p < size
    requires START_PAGE + (|Encode(tags)| + 3) / 4 <= size <= 256
    requires Terminated(mem, Encode(tags))
    ensures forall p: nat :: p in Written(mem, Encode(tags)) <==> p < size
    ensures var r := ValidatorReadTags(ReadPagesReader(Written(mem, Encode(tags)), size), KT_FRESH, fuel);
            (KtReadable(tags) ==> r.Ok? && r.value.0 == tags) &&
            (!KtReadable(tags) ==> r == Err(NegativeArraySize))
  {
    var s := Encode(tags);
    WrittenPages(mem, size, s);
    ReadPagesReaderFaithful(Written(mem, s), size);
    KotlinReadsWritten(ReadPagesReader(Written(mem, s), size), mem, tags, fuel);
  }

  /** The Go reader likewise, through the same sixteen-byte READ. */
  lemma GoReadsWrittenThroughReadPages(mem: Memory, size: nat, tags: seq<Tag>, fuel: nat)
    requires Writable(tags) && fuel > |tags|
    requires forall p: nat :: p in mem <==> p < size
    requires START_PAGE + (|Encode(tags)| + 3) / 4 <= size <= 256
    requires Terminated(mem, Encode(tags))
    ensures forall p: nat :: p in Written(mem, Encode(tags)) <==> p < size
    ensures var k := FirstEmpty(tags);
            GoReadTags(ReadPagesReader(Written(mem, Encode(tags)), size), fuel) ==
              (tags[..k], if k == |tags| then None else Some(ZeroLength))
  {
    var s := Encode(tags);
    WrittenPages(mem, size, s);
    ReadPagesReaderFaithful(Written(mem, s), size);
    GoReadsWritten(ReadPagesReader(Written(mem, s), size), mem, tags, fuel);
  }

  // ---------------------------------------------------------------- the missing terminator

  /** A card whose page 0x11 holds the start of an older, longer stream. */
  const STALE_CARD: Memory := map[0x11 := [5, 1, 9, 0]]

  /** One record whose stream fills page 0x10 exactly. */
  const ONE_RECORD: seq<Tag> := [Tag(1, [7, 7])]

  /** What the readers meet on the stale card after the write: the written record, then the
      stale one, then a zero byte. */
  const STALE_READ: seq<Tag> := [Tag(1, [7, 7]), Tag(5, [9])]

  /** The page plan of the one record is a single write of page 0x10. */
  lemma OneRecordPlan()
    ensures Encode(ONE_RECORD) == [1, 2, 7, 7]
    ensures PagePlan(Encode(ONE_RECORD)) == [PageWrite(0x10, [1, 2, 7, 7])]
  {
    var s := Encode(ONE_RECORD);
    assert s == [1, 2, 7, 7];
    var p: Page := [1, 2, 7, 7];
    assert s + Zeros(4 - |s|) == p by {
      assert Zeros(0) == [];
    }
    assert Pages(s) == [p];
  }

  /** After the write the stale card holds the written record followed by the stale one. */
  lemma StaleCardHolds()
    ensures !Terminated(STALE_CARD, Encode(ONE_RECORD))
    ensures Holds(Written(STALE_CARD, Encode(ONE_RECORD)), 0, Encode(STALE_READ) + [0])
  {
    OneRecordPlan();
    var read := STALE_READ;
    assert Encode(read) == [1, 2, 7, 7, 5, 1, 9] by {
      EncodeCons(read);
      EncodeCons(read[1..]);
    }
    var m := Written(STALE_CARD, Encode(ONE_RECORD));
    assert m == map[0x11 := [5, 1, 9, 0], 0x10 := [1, 2, 7, 7]];
    forall k | 0 <= k < 8 ensures ByteAt(m, 0 + k) == Some((Encode(read) + [0])[k]) {
    }
  }

  /** As written, the writers put `01 02 07 07` on page 0x10 and nothing after it, so every
      reader runs on into the stale page 0x11 and returns a record that was never written. */
  lemma UnterminatedWriteCounterexample(src: PageSource)
    requires Faithful(src, Written(STALE_CARD, Encode(ONE_RECORD)))
    ensures !Terminated(STALE_CARD, Encode(ONE_RECORD))
    ensures GoReadTags(src, 3) == (STALE_READ, None)
    ensures ValidatorReadTags(src, KT_FRESH, 3).Ok? && ValidatorReadTags(src, KT_FRESH, 3).value.0 == STALE_READ
    ensures var r := CppReadTags(src, CPP_FRESH, 3);
            r.Some? && r.value.tags == STALE_READ && r.value.status == 0
    ensures STALE_READ != ONE_RECORD
  {
    StaleCardHolds();
    var m := Written(STALE_CARD, Encode(ONE_RECORD));
    assert Writable(STALE_READ) && KtReadable(STALE_READ);
    assert |Encode(STALE_READ)| == 7 by {
      EncodeCons(STALE_READ);
      EncodeCons(STALE_READ[1..]);
    }
    KtReadTagsFromMemory(src, m, KT_FRESH, STALE_READ, 3);
    GoReadTagsFromMemory(src, m, STALE_READ, 3);
    assert FirstEmpty(STALE_READ) == 2;
    assert STALE_READ[..2] == STALE_READ;
    CppReadTagsFromMemory(src, m, CPP_FRESH, STALE_READ, 3);
  }

  // ---------------------------------------------------------------- the terminated writer

  /** The stream with its terminating zero byte, which the writers evidently mean to leave on
      the card. */
  function TerminatedStream(tags: seq<Tag>): (s: seq<uint8>)
    ensures |s| == |Encode(tags)| + 1 && s[|s| - 1] == 0 && s[..|s| - 1] == Encode(tags)
  {
    Encode(tags) + [0]
  }

  /** Writing the stream and its zero byte through the Go page loop. */
  method WriteTagsTerminated(tags: seq<Tag>, write: (uint8, Page) -> bool) returns (ok: bool, ws: seq<PageWrite>)
    ensures PlanOutcome(TerminatedStream(tags), write, ok, ws)
  {
    ok, ws := GoWriteStream(TerminatedStream(tags), write);
  }

  /** The terminated plan leaves the terminator on the card whatever the card held before. */
  lemma TerminatedHolds(mem: Memory, tags: seq<Tag>)
    requires START_PAGE + |Encode(tags)| / 4 < 256
    ensures Holds(Written(mem, TerminatedStream(tags)), 0, Encode(tags) + [0])
  {
    var s := TerminatedStream(tags);
    PlanHolds(mem, s);
    var f := Flatten(Pages(s));
    PagesFlatten(s);
    HoldsPrefix(Written(mem, s), 0, f, |s|);
    assert f[..|s|] == s;
  }

  /** With the terminator written, all three readers get the records back on any card. */
  lemma TerminatedRoundTrip(src: PageSource, mem: Memory, tags: seq<Tag>, fuel: nat)
    requires Writable(tags) && fuel > |tags| && |Encode(tags)| < 256
    requires Faithful(src, Written(mem, TerminatedStream(tags)))
    ensures var k := FirstEmpty(tags);
            GoReadTags(src, fuel) == (tags[..k], if k == |tags| then None else Some(ZeroLength))
    ensures var r := ValidatorReadTags(src, KT_FRESH, fuel);
            (KtReadable(tags) ==> r.Ok? && r.value.0 == tags) &&
            (!KtReadable(tags) ==> r == Err(NegativeArraySize))
    ensures var r := CppReadTags(src, CPP_FRESH, fuel);
            r.Some? && r.value.tags == tags && r.value.status == 0
  {
    var m := Written(mem, TerminatedStream(tags));
    TerminatedHolds(mem, tags);
    GoReadTagsFromMemory(src, m, tags, fuel);
    KtReadTagsFromMemory(src, m, KT_FRESH, tags, fuel);
    CppReadTagsFromMemory(src, m, CPP_FRESH, tags, fuel);
  }
}

=== FILE: signed_payload.dfy ===
/** The text the Android validators verify the badge signature over: the `toJSON` object of
    the card, keys in `toSortedMap` order, the signature left out, built by appending
    `"key":value,` and then dropping the last character and appending "}". The current validator
    (`app.concat.nfcvalidator`) quotes the timestamp; the original one (`com.example.concatnfc`)
    prints every value bare. */
module SignedPayload {
  import opened Bytes
  import opened Decimal
  import opened JsonText
  import opened KotlinCardJson

  // ---------------------------------------------------------------- key order

  /** Kotlin `String.compareTo` on these (ASCII) keys: lexicographic, a proper prefix first. */
  predicate LexLess(a: string, b: string)
    decreases |a|
  {
    if |a| == 0 then |b| > 0
    else if |b| == 0 then false
    else if a[0] != b[0] then a[0] < b[0]
    else LexLess(a[1..], b[1..])
  }

  lemma {:induction false} LexLessTransitive(a: string, b: string, c: string)
    requires LexLess(a, b) && LexLess(b, c)
    ensures LexLess(a, c)
    decreases |a|
  {
    if |a| > 0 && |b| > 0 && |c| > 0 && a[0] == b[0] && b[0] == c[0] {
      LexLessTransitive(a[1..], b[1..], c[1..]);
    }
  }

  /** The keys in the order `toSortedMap` visits them. */
  const KEY_ORDER: seq<Key> := [ConventionId, Expiration, IssuanceCount, Signature, Timestamp, UserId]

  /** Consecutive keys of `KEY_ORDER` are in increasing order of their names. */
  lemma KeyOrderStep(i: nat)
    requires i + 1 < |KEY_ORDER|
    ensures LexLess(KeyName(KEY_ORDER[i]), KeyName(KEY_ORDER[i + 1]))
  {
    var a, b := KeyName(KEY_ORDER[i]), KeyName(KEY_ORDER[i + 1]);
    assert a[0] < b[0];
  }

  /** `KEY_ORDER` holds every key and is strictly increasing in the order of the keys' names,
      so it is the order in which a sorted map of any subset of the keys is visited. */
  lemma KeyOrderSorted()
    ensures |KEY_ORDER| == 6 && forall k: Key :: k in KEY_ORDER
    ensures forall i, j :: 0 <= i < j < |KEY_ORDER| ==> LexLess(KeyName(KEY_ORDER[i]), KeyName(KEY_ORDER[j]))
  {
    forall k: Key ensures k in KEY_ORDER {
      KeyInOrder(k);
    }
    forall i, j | 0 <= i < j < |KEY_ORDER| ensures LexLess(KeyName(KEY_ORDER[i]), KeyName(KEY_ORDER[j])) {
      KeyOrderIncreasing(i, j);
    }
  }

  lemma KeyInOrder(k: Key)
    ensures k in KEY_ORDER
  {
    match k
    case ConventionId => assert KEY_ORDER[0] == k;
    case Expiration => assert KEY_ORDER[1] == k;
    case IssuanceCount => assert KEY_ORDER[2] == k;
    case Signature => assert KEY_ORDER[3] == k;
    case Timestamp => assert KEY_ORDER[4] == k;
    case UserId => assert KEY_ORDER[5] == k;
  }

  lemma KeyOrderIncreasing(i: nat, j: nat)
    requires i < j < |KEY_ORDER|
    ensures LexLess(KeyName(KEY_ORDER[i]), KeyName(KEY_ORDER[j]))
  {
    var m := i + 1;
    KeyOrderStep(i);
    while m < j
      invariant i < m <= j && LexLess(KeyName(KEY_ORDER[i]), KeyName(KEY_ORDER[m]))
    {
      KeyOrderStep(m);
      LexLessTransitive(KeyName(KEY_ORDER[i]), KeyName(KEY_ORDER[m]), KeyName(KEY_ORDER[m + 1]));
      m := m + 1;
    }
  }

  // ---------------------------------------------------------------- members

  /** Which of the two validators. */
  datatype Variant = Current | Original

  /** String interpolation of a value taken from the object: unsigned numbers in decimal,
      strings as they are. The byte array is only ever under "signature", which is skipped. */
  function ValueText(v: JsonValue): string {
    match v
    case JNum(n) => NatToString(n)
    case JText(s) => s
    case JBytes(_) => ""
  }

  /** `"key":value` as the variant prints it. */
  function PayloadMember(variant: Variant, k: Key, v: JsonValue): (m: string)
    ensures m == Member(KeyName(k), ValueText(v)) || m == Member(KeyName(k), Quote(ValueText(v)))
    ensures m == Member(KeyName(k), ValueText(v)) <==> variant != Current || k != Timestamp
  {
    assert |Member(KeyName(k), Quote(ValueText(v)))| != |Member(KeyName(k), ValueText(v))|;
    if variant == Current && k == Timestamp then Member(KeyName(k), Quote(ValueText(v)))
    else Member(KeyName(k), ValueText(v))
  }

  /** The building loop's candidate for one key: present when the key is in the object and
      is not the signature. */
  function Candidate(variant: Variant, k: Key, json: JsonObject): (f: (bool, string))
    ensures f.0 == (k != Signature && k in json)
  {
    (k != Signature && k in json, if k in json then PayloadMember(variant, k, json[k]) else "")
  }

  /** The candidates, one per key of `keys`. */
  function Candidates(variant: Variant, keys: seq<Key>, json: JsonObject): (fs: seq<(bool, string)>)
    ensures |fs| == |keys|
    decreases |keys|
  {
    if |keys| == 0 then [] else [Candidate(variant, keys[0], json)] + Candidates(variant, keys[1..], json)
  }

  /** Reference: the member one key contributes, if any — none for the signature or a key
      the object lacks. */
  function MemberOf(variant: Variant, k: Key, json: JsonObject): (ms: seq<string>)
    ensures |ms| <= 1 && (|ms| == 1 <==> k != Signature && k in json)
  {
    if k != Signature && k in json then [PayloadMember(variant, k, json[k])] else []
  }

  /** Reference: the members of `keys`, in order. */
  function Members(variant: Variant, keys: seq<Key>, json: JsonObject): (ms: seq<string>)
    ensures |ms| <= |keys|
    decreases |keys|
  {
    if |keys| == 0 then [] else MemberOf(variant, keys[0], json) + Members(variant, keys[1..], json)
  }

  /** No member is printed exactly when every key is the signature or missing. */
  lemma {:induction false} MembersEmpty(variant: Variant, keys: seq<Key>, json: JsonObject)
    ensures Members(variant, keys, json) == [] <==> forall i :: 0 <= i < |keys| ==> keys[i] == Signature || keys[i] !in json
    decreases |keys|
  {
    if |keys| > 0 {
      MembersEmpty(variant, keys[1..], json);
      assert forall i :: 1 <= i < |keys| ==> keys[i] == keys[1..][i - 1];
    }
  }

  /** The members printed are the reference members, in order. */
  lemma {:induction false} PrintedCandidates(variant: Variant, keys: seq<Key>, json: JsonObject)
    ensures Printed(Candidates(variant, keys, json)) == Members(variant, keys, json)
    decreases |keys|
  {
    if |keys| > 0 {
      var fs := Candidates(variant, keys, json);
      assert fs[0] == Candidate(variant, keys[0], json) && fs[1..] == Candidates(variant, keys[1..], json);
      PrintedCandidates(variant, keys[1..], json);
    }
  }

  // ---------------------------------------------------------------- the payload

  /** The payload: "{", `"key":value,` for each printable key in sorted order, then
      `dropLast(1)` and "}". */
  function Payload(variant: Variant, json: JsonObject): string {
    KtClose(Buffer("{", Candidates(variant, KEY_ORDER, json)))
  }

  /** The payload is the JSON object of the members in sorted order; with no member,
      `dropLast` eats the opening brace and the payload is a lone "}". */
  lemma PayloadObject(variant: Variant, json: JsonObject)
    ensures var ms := Members(variant, KEY_ORDER, json);
            Payload(variant, json) == if |ms| == 0 then "}" else JoinObject(ms)
  {
    var fs := Candidates(variant, KEY_ORDER, json);
    BufferPrinted("{", fs);
    PrintedCandidates(variant, KEY_ORDER, json);
    KtCloseObject(Printed(fs));
  }

  /** A card with nothing but a signature gives the payload "}". */
  lemma PayloadWithoutFields(variant: Variant, json: JsonObject)
    requires forall k :: k in json ==> k == Signature
    ensures Payload(variant, json) == "}"
  {
    PayloadObject(variant, json);
    MembersEmpty(variant, KEY_ORDER, json);
  }

  /** The payload a freshly issued badge is verified against, as text: the current validator
      quotes the timestamp, the original one does not, and the expiration appears only when it
      was set. */
  function CardPayloadMembers(variant: Variant, user: uint32, convention: uint32, count: uint32, issued: uint64,
                              expiration: uint64): (ms: seq<string>)
    ensures |ms| == (if expiration != 0 then 5 else 4)
  {
    var timestamp := if variant == Current then Quote(NatToString(issued)) else NatToString(issued);
    var c, i, t, u := Member("conventionId", NatToString(convention)), Member("issuanceCount", NatToString(count)),
                      Member("timestamp", timestamp), Member("userId", NatToString(user));
    [c] + ((if expiration != 0 then [Member("expiration", NatToString(expiration))] else []) + ([i] + ([t] + [u])))
  }

  lemma CardPayload(variant: Variant, user: uint32, convention: uint32, count: uint32, issued: uint64,
                    expiration: uint64, signature: seq<uint8>)
    ensures Payload(variant, CardJson(VALIDATOR, user, convention, count, issued, expiration, signature)) ==
            JoinObject(CardPayloadMembers(variant, user, convention, count, issued, expiration))
  {
    var json := CardJson(VALIDATOR, user, convention, count, issued, expiration, signature);
    PayloadObject(variant, json);
    CardMembers(variant, user, convention, count, issued, expiration, signature);
  }

  /** The members of a freshly issued card, in sorted key order. */
  lemma CardMembers(variant: Variant, user: uint32, convention: uint32, count: uint32, issued: uint64,
                    expiration: uint64, signature: seq<uint8>)
    ensures Members(variant, KEY_ORDER, CardJson(VALIDATOR, user, convention, count, issued, expiration, signature)) ==
            CardPayloadMembers(variant, user, convention, count, issued, expiration)
  {
    var json := CardJson(VALIDATOR, user, convention, count, issued, expiration, signature);
    MembersOfKeyOrder(variant, json);
    CardMember(variant, user, convention, count, issued, expiration, signature, ConventionId);
    CardMember(variant, user, convention, count, issued, expiration, signature, Expiration);
    CardMember(variant, user, convention, count, issued, expiration, signature, IssuanceCount);
    CardMember(variant, user, convention, count, issued, expiration, signature, Timestamp);
    CardMember(variant, user, convention, count, issued, expiration, signature, UserId);
  }

  /** The member one key of a freshly issued card contributes. */
  lemma CardMember(variant: Variant, user: uint32, convention: uint32, count: uint32, issued: uint64,
                   expiration: uint64, signature: seq<uint8>, k: Key)
    ensures var json := CardJson(VALIDATOR, user, convention, count, issued, expiration, signature);
            MemberOf(variant, k, json) ==
              match k
              case ConventionId => [Member("conventionId", NatToString(convention))]
              case Expiration => if expiration != 0 then [Member("expiration", NatToString(expiration))] else []
              case IssuanceCount => [Member("issuanceCount", NatToString(count))]
              case Timestamp => [Member("timestamp", if variant == Current then Quote(NatToString(issued)) else NatToString(issued))]
              case UserId => [Member("userId", NatToString(user))]
              case Signature => []
  {
    var json := CardJson(VALIDATOR, user, convention, count, issued, expiration, signature);
    match k
    case ConventionId => assert json[k] == JNum(convention);
    case Expiration => if expiration != 0 { assert json[k] == JNum(expiration); } else { assert k !in json; }
    case IssuanceCount => assert json[k] == JNum(count);
    case Timestamp => assert json[k] == VALIDATOR.timestamp(issued);
    case UserId => assert json[k] == JNum(user);
    case Signature =>
  }

  /** The members of an object in sorted key order. */
  lemma MembersOfKeyOrder(variant: Variant, json: JsonObject)
    ensures Members(variant, KEY_ORDER, json) ==
              MemberOf(variant, ConventionId, json) + (MemberOf(variant, Expiration, json) +
              (MemberOf(variant, IssuanceCount, json) + (MemberOf(variant, Timestamp, json) +
              MemberOf(variant, UserId, json))))
  {
    var s5: seq<Key> := [UserId];
    var s4 := [Timestamp] + s5;
    var s3 := [Signature] + s4;
    var s2 := [IssuanceCount] + s3;
    var s1 := [Expiration] + s2;
    assert KEY_ORDER == [ConventionId] + s1;
    var u, t, i, e, c := MemberOf(variant, UserId, json), MemberOf(variant, Timestamp, json),
                         MemberOf(variant, IssuanceCount, json), MemberOf(variant, Expiration, json),
                         MemberOf(variant, ConventionId, json);
    MembersCons(variant, UserId, [], json);
    assert Members(variant, s5, json) == u;
    MembersCons(variant, Timestamp, s5, json);
    MembersCons(variant, Signature, s4, json);
    assert Members(variant, s3, json) == t + u;
    MembersCons(variant, IssuanceCount, s3, json);
    MembersCons(variant, Expiration, s2, json);
    assert Members(variant, s1, json) == e + (i + (t + u));
    MembersCons(variant, ConventionId, s1, json);
  }

  lemma MembersCons(variant: Variant, k: Key, rest: seq<Key>, json: JsonObject)
    ensures Members(variant, [k] + rest, json) == MemberOf(variant, k, json) + Members(variant, rest, json)
  {
    assert ([k] + rest)[1..] == rest;
  }

  /** The payload does not depend on the signature entry: removing it changes nothing. */
  lemma PayloadIgnoresSignature(variant: Variant, json: JsonObject)
    ensures Payload(variant, json - {Signature}) == Payload(variant, json)
  {
    var json' := json - {Signature};
    PayloadObject(variant, json);
    PayloadObject(variant, json');
    MembersOfKeyOrder(variant, json);
    MembersOfKeyOrder(variant, json');
    SameMemberUnlessSignature(variant, json, json', ConventionId);
    SameMemberUnlessSignature(variant, json, json', Expiration);
    SameMemberUnlessSignature(variant, json, json', IssuanceCount);
    SameMemberUnlessSignature(variant, json, json', Timestamp);
    SameMemberUnlessSignature(variant, json, json', UserId);
  }

  lemma SameMemberUnlessSignature(variant: Variant, json: JsonObject, json': JsonObject, k: Key)
    requires json' == json - {Signature} && k != Signature
    ensures MemberOf(variant, k, json') == MemberOf(variant, k, json)
  {
    assert k in json' <==> k in json;
  }

  /** Without a timestamp the two validators verify against the same text. */
  lemma PayloadVariantsAgree(json: JsonObject)
    requires Timestamp !in json
    ensures Payload(Current, json) == Payload(Original, json)
  {
    PayloadObject(Current, json);
    PayloadObject(Original, json);
    MembersOfKeyOrder(Current, json);
    MembersOfKeyOrder(Original, json);
    VariantsAgreeAt(json, ConventionId);
    VariantsAgreeAt(json, Expiration);
    VariantsAgreeAt(json, IssuanceCount);
    VariantsAgreeAt(json, UserId);
  }

  lemma VariantsAgreeAt(json: JsonObject, k: Key)
    requires k != Timestamp
    ensures MemberOf(Current, k, json) == MemberOf(Original, k, json)
  {
  }
}

=== FILE: tag_stream.dfy ===
/** The byte stream of the tag area: each record is id, length byte, payload, and the stream
    ends at the first zero id byte. */
module TagStream {
  import opened Wrappers
  import opened Bytes
  import opened Tags

  /** One record as every writer lays it out. The length goes through a byte (`byte(len(...))`
      in Go, the `uint8_t` store in C++), so a payload over 255 bytes gets a wrong length. */
  function EncodeTag(t: Tag): (r: seq<uint8>)
    ensures |r| == 2 + |t.data|
    ensures r[0] == t.id && r[1] == |t.data| % 256 && r[2..] == t.data
  {
    [t.id, Trunc8(|t.data|)] + t.data
  }

  /** The records one after the other, with no terminator. */
  function Encode(tags: seq<Tag>): (r: seq<uint8>)
    ensures |tags| == 0 <==> |r| == 0
  {
    if |tags| == 0 then [] else EncodeTag(tags[0]) + Encode(tags[1..])
  }

  /** Records the stream can carry: a zero id would end the stream early, and a payload over
      255 bytes cannot be described by its length byte. */
  predicate Writable(tags: seq<Tag>) {
    forall i :: 0 <= i < |tags| ==> tags[i].id != 0 && |tags[i].data| <= 255
  }

  lemma EncodeCons(tags: seq<Tag>)
    requires |tags| > 0
    ensures Encode(tags) == EncodeTag(tags[0]) + Encode(tags[1..])
  {
  }

  /** The stream of two runs of records is the two streams one after the other. */
  lemma {:induction false} EncodeAppend(a: seq<Tag>, b: seq<Tag>)
    ensures Encode(a + b) == Encode(a) + Encode(b)
    decreases |a|
  {
    if |a| == 0 {
      assert a + b == b;
    } else {
      assert (a + b)[0] == a[0] && (a + b)[1..] == a[1..] + b;
      EncodeAppend(a[1..], b);
    }
  }

  /** Reference decoder over a finite stream: None when the stream ends before a zero id. */
  function Decode(s: seq<uint8>): (r: Option<seq<Tag>>)
    ensures r.Some? ==> forall i :: 0 <= i < |r.value| ==> r.value[i].id != 0
    decreases |s|
  {
    if |s| == 0 then None
    else if s[0] == 0 then Some([])
    else if |s| < 2 || |s| < 2 + s[1] as int then None
    else
      var n := s[1] as int;
      match Decode(s[2 + n..])
      case None => None
      case Some(rest) => Some([Tag(s[0], s[2..2 + n])] + rest)
  }

  /** The stream round trip: writable records, then a zero byte, decode to the records,
      whatever follows the zero byte. */
  lemma {:induction false} DecodeEncode(tags: seq<Tag>, rest: seq<uint8>)
    requires Writable(tags)
    ensures Decode(Encode(tags) + [0] + rest) == Some(tags)
  {
    if |tags| > 0 {
      var t := tags[0];
      var s := Encode(tags) + [0] + rest;
      var tail := Encode(tags[1..]) + [0] + rest;
      assert s == EncodeTag(t) + tail;
      assert s[0] == t.id && s[1] as int == |t.data|;
      assert s[2..2 + |t.data|] == t.data;
      assert s[2 + |t.data|..] == tail;
      DecodeEncode(tags[1..], rest);
      assert [t] + tags[1..] == tags;
    }
  }

  /** The decoded records determine the stream up to the terminator. */
  lemma EncodeInjective(a: seq<Tag>, b: seq<Tag>)
    requires Writable(a) && Writable(b)
    requires Encode(a) == Encode(b)
    ensures a == b
  {
    DecodeEncode(a, []);
    DecodeEncode(b, []);
  }
}

=== FILE: tags.dfy ===
/** The badge's type-length-value records and the typed field codec on top of them.
    Kotlin getters report a failure for a bad length; C++ getters return 0 instead. */
module Tags {
  import opened Wrappers
  import opened Bytes

  /** Record identifiers (`TagId` in Kotlin and C++, `TAG_*` in Go). */
  const ATTENDEE_CONVENTION_ID: uint8 := 0x01
  const SIGNATURE: uint8 := 0x02
  const ISSUANCE: uint8 := 0x03
  const TIMESTAMP: uint8 := 0x04
  const EXPIRATION: uint8 := 0x05

  predicate IsKnownId(id: uint8) {
    ATTENDEE_CONVENTION_ID <= id <= EXPIRATION
  }

  /** One record. The data is a value: the C++ `ByteArray` copy constructor deep-copies,
      so no two tags ever share a payload buffer. */
  datatype Tag = Tag(id: uint8, data: seq<uint8>)

  /** A pair of 32-bit numbers (`DoubleUint`). */
  datatype DoubleUint = DoubleUint(first: uint32, second: uint32)

  // ---------------------------------------------------------------- lookup

  /** `TagArray.getTag`: the first tag carrying `id`, or nothing. */
  function GetTag(tags: seq<Tag>, id: uint8): (r: Option<Tag>)
    ensures r.None? <==> forall i :: 0 <= i < |tags| ==> tags[i].id != id
    ensures r.Some? ==> exists i :: 0 <= i < |tags| && tags[i] == r.value && r.value.id == id &&
                                    forall j :: 0 <= j < i ==> tags[j].id != id
  {
    if |tags| == 0 then None
    else if tags[0].id == id then Some(tags[0])
    else
      var r := GetTag(tags[1..], id);
      assert forall i :: 1 <= i < |tags| ==> tags[i] == tags[1..][i - 1];
      r
  }

  /** The last tag carrying `id`: the one that survives when a projection writes every
      occurrence into the same field. */
  function LastTag(tags: seq<Tag>, id: uint8): (r: Option<Tag>)
    ensures r.Some? ==> r.value.id == id && r.value in tags
    decreases |tags|
  {
    if |tags| == 0 then None
    else if tags[|tags| - 1].id == id then Some(tags[|tags| - 1])
    else LastTag(tags[..|tags| - 1], id)
  }

  /** `LastTag` finds nothing exactly when no record has the id, and otherwise a record with no
      later record of the same id. */
  lemma {:induction false} LastTagSpec(tags: seq<Tag>, id: uint8)
    ensures LastTag(tags, id).None? <==> forall i :: 0 <= i < |tags| ==> tags[i].id != id
    ensures LastTag(tags, id).Some? ==>
              exists i :: 0 <= i < |tags| && tags[i] == LastTag(tags, id).value &&
                          forall j :: i < j < |tags| ==> tags[j].id != id
    decreases |tags|
  {
    if |tags| > 0 && tags[|tags| - 1].id != id {
      var pre := tags[..|tags| - 1];
      LastTagSpec(pre, id);
      assert forall i :: 0 <= i < |pre| ==> tags[i] == pre[i];
      if LastTag(pre, id).Some? {
        var i :| 0 <= i < |pre| && pre[i] == LastTag(pre, id).value &&
                 forall j :: i < j < |pre| ==> pre[j].id != id;
        assert forall j :: i < j < |tags| ==> tags[j].id != id;
      }
    }
  }

  /** How the last record of a list decides `LastTag`. */
  lemma LastTagStep(tags: seq<Tag>, id: uint8)
    requires |tags| > 0
    ensures LastTag(tags, id) ==
              (if tags[|tags| - 1].id == id then Some(tags[|tags| - 1]) else LastTag(tags[..|tags| - 1], id))
  {
  }

  /** A record followed by no other record with its id is the last one. */
  lemma {:induction false} LastTagAt(tags: seq<Tag>, i: nat)
    requires i < |tags| && forall j :: i < j < |tags| ==> tags[j].id != tags[i].id
    ensures LastTag(tags, tags[i].id) == Some(tags[i])
    decreases |tags|
  {
    if i < |tags| - 1 {
      var pre := tags[..|tags| - 1];
      assert pre[i] == tags[i];
      assert forall j :: i < j < |pre| ==> pre[j] == tags[j];
      LastTagAt(pre, i);
    }
  }

  // ---------------------------------------------------------------- constructors

  /** `NewAttendeeId`: the user id then the convention id, each four bytes big-endian. */
  function NewAttendeeId(user: uint32, convention: uint32): (t: Tag)
    ensures t.id == ATTENDEE_CONVENTION_ID && |t.data| == 8
    ensures BeValue(t.data[..4]) == user && BeValue(t.data[4..]) == convention
  {
    var d := U32ToBe(user) + U32ToBe(convention);
    assert d[..4] == U32ToBe(user) && d[4..] == U32ToBe(convention);
    Tag(ATTENDEE_CONVENTION_ID, d)
  }

  /** `NewIssuance`: four bytes big-endian. */
  function NewIssuance(count: uint32): (t: Tag)
    ensures t.id == ISSUANCE && |t.data| == 4 && BeValue(t.data) == count
  {
    Tag(ISSUANCE, U32ToBe(count))
  }

  /** `NewTimestamp`: eight bytes big-endian. */
  function NewTimestamp(unix: uint64): (t: Tag)
    ensures t.id == TIMESTAMP && |t.data| == 8 && BeValue(t.data) == unix
  {
    Tag(TIMESTAMP, U64ToBe(unix))
  }

  /** `NewExpiration`: eight bytes big-endian. */
  function NewExpiration(unix: uint64): (t: Tag)
    ensures t.id == EXPIRATION && |t.data| == 8 && BeValue(t.data) == unix
  {
    Tag(EXPIRATION, U64ToBe(unix))
  }

  /** `NewSignature`: the signature bytes as they are. */
  function NewSignature(signature: seq<uint8>): (t: Tag)
    ensures t.id == SIGNATURE && t.data == signature
  {
    Tag(SIGNATURE, signature)
  }

  /** The records of a freshly issued badge in the order the Go write handler and the ESP32
      `toTagArray` add them: attendee, issuance, timestamp, the expiration only when it is set,
      and the signature last. */
  function CardTags(user: uint32, convention: uint32, count: uint32, issued: uint64, expiration: uint64,
                    signature: seq<uint8>): (r: seq<Tag>)
    ensures |r| == if expiration == 0 then 4 else 5
    ensures r[0] == NewAttendeeId(user, convention) && r[1] == NewIssuance(count)
    ensures r[2] == NewTimestamp(issued) && r[|r| - 1] == NewSignature(signature)
    ensures expiration != 0 ==> r[3] == NewExpiration(expiration)
  {
    [NewAttendeeId(user, convention), NewIssuance(count), NewTimestamp(issued)]
    + (if expiration != 0 then [NewExpiration(expiration)] else [])
    + [NewSignature(signature)]
  }

  /** Which record of a fresh card is the last one with each id. */
  lemma CardTagsLast(user: uint32, convention: uint32, count: uint32, issued: uint64, expiration: uint64,
                     signature: seq<uint8>)
    ensures var tags := CardTags(user, convention, count, issued, expiration, signature);
            LastTag(tags, ATTENDEE_CONVENTION_ID) == Some(tags[0]) &&
            LastTag(tags, ISSUANCE) == Some(tags[1]) &&
            LastTag(tags, TIMESTAMP) == Some(tags[2]) &&
            LastTag(tags, SIGNATURE) == Some(tags[|tags| - 1]) &&
            LastTag(tags, EXPIRATION) == (if expiration != 0 then Some(tags[3]) else None)
  {
    var tags := CardTags(user, convention, count, issued, expiration, signature);
    var a, n, t, g := NewAttendeeId(user, convention), NewIssuance(count), NewTimestamp(issued), NewSignature(signature);
    if expiration != 0 {
      var e := NewExpiration(expiration);
      assert tags == [a, n, t, e, g];
      LastTagAt(tags, 3);
    } else {
      assert tags == [a, n, t, g];
      assert LastTag(tags, EXPIRATION) == None;
    }
    LastTagAt(tags, 0);
    LastTagAt(tags, 1);
    LastTagAt(tags, 2);
    LastTagAt(tags, |tags| - 1);
  }

  // ---------------------------------------------------------------- Kotlin getters

  /** Kotlin `Tag.getTagValueULong`: four or eight bytes read big-endian; any other length fails. */
  function KtTagValueULong(t: Tag): (r: Result<uint64, string>)
    ensures r.Ok? <==> |t.data| == 4 || |t.data| == 8
    ensures r.Ok? ==> r.value == BeValue(t.data)
    ensures r.Err? ==> r.error == "Tag data is not 4 or 8 bytes long"
  {
    if |t.data| == 4 then
      var v := BeValue(t.data);
      assert v < TWO_TO_64 by { Pow256Values(); }
      Ok(v)
    else if |t.data| == 8 then
      var v := BeValue(t.data);
      assert v < TWO_TO_64 by { Pow256Values(); }
      Ok(v)
    else Err("Tag data is not 4 or 8 bytes long")
  }

  /** Kotlin `Tag.getTagValueDualUInt`: exactly eight bytes, two big-endian halves. */
  function KtTagValueDualUInt(t: Tag): (r: Result<DoubleUint, string>)
    ensures r.Ok? <==> |t.data| == 8
    ensures r.Ok? ==> U32ToBe(r.value.first) + U32ToBe(r.value.second) == t.data
    ensures r.Err? ==> r.error == "Tag data is not 8 bytes long"
  {
    if |t.data| == 8 then
      Pow256Values();
      var first, second := BeValue(t.data[..4]), BeValue(t.data[4..]);
      BeBytesOfValue(t.data[..4]);
      BeBytesOfValue(t.data[4..]);
      BeValueInjective(U32ToBe(first), t.data[..4]);
      BeValueInjective(U32ToBe(second), t.data[4..]);
      assert t.data == t.data[..4] + t.data[4..];
      Ok(DoubleUint(first, second))
    else Err("Tag data is not 8 bytes long")
  }

  /** The three numeric getters of `TagArray` (`getIssuance`, `getTimestamp`,
      `getExpiration`): "Tag not found" when no tag has the id, otherwise the first one's value. */
  function KtGetULong(tags: seq<Tag>, id: uint8): (r: Result<uint64, string>)
    ensures (forall i :: 0 <= i < |tags| ==> tags[i].id != id) ==> r == Err("Tag not found")
    ensures r.Ok? <==> exists i :: 0 <= i < |tags| && tags[i].id == id &&
                                   (|tags[i].data| == 4 || |tags[i].data| == 8) &&
                                   forall j :: 0 <= j < i ==> tags[j].id != id
    ensures r.Ok? ==> exists i :: 0 <= i < |tags| && tags[i].id == id && r.value == BeValue(tags[i].data)
  {
    match GetTag(tags, id)
    case None => Err("Tag not found")
    case Some(t) => KtTagValueULong(t)
  }

  /** `TagArray.getAttendeeAndConvention`. */
  function KtGetAttendeeAndConvention(tags: seq<Tag>): (r: Result<DoubleUint, string>)
    ensures r.Ok? <==> exists i :: 0 <= i < |tags| && tags[i].id == ATTENDEE_CONVENTION_ID &&
                                   |tags[i].data| == 8 &&
                                   forall j :: 0 <= j < i ==> tags[j].id != ATTENDEE_CONVENTION_ID
    ensures GetTag(tags, ATTENDEE_CONVENTION_ID).None? ==> r == Err("Tag not found")
    ensures GetTag(tags, ATTENDEE_CONVENTION_ID).Some? && |GetTag(tags, ATTENDEE_CONVENTION_ID).value.data| != 8 ==>
              r == Err("Tag data is not 8 bytes long")
    ensures r.Ok? ==> GetTag(tags, ATTENDEE_CONVENTION_ID).Some? &&
                      U32ToBe(r.value.first) + U32ToBe(r.value.second) == GetTag(tags, ATTENDEE_CONVENTION_ID).value.data
  {
    match GetTag(tags, ATTENDEE_CONVENTION_ID)
    case None => Err("Tag not found")
    case Some(t) => KtTagValueDualUInt(t)
  }

  /** `TagArray.getSignature`: the raw bytes of the first SIGNATURE tag. */
  function KtGetSignature(tags: seq<Tag>): (r: Result<seq<uint8>, string>)
    ensures r.Err? <==> forall i :: 0 <= i < |tags| ==> tags[i].id != SIGNATURE
    ensures r.Ok? ==> Tag(SIGNATURE, r.value) in tags
    ensures r.Ok? ==> GetTag(tags, SIGNATURE) == Some(Tag(SIGNATURE, r.value))
    ensures r.Err? ==> r.error == "Tag not found"
  {
    match GetTag(tags, SIGNATURE)
    case None => Err("Tag not found")
    case Some(t) => Ok(t.data)
  }

  /** The Kotlin decoders invert the Go constructors. */
  lemma KtDecodersInvertConstructors(user: uint32, convention: uint32, count: uint32, unix: uint64)
    ensures KtTagValueDualUInt(NewAttendeeId(user, convention)) == Ok(DoubleUint(user, convention))
    ensures KtTagValueULong(NewIssuance(count)) == Ok(count)
    ensures KtTagValueULong(NewTimestamp(unix)) == Ok(unix)
    ensures KtTagValueULong(NewExpiration(unix)) == Ok(unix)
  {
    var t := NewAttendeeId(user, convention);
    var r := KtTagValueDualUInt(t);
    assert U32ToBe(r.value.first) + U32ToBe(r.value.second) == U32ToBe(user) + U32ToBe(convention);
    assert U32ToBe(r.value.first) == (U32ToBe(user) + U32ToBe(convention))[..4];
    assert U32ToBe(r.value.second) == (U32ToBe(user) + U32ToBe(convention))[4..];
    assert BeValue(U32ToBe(r.value.first)) == user;
    assert BeValue(U32ToBe(r.value.second)) == convention;
  }

  // ---------------------------------------------------------------- C++ getters

  /** The 32-bit `int` expression `d0 << 24 | d1 << 16 | d2 << 8 | d3` converted to `uint64_t`:
      a top bit set makes the `int` negative and the conversion fills the high word with ones. */
  function CppSignExtend32(v: uint32): (r: uint64)
    ensures v < 0x8000_0000 ==> r == v
    ensures v >= 0x8000_0000 ==> r == v + 0xFFFF_FFFF_0000_0000
    ensures r % TWO_TO_32 == v
  {
    if v < 0x8000_0000 then v else v + 0xFFFF_FFFF_0000_0000
  }

  /** `Tag::getTagValueULong` as written: eight bytes read big-endian, four bytes sign-extended
      from 32 bits, any other length 0. */
  function CppTagValueULongAsWritten(t: Tag): (r: uint64)
    ensures |t.data| == 8 ==> r == BeValue(t.data)
    ensures |t.data| == 4 ==> r % TWO_TO_32 == BeValue(t.data)
    ensures |t.data| != 4 && |t.data| != 8 ==> r == 0
  {
    Pow256Values();
    if |t.data| == 4 then CppSignExtend32(BeValue(t.data))
    else if |t.data| == 8 then BeValue(t.data)
    else 0
  }

  /** A four-byte value with the top bit set does not come back as itself. */
  lemma CppTagValueULongSignExtends()
    ensures CppTagValueULongAsWritten(NewIssuance(0x8000_0000)) == 0xFFFF_FFFF_8000_0000
    ensures CppTagValueULongAsWritten(NewIssuance(0x8000_0000)) != 0x8000_0000
  {
    assert BeValue(NewIssuance(0x8000_0000).data) == 0x8000_0000;
  }

  /** `Tag::getTagValueULong` with the four-byte branch widened as an unsigned value, which
      is what the Kotlin reader and the Go writer agree on: the big-endian value, or 0. */
  function CppTagValueULong(t: Tag): (r: uint64)
    ensures |t.data| == 4 ==> r < TWO_TO_32 && U32ToBe(r as uint32) == t.data
    ensures |t.data| == 8 ==> U64ToBe(r) == t.data
    ensures |t.data| != 4 && |t.data| != 8 ==> r == 0
  {
    Pow256Values();
    if |t.data| == 4 then
      var v := BeValue(t.data);
      BeValueInjective(U32ToBe(v), t.data);
      v
    else if |t.data| == 8 then
      var v := BeValue(t.data);
      BeValueInjective(U64ToBe(v), t.data);
      v
    else 0
  }

  /** Where both readers accept a length, the corrected C++ getter agrees with Kotlin's. */
  lemma CppULongAgreesWithKotlin(t: Tag)
    ensures KtTagValueULong(t).Ok? ==> CppTagValueULong(t) == KtTagValueULong(t).value
    ensures KtTagValueULong(t).Err? ==> CppTagValueULong(t) == 0
  {
  }

  /** `Tag::getTagValueDualUInt`: eight bytes as two big-endian halves, otherwise (0, 0).
      The halves are computed in `int` too, but stored in 32-bit fields, which undoes the sign. */
  function CppTagValueDualUInt(t: Tag): (r: DoubleUint)
    ensures |t.data| == 8 ==> Ok(r) == KtTagValueDualUInt(t)
    ensures |t.data| != 8 ==> r == DoubleUint(0, 0)
  {
    if |t.data| == 8 then KtTagValueDualUInt(t).value else DoubleUint(0, 0)
  }

  /** `getTagValueDualUInt` inverts `NewAttendeeId`, and the 8-byte getters invert the 8-byte
      constructors, in C++ as in Kotlin. */
  lemma CppDecodersInvertConstructors(user: uint32, convention: uint32, count: uint32, unix: uint64)
    ensures CppTagValueDualUInt(NewAttendeeId(user, convention)) == DoubleUint(user, convention)
    ensures CppTagValueULong(NewIssuance(count)) == count
    ensures CppTagValueULong(NewTimestamp(unix)) == unix
    ensures CppTagValueULongAsWritten(NewTimestamp(unix)) == unix
    ensures CppTagValueULongAsWritten(NewExpiration(unix)) == unix
  {
    KtDecodersInvertConstructors(user, convention, count, unix);
  }
}

=== FILE: validator.dfy ===
/** The Android validators' `onTagDiscovered`: look the tag's password up by its UID, unlock
    the card if a probe read fails, read the records, fetch the convention's public key, build
    the sorted payload and check the signature over it. The current validator
    (`app.concat.nfcvalidator`) and the original one (`com.example.concatnfc`) differ in how the
    password lookup fails and in how the payload prints the timestamp. Every HTTP reply and every
    card answer is a parameter; ECDSA verification is an uninterpreted predicate. */
module Validator {
  import opened Wrappers
  import opened Bytes
  import opened Tags
  import opened PageMemory
  import opened TagStream
  import opened Decimal
  import opened KotlinTagIo
  import opened KotlinCardJson
  import opened JsonText
  import opened SignedPayload
  import opened Ntag

  // ---------------------------------------------------------------- the outside world

  /** A Retrofit call: it threw before a response came back, or a response arrived with its
      status code, `isSuccessful`, status message and (possibly missing) body. */
  datatype Reply<T> = Threw(reason: string) | Response(code: int, successful: bool, message: string, body: Option<T>)

  /** The public key as the server sends it (a JSON Web Key). */
  datatype Jwk = Jwk(kty: string, x: string, y: string, crv: string)

  /** The backend and the crypto library: the password reply for a UID string (its body is the
      password text, missing when the body or the field is null), the key reply, and
      `SHA256withECDSA` verification of a signature over the payload text. */
  datatype Env = Env(passwordFor: string -> Reply<string>, nfcKey: Reply<Jwk>,
                     verify: (Jwk, string, seq<uint8>) -> bool)

  /** The scanned tag: whether it offers MIFARE Ultralight, its UID, whether it answers a
      command after the commands sent to it so far, and its pages once it is open. */
  datatype Card = Card(ultralight: bool, uid: seq<uint8>, answers: (seq<seq<uint8>>, seq<uint8>) -> bool,
                       pages: PageSource)

  /** `APIError(responseCode, message)`. */
  datatype ApiError = ApiError(code: int, message: string)

  /** What a password lookup can throw: an `APIError`, or the `NumberFormatException` of
      `toUInt` on text that is not a 32-bit number (nobody catches it). */
  datatype LookupError = Api(error: ApiError) | NotANumber(text: string)

  /** Exceptions that escape `onTagDiscovered`. */
  datatype CrashReason =
    | ReadFailed(error: KtError)      // `readTags`
    | BadField(message: string)       // `toJSON`: a record of the wrong length
    | BadPassword(text: string)       // `toUInt`
    | UnsupportedCurve(crv: string)   // `IllegalArgumentException("Unsupported curve: ...")`

  /** How a scan ends: the validation result shown, a failure toast, an uncaught exception, or
      nothing at all for a tag that is not MIFARE Ultralight. */
  datatype Outcome = Verdict(valid: bool) | Refused(message: string) | Crash(reason: CrashReason) | Ignored

  /** A scan: how it ended, the commands sent to the card, and whether its pages were read. */
  datatype Run = Run(outcome: Outcome, sent: seq<seq<uint8>>, read: bool)

  const NOT_REGISTERED := "This tag is not registered with this convention."
  const NO_PASSWORD := "Error: No password in response"
  const CANNOT_UNLOCK := "Cannot unlock tag."
  const STILL_LOCKED := "Tag is still locked."
  const NO_SIGNATURE := "Signature tag not found"
  const NO_KEY_REPLY := "Unknown error getting NFC Key"
  const NO_KEY_BODY := "NFC Key response body is null"

  /** NTAG READ of page 0x10, the first page of the record area: it fails on a locked card. */
  const LOCK_PROBE: seq<uint8> := [0x30, 0x10]

  // ---------------------------------------------------------------- the two lookups

  /** The current `getPasswordForTag`: a thrown call becomes error 500 with the exception's
      message, a successful reply without a password error 500, a password that is not a
      number an uncaught exception, and an unsuccessful reply its own code and message. */
  function CurrentPassword(reply: Reply<string>): (r: Result<uint32, LookupError>)
    ensures r.Ok? <==> reply.Response? && reply.successful && reply.body.Some? && KtToUInt(reply.body.value).Some?
    ensures r.Ok? ==> KtToUInt(reply.body.value) == Some(r.value)
    ensures r.Err? && r.error.NotANumber? ==>
              reply.Response? && reply.successful && reply.body == Some(r.error.text) && KtToUInt(r.error.text).None?
    ensures reply.Response? && !reply.successful ==> r == Err(Api(ApiError(reply.code, reply.message)))
    ensures reply.Threw? || (reply.successful && reply.body.None?) ==>
              r.Err? && r.error.Api? && r.error.error.code == 500 &&
              r.error.error.message == if reply.Threw? then "Error: " + reply.reason else NO_PASSWORD
  {
    match reply
    case Threw(m) => Err(Api(ApiError(500, "Error: " + m)))
    case Response(code, successful, message, body) =>
      if !successful then Err(Api(ApiError(code, message)))
      else if body.None? then Err(Api(ApiError(500, NO_PASSWORD)))
      else match KtToUInt(body.value)
        case Some(p) => Ok(p)
        case None => Err(NotANumber(body.value))
  }

  /** The original `getPasswordForTag` returns the password text: a thrown call becomes error
      -1 "Unknown error", and a successful reply without a password gives the error text
      itself, which the handler then fails to parse. */
  function OriginalPassword(reply: Reply<string>): (r: Result<string, ApiError>)
    ensures reply.Threw? ==> r == Err(ApiError(-1, "Unknown error"))
    ensures reply.Response? && reply.successful ==> r == Ok(if reply.body.Some? then reply.body.value else NO_PASSWORD)
    ensures reply.Response? && !reply.successful ==> r == Err(ApiError(reply.code, reply.message))
  {
    match reply
    case Threw(_) => Err(ApiError(-1, "Unknown error"))
    case Response(code, successful, message, body) =>
      if successful then Ok(if body.Some? then body.value else NO_PASSWORD) else Err(ApiError(code, message))
  }

  /** The password as the variant's handler obtains it, `toUInt` included. */
  function Password(variant: Variant, reply: Reply<string>): (r: Result<uint32, LookupError>)
    ensures r.Ok? <==> reply.Response? && reply.successful && reply.body.Some? && KtToUInt(reply.body.value).Some?
    ensures r.Ok? ==> KtToUInt(reply.body.value) == Some(r.value)
    ensures r.Err? && r.error.NotANumber? ==> KtToUInt(r.error.text).None?
    ensures reply.Response? && !reply.successful ==> r == Err(Api(ApiError(reply.code, reply.message)))
  {
    KtToUIntRejectsText(NO_PASSWORD);
    match variant
    case Current => CurrentPassword(reply)
    case Original =>
      match OriginalPassword(reply)
      case Err(e) => Err(Api(e))
      case Ok(text) =>
        match KtToUInt(text)
        case Some(p) => Ok(p)
        case None => Err(NotANumber(text))
  }

  /** Both variants obtain the same password from a reply that carries one, and the same error
      from an unsuccessful reply; they part on a thrown call and on a reply without a password. */
  lemma PasswordVariantsAgree(reply: Reply<string>)
    requires reply.Response? && (!reply.successful || reply.body.Some?)
    ensures Password(Current, reply) == Password(Original, reply)
  {
  }

  /** A successful reply without a password: the current validator refuses with error 500, the
      original one tries to parse the error text and throws. */
  lemma MissingPassword(code: int, message: string)
    ensures Password(Current, Response(code, true, message, None)) == Err(Api(ApiError(500, NO_PASSWORD)))
    ensures Password(Original, Response(code, true, message, None)) == Err(NotANumber(NO_PASSWORD))
  {
    assert NO_PASSWORD[0] == 'E';
    KtToUIntRejectsText(NO_PASSWORD);
  }

  /** A password the server stores as the decimal text of a 32-bit number is the number the
      card is unlocked with, in both variants. */
  lemma PasswordOfText(variant: Variant, code: int, message: string, password: uint32)
    ensures Password(variant, Response(code, true, message, Some(NatToString(password)))) == Ok(password)
  {
    KtToUIntOfString(password);
  }

  /** `getNFCPublicKey`, the same in both variants. */
  function PublicKey(reply: Reply<Jwk>): (r: Result<Jwk, ApiError>)
    ensures r.Ok? <==> reply.Response? && reply.successful && reply.body.Some?
    ensures r.Ok? ==> r.value == reply.body.value
    ensures reply.Threw? ==> r == Err(ApiError(-1, NO_KEY_REPLY))
    ensures reply.Response? && reply.successful && reply.body.None? ==> r == Err(ApiError(reply.code, NO_KEY_BODY))
    ensures reply.Response? && !reply.successful ==> r == Err(ApiError(reply.code, reply.message))
  {
    match reply
    case Threw(_) => Err(ApiError(-1, NO_KEY_REPLY))
    case Response(code, successful, message, body) =>
      if !successful then Err(ApiError(code, message))
      else if body.None? then Err(ApiError(code, NO_KEY_BODY))
      else Ok(body.value)
  }

  /** The toast for a failed password lookup: 404 has its own text, any other `APIError` shows
      its message. */
  function LookupRefusal(e: ApiError): (message: string)
    ensures e.code == 404 ==> message == NOT_REGISTERED
    ensures e.code != 404 ==> message == e.message
  {
    if e.code == 404 then NOT_REGISTERED else e.message
  }

  // ---------------------------------------------------------------- unlocking

  /** The lock handling: probe; if the probe fails, authenticate and give up if that fails;
      probe again and give up if it still fails. */
  datatype Gate = Gate(open: bool, message: string, sent: seq<seq<uint8>>)

  function Unlock(card: Card, password: uint32): (g: Gate)
    ensures |g.sent| == 2 || |g.sent| == 3
    ensures g.sent[0] == LOCK_PROBE
    ensures g.open ==> g.sent[|g.sent| - 1] == LOCK_PROBE && card.answers(g.sent[..|g.sent| - 1], LOCK_PROBE)
    ensures g.open ==> g.message == ""
    ensures !g.open ==> g.message == CANNOT_UNLOCK || g.message == STILL_LOCKED
    ensures forall i :: 0 <= i < |g.sent| ==> g.sent[i] == LOCK_PROBE || g.sent[i] == PwdAuth(password)
    ensures (PwdAuth(password) in g.sent) <==> !card.answers([], LOCK_PROBE)
  {
    var first := [LOCK_PROBE];
    if card.answers([], LOCK_PROBE) then
      var again := card.answers(first, LOCK_PROBE);
      Gate(again, if again then "" else STILL_LOCKED, first + [LOCK_PROBE])
    else
      var auth := first + [PwdAuth(password)];
      if !card.answers(first, PwdAuth(password)) then Gate(false, CANNOT_UNLOCK, auth)
      else
        var again := card.answers(auth, LOCK_PROBE);
        Gate(again, if again then "" else STILL_LOCKED, auth + [LOCK_PROBE])
  }

  /** A card that answers the probe never receives the password. */
  lemma OpenCardKeepsPassword(card: Card, password: uint32)
    requires forall h :: card.answers(h, LOCK_PROBE)
    ensures Unlock(card, password) == Gate(true, "", [LOCK_PROBE, LOCK_PROBE])
  {
  }

  /** A locked card that accepts the password and then answers is opened with exactly one
      authentication. */
  lemma LockedCardOpens(card: Card, password: uint32)
    requires !card.answers([], LOCK_PROBE) && card.answers([LOCK_PROBE], PwdAuth(password))
    requires card.answers([LOCK_PROBE, PwdAuth(password)], LOCK_PROBE)
    ensures Unlock(card, password) == Gate(true, "", [LOCK_PROBE, PwdAuth(password), LOCK_PROBE])
  {
    assert [LOCK_PROBE] + [PwdAuth(password)] == [LOCK_PROBE, PwdAuth(password)];
  }

  // ---------------------------------------------------------------- after unlocking

  /** Everything after the card is open: read the records, find the signature, fetch the key,
      build the object and the payload, check the curve, verify. */
  function Check(variant: Variant, env: Env, card: Card, fuel: nat): (o: Outcome)
    ensures o != Ignored
  {
    match ValidatorReadTags(card.pages, KT_FRESH, fuel)
    case Err(e) => Crash(ReadFailed(e))
    case Ok((tags, _)) =>
      match GetTag(tags, SIGNATURE)
      case None => Refused(NO_SIGNATURE)
      case Some(signature) =>
        match PublicKey(env.nfcKey)
        case Err(e) => Refused(e.message)
        case Ok(key) =>
          match ValidatorToJson(tags)
          case Err(m) => Crash(BadField(m))
          case Ok(json) =>
            if key.crv != "P-256" then Crash(UnsupportedCurve(key.crv))
            else Verdict(env.verify(key, Payload(variant, json), signature.data))
  }

  /** A verdict is the key's verification of the first signature record over the payload of the
      records read, every one of which has a valid length; the curve is P-256. */
  lemma CheckVerdict(variant: Variant, env: Env, card: Card, fuel: nat)
    requires Check(variant, env, card, fuel).Verdict?
    ensures var r := ValidatorReadTags(card.pages, KT_FRESH, fuel);
            r.Ok? && var tags := r.value.0;
            GetTag(tags, SIGNATURE).Some? && PublicKey(env.nfcKey).Ok? && PublicKey(env.nfcKey).value.crv == "P-256" &&
            (forall i :: 0 <= i < |tags| ==> KtFieldValid(tags[i])) &&
            Check(variant, env, card, fuel).valid ==
              env.verify(PublicKey(env.nfcKey).value, Payload(variant, LastWinsJson(VALIDATOR, tags)),
                         GetTag(tags, SIGNATURE).value.data)
  {
  }

  // ---------------------------------------------------------------- the handler

  /** `onTagDiscovered`. */
  function OnTagDiscovered(variant: Variant, env: Env, card: Card, fuel: nat): (r: Run)
    ensures r.outcome == Ignored <==> !card.ultralight
    ensures r.read ==> |r.sent| >= 2 && r.sent[|r.sent| - 1] == LOCK_PROBE &&
                       card.answers(r.sent[..|r.sent| - 1], LOCK_PROBE)
    ensures r.read ==> r.outcome == Check(variant, env, card, fuel)
    ensures r.outcome.Verdict? ==> r.read
    ensures r.sent != [] ==> Password(variant, env.passwordFor(Hex(card.uid))).Ok?
    ensures r.sent != [] ==> forall i :: 0 <= i < |r.sent| ==>
              r.sent[i] == LOCK_PROBE || r.sent[i] == PwdAuth(Password(variant, env.passwordFor(Hex(card.uid))).value)
  {
    if !card.ultralight then Run(Ignored, [], false)
    else
      match Password(variant, env.passwordFor(Hex(card.uid)))
      case Err(Api(e)) => Run(Refused(LookupRefusal(e)), [], false)
      case Err(NotANumber(text)) => Run(Crash(BadPassword(text)), [], false)
      case Ok(password) =>
        var gate := Unlock(card, password);
        if !gate.open then Run(Refused(gate.message), gate.sent, false)
        else Run(Check(variant, env, card, fuel), gate.sent, true)
  }

  /** A tag the backend does not know (404) is refused before any command reaches it, and no
      other failed lookup shows that message unless the server sent it. */
  lemma NotRegistered(variant: Variant, env: Env, card: Card, fuel: nat, message: string, body: Option<string>)
    requires card.ultralight && env.passwordFor(Hex(card.uid)) == Response(404, false, message, body)
    ensures OnTagDiscovered(variant, env, card, fuel) == Run(Refused(NOT_REGISTERED), [], false)
  {
  }

  /** A password reply that is not a number: the scan throws before touching the card. */
  lemma UnparsablePassword(variant: Variant, env: Env, card: Card, fuel: nat, text: string)
    requires card.ultralight && env.passwordFor(Hex(card.uid)).Response? && env.passwordFor(Hex(card.uid)).successful
    requires env.passwordFor(Hex(card.uid)).body == Some(text) && KtToUInt(text).None?
    ensures OnTagDiscovered(variant, env, card, fuel) == Run(Crash(BadPassword(text)), [], false)
  {
  }

  /** The records of a freshly issued badge with a signature shorter than 128 bytes can be
      written and read back by the validator. */
  lemma CardTagsReadable(user: uint32, convention: uint32, count: uint32, issued: uint64, expiration: uint64,
                         signature: seq<uint8>)
    requires |signature| < 0x80
    ensures var tags := CardTags(user, convention, count, issued, expiration, signature);
            Writable(tags) && KtReadable(tags) && GetTag(tags, SIGNATURE) == Some(NewSignature(signature))
  {
    var tags := CardTags(user, convention, count, issued, expiration, signature);
    if expiration == 0 {
      assert tags == [NewAttendeeId(user, convention), NewIssuance(count), NewTimestamp(issued),
                      NewSignature(signature)];
    } else {
      assert tags == [NewAttendeeId(user, convention), NewIssuance(count), NewTimestamp(issued),
                      NewExpiration(expiration), NewSignature(signature)];
    }
    assert forall i :: 0 <= i < |tags| - 1 ==> tags[i].id != SIGNATURE;
  }

  /** End to end: an open card holding the records of a badge issued with these values, a
      password the validator can parse and a P-256 key give the verdict of the key on the
      signature over the sorted payload of exactly those values. */
  lemma IssuedBadgeVerdict(variant: Variant, env: Env, card: Card, fuel: nat, mem: Memory, password: uint32,
                           user: uint32, convention: uint32, count: uint32, issued: uint64, expiration: uint64,
                           signature: seq<uint8>)
    requires card.ultralight && Password(variant, env.passwordFor(Hex(card.uid))) == Ok(password)
    requires Unlock(card, password).open
    requires PublicKey(env.nfcKey).Ok? && PublicKey(env.nfcKey).value.crv == "P-256"
    requires |signature| < 0x80 && fuel > 5
    requires Faithful(card.pages, mem)
    requires Holds(mem, 0, Encode(CardTags(user, convention, count, issued, expiration, signature)) + [0])
    ensures OnTagDiscovered(variant, env, card, fuel).outcome ==
            Verdict(env.verify(PublicKey(env.nfcKey).value,
                               JoinObject(CardPayloadMembers(variant, user, convention, count, issued, expiration)),
                               signature))
  {
    var tags := CardTags(user, convention, count, issued, expiration, signature);
    CardTagsReadable(user, convention, count, issued, expiration, signature);
    KtReadTagsFromMemory(card.pages, mem, KT_FRESH, tags, fuel);
    KtJsonOfCard(VALIDATOR, user, convention, count, issued, expiration, signature);
    CardPayload(variant, user, convention, count, issued, expiration, signature);
  }

  /** The same verdict when the phone reads the card with `MifareUltralight.readPages`, sixteen
      bytes a call, rolling over past the card's last page. */
  lemma IssuedBadgeVerdictThroughReadPages(variant: Variant, env: Env, card: Card, fuel: nat, mem: Memory,
                                           size: nat, password: uint32, user: uint32, convention: uint32,
                                           count: uint32, issued: uint64, expiration: uint64, signature: seq<uint8>)
    requires card.ultralight && Password(variant, env.passwordFor(Hex(card.uid))) == Ok(password)
    requires Unlock(card, password).open
    requires PublicKey(env.nfcKey).Ok? && PublicKey(env.nfcKey).value.crv == "P-256"
    requires |signature| < 0x80 && fuel > 5
    requires size > 0 && (forall p: nat :: p in mem <==> p < size) && card.pages == ReadPagesReader(mem, size)
    requires Holds(mem, 0, Encode(CardTags(user, convention, count, issued, expiration, signature)) + [0])
    ensures OnTagDiscovered(variant, env, card, fuel).outcome ==
            Verdict(env.verify(PublicKey(env.nfcKey).value,
                               JoinObject(CardPayloadMembers(variant, user, convention, count, issued, expiration)),
                               signature))
  {
    ReadPagesReaderFaithful(mem, size);
    IssuedBadgeVerdict(variant, env, card, fuel, mem, password, user, convention, count, issued, expiration, signature);
  }
}

=== FILE: wrappers.dfy ===
/** Failure-compatible result types shared by every component of the badge system. */
module Wrappers {

  /** An optional value: a cache slot, a nullable reference, a field that may be absent. */
  datatype Option<+T> = None | Some(value: T) {
    predicate IsFailure() {
      None?
    }

    function PropagateFailure<U>(): Option<U>
      requires None?
    {
      None
    }

    function Extract(): T
      requires Some?
    {
      value
    }
  }

  /** Either a value or the error that stopped the computation. */
  datatype Result<+T, +E> = Ok(value: T) | Err(error: E) {
    predicate IsFailure() {
      Err?
    }

    function PropagateFailure<U>(): Result<U, E>
      requires Err?
    {
      Err(error)
    }

    function Extract(): T
      requires Ok?
    {
      value
    }
  }
}
